=== FILE: README.md ===
# fortune-teller core, modelled in Dafny

This project models the deterministic core of the fortune-teller agent
system:

- the agent lifecycle, the per-agent circuit breaker and the
  `handle_message` request/response contract;
- the in-process message bus, with its subscriber registry, per-recipient
  FIFO inboxes, bounded history and broadcast;
- the session and TTL-cache store;
- the tool base class and the date tool;
- the two configuration managers and the Strands configuration parser;
- the runtime that creates, starts and stops the configured tools and
  agents;
- the master agent's menu and input-collection dialogue and its routing;
- the specialist agents (chat, tarot, BaZi, zodiac, i18n);
- the three fortune-system plugins: BaZi pillars and element counts, zodiac
  signs, compatibility and transits, tarot spreads and draws;
- the plugin registry, the translation manager and the keyboard menu;
- the MCP tools: the BaZi and zodiac converters, the tarot picker and the
  tarot server with its Fisher-Yates shuffle;
- the date utilities: zodiac lookup, Chinese animal, approximate lunar
  conversion, weekday and date formatting.

Everything is a pure transition function over immutable records. These are
explicit parameters:

- clock readings (`today`, `now`);
- generated uuids;
- random draws;
- the answers of tools and of the LLM;
- the contents of files.

An asyncio queue is a sequence. A Python exception is a value of the `Exc`
datatype, so that `isinstance` and exact-type lookups can differ. Floating
point arithmetic in the converters is modelled with integer floors where the
source truncates the result with `int()`.

Modules (one file each):

- `Wrappers` (wrappers.dfy): Option, Result and the exception kinds.
- `Values` (values.dfy): the JSON-like values stored in payloads and sessions.
- `Seqs`, `Text`, `Calendar`: the shared helpers used by the other modules.
  They cover Python list slicing, string splitting, digit formatting, and
  proleptic Gregorian dates in the manner of Python's `datetime`.
- `Agent` (agent.dfy): `fortune_teller/agents/base_agent.py`.
- `Bus` (message_bus.dfy): `fortune_teller/runtime/message_bus.py`.
- `State` (state_manager.dfy): `fortune_teller/runtime/state_manager.py`.
- `Tools` (tools.dfy): `fortune_teller/tools/base_tool.py` and `date_tool.py`.
- `StrandsConfig` (strands_config.dfy): `fortune_teller/config/strands_config.py`.
- `ConfigFiles` (config_files.dfy): `fortune_teller/config/config_manager.py`.
- `CoreConfig` (core_config.dfy): `fortune_teller/core/config_manager.py`.
- `Runtime` (strands_runtime.dfy): `fortune_teller/runtime/strands_runtime.py`.
- `MasterAgent` (master_agent.dfy): `fortune_teller/agents/master_agent.py`.
- `ChatAgent`, `TarotAgent`, `BaziAgent`, `ZodiacAgent`, `I18nAgent`
  (chat_agent.dfy, tarot_agent.dfy, bazi_agent.dfy, zodiac_agent.dfy,
  i18n_agent.dfy): the agents of the same names under `fortune_teller/agents/`.
- `BaziPlugin`, `ZodiacPlugin`, `TarotPlugin` (bazi_plugin.dfy,
  zodiac_plugin.dfy, tarot_plugin.dfy): `fortune_system.py` under
  `fortune_teller/plugins/bazi`, `zodiac` and `tarot`.
- `Plugins` (plugins.dfy): `fortune_teller/plugins/__init__.py`.
- `I18n` (i18n.dfy): `fortune_teller/i18n/manager.py`.
- `Keyboard` (keyboard.dfy): `fortune_teller/ui/keyboard_input.py`.
- `BaziConverter`, `ZodiacConverter`, `TarotPicker` (bazi_converter.dfy,
  zodiac_converter.dfy, tarot_picker.dfy): the tools under `mcp/tools/`.
- `TarotServer` (tarot_server.dfy): `fortune_teller/mcp/tarot_server.py`.
- `Shuffle` (shuffle.dfy): the Fisher-Yates pass the tarot server and the
  picker share, and the permutation it produces.
- `DateUtils` (date_utils.dfy): `fortune_teller/utils/date_utils.py`.
- `Ganzhi` (ganzhi.dfy): the stems, branches, sixty-pair cycle and
  five-element tables that the BaZi plugin, agent and converter share.
- `ZodiacSigns` (zodiac_signs.dfy): the four sign tables and the two wrap
  tests used by the zodiac agent, plugin, converter and date utilities.
- `Sections` (sections.dfy): the "##"-header section split that the BaZi and
  zodiac plugins apply to a reply.
- `FormInput` (form_input.dfy): the BaZi plugin's reading of a birth date
  and a birth time given as text or as date and time objects.

## Model

| member | source | states |
|---|---|---|
| Agent.NewMessage | fortune_teller/agents/base_agent.py:59-66 | a missing message id, timestamp or correlation id is drawn fresh; a given one is kept; every other field is as passed |
| Agent.PostInitIdempotent | fortune_teller/agents/base_agent.py:59-66 | rebuilding a message whose ids are all present changes nothing |
| Agent.CheckBreaker | fortune_teller/agents/base_agent.py:573-588 | open iff failures reached the threshold and no more than the reset time has passed since the last failure; past the reset time it reports closed and zeroes the count; below the threshold nothing changes |
| Agent.CheckBreakerIdempotent | fortune_teller/agents/base_agent.py:573-588 | a second query at the same instant gives the same open/closed answer |
| Agent.RecordFailure | fortune_teller/agents/base_agent.py:590-596 | one more failure, stamped with the current time; threshold and reset time unchanged |
| Agent.RecordSuccess | fortune_teller/agents/base_agent.py:598-602 | the failure count returns to zero and nothing else changes |
| Agent.RecordFailuresCount | fortune_teller/agents/base_agent.py:590-596 | k recorded failures add exactly k to the count and leave the last instant as the stamp |
| Agent.BreakerOpensAtThreshold | fortune_teller/agents/base_agent.py:573-596 | after k failures, checked within the reset time of the last, the breaker is open exactly when the count reached the threshold |
| Agent.SuccessClosesBreaker | fortune_teller/agents/base_agent.py:573-602 | after a success the breaker reports closed at any instant |
| Agent.NewAgent | fortune_teller/agents/base_agent.py:620-630 | a new agent is INITIALIZING with the ping, health_check and get_status handlers, no sessions and a fresh breaker |
| Agent.Initialize | fortune_teller/agents/base_agent.py:172-209 | IDLE when setup succeeds; ERROR and the exception re-raised when it fails; the breaker takes its threshold and reset time from the agent config as `_load_configuration` reads them; no other field changes |
| Agent.LoadConfiguration | fortune_teller/agents/base_agent.py:719-735 | a missing threshold is 5 and a missing reset time 60 seconds; a numeric threshold x opens the breaker from the first whole count >= x, a numeric reset time is kept as given; the failure count and stamp are untouched |
| Agent.ConfiguredBreaker | fortune_teller/agents/base_agent.py:719-735 | with a configured numeric threshold x, the breaker is open iff the failures reach x and the last failure is within the configured reset time |
| Agent.DefaultConfiguration | fortune_teller/agents/base_agent.py:719-735 | a config without breaker keys gives a freshly initialized agent the default breaker of 5 failures and 60 seconds |
| Agent.Start | fortune_teller/agents/base_agent.py:211-234 | from any state but IDLE a RuntimeError and state ERROR; from IDLE the start hook decides between IDLE and ERROR |
| Agent.Stop | fortune_teller/agents/base_agent.py:236-258 | the state is SHUTTING_DOWN whether or not the stop hook raises |
| Agent.ShutdownAgent | fortune_teller/agents/base_agent.py:260-296 | ends in SHUTDOWN unless the implied stop raises, in which case SHUTTING_DOWN |
| Agent.ShutdownTwice | fortune_teller/agents/base_agent.py:260-296 | a second shutdown always ends in SHUTDOWN |
| Agent.HealthStatus | fortune_teller/agents/base_agent.py:862-885 | healthy iff the state is IDLE or BUSY; the breaker flag is the breaker query's answer, and that query's reset is kept |
| Agent.Reply | fortune_teller/agents/base_agent.py:632-642 | a reply goes back to the sender, in the same session and language, with the request's correlation id |
| Agent.ErrorReply | fortune_teller/agents/base_agent.py:503-541 | exactly ValueError, TimeoutError and ConnectionError get their own reply types; every other exception gets `error_response` naming its type and whether it is recoverable |
| Agent.GenericReplyRecoverable | fortune_teller/agents/base_agent.py:525-571 | a generic reply says recoverable exactly for subclasses of ConnectionError or TimeoutError |
| Agent.DefaultProcessing | fortune_teller/agents/base_agent.py:367-397 | validate, process and generate run in order, each only if the previous succeeded; success replies `<type>_response` with the reading and the request's correlation id |
| Agent.HandleMessage | fortune_teller/agents/base_agent.py:298-365 | the session is never left tracked; a bad state or an open breaker runs no user code, records a failure and ends in ERROR; success ends IDLE with one more processed and no breaker reset; a failure counts once, records one breaker failure and ends in ERROR iff it was a RuntimeError |
| Agent.HandleMessageDispatch | fortune_teller/agents/base_agent.py:328-335 | past the gates a registered handler runs alone and an unregistered type goes through the pipeline; ping answers pong and health_check reports the agent's health |
| Agent.HandleMessageRuns | fortune_teller/agents/base_agent.py:328-335 | past the gates some user code always runs |
| Agent.Dispatch | fortune_teller/agents/base_agent.py:328-335 | a registered handler runs alone and the default handlers always reply to the sender under its correlation id, ping with pong; a custom handler's outcome is passed on; an unregistered type runs the pipeline from validation and replies iff no stage raised |
| Agent.ValueErrorReply | fortune_teller/agents/base_agent.py:346-360 | a validation failure in the pipeline is answered with `validation_error_response` and leaves the agent IDLE |
| Agent.HandleAll | fortune_teller/agents/base_agent.py:298-365 | one response per request |
| Agent.ErrorIsAbsorbing | fortune_teller/agents/base_agent.py:312-317 | an agent in ERROR stays in ERROR and runs no user code for any later request |
| Agent.BreakerRejectionLocksAgent | fortune_teller/agents/base_agent.py:312-355 | as written, the first message the open breaker turns away locks the agent in ERROR for good |
| Agent.HandleMessageFixed | fortune_teller/agents/base_agent.py:312-355 | corrected gate: a rejected message fails without moving the agent to ERROR or adding a breaker failure; otherwise as `handle_message` |
| Agent.FixedBreakerRecovers | fortune_teller/agents/base_agent.py:573-588 | with the correction, a request after the reset time runs user code again |
| Bus.NewMessage | fortune_teller/runtime/message_bus.py:44-50 | missing id and timestamp are drawn; a missing payload becomes empty; the rest is as passed |
| Bus.NewBus | fortune_teller/runtime/message_bus.py:66-82 | a stopped bus with no subscribers, inboxes or history, keeping at most 10000 messages |
| Bus.Start | fortune_teller/runtime/message_bus.py:84-87 | only `running` changes |
| Bus.Subscribe | fortune_teller/runtime/message_bus.py:98-107 | the handler is appended to that name's list only; a new name is registered last |
| Bus.Unsubscribe | fortune_teller/runtime/message_bus.py:109-122 | removes one occurrence of the handler; an absent handler changes nothing |
| Bus.AddToHistory | fortune_teller/runtime/message_bus.py:270-281 | the message is last, the history stays within its bound and is a suffix of the old history plus the message; on overflow ceil(max/2) entries remain |
| Bus.Route | fortune_teller/runtime/message_bus.py:198-237 | with handlers, the message joins the tail of the recipient's inbox and a task per handler is spawned; without, nothing is queued; other inboxes unchanged; `active_queues` stays the inbox count |
| Bus.Send | fortune_teller/runtime/message_bus.py:124-159 | a stopped bus returns false and changes nothing; otherwise sent grows by one and the result is true iff the recipient has handlers, with errors counting the failures |
| Bus.SendLogsMessage | fortune_teller/runtime/message_bus.py:139-140 | on a running bus the sent message is the newest history entry even if it could not be delivered |
| Bus.SendLeavesOtherInboxes | fortune_teller/runtime/message_bus.py:124-159 | sending never touches another recipient's inbox |
| Bus.SendEnqueues | fortune_teller/runtime/message_bus.py:215-222 | a deliverable message lands at the tail of the inbox |
| Bus.SendEach | fortune_teller/runtime/message_bus.py:124-159 | sending a sequence to one subscriber appends exactly that sequence to its inbox |
| Bus.GetMessage | fortune_teller/runtime/message_bus.py:239-268 | returns and removes the head of the inbox; an unknown name or empty inbox gives nothing and no change |
| Bus.ReceiveEach | fortune_teller/runtime/message_bus.py:239-268 | k reads return the first k queued messages and leave the rest |
| Bus.SendThenReceive | fortune_teller/runtime/message_bus.py:215-262 | what one sender sends comes out of the inbox in the same order, after what was already queued |
| Bus.CleanupQueue | fortune_teller/runtime/message_bus.py:283-302 | the inbox is removed and the active-queue count stays equal to the inbox count |
| Bus.Stop | fortune_teller/runtime/message_bus.py:89-96 | not running, no inboxes, subscribers and history kept |
| Bus.BroadcastCopy | fortune_teller/runtime/message_bus.py:175-185 | the copy keeps kind, sender, session, payload and correlation id, is addressed to the subscriber and has a fresh id |
| Bus.Broadcast | fortune_teller/runtime/message_bus.py:161-196 | a stopped bus sends nothing and returns 0 |
| Bus.BroadcastLoopDelivered | fortune_teller/runtime/message_bus.py:174-190 | the loop counts exactly the subscribers outside the exclusion list that have handlers |
| Bus.BroadcastLoopSent | fortune_teller/runtime/message_bus.py:174-190 | one send per subscriber outside the exclusion list |
| Bus.BroadcastCount | fortune_teller/runtime/message_bus.py:161-196 | the broadcast's result is the number of successful sends to non-excluded subscribers, in subscription order |
| Bus.GetMessageHistory | fortune_teller/runtime/message_bus.py:304-328 | every returned message matches the session and agent filters, and the result is the newest part of the filtered history |
| Bus.HistoryLimitZeroReturnsAll | fortune_teller/runtime/message_bus.py:326-328 | as written, a limit of 0 returns the whole filtered history |
| Bus.HistoryLimitZeroExample | fortune_teller/runtime/message_bus.py:326-328 | a two-message history with limit 0 returns both messages |
| Bus.GetMessageHistoryFixed | fortune_teller/runtime/message_bus.py:304-328 | corrected: at most `limit` messages (none for a limit of 0 or less), the newest matching ones in order |
| State.Field | fortune_teller/runtime/state_manager.py:17-42 | exactly the ten session attributes are fields |
| State.SetField | fortune_teller/runtime/state_manager.py:177-179 | setting a field changes that field only; a non-field changes nothing |
| State.NewSession | fortune_teller/runtime/state_manager.py:17-42 | the given id, user and language, empty context, history and preferences, and created = updated |
| State.PostInit | fortune_teller/runtime/state_manager.py:31-42 | after `__post_init__` none of the five defaulted attributes is null; a non-null attribute keeps its value; a null timestamp becomes the clock text, a null context or history an empty list, null preferences an empty dict |
| State.NewSessionIsPostInit | fortune_teller/runtime/state_manager.py:17-42 | a new session is the bare constructor followed by `__post_init__`, and reloading it through `__post_init__` changes nothing |
| State.PostInitChangesOnlyNulls | fortune_teller/runtime/state_manager.py:31-42 | reloading changes a session iff one of the five defaulted attributes is null; doing it twice is doing it once |
| State.FileName | fortune_teller/runtime/state_manager.py:332-333 | a session with a text id is written to the file of that id |
| State.NewManager | fortune_teller/runtime/state_manager.py:57-74 | no sessions, no cache, not running |
| State.FloatOf | fortune_teller/runtime/state_manager.py:354-360 | Python `float()` of a stored value: numbers convert, text through the parser, containers and None fail |
| State.StampedSessionExpiry | fortune_teller/runtime/state_manager.py:354-360 | a session stamped at t is expired iff more than 3600 s have passed since t |
| State.UnreadableStampExpired | fortune_teller/runtime/state_manager.py:358-360 | an unparsable timestamp counts as expired |
| State.CreateSession | fortune_teller/runtime/state_manager.py:112-138 | the new session is active under the given id, the created count grows by one, no other session appears or disappears |
| State.Refresh | fortune_teller/runtime/state_manager.py:151-154 | only `updated_at` changes, to now |
| State.GetSession | fortune_teller/runtime/state_manager.py:140-163 | found iff active or stored; an active session is returned refreshed; a stored one is rebuilt through `__post_init__`, refreshed and made active under the requested id; nothing else changes |
| State.ApplyUpdates | fortune_teller/runtime/state_manager.py:177-179 | named keys that are fields take the new values; every other field is unchanged |
| State.UpdateSession | fortune_teller/runtime/state_manager.py:165-192 | false for an unknown id with no change; otherwise the named fields are set, `updated_at` is now, and the session is written to the file named after its own `session_id`; no other active session, no other file, the cache and `running` change |
| State.RenamingUpdateWritesNewFile | fortune_teller/runtime/state_manager.py:165-192 | an update of `session_id` writes the file of the new id, leaves the old file as it was and keeps the session active under the old id |
| State.UpdateTouchesOnlyNamedFields | fortune_teller/runtime/state_manager.py:177-179 | fields not named in the update keep their values |
| State.DeleteSession | fortune_teller/runtime/state_manager.py:194-220 | the id is gone from the active and stored sessions and nothing else changes |
| State.ExpiredIds | fortune_teller/runtime/state_manager.py:374-386 | exactly the active sessions that are expired |
| State.CleanupExpiredSessions | fortune_teller/runtime/state_manager.py:374-386 | exactly the expired sessions are removed from active and stored; the others keep their values |
| State.SetCache | fortune_teller/runtime/state_manager.py:222-236 | the value is cached; a truthy ttl sets the expiry to now + ttl; a falsy ttl leaves any earlier expiry |
| State.GetCache | fortune_teller/runtime/state_manager.py:238-262 | a hit iff cached and not strictly past its expiry; a past entry is removed with its expiry; exactly one of hits and misses grows |
| State.CacheServesUntilExpiry | fortune_teller/runtime/state_manager.py:222-262 | a value set with ttl is served up to and including its expiry and not after |
| State.CacheKeepsEarlierExpiry | fortune_teller/runtime/state_manager.py:231-234 | re-setting with a falsy ttl does not revive an entry whose earlier expiry has passed |
| State.LookupCountsOnce | fortune_teller/runtime/state_manager.py:248-262 | hits plus misses grows by exactly one per lookup |
| State.DeleteCache | fortune_teller/runtime/state_manager.py:264-283 | true iff the key was cached; both the value and the expiry are removed |
| State.CleanupExpiredCache | fortune_teller/runtime/state_manager.py:388-401 | exactly the entries strictly past their expiry are removed; the rest are kept |
| State.Initialize | fortune_teller/runtime/state_manager.py:285-309 | every file is rebuilt through `__post_init__`; the expired ones are deleted; a live one with a text id becomes active under that id; no other active session changes |
| State.NullStampLoads | fortune_teller/runtime/state_manager.py:285-309 | a file whose `updated_at` is null is loaded, not deleted, since `__post_init__` stamps it before the expiry test |
| State.Start | fortune_teller/runtime/state_manager.py:88-94 | only `running` changes |
| State.LastWriter | fortune_teller/runtime/state_manager.py:347-352 | the last visited active session written to a given file, and none iff no visited session names it |
| State.PersistAll | fortune_teller/runtime/state_manager.py:347-352 | each file ends up holding the last visited active session written to it; other files are untouched; one write per visited active id |
| State.Stop | fortune_teller/runtime/state_manager.py:96-110 | not running; each file holds the last active session, in dict order, named after it; other files are kept; one persistence operation per active session |
| State.StopPersistsEach | fortune_teller/runtime/state_manager.py:332-352 | when every active session carries the id it is filed under, `stop` writes each one to the file of that id |
| State.StopThenInitialize | fortune_teller/runtime/state_manager.py:96-110 | after `stop` and a later `initialize`, an active session filed under its own id comes back as `__post_init__` rebuilds it, unless it has expired |
| Tools.NewTool | fortune_teller/tools/base_tool.py:23-28 | a new tool carries its name, version 1.0.0 and an empty description, and is not initialized |
| Tools.Initialize | fortune_teller/tools/base_tool.py:30-34 | the flag is set only when the setup hook returns; a failing setup propagates and leaves the flag as it was |
| Tools.Shutdown | fortune_teller/tools/base_tool.py:36-40 | the flag is cleared only when the cleanup hook returns; a failing cleanup propagates and leaves the flag as it was |
| Tools.InitializeThenShutdown | fortune_teller/tools/base_tool.py:30-40 | a successful initialize followed by a successful shutdown gives back the fresh tool |
| Tools.GetInfo | fortune_teller/tools/base_tool.py:52-59 | exactly the keys name, description, version and initialized, holding the tool's fields |
| Tools.HealthCheck | fortune_teller/tools/base_tool.py:61-67 | the status is healthy iff the tool is initialized, not_initialized otherwise |
| Tools.NewDateTool | fortune_teller/tools/date_tool.py:24-28 | the date tool is named date_tool and starts uninitialized |
| Tools.GregorianToLunar | fortune_teller/tools/date_tool.py:53-66 | a RuntimeError exactly when uninitialized; otherwise the date echoed back as a non-leap lunar date |
| Tools.CalculateBazi | fortune_teller/tools/date_tool.py:85-103 | a RuntimeError exactly when uninitialized; otherwise the same fixed pillars, element counts and day master for every input |
| Tools.GetSolarTerm | fortune_teller/tools/date_tool.py:117-121 | a RuntimeError exactly when uninitialized; otherwise never a solar term |
| Tools.HourToShichen | fortune_teller/tools/date_tool.py:123-153 | the first-match scan over the twelve ranges puts hour h in branch (h+1)/2 for 1 <= h <= 22 and in 子 for every other integer |
| Tools.ShichenBranch | fortune_teller/tools/date_tool.py:133-153 | the earthly branch reported for an hour is the branch of that closed-form bin |
| StrandsConfig.ParseRuntime | fortune_teller/config/strands_config.py:63-72 | a missing section gives the defaults (fortune_teller_system, 2.0.0, 50, 30, true); a non-dict section raises AttributeError; each missing field takes its default |
| StrandsConfig.Entries | fortune_teller/config/strands_config.py:76-79 | a missing key iterates nothing, a list iterates its items, and anything that cannot yield entries raises TypeError |
| StrandsConfig.AgentOf | fortune_teller/config/strands_config.py:80-86 | name and class are taken as given; max_instances, auto_start and config default to 1, true and {} |
| StrandsConfig.ParseAgents | fortune_teller/config/strands_config.py:74-90 | succeeds iff every entry is a dict with name and class; then one record per entry in order; otherwise KeyError or TypeError |
| StrandsConfig.ParseTools | fortune_teller/config/strands_config.py:92-106 | succeeds iff every entry is a dict with name and class; then one record per entry in order |
| StrandsConfig.ParseMcpTools | fortune_teller/config/strands_config.py:108-123 | succeeds iff every entry is a dict with name, server and description; then one record per entry in order |
| StrandsConfig.Parse | fortune_teller/config/strands_config.py:56-61 | success needs the runtime and agent sections to parse; an empty mapping gives the default runtime and no entries |
| StrandsConfig.GetAgentConfig | fortune_teller/config/strands_config.py:125-138 | None iff no agent has the name; otherwise the first agent with that name |
| StrandsConfig.GetToolConfig | fortune_teller/config/strands_config.py:140-153 | None iff no tool has the name; otherwise the first tool with that name |
| StrandsConfig.GetMcpToolConfig | fortune_teller/config/strands_config.py:155-168 | None iff no MCP tool has the name; otherwise the first MCP tool with that name |
| StrandsConfig.ToDict | fortune_teller/config/strands_config.py:170-212 | exactly the four sections, one entry per agent, with the class name under "class" |
| StrandsConfig.AgentEntryRoundTrip | fortune_teller/config/strands_config.py:80-86 | an agent's own to_dict entry is accepted and parses back to the same agent |
| StrandsConfig.AgentsRoundTrip | fortune_teller/config/strands_config.py:74-90 | parsing the to_dict list of any agents gives them back |
| StrandsConfig.ToolsRoundTrip | fortune_teller/config/strands_config.py:92-106 | parsing the to_dict list of any tools gives them back |
| StrandsConfig.McpRoundTrip | fortune_teller/config/strands_config.py:108-123 | parsing the to_dict list of any MCP tools gives them back |
| StrandsConfig.ToDictRoundTrip | fortune_teller/config/strands_config.py:56-212 | parsing to_dict of any configuration reproduces it |
| CoreConfig.LoadConfig | fortune_teller/core/config_manager.py:43-74 | a missing or unreadable file and an empty mapping give the defaults; otherwise the file's mapping |
| CoreConfig.GetConfig | fortune_teller/core/config_manager.py:138-151 | everything for no section, the section when present, {} when absent |
| CoreConfig.SetPath | fortune_teller/core/config_manager.py:175-195 | the first key is present afterwards and every other top-level key is untouched |
| CoreConfig.GetValue | fortune_teller/core/config_manager.py:153-173 | a key without dots reads the top-level entry or the default; a path whose first part is missing gives the default |
| CoreConfig.SetValue | fortune_teller/core/config_manager.py:175-195 | a key without dots sets that top-level entry; otherwise the first part is present afterwards and every other top-level key is untouched |
| CoreConfig.SetThenGet | fortune_teller/core/config_manager.py:153-195 | get_value of a path just set returns the value set, whatever the default |
| CoreConfig.SetLeavesOtherPaths | fortune_teller/core/config_manager.py:153-195 | set_value changes no path that leaves the set path's chain, even where a non-dict node was replaced by {} |
| CoreConfig.PluginsSection | fortune_teller/core/config_manager.py:197-208 | the plugins section, {} when absent, AttributeError when it is not a dict |
| CoreConfig.GetPluginConfig | fortune_teller/core/config_manager.py:197-208 | the plugin's entry, {} when absent; fails exactly when the plugins section is not a dict |
| CoreConfig.Membership | fortune_teller/core/config_manager.py:222 | Python's `in`: list membership, dict keys, substring of a string; TypeError for anything else |
| CoreConfig.IsPluginEnabled | fortune_teller/core/config_manager.py:210-222 | false when nothing is listed as enabled; with a list, true iff the name is listed |
| CoreConfig.DefaultPlugins | fortune_teller/core/config_manager.py:76-107 | with the default configuration exactly bazi, tarot and zodiac are enabled |
| CoreConfig.SetEnabledList | fortune_teller/core/config_manager.py:175-222 | after setting plugins.enabled to a list of names, a plugin is enabled iff it is in that list |
| ConfigFiles.NewStore | fortune_teller/config/config_manager.py:26-30 | nothing loaded; the environment is FORTUNE_ENV or development |
| ConfigFiles.LoadConfig | fortune_teller/config/config_manager.py:66-98 | a parsed file is stored under its path (a falsy one as {}) and returned; any failure returns {} and stores nothing; other paths are untouched |
| ConfigFiles.LoadAllKeys | fortune_teller/config/config_manager.py:43-64 | after loading a list of paths, a path is loaded iff it was before or it is listed and parsed |
| ConfigFiles.LoadAll | fortune_teller/config/config_manager.py:43-64 | the store stays consistent; a loaded file not among the paths keeps its contents, and earlier loads keep their place in the listing order |
| ConfigFiles.Initialize | fortune_teller/config/config_manager.py:32-64 | afterwards a path is loaded iff it was already or it is system.yaml, strands_config.yaml, the environment's deployment file or a listed agent or tool file, and it parsed |
| ConfigFiles.AgentFileLoaded | fortune_teller/config/config_manager.py:32-64 | an agent file found in agents/ that parses is loaded by initialize |
| ConfigFiles.GetConfig | fortune_teller/config/config_manager.py:100-125 | the first dot-separated part selects a loaded file and the rest walk down dicts; anything missing gives the default |
| ConfigFiles.DottedKeyUnreachable | fortune_teller/config/config_manager.py:100-125 | a file whose path contains a dot, such as system.yaml, is never reached by get_config |
| ConfigFiles.GetAgentConfig | fortune_teller/config/config_manager.py:127-138 | the file agents/<name>.yaml, {} when not loaded |
| ConfigFiles.GetToolConfig | fortune_teller/config/config_manager.py:140-151 | the file tools/<name>.yaml, {} when not loaded |
| ConfigFiles.GetStrandsConfig | fortune_teller/config/config_manager.py:153-160 | the file strands_config.yaml, {} when not loaded |
| ConfigFiles.GetSystemConfig | fortune_teller/config/config_manager.py:162-169 | the file system.yaml, {} when not loaded |
| ConfigFiles.GetDeploymentConfig | fortune_teller/config/config_manager.py:171-178 | the file for the current environment, {} when not loaded |
| ConfigFiles.ReloadUnchanged | fortune_teller/config/config_manager.py:180-191 | reloading a file with unchanged contents changes neither the store nor the answer |
| ConfigFiles.ListConfigs | fortune_teller/config/config_manager.py:205-212 | every loaded path exactly once |
| Runtime.NewRuntime | fortune_teller/runtime/strands_runtime.py:36-53 | nothing loaded, registered, initialized or running |
| Runtime.ClassLookup | fortune_teller/runtime/strands_runtime.py:55-79 | a registered class name finds its class, any other hashable value finds nothing, a list or dict raises TypeError |
| Runtime.CreateTool | fortune_teller/runtime/strands_runtime.py:175-188 | an unhashable class name raises; an unknown class, a failing setup or an unhashable name registers nothing; otherwise the initialized tool is registered under its name |
| Runtime.CreateToolsRaises | fortune_teller/runtime/strands_runtime.py:157-188 | tool creation raises iff some entry has an unhashable class name, and then TypeError |
| Runtime.CreateToolsKeys | fortune_teller/runtime/strands_runtime.py:157-188 | a name is registered afterwards iff it was before or some entry with that name created its tool |
| Runtime.CreateTools | fortune_teller/runtime/strands_runtime.py:157-164 | the registry only grows, and what escapes the loop is a TypeError |
| Runtime.CreateAgent | fortune_teller/runtime/strands_runtime.py:190-208 | as for tools, plus a truthy non-dict config fails the constructor; a registered agent is IDLE, with the breaker settings of its own config, and no other agent changes |
| Runtime.ConfigDict | fortune_teller/runtime/strands_runtime.py:198 | the config the constructor keeps: a dict as it is, and a falsy value as an empty dict |
| Runtime.CreateAgentsRaises | fortune_teller/runtime/strands_runtime.py:166-208 | agent creation raises iff some entry has an unhashable class name, and then TypeError |
| Runtime.CreateAgentsKeys | fortune_teller/runtime/strands_runtime.py:166-208 | a name is registered afterwards iff it was before or some entry with that name created its agent |
| Runtime.CreateAgents | fortune_teller/runtime/strands_runtime.py:166-173 | the registry only grows, and what escapes the loop is a TypeError |
| Runtime.CreateAgentsIdle | fortune_teller/runtime/strands_runtime.py:190-208 | every agent registered by the loop is IDLE |
| Runtime.Initialize | fortune_teller/runtime/strands_runtime.py:81-109 | a no-op when already initialized; initialized afterwards iff nothing raised; the registries are what the creation loops built |
| Runtime.InitializeRegistersAgents | fortune_teller/runtime/strands_runtime.py:81-109 | initializing an empty runtime registers exactly the configured agents that are created, each IDLE |
| Runtime.AutoStartRaises | fortune_teller/runtime/strands_runtime.py:210-219 | the auto-start loop raises iff a flagged entry has an unhashable name |
| Runtime.AutoStartLeavesUnflagged | fortune_teller/runtime/strands_runtime.py:210-219 | an agent that no flagged entry names is not touched |
| Runtime.AutoStartIsolated | fortune_teller/runtime/strands_runtime.py:210-219 | an agent named by one flagged entry is started with its own outcome, whatever other starts do |
| Runtime.AutoStart | fortune_teller/runtime/strands_runtime.py:210-219 | no agent is added or removed; what escapes is a TypeError; with no entry flagged nothing changes and nothing escapes |
| Runtime.Start | fortune_teller/runtime/strands_runtime.py:111-132 | a no-op when running; when nothing raises the runtime is initialized and running, with bus and session manager running |
| Runtime.Launch | fortune_teller/runtime/strands_runtime.py:122-132 | after initialization the bus and the session manager run, no agent is added or removed, and the runtime is marked running iff no auto-start agent raised |
| Runtime.StopAgentsEach | fortune_teller/runtime/strands_runtime.py:221-228 | every registered agent is shut down once with its own outcome, whatever the others raise |
| Runtime.StopAgents | fortune_teller/runtime/strands_runtime.py:221-228 | no agent is added or removed, and an agent not in the stop order is untouched |
| Runtime.StopToolsEach | fortune_teller/runtime/strands_runtime.py:230-237 | every registered tool is shut down once with its own outcome, whatever the others raise |
| Runtime.StopTools | fortune_teller/runtime/strands_runtime.py:230-237 | no tool is added or removed, and a tool not in the stop order is untouched |
| Runtime.Stop | fortune_teller/runtime/strands_runtime.py:134-155 | a no-op unless running; afterwards not running, the bus stopped with no queues, the session manager stopped, the registries' names unchanged |
| Runtime.StopShutsDownAll | fortune_teller/runtime/strands_runtime.py:134-155 | after stop every agent is stopping or stopped, stopped unless its stop hook raised; a tool stays initialized only if its cleanup raised |
| Runtime.RestartLeavesAgentsInError | fortune_teller/runtime/strands_runtime.py:111-155 | stop followed by start does not recreate agents, so an auto-start agent that was shut down ends in ERROR |
| Runtime.GetAgent | fortune_teller/runtime/strands_runtime.py:239-249 | the registered agent, None iff the name is not registered |
| Runtime.GetTool | fortune_teller/runtime/strands_runtime.py:251-261 | the registered tool, None iff the name is not registered |
| Runtime.ListAgents | fortune_teller/runtime/strands_runtime.py:263-270 | every registered agent name exactly once |
| Runtime.ListTools | fortune_teller/runtime/strands_runtime.py:272-279 | every registered tool name exactly once |
| Runtime.StatusCountsListings | fortune_teller/runtime/strands_runtime.py:263-302 | the counts get_status reports equal the lengths of list_agents and list_tools |
| Runtime.GetStatus | fortune_teller/runtime/strands_runtime.py:281-302 | the initialized and running flags are the runtime's own, and the counts are the numbers of registered agents and tools |
| MasterAgent.SystemOfKey | fortune_teller/agents/master_agent.py:131-133 | a key names a system iff it is bazi, tarot or zodiac, and then it is that system's key |
| MasterAgent.SystemKeysRoundTrip | fortune_teller/agents/master_agent.py:131-133 | every system's key reads back as that system |
| MasterAgent.SelectionOf | fortune_teller/agents/master_agent.py:131-133 | exactly "1", "2" and "3" select a system |
| MasterAgent.MenuMatchesSelection | fortune_teller/agents/master_agent.py:788-800 | the numbered menu offers exactly the digits the selection accepts, each system once, under its own digit |
| MasterAgent.StrippedFormats | fortune_teller/agents/master_agent.py:343-351 | on stripped text the two regex checks are exactly the date and time shapes, since no final newline is left for `$` |
| MasterAgent.FormatsWithoutNewline | fortune_teller/agents/master_agent.py:343-351 | without a final newline the regex checks are exactly the shapes |
| MasterAgent.IsoDatesPass | fortune_teller/agents/master_agent.py:343-346 | every calendar date written as ISO text passes the date check |
| MasterAgent.HhMmTimesPass | fortune_teller/agents/master_agent.py:348-351 | every time of day written as HH:MM passes the time check |
| MasterAgent.ShapeIsNotCalendar | fortune_teller/agents/master_agent.py:343-346 | text of the date shape with an impossible month passes the check and is still rejected by the date parser |
| MasterAgent.MonthThirteenExample | fortune_teller/agents/master_agent.py:343-346 | "1990-13-45" is such a text |
| MasterAgent.NormalizeGender | fortune_teller/agents/master_agent.py:297-298 | the six accepted words (after lower-casing) are taken; 男, male and m give 男, 女, female and f give 女 |
| MasterAgent.GenderIdempotent | fortune_teller/agents/master_agent.py:297-298 | a normalised gender normalises to itself |
| MasterAgent.GenderIgnoresCase | fortune_teller/agents/master_agent.py:297-298 | "M" and "Female" are accepted |
| MasterAgent.FirstKeyword | fortune_teller/agents/master_agent.py:555-561 | the first keyword that occurs in the text, nothing iff none occurs |
| MasterAgent.KeywordScan | fortune_teller/agents/master_agent.py:547-568 | routing iff some system's keyword occurs, to the first system in bazi, tarot, zodiac order with confidence 0.8 and the keyword found; otherwise the menu |
| MasterAgent.AnalyzeIntent | fortune_teller/agents/master_agent.py:522-570 | the menu is shown exactly when nothing is routed, and routing always names a system |
| MasterAgent.IntentStages | fortune_teller/agents/master_agent.py:522-570 | the three stages on the stripped lower-cased text: digits select with confidence 1.0, menu words give the menu, otherwise the keyword scan |
| MasterAgent.DigitIntentIsSelection | fortune_teller/agents/master_agent.py:535-538 | the intent's digit map is the menu's digit map |
| MasterAgent.Register | fortune_teller/agents/master_agent.py:493-518 | with a truthy name and a hashable truthy type the type maps to the name; otherwise an error reply (ValueError for a missing field, TypeError for an unhashable type) and nothing registered |
| MasterAgent.RouteGuard | fortune_teller/agents/master_agent.py:704-705 | a system passes iff an agent is registered for its key; otherwise ValueError |
| MasterAgent.RegistrationOpensRoute | fortune_teller/agents/master_agent.py:493-518 | registering a system's type opens its route, and the discovered agents cover all three systems |
| MasterAgent.ValidateInput | fortune_teller/agents/master_agent.py:56-81 | an interaction needs non-blank text content, a fortune request a registered system type, other messages pass unchanged |
| MasterAgent.DisplayName | fortune_teller/agents/master_agent.py:923-931 | the four known types get another name, every other type is returned unchanged |
| MasterAgent.Route | fortune_teller/agents/master_agent.py:702-705 | routing never changes the session; a guarded system is handed the request, an unknown one fails with ValueError |
| MasterAgent.HandleMenu | fortune_teller/agents/master_agent.py:126-241 | a digit starts collecting its system and prompts for its first field; a routing intent does the same but routes tarot at once; otherwise the menu and no change |
| MasterAgent.BaziRequest | fortune_teller/agents/master_agent.py:304-317 | the request carries the date, the time, the gender and the location 中国, and nothing else |
| MasterAgent.GenderFirstFails | fortune_teller/agents/master_agent.py:297-319 | through the interaction handler, typing 男 right after choosing BaZi ends the collection with a KeyError and a session back at the menu holding only the gender |
| MasterAgent.CollectBazi | fortune_teller/agents/master_agent.py:260-341 | as written: a date in the checked shape first, then a time; a gender word, whenever no gender is stored, is stored with the step reset to the menu and then fails with KeyError unless the date and time are both in, else routes the full request (ValueError when the bazi agent is missing); any other text is the prompt for the first missing field and changes nothing |
| MasterAgent.GenderFirstCollect | fortune_teller/agents/master_agent.py:297-319 | on an empty BaZi session the word 男 is stored, the step reset to the menu and KeyError raised |
| MasterAgent.CollectBaziFixed | fortune_teller/agents/master_agent.py:260-341 | corrected: date then time then gender, each in its checked shape; the gender completes only once both are in, hands the full request to the bazi agent and resets to the menu; anything else is an error prompt naming the missing field and changes nothing |
| MasterAgent.FixedDiffersOnlyOnEarlyGender | fortune_teller/agents/master_agent.py:297-319 | the corrected collection answers exactly as the source's except for a gender that arrives before the date or the time, which it answers with the prompt where the source leaves the collection |
| MasterAgent.GenderFirstPrompts | fortune_teller/agents/master_agent.py:321-341 | with the corrected collection, a gender typed first gets the date prompt and the session is unchanged |
| MasterAgent.SpreadOfChoice | fortune_teller/agents/master_agent.py:385-392 | exactly "1" to "4" pick a spread, each one of the four spread names |
| MasterAgent.SpreadChoicesDistinct | fortune_teller/agents/master_agent.py:386-391 | different choices pick different spreads |
| MasterAgent.TarotRequest | fortune_teller/agents/master_agent.py:398-410 | the request carries the question, the spread, the name 缘主 and the focus 综合运势 |
| MasterAgent.CollectTarot | fortune_teller/agents/master_agent.py:353-441 | the question first, then a spread number that completes and routes the request with the step back at the menu; anything else is an error prompt for the missing field |
| MasterAgent.CollectZodiac | fortune_teller/agents/master_agent.py:443-482 | a date in the checked shape completes and routes the request; anything else asks for the date again and changes nothing |
| MasterAgent.Collect | fortune_teller/agents/master_agent.py:243-258 | dispatch on the session's system, the BaZi collection as written; with none the step goes back to the menu and the menu is shown |
| MasterAgent.Dispatch | fortune_teller/agents/master_agent.py:113-120 | a collecting session goes to the collection, any other step is reset to the menu and goes to the menu handler |
| MasterAgent.Store | fortune_teller/agents/master_agent.py:107-110 | the table gains the id with the new session and every other session is unchanged |
| MasterAgent.HandleUserInteraction | fortune_teller/agents/master_agent.py:100-124 | non-text content fails before any session changes; otherwise only the interacting session changes and the table gains its id |
| MasterAgent.InteractionDispatches | fortune_teller/agents/master_agent.py:100-124 | the session's new state and the reply are the ones its step's handler gives on the stripped text |
| MasterAgent.MenuKeepsWellFormed | fortune_teller/agents/master_agent.py:126-241 | the menu keeps a session well-formed |
| MasterAgent.CollectKeepsWellFormed | fortune_teller/agents/master_agent.py:243-482 | collecting as written keeps the session well-formed; a request handed on or a failure comes with the step at the menu; a prompt keeps collecting for the same system; an error prompt changes nothing |
| MasterAgent.CollectFixedKeepsWellFormed | fortune_teller/agents/master_agent.py:243-482 | the same with the corrected BaZi collection |
| MasterAgent.InteractionKeepsWellFormed | fortune_teller/agents/master_agent.py:100-124 | every interaction, with the collection as written, keeps all sessions well-formed |
| MasterAgent.BaziRequestsComplete | fortune_teller/agents/master_agent.py:297-319 | in a well-formed session the corrected collection never raises KeyError, and every request carries a checked date, a checked time and 男 or 女 |
| MasterAgent.InteractionStep | fortune_teller/agents/master_agent.py:100-124 | a one-field text payload reaches the handler its session's step selects |
| MasterAgent.DispatchBazi | fortune_teller/agents/master_agent.py:248-249 | a collecting BaZi session goes to the BaZi collection as written |
| MasterAgent.DispatchMenu | fortune_teller/agents/master_agent.py:113-114 | a session at the menu goes to the menu handler |
| MasterAgent.ChooseSystem | fortune_teller/agents/master_agent.py:126-241 | a digit typed by a new session starts that system's collection and prompts for its first field |
| MasterAgent.ChooseBazi | fortune_teller/agents/master_agent.py:131-161 | choosing 1 starts the BaZi collection and asks for the birth date |
| MasterAgent.DateStep | fortune_teller/agents/master_agent.py:265-278 | a date in the checked shape is stored first and the time is asked for |
| MasterAgent.GiveDate | fortune_teller/agents/master_agent.py:265-278 | through the interaction handler, the date is stored and the time asked for |
| MasterAgent.TimeStep | fortune_teller/agents/master_agent.py:281-294 | a time in the checked shape is stored next and the gender is asked for |
| MasterAgent.GiveTime | fortune_teller/agents/master_agent.py:281-294 | through the interaction handler, the time is stored and the gender asked for |
| MasterAgent.GenderStep | fortune_teller/agents/master_agent.py:297-319 | the gender completes the collection: the bazi agent gets the request and the session is back at the menu |
| MasterAgent.GiveGender | fortune_teller/agents/master_agent.py:297-319 | through the interaction handler, the gender completes the collection |
| ChatAgent.ValidateInput | fortune_teller/agents/chat_agent.py:24-39 | always valid; the message defaults to "" and the previous reading to an empty dict |
| ChatAgent.ProcessData | fortune_teller/agents/chat_agent.py:41-67 | the user line is appended to the session's context, which keeps only the newest twenty lines; other sessions are unchanged and no session appears but this one |
| ChatAgent.GenerateReading | fortune_teller/agents/chat_agent.py:69-152 | a previous reading that cannot be read raises first (see ReadingContextError), then a session cleared in between raises KeyError; otherwise the LLM sees the newest ten lines and the reply is the LLM's text or one of the canned answers, appended to the session |
| ChatAgent.ReadingContextError | fortune_teller/agents/chat_agent.py:80-84 | a falsy previous reading adds no context; a truthy non-dict raises AttributeError; a dict raises TypeError iff its system and reading are both truthy and the reading is neither a string nor a list |
| ChatAgent.DefaultReadingPasses | fortune_teller/agents/chat_agent.py:24-39 | the default previous reading, an empty dict, never raises |
| ChatAgent.Clear | fortune_teller/agents/chat_agent.py:154-157 | the session is forgotten and every other session is kept as it was |
| ChatAgent.TurnBounded | fortune_teller/agents/chat_agent.py:52-58 | one turn keeps every context at twenty-one lines at most, and right after the user line the context holds at most twenty and ends with that line; the turn fails exactly when the previous reading cannot be read |
| ChatAgent.HistoryEndsWithMessage | fortune_teller/agents/chat_agent.py:78 | when the reading succeeds, the history the LLM sees ends with the user's own line and is the whole context while it has ten lines or fewer |
| ChatAgent.ClearThenProcess | fortune_teller/agents/chat_agent.py:154-157 | after clearing, the next user line is the session's only line |
| TarotAgent.ValidateInput | fortune_teller/agents/tarot_agent.py:21-46 | non-text questions raise AttributeError; a blank stripped question is invalid; otherwise the stripped question with name, focus and spread defaults |
| TarotAgent.SpreadTable | fortune_teller/agents/tarot_agent.py:56-78 | exactly the four spread names have a configuration, each with one position per card |
| TarotAgent.SpreadFor | fortune_teller/agents/tarot_agent.py:79 | a known spread gets its configuration, anything else hashable the single-card one, a list or dict raises TypeError |
| TarotAgent.ProcessData | fortune_teller/agents/tarot_agent.py:48-108 | the picker's cards when it succeeds, otherwise The Fool upright once per position of the spread |
| TarotAgent.Label | fortune_teller/agents/tarot_agent.py:120 | the card's position, or 位置 and its one-based number past the last position |
| TarotAgent.OrientationText | fortune_teller/agents/tarot_agent.py:121-125 | 逆位 or Reversed exactly for a reversed card, 正位 or Upright otherwise |
| TarotAgent.LabelsFromPositions | fortune_teller/agents/tarot_agent.py:83-129 | for the draw the agent asks for, the picker succeeds, every card gets a real position and no card repeats; the stand-in cards are labelled the same way |
| BaziAgent.ParseDateField | fortune_teller/agents/bazi_agent.py:71-72 | text must parse as YYYY-MM-DD; any other value is kept |
| BaziAgent.ParseTimeField | fortune_teller/agents/bazi_agent.py:73-74 | text must parse as HH:MM; any other value is kept |
| BaziAgent.ValidateInput | fortune_teller/agents/bazi_agent.py:37-92 | a falsy date or time asks for the four fields and echoes what was given; a text field that does not parse is a format error; otherwise the fields with the gender, location, name and question defaults |
| BaziAgent.BeforeColon | fortune_teller/agents/bazi_agent.py:108 | a prefix of the text without a colon |
| BaziAgent.BeforeColonIsFirstPart | fortune_teller/agents/bazi_agent.py:108 | the text before the first colon is the first part `split(":")` gives |
| BaziAgent.BeforeColonWhole | fortune_teller/agents/bazi_agent.py:108 | text without a colon is its own first part |
| BaziAgent.Hour | fortune_teller/agents/bazi_agent.py:103-113 | a parsed time's hour; noon for a falsy value; the number before the colon of text; any other truthy value raises AttributeError, and only such a value does |
| BaziAgent.TextHourAgrees | fortune_teller/agents/bazi_agent.py:103-113 | an HH:MM text gives the same hour whether it is parsed first or read as text |
| BaziAgent.ValidatedHourInDay | fortune_teller/agents/bazi_agent.py:70-81 | a validated text time always gives an hour of the day |
| BaziAgent.HourPastDay | fortune_teller/agents/bazi_agent.py:107-109 | unvalidated text "25:99" gives hour 25 |
| BaziAgent.HourOfWord | fortune_teller/agents/bazi_agent.py:107-111 | text without a colon that does not start with a number gives noon |
| ZodiacAgent.ValidateInput | fortune_teller/agents/zodiac_agent.py:50-91 | a falsy birth date asks for input; text must parse as YYYY-MM-DD; other truthy values pass through; name and question defaults |
| ZodiacAgent.ValidDateAccepted | fortune_teller/agents/zodiac_agent.py:50-91 | a well-formed ISO date is accepted and read back as the same date |
| ZodiacAgent.CalculateSign | fortune_teller/agents/zodiac_agent.py:136-154 | the Aries-first scan gives the sign of the date |
| ZodiacAgent.ExactlyOneSign | fortune_teller/agents/zodiac_agent.py:136-154 | every real date matches exactly one entry of the scan, so its Aries fallback is never used |
| ZodiacAgent.ProcessData | fortune_teller/agents/zodiac_agent.py:93-134 | the tool's sign, age and compatible elements when it succeeds; otherwise the agent's own sign, the same age formula, zero days and no compatible elements |
| ZodiacAgent.FallbackAgrees | fortune_teller/agents/zodiac_agent.py:93-134 | the fallback gives the same sign and age as the tool on the same date and day |
| BaziPlugin.ValidateInput | fortune_teller/plugins/bazi/fortune_system.py:241-309 | accepted iff the birth date and optional time parse and the gender is 男 or 女; a truthy location is kept; every failure is a ValueError |
| BaziPlugin.YearPillar | fortune_teller/plugins/bazi/fortune_system.py:580-586 | the stem is (year - 4) mod 10 and the branch (year - 4) mod 12 |
| BaziPlugin.YearPillarPeriod | fortune_teller/plugins/bazi/fortune_system.py:580-586 | year pillars repeat every sixty years, and 1984 is 甲子 |
| BaziPlugin.MonthPillar | fortune_teller/plugins/bazi/fortune_system.py:588-606 | the branch is (month + 1) mod 12, the stem twice the year stem plus month - 1, mod 10 |
| BaziPlugin.DayPillar | fortune_teller/plugins/bazi/fortune_system.py:608-623 | the cycle position of the number of days since 1900-01-31 |
| BaziPlugin.DayPillarNext | fortune_teller/plugins/bazi/fortune_system.py:608-623 | the next day is one step further in the sixty-day cycle |
| BaziPlugin.HourPillar | fortune_teller/plugins/bazi/fortune_system.py:625-641 | the branch is (hour mod 24) div 2, the stem twice the day stem plus the branch, mod 10 |
| BaziPlugin.HourBranches | fortune_teller/plugins/bazi/fortune_system.py:625-641 | the clock hours 2h and 2h+1 share branch h |
| BaziPlugin.LateHourBranch | fortune_teller/plugins/bazi/fortune_system.py:625-641 | 23:00 falls in the last branch and midnight in the first |
| BaziPlugin.Relationships | fortune_teller/plugins/bazi/fortune_system.py:378-382 | one entry per element that occurs, in the order 木火土金水, each with the day master's relation to it |
| BaziPlugin.RelationshipsComplete | fortune_teller/plugins/bazi/fortune_system.py:378-382 | an element has an entry iff it occurs |
| BaziPlugin.Pillars | fortune_teller/plugins/bazi/fortune_system.py:327-340 | year, month and day pillars, and an hour pillar exactly when a time is given |
| BaziPlugin.ProcessData | fortune_teller/plugins/bazi/fortune_system.py:311-436 | six elements without a time and eight with one, their counts, the first strongest and the first weakest element, the day master and its relations |
| BaziPlugin.CountsTotal | fortune_teller/plugins/bazi/fortune_system.py:349-368 | the element counts add up to six without a birth time and eight with one |
| BaziPlugin.StrongestOccurs | fortune_teller/plugins/bazi/fortune_system.py:370-372 | the strongest element occurs at least twice, and the weakest is missing whenever some element is |
| BaziPlugin.RelationshipsListed | fortune_teller/plugins/bazi/fortune_system.py:378-382 | the relations listed are exactly those to the elements in the chart |
| BaziPlugin.FormatResult | fortune_teller/plugins/bazi/fortune_system.py:533-578 | the full text is kept; a single section is exactly the stripped reply under 总论 |
| BaziPlugin.SingleHashIsBody | fortune_teller/plugins/bazi/fortune_system.py:551-556 | only "##" opens a section; a single "#" line is body text |
| ZodiacPlugin.ValidateInput | fortune_teller/plugins/zodiac/fortune_system.py:341-409 | accepted iff the date, the time, the place and the area steps all pass; a date failure is a ValueError, a non-text place an AttributeError; an accepted area is one of the six literals |
| ZodiacPlugin.Place | fortune_teller/plugins/zodiac/fortune_system.py:394-398 | a truthy text place is stripped, any other truthy value raises AttributeError, a falsy one gives no place |
| ZodiacPlugin.Area | fortune_teller/plugins/zodiac/fortune_system.py:400-408 | a truthy area must be one of the six literals as the source spells them, mis-encoded; a falsy one becomes the overall area |
| ZodiacPlugin.ChineseAreaRefused | fortune_teller/plugins/zodiac/fortune_system.py:400-408 | the area 爱情 written in Chinese is refused with ValueError, because the accepted literals are mis-encoded |
| ZodiacPlugin.SunSign | fortune_teller/plugins/zodiac/fortune_system.py:608-639 | for a month 1..12 the sign of the date, otherwise the first entry, Aries |
| ZodiacPlugin.FallbackUnreachable | fortune_teller/plugins/zodiac/fortune_system.py:608-639 | for a month 1..12 exactly one entry matches, whatever the day number |
| ZodiacPlugin.MoonSign | fortune_teller/plugins/zodiac/fortune_system.py:641-659 | entry (day of year div 30) mod 12 of the table |
| ZodiacPlugin.MoonSignBlocks | fortune_teller/plugins/zodiac/fortune_system.py:641-659 | each thirty-day block has one moon sign, and the last days of the year wrap back to Aries |
| ZodiacPlugin.RisingSign | fortune_teller/plugins/zodiac/fortune_system.py:661-681 | entry (hour div 2) mod 12 of the table |
| ZodiacPlugin.RisingSignsDistinct | fortune_teller/plugins/zodiac/fortune_system.py:661-681 | two times rise in the same sign iff they are in the same two-hour block |
| ZodiacPlugin.ElementRelationsSymmetric | fortune_teller/plugins/zodiac/fortune_system.py:66-71 | the compatible and incompatible relations are symmetric and leave a third, neutral element |
| ZodiacPlugin.Rate | fortune_teller/plugins/zodiac/fortune_system.py:683-715 | the sign itself, a sign of the same element, of the compatible one, of the incompatible one, or any other |
| ZodiacPlugin.CompatibilityOf | fortune_teller/plugins/zodiac/fortune_system.py:683-715 | one rating per entry of the table, in table order |
| ZodiacPlugin.NeutralWith | fortune_teller/plugins/zodiac/fortune_system.py:66-71 | the element that is neither the same, compatible nor incompatible |
| ZodiacPlugin.ThreePerElement | fortune_teller/plugins/zodiac/fortune_system.py:22-47 | each element rules three signs of the table |
| ZodiacPlugin.RatedByElement | fortune_teller/plugins/zodiac/fortune_system.py:683-715 | the good, needs-effort and neutral entries are exactly the signs of one element each |
| ZodiacPlugin.SelfOnce | fortune_teller/plugins/zodiac/fortune_system.py:683-715 | the sign rates itself once |
| ZodiacPlugin.VeryGoodTwice | fortune_teller/plugins/zodiac/fortune_system.py:683-715 | the two other signs of its element are very good |
| ZodiacPlugin.CompatibilityProfile | fortune_teller/plugins/zodiac/fortune_system.py:683-715 | every sign rates one itself, two very good and three each good, needing effort and neutral |
| ZodiacPlugin.RatingSymmetric | fortune_teller/plugins/zodiac/fortune_system.py:683-715 | two signs rate each other alike |
| ZodiacPlugin.TransitScanAgrees | fortune_teller/plugins/zodiac/fortune_system.py:758-768 | the transit scan without the wrap test finds the same sign as the wrapping scan |
| ZodiacPlugin.SunTransit | fortune_teller/plugins/zodiac/fortune_system.py:755-773 | the sign of today, strengthening iff it shares the reader's element |
| ZodiacPlugin.MarsPosition | fortune_teller/plugins/zodiac/fortune_system.py:800-801 | within a year Mars walks from Cancer to Capricorn, one sign per sixty-day block |
| ZodiacPlugin.JupiterPosition | fortune_teller/plugins/zodiac/fortune_system.py:802-803 | Jupiter is in Scorpio except on day 365 or 366, where it is in Sagittarius |
| ZodiacPlugin.SaturnPosition | fortune_teller/plugins/zodiac/fortune_system.py:804-805 | Saturn is in Aquarius on every day of every year |
| ZodiacPlugin.ProcessData | fortune_teller/plugins/zodiac/fortune_system.py:411-472 | the sun sign and its element, the moon sign, a rising sign exactly when a time is given, the compatibility table and the sun transit |
| ZodiacPlugin.HeaderTests | fortune_teller/plugins/zodiac/fortune_system.py:573-588 | testing "##" and then "#" is testing a single "#" |
| ZodiacPlugin.FormatResult | fortune_teller/plugins/zodiac/fortune_system.py:553-606 | the full text is kept; a single section is exactly the stripped reply under the default title |
| TarotPlugin.SpreadOf | fortune_teller/plugins/tarot/fortune_system.py:131-160 | a key found in the spreads table is that spread's key |
| TarotPlugin.SpreadKeysRoundTrip | fortune_teller/plugins/tarot/fortune_system.py:131-160 | every spread is found under its own key |
| TarotPlugin.Positions | fortune_teller/plugins/tarot/fortune_system.py:131-160 | one, three, ten and six positions for the four spreads |
| TarotPlugin.ValidateInput | fortune_teller/plugins/tarot/fortune_system.py:201-246 | a missing question is a ValueError and a non-text one an AttributeError; accepted input has a non-empty stripped question, one of the four spreads, a focus among the six (general by default) and a stripped truthy name; an unknown spread is a ValueError and an unhashable one a TypeError |
| TarotPlugin.SpreadsAccepted | fortune_teller/plugins/tarot/fortune_system.py:201-246 | every spread key with a real question is accepted, and a focus outside the six is refused |
| TarotPlugin.DefaultCards | fortune_teller/plugins/tarot/fortune_system.py:479-666 | the default deck is the 22 major arcana with ids 0..21 in order |
| TarotPlugin.DefaultCardsDistinct | fortune_teller/plugins/tarot/fortune_system.py:479-666 | the default deck has no repeated card |
| TarotPlugin.DrawCount | fortune_teller/plugins/tarot/fortune_system.py:459 | as many cards as asked for, or the whole deck if it is smaller |
| TarotPlugin.DrawFrom | fortune_teller/plugins/tarot/fortune_system.py:461-467 | one card per choice, each taken from the cards still available, the first being the first choice |
| TarotPlugin.DrawnDistinct | fortune_teller/plugins/tarot/fortune_system.py:444-469 | drawn cards come from the deck, and from a deck without repeats no card is drawn twice |
| TarotPlugin.FullDrawPermutes | fortune_teller/plugins/tarot/fortune_system.py:444-469 | drawing the whole deck draws every card exactly once |
| TarotPlugin.ProcessData | fortune_teller/plugins/tarot/fortune_system.py:248-294 | a card per position, upright exactly when the random value exceeds 0.33; a deck smaller than the spread is an IndexError |
| TarotPlugin.Entries | fortune_teller/plugins/tarot/fortune_system.py:270-279 | positions, cards and orientations side by side |
| TarotPlugin.DefaultDeckReading | fortune_teller/plugins/tarot/fortune_system.py:248-294 | with the default deck every spread gets its cards, and no card appears twice in a reading |
| TarotPlugin.FormatResult | fortune_teller/plugins/tarot/fortune_system.py:358-411 | the full text is kept; a single section is exactly the stripped reply under 整体解读 |
| TarotPicker.SuitOf | mcp/tools/tarot_picker.py:14-101 | the first 22 ids are the major arcana |
| TarotPicker.SuitBlocks | mcp/tools/tarot_picker.py:14-101 | each suit is one block of consecutive ids |
| TarotPicker.CountSuitBlock | mcp/tools/tarot_picker.py:163-164 | the ids of a suit below n count the part of its block below n |
| TarotPicker.DeckCounts | mcp/tools/tarot_picker.py:163-166 | 78 cards: 22 major arcana, 14 of each minor suit and 56 minor in all |
| TarotPicker.SuitCount | mcp/tools/tarot_picker.py:163-164 | a suit counted over the whole deck is its whole block |
| TarotPicker.DrawCards | mcp/tools/tarot_picker.py:111-130 | a count outside 1..78 is a ValueError; otherwise the first cards of the shuffled deck, reversed only when reversal is allowed and the flip says so |
| TarotPicker.DrawnDistinct | mcp/tools/tarot_picker.py:111-130 | the drawn cards are distinct cards of the deck, none reversed when reversal is off |
| TarotPicker.FullDraw | mcp/tools/tarot_picker.py:111-130 | drawing 78 cards gives every card exactly once |
| TarotServer.NewServer | fortune_teller/mcp/tarot_server.py:29-36 | a new server has an empty history and its pool refreshed now |
| TarotServer.RefreshIfNeeded | fortune_teller/mcp/tarot_server.py:142-150 | a new pool exactly when the last one is more than 300 seconds old |
| TarotServer.RefreshSpacing | fortune_teller/mcp/tarot_server.py:142-150 | after a refresh, calls within the next five minutes keep the pool |
| TarotServer.ShuffledDeck | fortune_teller/mcp/tarot_server.py:68-72 | the three shuffles of range(total) only rearrange it |
| TarotServer.DrawRandomCards | fortune_teller/mcp/tarot_server.py:48-82 | the pool is refreshed first; a unique draw is a slice of the shuffled deck; otherwise one randrange per card, a ValueError when the range is empty |
| TarotServer.UniqueDrawDistinct | fortune_teller/mcp/tarot_server.py:74-76 | a unique draw holds distinct indices below the total, as many as asked for while the deck lasts |
| TarotServer.RepeatsAllowed | fortune_teller/mcp/tarot_server.py:77-79 | a non-unique draw can repeat an index |
| TarotServer.GetOrientation | fortune_teller/mcp/tarot_server.py:84-98 | the pool is refreshed first; upright exactly when the random value exceeds 0.33 |
| TarotServer.GetEntropyQuality | fortune_teller/mcp/tarot_server.py:100-129 | the seconds since the refresh; the check time is recorded and, past 1000 entries, only the newest 500 are kept |
| TarotServer.HistoryBounded | fortune_teller/mcp/tarot_server.py:120-127 | the history never exceeds 1000 entries, ends with the newest check and is a run of the newest checks |
| TarotServer.ChecksBounded | fortune_teller/mcp/tarot_server.py:120-127 | however many checks run, the history stays within 1000 entries |
| Shuffle.Swap | fortune_teller/mcp/tarot_server.py:138-140 | the two entries are exchanged and no other entry moves |
| Shuffle.SwapPermutes | fortune_teller/mcp/tarot_server.py:140 | a swap keeps the multiset of entries |
| Shuffle.PassPermutes | fortune_teller/mcp/tarot_server.py:131-140 | the pass only rearranges the entries |
| Shuffle.ShufflePermutes | mcp/tools/tarot_picker.py:103-109 | the shuffle is a permutation of its input |
| Shuffle.IdentityDraws | mcp/tools/tarot_picker.py:103-109 | drawing each position itself leaves the deck unchanged |
| Shuffle.ShuffleInPlace | fortune_teller/mcp/tarot_server.py:131-140 | the in-place loop leaves the shuffle of its input, a permutation of it |
| Shuffle.RangeCounts | fortune_teller/mcp/tarot_server.py:68 | each number below n occurs once in range(n) and nothing else occurs |
| Shuffle.RangePermutation | fortune_teller/mcp/tarot_server.py:68-72 | a rearrangement of range(n) holds each number below n once |
| Shuffle.ShuffledRange | fortune_teller/mcp/tarot_server.py:68-72 | a shuffled range(n) holds each number below n exactly once |
| BaziConverter.YearPillar | mcp/tools/bazi_converter.py:36-45 | the offset from 1984 mod 60, read mod 10 and mod 12 |
| BaziConverter.YearAgrees | mcp/tools/bazi_converter.py:36-45 | the converter and the plugin name the same year pillar |
| BaziConverter.MonthStemStartClosedForm | mcp/tools/bazi_converter.py:58 | the month-stem start table is twice the year stem plus two, mod 10 |
| BaziConverter.MonthPillar | mcp/tools/bazi_converter.py:47-62 | Python's negative indexing gives months -11..12 a branch, (month + 1) mod 12, and any other month is an IndexError; the stem is the table start plus month - 1, mod 10 |
| BaziConverter.MonthVersusPlugin | mcp/tools/bazi_converter.py:47-62 | for months 1..12 the two calculators share the branch and the converter's stem runs two ahead of the plugin's |
| BaziConverter.JulianDayIsOrdinal | mcp/tools/bazi_converter.py:66-74 | the Julian-day formula is the proleptic Gregorian day number plus 1721425 |
| BaziConverter.JulianDayFormula | mcp/tools/bazi_converter.py:66-74 | the formula with its float products and century correction written as integer leap-day counts |
| BaziConverter.DayPillar | mcp/tools/bazi_converter.py:64-83 | the Julian day less the base, mod 60, read mod 10 and mod 12 |
| BaziConverter.DayPillarNext | mcp/tools/bazi_converter.py:64-83 | consecutive dates take consecutive places in the cycle |
| BaziConverter.DayVersusPlugin | mcp/tools/bazi_converter.py:64-83 | the converter's day pillar is two places ahead of the plugin's |
| BaziConverter.BaseDateIsNotJiazi | mcp/tools/bazi_converter.py:76-78 | the formula puts 1984-02-02 at Julian day 2445733, not the base, and gives it 戊子 rather than 甲子 |
| BaziConverter.HourPillar | mcp/tools/bazi_converter.py:85-98 | branch ((hour + 1) div 2) mod 12 for any integer hour, stem twice the day stem plus the branch, mod 10 |
| BaziConverter.HourMatchesShichen | mcp/tools/bazi_converter.py:89 | over a day's hours the branch is the date tool's two-hour period, with 23:00 already in 子 |
| BaziConverter.HourVersusPlugin | mcp/tools/bazi_converter.py:89 | against the plugin the branch is the same at even hours and one later at odd hours |
| BaziConverter.Polarities | mcp/tools/bazi_converter.py:127-131 | the polarity of each stem and branch character, in order |
| BaziConverter.PolaritiesSplit | mcp/tools/bazi_converter.py:127-131 | every character is yang or yin |
| BaziConverter.PolarityByParity | mcp/tools/bazi_converter.py:28-34 | both polarity tables alternate yang and yin from 甲 and 子 |
| BaziConverter.YangEven | mcp/tools/bazi_converter.py:127-131 | a pillar's stem and branch share a polarity, so the yang count is even |
| BaziConverter.Missing | mcp/tools/bazi_converter.py:159 | the elements with a zero count, each once, in the order 木火土金水 |
| BaziConverter.PolarityCounts | mcp/tools/bazi_converter.py:127-131 | four pillars have eight characters, an even number of each polarity |
| BaziConverter.Tally | mcp/tools/bazi_converter.py:118-160 | the element counts total eight, the yang and yin counts are even and total eight, the strongest and weakest are the first maximum and minimum, and the missing elements are exactly those counted zero |
| BaziConverter.CalculateBazi | mcp/tools/bazi_converter.py:100-166 | success iff the date is in the calendar; then the four pillars, the day master and the tallies |
| BaziConverter.StrongestAtLeastTwo | mcp/tools/bazi_converter.py:157 | eight characters over five elements put at least two in the strongest |
| ZodiacConverter.GetSign | mcp/tools/zodiac_converter.py:124-161 | accepted iff month 1..12, day 1..31 and the date exists in 2000, and then the sign of the date; otherwise ValueError |
| ZodiacConverter.LeapYearCheck | mcp/tools/zodiac_converter.py:133-137 | every month and day of a real date passes, 29 February included |
| ZodiacConverter.CalendarCheckExamples | mcp/tools/zodiac_converter.py:128-137 | 29 February is Pisces; 30 February, 31 April, day 32 and month 13 are refused |
| ZodiacConverter.Age | mcp/tools/zodiac_converter.py:174 | the age is the year difference or one less |
| ZodiacConverter.AgeCountsAnniversaries | mcp/tools/zodiac_converter.py:174 | the n-th anniversary is on or before today exactly when n is at most the age |
| ZodiacConverter.DaysToBirthday | mcp/tools/zodiac_converter.py:177-180 | the days to the next occurrence of the birthday this year or next, zero exactly on the birthday; a ValueError when that occurrence does not exist |
| ZodiacConverter.LeapDayBirthday | mcp/tools/zodiac_converter.py:177-180 | a 29 February birthday fails outside leap years and after the day has passed in a leap year |
| ZodiacConverter.CompatibleElements | mcp/tools/zodiac_converter.py:183-190 | the sign's element first, then its partner: fire with air, earth with water |
| ZodiacConverter.CompatiblePairs | mcp/tools/zodiac_converter.py:183-190 | each element's partner lists it back |
| ZodiacConverter.CalculateZodiacInfo | mcp/tools/zodiac_converter.py:163-210 | success iff the date is real and the next birthday exists; then the sign, the age, the days to the birthday and the compatible elements |
| DateUtils.ZodiacSign | fortune_teller/utils/date_utils.py:113-151 | the sign of the date for months 1..12, the unknown answer exactly for other months |
| DateUtils.AnimalIndex | fortune_teller/utils/date_utils.py:165 | Python's (year - 4) mod 12, never negative |
| DateUtils.ChineseZodiac | fortune_teller/utils/date_utils.py:154-165 | the animal at that index |
| DateUtils.AnimalCycle | fortune_teller/utils/date_utils.py:154-165 | the animals repeat every twelve years and 2020 is a year of the rat |
| DateUtils.NewYearEstimate | fortune_teller/utils/date_utils.py:39-41 | one of six January or February days |
| DateUtils.NewYear | fortune_teller/utils/date_utils.py:52 | the estimate as a date, a ValueError outside years 1..9999 |
| DateUtils.MonthOffsetClosedForm | fortune_teller/utils/date_utils.py:44-47 | the loop adds 29 days per month plus one per odd month passed |
| DateUtils.LunarToSolar | fortune_teller/utils/date_utils.py:18-55 | the estimate plus the month offset plus day - 1 days; a ValueError for a bad year and an OverflowError when the sum leaves the calendar |
| DateUtils.SolarToLunar | fortune_teller/utils/date_utils.py:58-110 | defined iff the date is real; the month clamped to 1..12 and the day to 1..30; the previous lunar year exactly before the estimate |
| DateUtils.Count | fortune_teller/utils/date_utils.py:84-96 | before the estimate the previous year's month 11 or 12, otherwise this year's, days 1..30 |
| DateUtils.NewYearBound | fortune_teller/utils/date_utils.py:84-90 | a date before the estimate in its year is fewer than 60 days before it |
| DateUtils.NewYearRoundTrip | fortune_teller/utils/date_utils.py:18-110 | the estimate is lunar 1/1 of its year, and lunar 1/1 converts back to it |
| DateUtils.LunarNextDay | fortune_teller/utils/date_utils.py:18-55 | the next lunar day is the next solar day whenever both convert |
| DateUtils.Weekday | fortune_teller/utils/date_utils.py:181 | Monday is 0 and 0001-01-01 was a Monday |
| DateUtils.DayOfWeek | fortune_teller/utils/date_utils.py:168-188 | the weekday's Chinese or English name, a ValueError for an invalid date |
| DateUtils.WeekLater | fortune_teller/utils/date_utils.py:181 | seven days later is the same weekday |
| DateUtils.FormatDate | fortune_teller/utils/date_utils.py:191-221 | a date or a three-item tuple is formatted, anything else is a ValueError |
| DateUtils.DefaultFormatLayout | fortune_teller/utils/date_utils.py:214-219 | the default format renders the three numbers between 年, 月 and 日, each padded as written |
| DateUtils.DefaultFormatZeroPadded | fortune_teller/utils/date_utils.py:191-221 | for years 0..9999 and months and days below 100 the default format gives eleven characters whose digit fields read back as the year, month and day |
| Ganzhi.CyclePillar | fortune_teller/plugins/bazi/fortune_system.py:580-586 | every position of the sixty-pair cycle gives a pillar whose stem and branch have equal parity, so only sixty of the 120 pairs occur |
| Ganzhi.CyclePeriod | fortune_teller/plugins/bazi/fortune_system.py:580-586 | the cycle has period sixty |
| Ganzhi.CycleMod | mcp/tools/bazi_converter.py:40-43 | reducing a position mod sixty first changes neither its stem nor its branch |
| Ganzhi.ElementIndex | fortune_teller/plugins/bazi/fortune_system.py:362-368 | the position of an element in the order 木火土金水 |
| Ganzhi.StemElement | fortune_teller/plugins/bazi/fortune_system.py:184-189 | stems come in element pairs: 甲乙 wood through 壬癸 water |
| Ganzhi.RelationsFollowCycles | fortune_teller/plugins/bazi/fortune_system.py:194-200 | the relation table is the generating cycle 木→火→土→金→水 and the controlling cycle two steps ahead, read from both sides, with 比和 on the diagonal |
| Ganzhi.RelationsConverse | fortune_teller/plugins/bazi/fortune_system.py:194-200 | each relation read from the other side is its converse |
| Ganzhi.CountOf | fortune_teller/plugins/bazi/fortune_system.py:363-367 | Python's list.count, never more than the length |
| Ganzhi.Counts | fortune_teller/plugins/bazi/fortune_system.py:362-368 | the five counts in the order 木火土金水 |
| Ganzhi.CountsSum | fortune_teller/plugins/bazi/fortune_system.py:362-368 | the counts add up to the number of elements |
| Ganzhi.PillarElements | fortune_teller/plugins/bazi/fortune_system.py:349-359 | the element of each pillar's stem and branch, in pillar order |
| Ganzhi.FirstMax | fortune_teller/plugins/bazi/fortune_system.py:371 | the first position holding a largest count, as Python's max over a dict in insertion order |
| Ganzhi.FirstMin | fortune_teller/plugins/bazi/fortune_system.py:372 | the first position holding a smallest count |
| ZodiacSigns.FirstMatch | fortune_teller/plugins/zodiac/fortune_system.py:608-639 | the first entry that matches, nothing iff no entry does |
| ZodiacSigns.AquariusFirstEntry | fortune_teller/utils/date_utils.py:124-137 | entry k of the Aquarius-first table runs from its cusp in month k + 1 to the day before the next month's cusp |
| ZodiacSigns.AriesFirstRotated | fortune_teller/plugins/zodiac/fortune_system.py:22-47 | the Aries-first table is the Aquarius-first one rotated by two |
| ZodiacSigns.EntryTest | fortune_teller/utils/date_utils.py:139-148 | an entry matches exactly from its cusp to the day before the next cusp, under either wrap test |
| ZodiacSigns.SignIs | fortune_teller/utils/date_utils.py:124-148 | the date's sign is the sign starting in a month exactly on that entry's days |
| ZodiacSigns.AquariusFirstPartitions | fortune_teller/utils/date_utils.py:124-151 | under either wrap test, an entry of the Aquarius-first table matches a date exactly when it holds the date's sign |
| ZodiacSigns.AriesFirstPartitions | fortune_teller/plugins/zodiac/fortune_system.py:608-639 | an entry of the Aries-first table matches a date exactly when it holds the date's sign |
| ZodiacSigns.TablesListEachSignOnce | fortune_teller/plugins/zodiac/fortune_system.py:22-47 | both table orders list each sign once |
| ZodiacSigns.ScanFindsSign | fortune_teller/plugins/zodiac/fortune_system.py:608-639 | for a partitioning table listing each sign once, exactly one entry matches a date in months 1..12 and the scan returns its sign; in other months nothing matches |
| ZodiacSigns.ScansAgree | mcp/tools/zodiac_converter.py:139-158 | the four lookups' tables and wrap tests all find the same sign, the sign of the date |
| Sections.Save | fortune_teller/plugins/bazi/fortune_system.py:553-558 | the pending lines, joined and stripped, are saved under the current title, overwriting it in place |
| Sections.Format | fortune_teller/plugins/bazi/fortune_system.py:533-578 | the reply is kept; there is at least one section; the order lists exactly the section titles; there is a single section exactly when it is the whole stripped reply under the default title |
| Sections.TitlesFromHeaders | fortune_teller/plugins/bazi/fortune_system.py:545-570 | every title is the default or the title of a header line of the reply |
| Sections.NoHeadersKeepsWhole | fortune_teller/plugins/bazi/fortune_system.py:571-576 | a reply without header lines is kept whole under the default title |
| Sections.DoubleHashIsHeader | fortune_teller/plugins/zodiac/fortune_system.py:573-588 | a line starting with "##" is a header under both markers |
| FormInput.BirthDate | fortune_teller/plugins/bazi/fortune_system.py:256-272 | required; text is parsed as YYYY-MM-DD, a date or datetime is taken as it is, anything else is a ValueError |
| FormInput.BirthTime | fortune_teller/plugins/bazi/fortune_system.py:274-292 | optional; absent or falsy gives none, text is parsed as HH:MM, a time or datetime is taken as it is, anything else is a ValueError |
| Keyboard.Move | fortune_teller/ui/keyboard_input.py:83-86 | Up moves to max(0, idx-1), Down to min(max_index, idx+1), any other key leaves the index |
| Keyboard.IndexAfter | fortune_teller/ui/keyboard_input.py:83-86 | from an index in range the arrows keep it in range; keys without arrows leave it |
| Keyboard.IndexAfterSnoc | fortune_teller/ui/keyboard_input.py:78-92 | each further key moves the index from where the earlier keys left it |
| Keyboard.Show | fortune_teller/ui/keyboard_input.py:76-92 | the menu keeps waiting iff no key is Enter, q/Q or Ctrl+C, highlighting the index the arrows reached; otherwise the first such key decides: Enter selects the index the arrows before it reached, q quits, Ctrl+C interrupts |
| Keyboard.MoveInRange | fortune_teller/ui/keyboard_input.py:83-86 | a step keeps an index in 0..max_index |
| Keyboard.ShowInRange | fortune_teller/ui/keyboard_input.py:76-92 | from an index in range, the selected or still highlighted index stays in 0..max_index over any key sequence |
| Keyboard.IgnoredKey | fortune_teller/ui/keyboard_input.py:76-92 | a key that is not an arrow, Enter, q/Q or Ctrl+C is ignored |
| Keyboard.DownsThenEnter | fortune_teller/ui/keyboard_input.py:76-92 | n presses of Down and then Enter select entry n when the menu has it |
| Keyboard.DownsIndex | fortune_teller/ui/keyboard_input.py:83-86 | n presses of Down from idx reach idx + n when the menu has that entry |
| Keyboard.LanguageOf | fortune_teller/ui/keyboard_input.py:111-114 | entry 0 is English, any other entry Chinese, a quit nothing |
| Keyboard.LanguageOfChoice | fortune_teller/ui/keyboard_input.py:121-125 | the typed fallback: 1 is English, 2 Chinese, anything else nothing |
| Keyboard.PyIndex | fortune_teller/ui/keyboard_input.py:172-173 | Python list indexing: negative indices count from the end, anything outside raises IndexError |
| Keyboard.SpreadOf | fortune_teller/ui/keyboard_input.py:169-176 | indices -4..3 pick a spread (0 single, 3 relationship), others raise IndexError; a quit gives nothing |
| Keyboard.SystemOf | fortune_teller/ui/keyboard_input.py:195-202 | indices -3..2 pick a system (0 bazi, 2 zodiac), others raise IndexError; a quit gives nothing |
| Keyboard.SelectionsMap | fortune_teller/ui/keyboard_input.py:163-202 | every index the menus can return maps to a spread or a system |
| Plugins.Register | fortune_teller/plugins/__init__.py:19-31 | the name maps to the class, every other name is unchanged, a registered name is overwritten |
| Plugins.GetPluginClass | fortune_teller/plugins/__init__.py:33-49 | the registered class, KeyError exactly for an unregistered name |
| Plugins.GetAllPlugins | fortune_teller/plugins/__init__.py:51-58 | exactly the names `get_plugin_class` resolves, each with the same class |
| Plugins.RegisterThenGet | fortune_teller/plugins/__init__.py:19-49 | a class just registered is what the lookup returns |
| Plugins.RegisterLeavesOthers | fortune_teller/plugins/__init__.py:19-49 | registering one name does not change the lookup of another |
| Plugins.RegisterOverwrites | fortune_teller/plugins/__init__.py:27-30 | registering a name twice keeps only the second class |
| Plugins.ImportedSystems | fortune_teller/plugins/__init__.py:19-31 | the three system packages' registrations resolve exactly bazi, tarot and zodiac |
| I18n.LangCode | fortune_teller/i18n/manager.py:30-31 | the code with ".json" appended is the file name |
| I18n.LoadFiles | fortune_teller/i18n/manager.py:29-39 | loading over a listing keeps the code list and the table keys in step, each code listed once |
| I18n.LoadTranslations | fortune_teller/i18n/manager.py:21-39 | a reload starts empty; a missing locales directory leaves no table |
| I18n.LoadFilesKeys | fortune_teller/i18n/manager.py:29-39 | a code is loaded iff it was before or a readable JSON file names it; unreadable files are skipped |
| I18n.AvailableLanguages | fortune_teller/i18n/manager.py:64-66 | every loaded code exactly once |
| I18n.AvailableAfterLoad | fortune_teller/i18n/manager.py:21-39 | after loading an existing directory, a code is available iff a readable JSON file names it |
| I18n.Get | fortune_teller/i18n/manager.py:41-62 | the requested language's text when it has the key; otherwise English's when English has it; the key itself only when neither has it |
| I18n.FallbackIsEnglish | fortune_teller/i18n/manager.py:52-58 | a language without the key answers exactly as English does |
| I18n.GetSources | fortune_teller/i18n/manager.py:41-62 | the answer is the key or a text of the requested or the English table for that key |
| I18n.UntranslatedKey | fortune_teller/i18n/manager.py:60-62 | a key no table has comes back unchanged in every language |
| I18nAgent.Effective | fortune_teller/agents/i18n_agent.py:162-163 | a supported language is kept, any other becomes Chinese |
| I18nAgent.GetText | fortune_teller/agents/i18n_agent.py:160-165 | a supported language answers from its own table, an unsupported one from the Chinese table; a key the table used lacks comes back unchanged |
| I18nAgent.UnsupportedIsChinese | fortune_teller/agents/i18n_agent.py:160-165 | asking in an unsupported language is asking in Chinese |
| I18nAgent.SystemDisplayName | fortune_teller/agents/i18n_agent.py:167-174 | the three systems get their `system_*` text, any other name comes back unchanged |
| I18nAgent.DisplayNamesDistinct | fortune_teller/agents/i18n_agent.py:167-174 | in every language the three names differ from each other and from the bare identifiers |
| I18nAgent.DisplayNameLanguage | fortune_teller/agents/i18n_agent.py:160-174 | English names in English, Chinese names in every other language |

## Left out

- Bus.GetMessage: waiting on an empty inbox is not modelled. With a timeout the source returns None when it expires; with no timeout, the default, the source waits until a message arrives. The model returns nothing at once in both cases.
- Handler tasks spawned by the bus are recorded in order, not run.
- Agent.LoadConfiguration: a threshold or reset time that is not a number is stored by the source and makes the first breaker check raise TypeError; the model keeps the previous value instead. `health_check_interval` is read too, but nothing modelled uses it.
- Agent.HealthStatus: the payload keeps `agent_name`, `state`, `healthy`, `active_sessions`, `circuit_breaker_failures` and `circuit_breaker_open`. It leaves out `uptime_seconds` and `last_heartbeat`, which come from the clock, `message_queue_size`, because the agent's own queue is not modelled, and the `metrics` dict.
- Agent.Dispatch: the `status_response` of `get_status` keeps 3 of its 10 keys: `agent_name`, `state` and `active_sessions`. It leaves out `system_name`, `display_name` and `version`, which the base class sets to `""`, `""` and `"1.0.0"` and each agent class overwrites. It also leaves out `tools_count`, since the agent's tool table is not modelled. `message_handlers_count`, `uptime_seconds`, which comes from the clock, and the `metrics` dict are left out too.
- Agent.ErrorReply: the validation reply leaves out `details` (the `str()` of the exception) and the fixed `suggestions` list, and the timeout and connection replies leave out their fixed `details` text. The generic `error_response` leaves out `error` (`str(error)`) and `timestamp`. The message text of an exception is not modelled.
- Agent.NewMessage: a message leaves out `priority`, `retry_count`, `max_retries` and `timeout`, which nothing modelled reads. Of `AgentMetrics`, only the processed and failed counts are kept. `average_response_time`, which is floating point, and `last_activity`, which comes from the clock, are left out, along with `uptime_seconds` and `memory_usage_mb`.
- `get_status` of the bus and of the state manager: a report of counters the model already exposes.
- State: file I/O errors (a failed unlink, malformed JSON) are not modelled; storage is a map.
- State.UpdateSession: the background persist task is modelled as completing immediately.
- State.Valid: a session file is taken to hold the session its name gives, as `_persist_session` writes it; a file renamed by hand so that its content names another text id is not modelled.
- State.Initialize: a live file whose `session_id` is not text is kept on disk but not made active; the source files it under that non-text key, which no lookup by a text id reaches. The order in which files are listed does not matter once each file holds the session its name gives.
- State.GetSession: the `created_at` that `__post_init__` gives a reloaded session and the refreshed `updated_at` are one clock reading, where the source reads the clock twice.
- State.Stop: the iteration order of the active sessions is the parameter `visit`, and Python's `str()` of a non-text id is the parameter `render`; a session that JSON cannot encode, which the source fails to write and only logs, is not modelled.
- State.ApplyUpdates: `hasattr` on method or dunder names is not modelled; only the ten data fields are attributes.
- State.GetCache: a hit on a cached None is returned as `Some(Null)`; the source returns None, which its callers cannot tell from a miss.
- Text, Calendar: only ASCII digits are digits (Python's `\d` and `int()` also accept other Unicode digits).
- CoreConfig.LoadConfig: a file whose top level parses to something other than a mapping is not modelled; `loaded` is a mapping or nothing.
- CoreConfig: `save_config` only writes the tree to disk and is left out as file I/O.
- ConfigFiles: which parser a file's suffix selects, and the directory creation in `initialize`, are folded into the `FileRead` outcome and the listings passed in.
- ConfigFiles: `watch_config` only records a callback that nothing ever invokes.
- StrandsConfig: YAML anchors that make two entries share one object are not modelled; values are trees.
- Runtime: Python treats `True`, `1` and `1.0` as the same dict key; registry keys here are told apart by their value constructor.
- Runtime.CreateAgent: an agent configured with a non-string name is given the empty text as its name, since an agent's name is text here.
- Runtime: a registered agent is a base agent; the extra handlers a subclass registers and the runtime reference `set_runtime` stores are not part of the registry entry.
- Runtime: the LLM tool's connector setup is the setup outcome of the `World`; the per-agent and per-tool details of `get_status` are left out, only its counts are modelled.
- MasterAgent: the specialist agents' answers after routing are not modelled; a finished collection is the request handed to the specialist (`Routed`).
- MasterAgent: the wording of its error and prompt texts is not modelled; replies are tagged by kind and by the field asked for.
- MasterAgent.AnalyzeIntent: the confidence values are kept as reals but no property of them is stated.
- ChatAgent: the rendering of the message into context lines and the LLM prompt are parameters; the LLM answer and the random fallback choice are parameters.
- ChatAgent.ReadingContextError: slicing a dict reading raises KeyError from Python 3.12 on and TypeError before; the model reports TypeError. The reading-context text itself only feeds the LLM prompt and is not modelled.
- TarotAgent, BaziAgent, ZodiacAgent: the prompts sent to the LLM and the reading texts are left out; the data handed to the reading is modelled.
- BaziAgent: `process_data` calls the converter tool, a parameter here; its fallback branch calls pillar methods (`_get_year_pillar` and the others) that the agent class does not define, so it is not modelled beyond the hour it computes.
- I18nAgent: of the per-language text table only the system display names are written out; other keys are looked up in a table passed in.
- I18n: listing the locales directory and reading the JSON files are parameters; a file that fails to parse is an absent table.
- Keyboard: reading keys from the terminal is the parameter `keys`; drawing the menu and clearing the screen are left out.
- Plugins: the three package imports are modelled as three unconditional `register_plugin` calls; an import that fails is not modelled.
- ZodiacPlugin: the source's Chinese literals are mis-encoded, so signs and elements are datatypes named after the English names; display strings are left out. The accepted question areas are kept as the mis-encoded strings, because the input check compares against them.
- ZodiacPlugin: the transit positions of Venus, Mercury and the planets that use Python's `hash` of a string are left out, because `hash` is salted per process; Mars, Jupiter and Saturn are modelled.
- TarotPlugin: loading the card file (`_load_cards`) is file I/O; the deck is either the default deck or one passed in.
- TarotPicker: the card names and emoji are mis-encoded literals; a card is its id and suit. `draw_cards` writes `reversed` into the shared card dicts; the model returns fresh records, which is what a caller sees of one draw.
- TarotServer: the 0.95 quality score and the other constant report fields are left out; the history it appends to is modelled.
- TarotServer, TarotPicker, TarotPlugin, ChatAgent: every random draw is a parameter; the shuffle consumes one draw per position.
- BaziConverter, ZodiacConverter: floating-point steps are integer floors where the source truncates with `int()`; the command-line `main` functions are left out.
- DateUtils.FormatDate: tuple items are integers; a tuple holding other values is not modelled.
- DateUtils: the lunar conversions are the source's approximation, modelled as written; no claim is made that they match a real lunar calendar.
- Text.Lower: only ASCII letters are folded; Python's `str.lower` also folds other scripts.
- The display module and every `print` are left out.

## Findings

| source | as written | input that shows it | evidently intended | confidence | as-written member | corrected member |
|---|---|---|---|---|---|---|
| fortune_teller/agents/base_agent.py:312-355 | a message rejected by the state or breaker gate raises RuntimeError, and the except branch sets ERROR for every RuntimeError; ERROR is itself rejected by the state gate | five failures, then one message within 60 s: the agent is in ERROR and rejects every later message, however late | the breaker closes after its reset time and the agent handles messages again | not executed | Agent.BreakerRejectionLocksAgent | Agent.HandleMessageFixed |
| fortune_teller/agents/master_agent.py:297-319 | the gender branch fires whenever no gender is stored, resets the step to the menu, then reads `data["birth_date"]` and `data["birth_time"]` | typing "男" right after choosing BaZi: the session goes back to the menu and the reply fails with KeyError | gender completes the request only after the date and the time are stored; before that the prompt for the missing field is repeated | not executed | MasterAgent.GenderFirstFails | MasterAgent.BaziRequestsComplete |
| fortune_teller/runtime/message_bus.py:326-328 | `filtered[-limit:]` with `limit = 0` is `filtered[0:]` | `get_message_history(limit=0)` on a two-message history returns both | at most `limit` messages, none for 0 | not executed | Bus.HistoryLimitZeroReturnsAll | Bus.GetMessageHistoryFixed |

=== FILE: agent.dfy ===
/**
 The base fortune agent: its lifecycle state machine, the per-agent circuit
 breaker, and the `handle_message` request/response contract (state gate,
 breaker gate, handler dispatch or the validate/process/generate pipeline,
 conversion of exceptions into error replies, and session tracking).

 Clock readings are the parameter `now`; the identifiers and timestamps a new
 message would draw from `uuid4()`/`datetime.now()` are the parameter `ids`;
 what a subclass's hooks do is the parameter `pipe` or a `Custom` handler.
 */
module Agent {
  import opened Wrappers
  import opened Values

  datatype State = Initializing | Idle | Busy | Error | ShuttingDown | Shutdown

  function StateName(s: State): string
  {
    match s
    case Initializing => "initializing"
    case Idle => "idle"
    case Busy => "busy"
    case Error => "error"
    case ShuttingDown => "shutting_down"
    case Shutdown => "shutdown"
  }

  datatype Message = Message(
    kind: string,
    sender: string,
    recipient: string,
    sessionId: string,
    language: string,
    payload: Payload,
    timestamp: string,
    correlationId: string,
    messageId: string)

  /** What `uuid4()` and `datetime.now()` would return while a message is built. */
  datatype Draws = Draws(messageId: string, timestamp: string, correlationId: string)

  /**
   `FortuneMessage(...)` with `__post_init__`: a missing message id,
   timestamp or correlation id is filled from `ids`; a given one is kept.
   */
  function NewMessage(kind: string, sender: string, recipient: string, sessionId: string,
                      language: string, payload: Payload, timestamp: Option<string>,
                      correlationId: Option<string>, messageId: Option<string>, ids: Draws): (m: Message)
    ensures m.kind == kind && m.sender == sender && m.recipient == recipient
    ensures m.sessionId == sessionId && m.language == language && m.payload == payload
    ensures m.messageId == (if messageId.Some? then messageId.value else ids.messageId)
    ensures m.timestamp == (if timestamp.Some? then timestamp.value else ids.timestamp)
    ensures m.correlationId == (if correlationId.Some? then correlationId.value else ids.correlationId)
  {
    Message(kind, sender, recipient, sessionId, language, payload,
            timestamp.GetOr(ids.timestamp), correlationId.GetOr(ids.correlationId),
            messageId.GetOr(ids.messageId))
  }

  /** Rebuilding a complete message draws nothing ids: `__post_init__` is idempotent. */
  lemma PostInitIdempotent(m: Message, ids: Draws)
    ensures NewMessage(m.kind, m.sender, m.recipient, m.sessionId, m.language, m.payload,
                       Some(m.timestamp), Some(m.correlationId), Some(m.messageId), ids) == m
  {
  }

  // ---------------------------------------------------------------- circuit breaker

  datatype Breaker = Breaker(failures: nat, lastFailure: real, threshold: int, resetTime: real)

  /** Threshold 5 failures, reset after 60 seconds, no failures yet. */
  const DefaultBreaker: Breaker := Breaker(0, 0.0, 5, 60.0)

  datatype BreakerCheck = BreakerCheck(open: bool, breaker: Breaker)

  /**
   `_is_circuit_breaker_open`: closed below the threshold; at or above it,
   closed (and the failure count zeroed) once more than `resetTime` has passed
   since the last failure, open otherwise.
   */
  function CheckBreaker(b: Breaker, now: real): (r: BreakerCheck)
    ensures r.open <==> b.failures >= b.threshold && now - b.lastFailure <= b.resetTime
    ensures r.open || b.failures < b.threshold ==> r.breaker == b
    ensures !r.open && b.failures >= b.threshold ==> r.breaker == b.(failures := 0)
  {
    if b.failures < b.threshold then BreakerCheck(false, b)
    else if now - b.lastFailure > b.resetTime then BreakerCheck(false, b.(failures := 0))
    else BreakerCheck(true, b)
  }

  /** Asking twice at the same instant gives the same answer. */
  lemma CheckBreakerIdempotent(b: Breaker, now: real)
    ensures CheckBreaker(CheckBreaker(b, now).breaker, now) == CheckBreaker(b, now)
            || (CheckBreaker(b, now).breaker.failures == 0
                && CheckBreaker(CheckBreaker(b, now).breaker, now).open == CheckBreaker(b, now).open)
  {
  }

  /** `_record_failure`: one more failure, stamped with `now`. */
  function RecordFailure(b: Breaker, now: real): (r: Breaker)
    ensures r.failures == b.failures + 1 && r.lastFailure == now
    ensures r.threshold == b.threshold && r.resetTime == b.resetTime
  {
    b.(failures := b.failures + 1, lastFailure := now)
  }

  /** `_record_success`: the failure count returns to zero. */
  function RecordSuccess(b: Breaker): (r: Breaker)
    ensures r.failures == 0 && r.lastFailure == b.lastFailure
    ensures r.threshold == b.threshold && r.resetTime == b.resetTime
  {
    b.(failures := 0)
  }

  /** A run of `_record_failure` calls at the given instants. */
  function RecordFailures(b: Breaker, times: seq<real>): Breaker
    decreases |times|
  {
    if |times| == 0 then b else RecordFailures(RecordFailure(b, times[0]), times[1..])
  }

  lemma {:induction false} RecordFailuresCount(b: Breaker, times: seq<real>)
    ensures RecordFailures(b, times).failures == b.failures + |times|
    ensures |times| > 0 ==> RecordFailures(b, times).lastFailure == times[|times| - 1]
    ensures |times| == 0 ==> RecordFailures(b, times) == b
    ensures RecordFailures(b, times).threshold == b.threshold
    ensures RecordFailures(b, times).resetTime == b.resetTime
    decreases |times|
  {
    if |times| > 0 {
      RecordFailuresCount(RecordFailure(b, times[0]), times[1..]);
      if |times| > 1 {
        assert times[1..][|times[1..]| - 1] == times[|times| - 1];
      }
    }
  }

  /**
   After `k` recorded failures, checked no later than `resetTime` after the
   last of them, the breaker is open exactly when the count reached the
   threshold.
   */
  lemma BreakerOpensAtThreshold(b: Breaker, times: seq<real>, now: real)
    requires |times| > 0 && now - times[|times| - 1] <= b.resetTime
    ensures CheckBreaker(RecordFailures(b, times), now).open <==> b.failures + |times| >= b.threshold
  {
    RecordFailuresCount(b, times);
  }

  /** After a success the breaker is closed at any instant (with a positive threshold). */
  lemma SuccessClosesBreaker(b: Breaker, now: real)
    requires b.threshold > 0
    ensures !CheckBreaker(RecordSuccess(b), now).open
  {
  }

  // ---------------------------------------------------------------- agent

  /** The three handlers every agent registers at construction. */
  datatype Handler = Ping | HealthCheck | GetStatus | Custom(outcome: HandlerOutcome)

  datatype HandlerOutcome = Replies(reply: Message) | Raises(exc: Exc)

  /**
   What a subclass's `validate_input`, `process_data` and `generate_reading`
   do for this message: each stage either raises or hands on; the last one
   yields the reading.
   */
  datatype Pipeline = Pipeline(validate: Option<Exc>, process: Option<Exc>, generate: Result<Payload>)

  /** The user code `handle_message` ran, in order. */
  datatype Stage = RanHandler(kind: string) | Validated | Processed | Generated

  datatype Agent = Agent(
    name: string,
    state: State,
    handlers: map<string, Handler>,
    activeSessions: set<string>,
    processed: nat,
    failed: nat,
    breaker: Breaker)

  /** A freshly constructed agent. */
  function NewAgent(name: string): (a: Agent)
    ensures a.state == Initializing && a.breaker == DefaultBreaker
    ensures a.handlers.Keys == {"ping", "health_check", "get_status"}
    ensures a.activeSessions == {} && a.processed == 0 && a.failed == 0
  {
    Agent(name, Initializing, map["ping" := Ping, "health_check" := HealthCheck, "get_status" := GetStatus],
          {}, 0, 0, DefaultBreaker)
  }

  /** Outcome of a lifecycle call: the new agent and the exception it raised, if any. */
  datatype Transition = Transition(agent: Agent, raised: Option<Exc>)

  /** A configured value as Python compares it with a count: ints and floats, with `True` and `False` as 1 and 0. */
  function NumberOf(v: Value): Option<real>
  {
    match v
    case Int(i) => Some(i as real)
    case Real(r) => Some(r)
    case Bool(b) => Some(if b then 1.0 else 0.0)
    case _ => None
  }

  /** The least integer at or above `x`. */
  function Ceiling(x: real): (c: int)
    ensures c as real - 1.0 < x <= c as real
  {
    -((-x).Floor)
  }

  /**
   `_load_configuration`: the breaker's threshold and reset time are read
   from the agent's config with the defaults 5 and 60.0. A count is compared
   with the configured number, so a threshold `x` acts as the least integer
   at or above `x`. The failure count and its stamp are kept.
   */
  function LoadConfiguration(b: Breaker, config: Payload): (r: Breaker)
    ensures r.failures == b.failures && r.lastFailure == b.lastFailure
    ensures "circuit_breaker_threshold" !in config ==> r.threshold == 5
    ensures "circuit_breaker_reset_time" !in config ==> r.resetTime == 60.0
    ensures "circuit_breaker_threshold" in config && NumberOf(config["circuit_breaker_threshold"]).Some? ==>
              var x := NumberOf(config["circuit_breaker_threshold"]).value;
              r.threshold as real - 1.0 < x <= r.threshold as real
    ensures "circuit_breaker_reset_time" in config && NumberOf(config["circuit_breaker_reset_time"]).Some? ==>
              r.resetTime == NumberOf(config["circuit_breaker_reset_time"]).value
    ensures "circuit_breaker_threshold" in config && NumberOf(config["circuit_breaker_threshold"]).None? ==> r.threshold == b.threshold
    ensures "circuit_breaker_reset_time" in config && NumberOf(config["circuit_breaker_reset_time"]).None? ==> r.resetTime == b.resetTime
  {
    var t := if "circuit_breaker_threshold" in config then NumberOf(config["circuit_breaker_threshold"]) else Some(5.0);
    var rt := if "circuit_breaker_reset_time" in config then NumberOf(config["circuit_breaker_reset_time"]) else Some(60.0);
    b.(threshold := if t.Some? then Ceiling(t.value) else b.threshold,
       resetTime := if rt.Some? then rt.value else b.resetTime)
  }

  /**
   A configured breaker is open exactly when the failure count, compared
   with the configured number as Python compares it, has reached it and the
   last failure is within the reset time.
   */
  lemma ConfiguredBreaker(b: Breaker, config: Payload, now: real)
    requires "circuit_breaker_threshold" in config && NumberOf(config["circuit_breaker_threshold"]).Some?
    ensures var r := LoadConfiguration(b, config);
            CheckBreaker(r, now).open <==>
              && b.failures as real >= NumberOf(config["circuit_breaker_threshold"]).value
              && now - b.lastFailure <= r.resetTime
  {
  }

  /** `initialize`: the configuration is loaded first; IDLE once every setup step succeeded, ERROR and re-raise otherwise. */
  function Initialize(a: Agent, config: Payload, setupFailure: Option<Exc>): (r: Transition)
    ensures r.raised == setupFailure
    ensures r.agent.state == (if setupFailure.None? then Idle else Error)
    ensures r.agent.breaker == LoadConfiguration(a.breaker, config)
    ensures r.agent == a.(state := r.agent.state, breaker := r.agent.breaker)
  {
    var loaded := a.(breaker := LoadConfiguration(a.breaker, config));
    match setupFailure
    case None => Transition(loaded.(state := Idle), None)
    case Some(e) => Transition(loaded.(state := Error), Some(e))
  }

  /** With no breaker keys configured, an initialized agent keeps the constructor's 5-failure, 60-second breaker. */
  lemma DefaultConfiguration(name: string, config: Payload, setupFailure: Option<Exc>)
    requires "circuit_breaker_threshold" !in config && "circuit_breaker_reset_time" !in config
    ensures Initialize(NewAgent(name), config, setupFailure).agent.breaker == DefaultBreaker
  {
  }

  /** `start`: only from IDLE; otherwise a RuntimeError and the agent is in ERROR. */
  function Start(a: Agent, hookFailure: Option<Exc>): (r: Transition)
    ensures a.state != Idle ==> r.raised == Some(RuntimeError) && r.agent.state == Error
    ensures a.state == Idle ==> r.raised == hookFailure
    ensures a.state == Idle ==> r.agent.state == (if hookFailure.None? then Idle else Error)
  {
    if a.state != Idle then Transition(a.(state := Error), Some(RuntimeError))
    else match hookFailure
      case None => Transition(a, None)
      case Some(e) => Transition(a.(state := Error), Some(e))
  }

  /** `stop`: SHUTTING_DOWN before the stop hook runs, whatever the hook does. */
  function Stop(a: Agent, hookFailure: Option<Exc>): (r: Transition)
    ensures r.agent.state == ShuttingDown && r.raised == hookFailure
  {
    Transition(a.(state := ShuttingDown), hookFailure)
  }

  /**
   `shutdown`: stops the agent first unless it is already stopping or stopped;
   if that stop raises, the exception propagates with the agent still
   SHUTTING_DOWN; otherwise the agent is SHUTDOWN before the cleanup hooks run.
   */
  function ShutdownAgent(a: Agent, stopFailure: Option<Exc>, cleanupFailure: Option<Exc>): (r: Transition)
    ensures a.state in {ShuttingDown, Shutdown} || stopFailure.None? ==> r.agent.state == Shutdown
    ensures r.agent.state in {ShuttingDown, Shutdown}
  {
    if a.state != ShuttingDown && a.state != Shutdown && stopFailure.Some? then
      Stop(a, stopFailure)
    else
      Transition(a.(state := Shutdown), cleanupFailure)
  }

  /** A second `shutdown` always ends in SHUTDOWN, whatever either call's hooks did. */
  lemma ShutdownTwice(a: Agent, s1: Option<Exc>, c1: Option<Exc>, s2: Option<Exc>, c2: Option<Exc>)
    ensures ShutdownAgent(ShutdownAgent(a, s1, c1).agent, s2, c2).agent.state == Shutdown
  {
  }

  /** `get_health_status()["healthy"]`. */
  predicate Healthy(a: Agent)
  {
    a.state == Idle || a.state == Busy
  }

  /**
   `get_health_status`: the payload and the agent after the breaker query it
   makes (which may zero an expired failure count).
   */
  function HealthStatus(a: Agent, now: real): (r: (Payload, Agent))
    ensures "healthy" in r.0 && r.0["healthy"] == Bool(a.state == Idle || a.state == Busy)
    ensures "state" in r.0 && r.0["state"] == Str(StateName(a.state))
    ensures "circuit_breaker_open" in r.0 && r.0["circuit_breaker_open"] == Bool(CheckBreaker(a.breaker, now).open)
    ensures r.1 == a.(breaker := CheckBreaker(a.breaker, now).breaker)
  {
    var chk := CheckBreaker(a.breaker, now);
    (map["agent_name" := Str(a.name), "state" := Str(StateName(a.state)),
         "healthy" := Bool(Healthy(a)), "active_sessions" := Int(|a.activeSessions|),
         "circuit_breaker_failures" := Int(a.breaker.failures),
         "circuit_breaker_open" := Bool(chk.open)],
     a.(breaker := chk.breaker))
  }

  /** `_is_recoverable_error`: instances of ConnectionError or TimeoutError. */
  predicate IsRecoverable(e: Exc)
  {
    IsInstance(e, ConnectionError) || IsInstance(e, TimeoutError)
  }

  /** A reply from agent `a` to `m`, as every built-in handler builds it. */
  function Reply(a: Agent, m: Message, kind: string, payload: Payload, ids: Draws): (r: Message)
    ensures r.kind == kind && r.sender == a.name && r.recipient == m.sender
    ensures r.sessionId == m.sessionId && r.language == m.language
    ensures r.correlationId == m.correlationId && r.payload == payload
  {
    NewMessage(kind, a.name, m.sender, m.sessionId, m.language, payload, None, Some(m.correlationId), None, ids)
  }

  /**
   `_handle_error`: the handlers registered for exactly ValueError,
   TimeoutError and ConnectionError (looked up by the exception's own type),
   or else a generic `error_response` naming the type and whether it is
   recoverable.
   */
  function ErrorReply(a: Agent, e: Exc, m: Message, ids: Draws): (r: Message)
    ensures r.recipient == m.sender && r.sessionId == m.sessionId && r.correlationId == m.correlationId
    ensures r.sender == a.name
    ensures e == ValueError ==> r.kind == "validation_error_response"
    ensures e == TimeoutError ==> r.kind == "timeout_error_response"
    ensures e == ConnectionError ==> r.kind == "connection_error_response"
    ensures e !in {ValueError, TimeoutError, ConnectionError} ==>
              && r.kind == "error_response"
              && "error_type" in r.payload && "recoverable" in r.payload
              && r.payload["error_type"] == Str(TypeName(e))
              && r.payload["recoverable"] == Bool(IsRecoverable(e))
  {
    if e == ValueError then
      Reply(a, m, "validation_error_response", map["error" := Str("输入验证失败")], ids)
    else if e == TimeoutError then
      Reply(a, m, "timeout_error_response", map["error" := Str("请求超时"), "retry_suggested" := Bool(true)], ids)
    else if e == ConnectionError then
      Reply(a, m, "connection_error_response", map["error" := Str("连接失败"), "retry_suggested" := Bool(true)], ids)
    else
      Reply(a, m, "error_response",
            map["error_type" := Str(TypeName(e)), "agent" := Str(a.name), "recoverable" := Bool(IsRecoverable(e))],
            ids)
  }

  /** Only instances of ConnectionError/TimeoutError that are not exactly those classes reach the generic reply as recoverable. */
  lemma GenericReplyRecoverable(a: Agent, e: Exc, m: Message, ids: Draws)
    requires ErrorReply(a, e, m, ids).kind == "error_response"
    ensures ErrorReply(a, e, m, ids).payload["recoverable"] == Bool(true) <==> e.Derived? && IsRecoverable(e)
  {
  }

  datatype Dispatched = Dispatched(outcome: HandlerOutcome, ran: seq<Stage>)

  /** `_default_message_processing`: validate, process, generate, reply `<type>_response`. */
  function DefaultProcessing(a: Agent, m: Message, pipe: Pipeline, ids: Draws): (d: Dispatched)
    ensures d.ran in [[Validated], [Validated, Processed], [Validated, Processed, Generated]]
    ensures d.outcome.Replies? <==> d.ran == [Validated, Processed, Generated] && pipe.generate.Ok?
    ensures d.outcome.Replies? ==> d.outcome.reply == Reply(a, m, m.kind + "_response", pipe.generate.value, ids)
  {
    if pipe.validate.Some? then Dispatched(Raises(pipe.validate.value), [Validated])
    else if pipe.process.Some? then Dispatched(Raises(pipe.process.value), [Validated, Processed])
    else match pipe.generate
      case Ok(reading) => Dispatched(Replies(Reply(a, m, m.kind + "_response", reading, ids)), [Validated, Processed, Generated])
      case Err(e) => Dispatched(Raises(e), [Validated, Processed, Generated])
  }

  /** The handler registered for the message type, or the default pipeline. */
  function Dispatch(a: Agent, m: Message, now: real, pipe: Pipeline, ids: Draws): (d: Dispatched)
    ensures m.kind in a.handlers ==> d.ran == [RanHandler(m.kind)]
    ensures m.kind !in a.handlers ==> |d.ran| > 0 && d.ran[0] == Validated
    ensures m.kind in a.handlers && !a.handlers[m.kind].Custom? ==>
              d.outcome.Replies? && d.outcome.reply.recipient == m.sender
              && d.outcome.reply.correlationId == m.correlationId && d.outcome.reply.sender == a.name
    ensures m.kind in a.handlers && a.handlers[m.kind] == Ping ==> d.outcome.reply.kind == "pong"
    ensures m.kind in a.handlers && a.handlers[m.kind].Custom? ==> d.outcome == a.handlers[m.kind].outcome
    ensures m.kind !in a.handlers ==> (d.outcome.Replies? <==> pipe.validate.None? && pipe.process.None? && pipe.generate.Ok?)
  {
    if m.kind in a.handlers then
      var out := match a.handlers[m.kind]
        case Ping => Replies(Reply(a, m, "pong", map["timestamp" := Str(ids.timestamp)], ids))
        case HealthCheck => Replies(Reply(a, m, "health_check_response", HealthStatus(a, now).0, ids))
        case GetStatus =>
          Replies(Reply(a, m, "status_response",
                        map["agent_name" := Str(a.name), "state" := Str(StateName(a.state)),
                            "active_sessions" := Int(|a.activeSessions|)], ids))
        case Custom(o) => o;
      Dispatched(out, [RanHandler(m.kind)])
    else DefaultProcessing(a, m, pipe, ids)
  }

  /** What `handle_message` returned and the agent afterwards; `caught` is the exception its handler caught. */
  datatype Handled = Handled(agent: Agent, response: Message, ran: seq<Stage>, caught: Option<Exc>)

  /** The two checks before any user code runs. */
  predicate Gated(a: Agent, now: real)
  {
    (a.state != Idle && a.state != Busy) || CheckBreaker(a.breaker, now).open
  }

  /** The `except` branch of `handle_message`, then the `finally`. */
  function Failed(a: Agent, m: Message, e: Exc, now: real, ids: Draws, ran: seq<Stage>): Handled
  {
    Handled(a.(failed := a.failed + 1,
               breaker := RecordFailure(a.breaker, now),
               state := if IsInstance(e, RuntimeError) then Error else Idle,
               activeSessions := a.activeSessions - {m.sessionId}),
            ErrorReply(a, e, m, ids), ran, Some(e))
  }

  /** `handle_message`. */
  function HandleMessage(a: Agent, m: Message, now: real, pipe: Pipeline, ids: Draws): (r: Handled)
    // bookkeeping that holds on every path
    ensures r.agent.activeSessions == a.activeSessions - {m.sessionId}
    ensures r.agent.name == a.name && r.agent.handlers == a.handlers
    ensures r.agent.processed + r.agent.failed == a.processed + a.failed + 1
    // the gates: nothing runs, a failure is recorded, ERROR follows
    ensures Gated(a, now) ==> && r.ran == [] && r.caught == Some(RuntimeError)
                              && r.response.kind == "error_response"
                              && r.agent.state == Error
                              && r.agent.breaker == RecordFailure(a.breaker, now)
    // success: IDLE, one more processed, breaker failures not reset
    ensures r.caught.None? ==> && !Gated(a, now)
                               && r.agent.state == Idle
                               && r.agent.processed == a.processed + 1
                               && r.agent.breaker == CheckBreaker(a.breaker, now).breaker
    // failure: one more failed and one more breaker failure; ERROR iff a RuntimeError
    ensures r.caught.Some? ==> && r.agent.failed == a.failed + 1
                               && r.agent.breaker.failures
                                  == (if Gated(a, now) then a.breaker.failures
                                      else CheckBreaker(a.breaker, now).breaker.failures) + 1
                               && r.agent.breaker.lastFailure == now
                               && (r.agent.state == Error <==> IsInstance(r.caught.value, RuntimeError))
                               && (r.agent.state == Error || r.agent.state == Idle)
                               && r.response == ErrorReply(a, r.caught.value, m, ids)
  {
    if a.state != Idle && a.state != Busy then Failed(a, m, RuntimeError, now, ids, [])
    else
      var chk := CheckBreaker(a.breaker, now);
      if chk.open then Failed(a, m, RuntimeError, now, ids, [])
      else
        var busy := a.(state := Busy, breaker := chk.breaker, activeSessions := a.activeSessions + {m.sessionId});
        var d := Dispatch(busy, m, now, pipe, ids);
        match d.outcome
        case Replies(reply) =>
          Handled(busy.(state := Idle, processed := busy.processed + 1,
                        activeSessions := a.activeSessions - {m.sessionId}), reply, d.ran, None)
        case Raises(e) =>
          var f := Failed(busy, m, e, now, ids, d.ran);
          assert ErrorReply(busy, e, m, ids) == ErrorReply(a, e, m, ids);
          f
  }

  /** Past the gates, a registered handler runs alone, otherwise the three pipeline stages run in order. */
  lemma HandleMessageDispatch(a: Agent, m: Message, now: real, pipe: Pipeline, ids: Draws)
    requires !Gated(a, now)
    ensures var r := HandleMessage(a, m, now, pipe, ids);
            m.kind in a.handlers ==> r.ran == [RanHandler(m.kind)]
    ensures var r := HandleMessage(a, m, now, pipe, ids);
            m.kind !in a.handlers ==>
              && (r.caught.None? <==> r.ran == [Validated, Processed, Generated] && pipe.generate.Ok?)
              && (r.caught.None? ==> && r.response.kind == m.kind + "_response"
                                     && r.response.correlationId == m.correlationId
                                     && r.response.recipient == m.sender
                                     && r.response.payload == pipe.generate.value)
    ensures var r := HandleMessage(a, m, now, pipe, ids);
            m.kind in a.handlers && a.handlers[m.kind] == Ping ==>
              r.caught.None? && r.response.kind == "pong" && r.response.correlationId == m.correlationId
    ensures var r := HandleMessage(a, m, now, pipe, ids);
            m.kind in a.handlers && a.handlers[m.kind] == HealthCheck ==>
              && r.caught.None? && "healthy" in r.response.payload && "circuit_breaker_open" in r.response.payload
              && r.response.payload["healthy"] == Bool(true)
              && r.response.payload["circuit_breaker_open"] == Bool(false)
  {
  }

  /** Past the gates, some user code always runs. */
  lemma HandleMessageRuns(a: Agent, m: Message, now: real, pipe: Pipeline, ids: Draws)
    requires !Gated(a, now)
    ensures HandleMessage(a, m, now, pipe, ids).ran != []
  {
    var busy := a.(state := Busy, breaker := CheckBreaker(a.breaker, now).breaker,
                   activeSessions := a.activeSessions + {m.sessionId});
    assert Dispatch(busy, m, now, pipe, ids).ran != [];
  }

  /** A validation failure in the pipeline is answered with `validation_error_response`. */
  lemma ValueErrorReply(a: Agent, m: Message, now: real, pipe: Pipeline, ids: Draws)
    requires !Gated(a, now) && m.kind !in a.handlers && pipe.validate == Some(ValueError)
    ensures HandleMessage(a, m, now, pipe, ids).response.kind == "validation_error_response"
    ensures HandleMessage(a, m, now, pipe, ids).ran == [Validated]
    ensures HandleMessage(a, m, now, pipe, ids).agent.state == Idle
  {
  }

  // ---------------------------------------------------------------- lock-out

  datatype Request = Request(msg: Message, now: real, pipe: Pipeline, ids: Draws)

  /** `handle_message` called on each request in turn. */
  function HandleAll(a: Agent, reqs: seq<Request>): (r: (Agent, seq<Handled>))
    ensures |r.1| == |reqs|
    decreases |reqs|
  {
    if |reqs| == 0 then (a, [])
    else
      var h := HandleMessage(a, reqs[0].msg, reqs[0].now, reqs[0].pipe, reqs[0].ids);
      var rest := HandleAll(h.agent, reqs[1..]);
      (rest.0, [h] + rest.1)
  }

  /** An agent in ERROR rejects every later request without running any user code. */
  lemma {:induction false} ErrorIsAbsorbing(a: Agent, reqs: seq<Request>)
    requires a.state == Error
    ensures HandleAll(a, reqs).0.state == Error
    ensures forall i :: 0 <= i < |reqs| ==>
              HandleAll(a, reqs).1[i].ran == [] && HandleAll(a, reqs).1[i].response.kind == "error_response"
    decreases |reqs|
  {
    if |reqs| > 0 {
      var h := HandleMessage(a, reqs[0].msg, reqs[0].now, reqs[0].pipe, reqs[0].ids);
      ErrorIsAbsorbing(h.agent, reqs[1..]);
      var r := HandleAll(a, reqs);
      forall i | 0 <= i < |reqs|
        ensures r.1[i].ran == [] && r.1[i].response.kind == "error_response"
      {
        if i > 0 {
          assert r.1[i] == HandleAll(h.agent, reqs[1..]).1[i - 1];
        }
      }
    }
  }

  /**
   As written, the first message the open breaker turns away puts the agent
   in ERROR (the rejection is a RuntimeError), and from then on every
   message is rejected, however long after the last failure it arrives.
   */
  lemma BreakerRejectionLocksAgent(a: Agent, first: Request, later: seq<Request>)
    requires a.state == Idle && CheckBreaker(a.breaker, first.now).open
    ensures HandleMessage(a, first.msg, first.now, first.pipe, first.ids).agent.state == Error
    ensures forall i :: 0 <= i < |later| ==>
              HandleAll(HandleMessage(a, first.msg, first.now, first.pipe, first.ids).agent, later).1[i].ran == []
  {
    var h := HandleMessage(a, first.msg, first.now, first.pipe, first.ids);
    ErrorIsAbsorbing(h.agent, later);
  }

  /**
   `handle_message` with the breaker and state gates corrected: a rejected
   message is answered and counted as failed, but it neither moves the agent
   to ERROR nor counts as a new breaker failure.
   */
  function HandleMessageFixed(a: Agent, m: Message, now: real, pipe: Pipeline, ids: Draws): (r: Handled)
    ensures Gated(a, now) ==> && r.ran == [] && r.caught == Some(RuntimeError)
                              && r.agent.state == a.state && r.agent.breaker == a.breaker
                              && r.agent.failed == a.failed + 1
    ensures !Gated(a, now) ==> r == HandleMessage(a, m, now, pipe, ids)
    ensures r.agent.activeSessions == a.activeSessions - {m.sessionId}
  {
    if Gated(a, now) then
      Handled(a.(failed := a.failed + 1, activeSessions := a.activeSessions - {m.sessionId}),
              ErrorReply(a, RuntimeError, m, ids), [], Some(RuntimeError))
    else HandleMessage(a, m, now, pipe, ids)
  }

  /**
   With the correction, a message arriving more than `resetTime` after the
   last failure is handled again: the breaker has closed and user code runs.
   */
  lemma FixedBreakerRecovers(a: Agent, first: Request, second: Request)
    requires a.state == Idle && CheckBreaker(a.breaker, first.now).open
    requires second.now - a.breaker.lastFailure > a.breaker.resetTime
    ensures HandleMessageFixed(a, first.msg, first.now, first.pipe, first.ids).ran == []
    ensures HandleMessageFixed(HandleMessageFixed(a, first.msg, first.now, first.pipe, first.ids).agent,
                               second.msg, second.now, second.pipe, second.ids).ran != []
  {
    var h := HandleMessageFixed(a, first.msg, first.now, first.pipe, first.ids);
    assert h.agent.state == Idle && h.agent.breaker == a.breaker;
    assert !Gated(h.agent, second.now);
    HandleMessageRuns(h.agent, second.msg, second.now, second.pipe, second.ids);
  }
}

=== FILE: bazi_agent.dfy ===
/**
 The BaZi agent: the payload check that asks for a missing birth date or
 time and parses text fields, and the hour of birth it hands to the pillar
 calculator.
 */
module BaziAgent {
  import opened Wrappers
  import opened Calendar
  import opened Values
  import Text

  /** A birth date or time as validation leaves it: parsed from text, or any other value kept as it came. */
  datatype BirthDate = DateParsed(date: Date) | DateKept(v: Value)
  datatype BirthTime = TimeParsed(time: Time) | TimeKept(v: Value)

  /** The fields asked for when the date or the time is missing. */
  const MissingFields: seq<string> := ["birth_date", "birth_time", "gender", "location"]

  const DefaultLocation: string := "中国"
  const UnknownGender: string := "未知"
  const DefaultQuestion: string := "请为我分析八字命理"

  datatype Validation =
    | NeedInput(missing: seq<string>, birthDate: Value, birthTime: Value, gender: Value, name: Value, location: Value)
    | BadFormat
    | Valid(date: BirthDate, time: BirthTime, gender: Value, name: Value, location: Value, question: Value)

  /** A text field must parse; any other value is kept. */
  function ParseDateField(v: Value): (r: Result<BirthDate>)
    ensures v.Str? ==> (r.Ok? <==> ParseDate(v.s).Ok?) && (r.Ok? ==> r.value == DateParsed(ParseDate(v.s).value))
    ensures !v.Str? ==> r == Ok(DateKept(v))
  {
    if v.Str? then
      match ParseDate(v.s)
      case Ok(d) => Ok(DateParsed(d))
      case Err(e) => Err(e)
    else Ok(DateKept(v))
  }

  function ParseTimeField(v: Value): (r: Result<BirthTime>)
    ensures v.Str? ==> (r.Ok? <==> ParseTime(v.s).Ok?) && (r.Ok? ==> r.value == TimeParsed(ParseTime(v.s).value))
    ensures !v.Str? ==> r == Ok(TimeKept(v))
  {
    if v.Str? then
      match ParseTime(v.s)
      case Ok(t) => Ok(TimeParsed(t))
      case Err(e) => Err(e)
    else Ok(TimeKept(v))
  }

  /**
   `validate_input(message)`: a falsy date or time asks for the four fields
   and echoes what was given; text is parsed as YYYY-MM-DD and HH:MM and a
   failure is a format error; otherwise the gender defaults to 未知, the
   location to 中国 and the question to its default.
   */
  function ValidateInput(p: Payload): (r: Validation)
    ensures r.NeedInput? <==> !Truthy(GetOrNull(p, "birth_date")) || !Truthy(GetOrNull(p, "birth_time"))
    ensures r.NeedInput? ==> && r.missing == MissingFields
                             && r.birthDate == GetOrNull(p, "birth_date") && r.birthTime == GetOrNull(p, "birth_time")
                             && r.location == GetOr(p, "location", Str(DefaultLocation))
    ensures r.BadFormat? <==> !r.NeedInput? && (ParseDateField(p["birth_date"]).Err? || ParseTimeField(p["birth_time"]).Err?)
    ensures r.Valid? ==> && r.date == ParseDateField(p["birth_date"]).value
                         && r.time == ParseTimeField(p["birth_time"]).value
                         && (r.date.DateParsed? ==> ValidDate(r.date.date))
                         && (r.time.TimeParsed? ==> ValidTime(r.time.time))
                         && (Truthy(GetOrNull(p, "gender")) ==> r.gender == p["gender"])
                         && (!Truthy(GetOrNull(p, "gender")) ==> r.gender == Str(UnknownGender))
                         && r.name == GetOr(p, "name", Str(""))
                         && r.location == GetOr(p, "location", Str(DefaultLocation))
                         && r.question == GetOr(p, "question", Str(DefaultQuestion))
  {
    var birthDate := GetOrNull(p, "birth_date");
    var birthTime := GetOrNull(p, "birth_time");
    var gender := GetOrNull(p, "gender");
    var name := GetOr(p, "name", Str(""));
    var location := GetOr(p, "location", Str(DefaultLocation));
    if !Truthy(birthDate) || !Truthy(birthTime) then
      NeedInput(MissingFields, birthDate, birthTime, gender, name, location)
    else
      match ParseDateField(birthDate)
      case Err(_) => BadFormat
      case Ok(date) =>
        match ParseTimeField(birthTime)
        case Err(_) => BadFormat
        case Ok(time) =>
          Valid(date, time, if Truthy(gender) then gender else Str(UnknownGender), name, location,
                GetOr(p, "question", Str(DefaultQuestion)))
  }

  /** Noon, used when there is no time or its text does not start with a number. */
  const DefaultHour: int := 12

  /** The text before the first colon (all of it when there is none). */
  function BeforeColon(text: string): (r: string)
    ensures ':' !in r && r <= text
  {
    if |text| == 0 || text[0] == ':' then "" else [text[0]] + BeforeColon(text[1..])
  }

  /** `BeforeColon` is the first part `text.split(":")` gives. */
  lemma {:induction false} BeforeColonIsFirstPart(text: string)
    ensures BeforeColon(text) == Text.Split(text, ':')[0]
  {
    if |text| > 0 && text[0] != ':' {
      BeforeColonIsFirstPart(text[1..]);
    }
  }

  /** Text without a colon is its own first part. */
  lemma {:induction false} BeforeColonWhole(text: string)
    requires ':' !in text
    ensures BeforeColon(text) == text
  {
    if |text| > 0 {
      assert text == [text[0]] + text[1..];
      BeforeColonWhole(text[1..]);
    }
  }

  /** `int(text.split(":")[0])`, or noon when that raises. */
  function TextHour(text: string): int
  {
    match Text.ParseInt(BeforeColon(text))
    case Some(h) => h
    case None => DefaultHour
  }

  /**
   The hour `process_data` computes: noon for a falsy time, the hour before
   the first colon of text, the hour of a time object; any other value has
   no `hour` attribute.
   */
  function Hour(t: BirthTime): (r: Result<int>)
    ensures t.TimeParsed? ==> r == Ok(t.time.hour)
    ensures t.TimeKept? && !Truthy(t.v) ==> r == Ok(DefaultHour)
    ensures t.TimeKept? && t.v.Str? && |t.v.s| > 0 ==> r == Ok(TextHour(t.v.s))
    ensures r.Err? ==> t.TimeKept? && Truthy(t.v) && !t.v.Str?
    ensures t.TimeKept? && Truthy(t.v) && !t.v.Str? ==> r.Err?
    ensures r.Err? ==> r.error == AttributeError
  {
    match t
    case TimeParsed(time) => Ok(time.hour)
    case TimeKept(v) =>
      match v
      case Str(s) => if |s| == 0 then Ok(DefaultHour) else Ok(TextHour(s))
      case _ => if Truthy(v) then Err(AttributeError) else Ok(DefaultHour)
  }

  /**
   Reading the hour off the HH:MM text and off the time parsed from it give
   the same hour, so a time that reached the agent still as text is placed
   in the same two-hour period.
   */
  lemma TextHourAgrees(time: Time)
    requires ValidTime(time)
    ensures ParseTimeField(Str(TimeFormat(time))) == Ok(TimeParsed(time))
    ensures Hour(TimeKept(Str(TimeFormat(time)))) == Hour(ParseTimeField(Str(TimeFormat(time))).value) == Ok(time.hour)
  {
    ParseTimeRoundTrip(time);
    var h := Text.FormatInt(time.hour, 2);
    var m := Text.FormatInt(time.minute, 2);
    NoSeparator(h, ':');
    NoSeparator(m, ':');
    assert Text.Join([h, m], ':') == h + ":" + Text.Join([m], ':');
    assert TimeFormat(time) == Text.Join([h, m], ':');
    Text.SplitJoin([h, m], ':');
    Text.FormatIntRoundTrip(time.hour, 2);
    BeforeColonIsFirstPart(TimeFormat(time));
  }

  /** A validated payload whose time was text always yields an hour of the day. */
  lemma ValidatedHourInDay(p: Payload)
    requires ValidateInput(p).Valid? && p["birth_time"].Str?
    ensures Hour(ValidateInput(p).time).Ok? && 0 <= Hour(ValidateInput(p).time).value < 24
  {
  }

  /** Text that reaches the hour parsing unvalidated: the number before the colon is taken as it is, even past 23. */
  lemma HourPastDay()
    ensures Hour(TimeKept(Str("25:99"))) == Ok(25)
  {
    assert BeforeColon("25:99") == "25";
    assert Text.AllDigits("25");
    Text.TwoDigitsValue("25");
  }

  /** Text with no number before the colon, such as "noon", gives noon. */
  lemma HourOfWord(word: string)
    requires |word| > 0 && ':' !in word
    requires !Text.IsSpace(word[0]) && !Text.IsDigit(word[0]) && word[0] != '+' && word[0] != '-'
    ensures Hour(TimeKept(Str(word))) == Ok(DefaultHour)
  {
    BeforeColonWhole(word);
    Text.ParseIntLetterStart(word);
  }
}

=== FILE: bazi_converter.dfy ===
/**
 The command-line BaZi converter: the four pillars of a birth date and hour
 from fixed tables and the integer Julian-day formula, with element and
 yin/yang tallies. It is a second, independent calculator; the lemmas at the
 end compare it with the plugin's pillars and with the shichen binning of the
 date tool.
 */
module BaziConverter {
  import opened Wrappers
  import opened Calendar
  import opened Ganzhi
  import BaziPlugin
  import Tools

  /** 甲子 year of the sixty-year count. */
  const BaseYear: int := 1984

  /** `get_stem_branch_from_year(year)`: the offset from 1984 mod 60, then mod 10 and mod 12. */
  function YearPillar(year: int): (p: Pillar)
    ensures ValidPillar(p)
    ensures p == CyclePillar(year - 4)
  {
    var offset := (year - BaseYear) % 60;
    CycleMod(year - BaseYear);
    CycleShift(year - 4, -33);
    CyclePillar(offset)
  }

  /** The converter and the plugin name the same year pillar. */
  lemma YearAgrees(year: int)
    ensures YearPillar(year) == BaziPlugin.YearPillar(year)
  {
  }

  /** `month_branches`: 寅 for the first month, through 丑 for the twelfth. */
  const MonthBranches: seq<Branch> := [2, 3, 4, 5, 6, 7, 8, 9, 10, 11, 0, 1]

  /** `month_stem_start`, indexed by the year stem: 甲己之年丙作首. */
  const MonthStemStart: seq<Stem> := [2, 4, 6, 8, 0, 2, 4, 6, 8, 0]

  /** The start table is `2·ys + 2` mod 10. */
  lemma MonthStemStartClosedForm(ys: Stem)
    ensures MonthStemStart[ys] == (2 * ys + 2) % 10
  {
  }

  /**
   `get_stem_branch_from_month(year, month)`: `month_branches[month - 1]`
   with Python's negative indexing, so any month from -11 to 12 has a
   branch and every other month is an IndexError.
   */
  function MonthPillar(year: int, month: int): (r: Result<Pillar>)
    ensures r.Ok? <==> -11 <= month <= 12
    ensures r.Err? ==> r.error == IndexError
    ensures r.Ok? ==> && ValidPillar(r.value)
                      && r.value.branch == (month + 1) % 12
                      && r.value.stem == (2 * YearPillar(year).stem + 2 + month - 1) % 10
  {
    if !(-11 <= month <= 12) then Err(IndexError)
    else
      var i := if month - 1 < 0 then month - 1 + 12 else month - 1;
      var ys := YearPillar(year).stem;
      MonthFields(ys, month, i);
      Ok(Pillar((MonthStemStart[ys] + month - 1) % 10, MonthBranches[i]))
  }

  lemma MonthFields(ys: Stem, month: int, i: int)
    requires -11 <= month <= 12
    requires i == if month - 1 < 0 then month - 1 + 12 else month - 1
    ensures MonthBranches[i] == (month + 1) % 12
    ensures (MonthStemStart[ys] + month - 1) % 10 == (2 * ys + 2 + month - 1) % 10
    ensures ((MonthStemStart[ys] + month - 1) % 10) % 2 == MonthBranches[i] % 2
  {
    MonthBranchAt(month, i);
    MonthStemAt(ys, month);
    MonthParity(ys, month, i);
  }

  /** The branch table is `i + 2` mod 12, written without the modulus. */
  lemma MonthBranchesClosed(i: int)
    requires 0 <= i < 12
    ensures MonthBranches[i] == if i < 10 then i + 2 else i - 10
  {
  }

  lemma MonthBranchAt(month: int, i: int)
    requires -11 <= month <= 12
    requires i == if month - 1 < 0 then month - 1 + 12 else month - 1
    ensures MonthBranches[i] == (month + 1) % 12
  {
    MonthBranchesClosed(i);
    if month <= -2 {
      ModOf(month + 1, 12, -1, month + 13);
    } else if month <= 10 {
      ModOf(month + 1, 12, 0, month + 1);
    } else {
      ModOf(month + 1, 12, 1, month - 11);
    }
  }

  lemma MonthStemAt(ys: Stem, month: int)
    ensures (MonthStemStart[ys] + month - 1) % 10 == (2 * ys + 2 + month - 1) % 10
  {
    var start := MonthStemStart[ys];
    MonthStemStartClosedForm(ys);
    var x := start + month - 1;
    assert 2 * ys + 2 == 10 * ((2 * ys + 2) / 10) + start;
    assert x == 10 * (x / 10) + x % 10;
    ModOf(2 * ys + 2 + month - 1, 10, (2 * ys + 2) / 10 + x / 10, x % 10);
  }

  lemma MonthParity(ys: Stem, month: int, i: int)
    requires -11 <= month <= 12
    requires i == if month - 1 < 0 then month - 1 + 12 else month - 1
    requires MonthBranches[i] == (month + 1) % 12
    ensures ((MonthStemStart[ys] + month - 1) % 10) % 2 == MonthBranches[i] % 2
  {
    var start := MonthStemStart[ys];
    var x := start + month - 1;
    CycleParity(x);
    CycleParity(month + 1);
    assert start == 2 * (start / 2);
    EvenShift(x, start / 2);
    EvenShift(month + 1, 1);
  }

  /**
   For the twelve months the two calculators share the branch, and the
   converter's stem runs two ahead of the plugin's: the plugin starts the
   甲 year's first month at 甲, the converter at 丙.
   */
  lemma MonthVersusPlugin(year: int, month: int)
    requires 1 <= month <= 12
    ensures MonthPillar(year, month).Ok?
    ensures MonthPillar(year, month).value.branch == BaziPlugin.MonthPillar(year, month).branch
    ensures MonthPillar(year, month).value.stem == (BaziPlugin.MonthPillar(year, month).stem + 2) % 10
  {
    var ys: int := YearPillar(year).stem;
    var a := 2 * ys;
    var x: int := a % 10 + month - 1;
    assert a == 10 * (a / 10) + a % 10;
    assert x + 2 == 10 * ((x + 2) / 10) + (x + 2) % 10;
    assert x == 10 * (x / 10) + x % 10;
    ModOf(a + month + 1, 10, a / 10 + (x + 2) / 10, (x + 2) % 10);
    ModOf(x % 10 + 2, 10, (x + 2) / 10 - x / 10, (x + 2) % 10);
  }

  /**
   `int(365.25 * Y)` and `int(30.6001 * M)` as integer arithmetic: both
   products are positive for the dates reached, so `int` is the floor.
   */
  function JulianDay(d: Date): int
    requires ValidDate(d)
  {
    var y := if d.month <= 2 then d.year - 1 else d.year;
    var m := if d.month <= 2 then d.month + 12 else d.month;
    var a := y / 100;
    var b := 2 - a + a / 4;
    (1461 * (y + 4716)) / 4 + (306001 * (m + 1)) / 10000 + d.day + b - 1524
  }

  /** `int(30.6001 * M)` for the months 4..15 the formula reaches. */
  lemma MonthTerms()
    ensures (306001 * 4) / 10000 == 122 && (306001 * 5) / 10000 == 153 && (306001 * 6) / 10000 == 183
    ensures (306001 * 7) / 10000 == 214 && (306001 * 8) / 10000 == 244 && (306001 * 9) / 10000 == 275
    ensures (306001 * 10) / 10000 == 306 && (306001 * 11) / 10000 == 336 && (306001 * 12) / 10000 == 367
    ensures (306001 * 13) / 10000 == 397 && (306001 * 14) / 10000 == 428 && (306001 * 15) / 10000 == 459
  {
  }

  lemma QuarterDays(y: int)
    requires y >= 0
    ensures (1461 * (y + 4716)) / 4 == 365 * y + y / 4 + 1722519
  {
    var q, r := y / 4, y % 4;
    assert 1461 * (y + 4716) == 4 * (365 * y + q + 1722519) + r;
  }

  lemma Centuries(y: int)
    requires y >= 0
    ensures (y / 100) / 4 == y / 400
  {
    var a := y / 100;
    var q := a / 4;
    assert y == 400 * q + 100 * (a % 4) + y % 100;
  }

  /** The leap-day count up to `y` exceeds the one up to `y - 1` exactly in a leap year. */
  lemma LeapStep(y: int)
    requires y >= 1
    ensures (y / 4 - y / 100 + y / 400) - ((y - 1) / 4 - (y - 1) / 100 + (y - 1) / 400) == if IsLeap(y) then 1 else 0
  {
    DivStep(y, 4);
    DivStep(y, 100);
    DivStep(y, 400);
    if y % 400 == 0 {
      ModOf100(y, 4 * (y / 400));
      ModOf4(y, 100 * (y / 400));
    }
    if y % 100 == 0 {
      ModOf4(y, 25 * (y / 100));
    }
  }

  lemma DivStep(y: int, k: int)
    requires k == 4 || k == 100 || k == 400
    ensures y / k - (y - 1) / k == if y % k == 0 then 1 else 0
  {
  }

  lemma ModOf4(y: int, q: int)
    requires y == 4 * q
    ensures y % 4 == 0
  {
  }

  lemma ModOf100(y: int, q: int)
    requires y == 100 * q
    ensures y % 100 == 0
  {
  }

  /** The days before month `m` of `y` without the leap day. */
  function CommonDaysBefore(m: int): int
    requires 1 <= m <= 12
  {
    [0, 31, 59, 90, 120, 151, 181, 212, 243, 273, 304, 334][m - 1]
  }

  /**
   The Julian-day formula is the proleptic Gregorian day number shifted by a
   constant: 0001-01-01, ordinal 1, is Julian day 1721426.
   */
  lemma JulianDayIsOrdinal(d: Date)
    requires ValidDate(d)
    ensures JulianDay(d) == Ordinal(d) + 1721425
  {
    var y := if d.month <= 2 then d.year - 1 else d.year;
    var m := if d.month <= 2 then d.month + 12 else d.month;
    JulianDayFormula(d);
    MonthTermDiff(d.month);
    assert DaysBeforeMonth(d.year, d.month) == CommonDaysBefore(d.month) + (if d.month > 2 && IsLeap(d.year) then 1 else 0);
    if d.month <= 2 {
      assert DaysBeforeYear(d.year) == 365 * y + y / 4 - y / 100 + y / 400;
    } else {
      LeapStep(y);
      assert DaysBeforeYear(d.year) == 365 * (y - 1) + (y - 1) / 4 - (y - 1) / 100 + (y - 1) / 400;
    }
  }

  /** The formula with `int(365.25 * Y)` and the century correction written as leap-day counts. */
  lemma JulianDayFormula(d: Date)
    requires ValidDate(d)
    ensures var y := if d.month <= 2 then d.year - 1 else d.year;
            var m := if d.month <= 2 then d.month + 12 else d.month;
            JulianDay(d) == 365 * y + y / 4 - y / 100 + y / 400 + (306001 * (m + 1)) / 10000 + d.day + 1720997
  {
    var y := if d.month <= 2 then d.year - 1 else d.year;
    QuarterDays(y);
    Centuries(y);
  }

  /** `int(30.6001 * (M + 1))` less the days before the month: 428 for January and February (M = 13, 14), 63 after. */
  lemma MonthTermDiff(month: int)
    requires 1 <= month <= 12
    ensures month <= 2 ==> (306001 * (month + 13)) / 10000 - CommonDaysBefore(month) == 428
    ensures month > 2 ==> (306001 * (month + 1)) / 10000 - CommonDaysBefore(month) == 63
  {
    MonthTerms();
    if month <= 6 {
      assert month == 1 || month == 2 || month == 3 || month == 4 || month == 5 || month == 6;
    } else {
      assert month == 7 || month == 8 || month == 9 || month == 10 || month == 11 || month == 12;
    }
  }

  /** `base_julian`, described in the source as the 甲子 day 1984-02-02. */
  const BaseJulian: int := 1758289

  /** `get_stem_branch_from_day(year, month, day)`: the Julian day less the base, mod 60, then mod 10 and mod 12. */
  function DayPillar(d: Date): (p: Pillar)
    requires ValidDate(d)
    ensures ValidPillar(p)
    ensures p == CyclePillar(Ordinal(d) + 1721425 - BaseJulian)
  {
    var offset := (JulianDay(d) - BaseJulian) % 60;
    JulianDayIsOrdinal(d);
    CycleMod(JulianDay(d) - BaseJulian);
    CyclePillar(offset)
  }

  /** Consecutive dates take consecutive places in the cycle. */
  lemma DayPillarNext(d: Date)
    requires ValidDate(d) && d != Date(MaxYear, 12, 31)
    ensures ValidDate(NextDay(d))
    ensures DayPillar(NextDay(d)) == CyclePillar(Ordinal(d) + 1721425 - BaseJulian + 1)
  {
  }

  /**
   The converter's day pillar is two places ahead of the plugin's, whose
   cycle starts on 1900-01-31.
   */
  lemma DayVersusPlugin(d: Date)
    requires ValidDate(d)
    ensures DayPillar(d) == CyclePillar(DaysBetween(d, BaziPlugin.DayBase) + 2)
  {
    assert Ordinal(BaziPlugin.DayBase) == 693626;
    CycleShift(DaysBetween(d, BaziPlugin.DayBase) + 2, 10946);
  }

  /**
   The base is not the Julian day of 1984-02-02, which the formula puts at
   2445733: the converter gives that date 戊子, not the 甲子 the source's
   comment names.
   */
  lemma BaseDateIsNotJiazi()
    ensures JulianDay(Date(1984, 2, 2)) == 2445733
    ensures DayPillar(Date(1984, 2, 2)) == Pillar(4, 0)
  {
    assert JulianDay(Date(1984, 2, 2)) == 2445733;
    CycleMod(2445733 - BaseJulian);
  }

  /** `hour_stem_start`, indexed by the day stem: 甲己还加甲. */
  const HourStemStart: seq<Stem> := [0, 2, 4, 6, 8, 0, 2, 4, 6, 8]

  /** `get_stem_branch_from_hour(hour, day_stem)`: branch `((hour + 1) // 2) % 12`, any integer hour accepted. */
  function HourPillar(hour: int, dayStem: Stem): (p: Pillar)
    ensures ValidPillar(p)
    ensures p.branch == ((hour + 1) / 2) % 12
    ensures p.stem == (2 * dayStem % 10 + p.branch) % 10
  {
    var b := ((hour + 1) / 2) % 12;
    var x := HourStemStart[dayStem] + b;
    assert HourStemStart[dayStem] == 2 * dayStem % 10;
    CycleParity(x);
    EvenShift(x, dayStem - 5 * ((2 * dayStem) / 10));
    Pillar(x % 10, b)
  }

  /** Over a day's hours the branch is the date tool's shichen: 23:00 already belongs to 子. */
  lemma HourMatchesShichen(hour: int, dayStem: Stem)
    requires 0 <= hour < 24
    ensures HourPillar(hour, dayStem).branch == Tools.ShichenOf(hour)
  {
  }

  /**
   Against the plugin, whose branch is `hour // 2`: the same at even hours,
   one branch later at odd hours.
   */
  lemma HourVersusPlugin(hour: int, dayStem: Stem)
    requires 0 <= hour < 24
    ensures hour % 2 == 0 ==> HourPillar(hour, dayStem).branch == BaziPlugin.HourPillar(dayStem, hour).branch
    ensures hour % 2 == 1 ==> HourPillar(hour, dayStem).branch == (BaziPlugin.HourPillar(dayStem, hour).branch + 1) % 12
  {
    var q := hour / 2;
    assert hour % 24 == hour;
    assert BaziPlugin.HourPillar(dayStem, hour).branch == q;
    if hour % 2 == 0 {
      assert hour == 2 * q;
      assert (hour + 1) / 2 == q;
      assert q % 12 == q;
    } else {
      assert hour == 2 * q + 1;
      assert (hour + 1) / 2 == q + 1;
    }
  }

  datatype Polarity = Yang | Yin

  /** `YIN_YANG` for the stems 甲..癸. */
  const StemPolarity: seq<Polarity> := [Yang, Yin, Yang, Yin, Yang, Yin, Yang, Yin, Yang, Yin]

  /** `YIN_YANG` for the branches 子..亥. */
  const BranchPolarity: seq<Polarity> := [Yang, Yin, Yang, Yin, Yang, Yin, Yang, Yin, Yang, Yin, Yang, Yin]

  /** The polarity of each stem and branch character of the pillars, in order. */
  function Polarities(ps: seq<Pillar>): (r: seq<Polarity>)
    ensures |r| == 2 * |ps|
    ensures forall i :: 0 <= i < |ps| ==> r[2 * i] == StemPolarity[ps[i].stem] && r[2 * i + 1] == BranchPolarity[ps[i].branch]
  {
    if |ps| == 0 then []
    else
      var rest := Polarities(ps[1..]);
      var r := [StemPolarity[ps[0].stem], BranchPolarity[ps[0].branch]] + rest;
      assert forall i :: 1 <= i < |ps| ==> r[2 * i] == StemPolarity[ps[i].stem] && r[2 * i + 1] == BranchPolarity[ps[i].branch] by {
        forall i | 1 <= i < |ps|
          ensures r[2 * i] == StemPolarity[ps[i].stem] && r[2 * i + 1] == BranchPolarity[ps[i].branch]
        {
          var j := i - 1;
          assert ps[i] == ps[1..][j];
          assert r[2 * i] == rest[2 * j] && r[2 * i + 1] == rest[2 * j + 1];
        }
      }
      r
  }

  /** How many times `x` occurs in `s`. */
  function Occurrences(s: seq<Polarity>, x: Polarity): (n: nat)
    ensures n <= |s|
  {
    if |s| == 0 then 0 else (if s[0] == x then 1 else 0) + Occurrences(s[1..], x)
  }

  /** Every character is yang or yin. */
  lemma {:induction false} PolaritiesSplit(s: seq<Polarity>)
    ensures Occurrences(s, Yang) + Occurrences(s, Yin) == |s|
  {
    if |s| > 0 {
      PolaritiesSplit(s[1..]);
    }
  }

  /** Both tables alternate yang and yin from 甲 and 子. */
  lemma PolarityByParity(stem: Stem, branch: Branch)
    ensures StemPolarity[stem] == (if stem % 2 == 0 then Yang else Yin)
    ensures BranchPolarity[branch] == (if branch % 2 == 0 then Yang else Yin)
  {
  }

  /** Counting over two leading characters. */
  lemma OccurrencesTwo(a: Polarity, b: Polarity, rest: seq<Polarity>, x: Polarity)
    ensures Occurrences([a, b] + rest, x) == (if a == x then 1 else 0) + (if b == x then 1 else 0) + Occurrences(rest, x)
  {
    var s := [a, b] + rest;
    assert s[1..] == [b] + rest;
    assert s[1..][1..] == rest;
  }

  /** A pillar's stem and branch have one polarity, so the yang count is even. */
  lemma {:induction false} YangEven(ps: seq<Pillar>)
    requires forall i :: 0 <= i < |ps| ==> ValidPillar(ps[i])
    ensures Occurrences(Polarities(ps), Yang) % 2 == 0
  {
    if |ps| > 0 {
      var p := ps[0];
      assert ValidPillar(p);
      PolarityByParity(p.stem, p.branch);
      var rest := Polarities(ps[1..]);
      assert Polarities(ps) == [StemPolarity[p.stem], BranchPolarity[p.branch]] + rest;
      OccurrencesTwo(StemPolarity[p.stem], BranchPolarity[p.branch], rest, Yang);
      YangEven(ps[1..]);
    }
  }

  /** The element names absent from the tally, in the order 木火土金水. */
  function Missing(c: seq<nat>, i: nat): (r: seq<Element>)
    requires |c| == 5 && i <= 5
    ensures forall k :: 0 <= k < |r| ==> i <= ElementIndex(r[k]) && c[ElementIndex(r[k])] == 0
    ensures forall e :: i <= ElementIndex(e) && c[ElementIndex(e)] == 0 ==> e in r
    ensures forall k, l :: 0 <= k < l < |r| ==> ElementIndex(r[k]) < ElementIndex(r[l])
    decreases 5 - i
  {
    if i == 5 then []
    else
      var rest := Missing(c, i + 1);
      if c[i] == 0 then [Elements[i]] + rest else rest
  }

  /** What a successful `calculate_bazi` reports. */
  datatype Bazi = Bazi(
    year: int, month: int, day: int, hour: int,
    pillars: seq<Pillar>, dayMaster: Stem, counts: seq<nat>, yang: nat, yin: nat,
    strongest: Element, weakest: Element, missing: seq<Element>)

  /** Four pillars have eight characters: an even number of each polarity, eight in all. */
  lemma PolarityCounts(ps: seq<Pillar>)
    requires |ps| == 4 && forall i :: 0 <= i < 4 ==> ValidPillar(ps[i])
    ensures var yang, yin := Occurrences(Polarities(ps), Yang), Occurrences(Polarities(ps), Yin);
            yang + yin == 8 && yang % 2 == 0 && yin % 2 == 0
  {
    PolaritiesSplit(Polarities(ps));
    YangEven(ps);
    var yang, yin := Occurrences(Polarities(ps), Yang), Occurrences(Polarities(ps), Yin);
    assert yin == 8 - 2 * (yang / 2);
    EvenShift(8, yang / 2);
  }

  /** The tallies of `calculate_bazi` over the eight characters of four pillars. */
  function Tally(year: int, month: int, day: int, hour: int, ps: seq<Pillar>): (b: Bazi)
    requires |ps| == 4 && forall i :: 0 <= i < 4 ==> ValidPillar(ps[i])
    ensures b.pillars == ps && b.dayMaster == ps[2].stem
    ensures b.counts == Counts(PillarElements(ps)) && Total(b.counts) == 8
    ensures b.yang == Occurrences(Polarities(ps), Yang) && b.yin == Occurrences(Polarities(ps), Yin)
    ensures b.yang + b.yin == 8 && b.yang % 2 == 0 && b.yin % 2 == 0
    ensures b.counts[ElementIndex(b.strongest)] == b.counts[FirstMax(b.counts)]
    ensures b.counts[ElementIndex(b.weakest)] == b.counts[FirstMin(b.counts)]
    ensures forall e :: e in b.missing <==> b.counts[ElementIndex(e)] == 0
  {
    var elements := PillarElements(ps);
    CountsSum(elements);
    PolarityCounts(ps);
    var yang, yin := Occurrences(Polarities(ps), Yang), Occurrences(Polarities(ps), Yin);
    var counts := Counts(elements);
    ElementAt(FirstMax(counts));
    ElementAt(FirstMin(counts));
    Bazi(year, month, day, hour, ps, ps[2].stem, counts,
         yang, yin,
         Elements[FirstMax(counts)], Elements[FirstMin(counts)], Missing(counts, 0))
  }

  /**
   `calculate_bazi(year, month, day, hour)`: a date outside the calendar is
   `success: false`; otherwise four pillars, eight characters, and their
   element and yin/yang tallies.
   */
  function CalculateBazi(year: int, month: int, day: int, hour: int): (r: Result<Bazi>)
    ensures r.Ok? <==> ValidDate(Date(year, month, day))
    ensures r.Err? ==> r.error == ValueError
    ensures r.Ok? ==> var b := r.value;
      && |b.pillars| == 4
      && b.pillars[0] == YearPillar(year)
      && b.pillars[1] == MonthPillar(year, month).value
      && b.pillars[2] == DayPillar(Date(year, month, day))
      && b.pillars[3] == HourPillar(hour, b.pillars[2].stem)
      && b.dayMaster == b.pillars[2].stem
      && b.counts == Counts(PillarElements(b.pillars))
      && Total(b.counts) == 8
      && b.yang + b.yin == 8
      && b.yang % 2 == 0 && b.yin % 2 == 0
      && (forall e :: e in b.missing <==> b.counts[ElementIndex(e)] == 0)
  {
    if !ValidDate(Date(year, month, day)) then Err(ValueError)
    else
      var dp := DayPillar(Date(year, month, day));
      var ps := [YearPillar(year), MonthPillar(year, month).value, dp, HourPillar(hour, dp.stem)];
      Ok(Tally(year, month, day, hour, ps))
  }

  /** With all five elements present nothing is missing, and the strongest element holds at least two characters. */
  lemma StrongestAtLeastTwo(year: int, month: int, day: int, hour: int)
    requires CalculateBazi(year, month, day, hour).Ok?
    ensures CalculateBazi(year, month, day, hour).value.counts[FirstMax(CalculateBazi(year, month, day, hour).value.counts)] >= 2
  {
    var b := CalculateBazi(year, month, day, hour).value;
    var m := b.counts[FirstMax(b.counts)];
    assert Total(b.counts) <= 5 * m;
  }
}

=== FILE: bazi_plugin.dfy ===
/**
 The BaZi fortune system of the classic entry point: input validation, the
 four pillars from the birth date and optional time, the element count with
 its strongest and weakest element, the day master's relations, and the
 sectioning of the model's reply.
 */
module BaziPlugin {
  import opened Wrappers
  import opened Calendar
  import opened Ganzhi
  import opened FormInput
  import Sections

  /** `validate_input`'s result. */
  datatype Validated = Validated(birthDate: Date, birthTime: Option<Time>, gender: string, location: Option<Input>)

  /**
   `validate_input(user_input)`: a birth date is required, a birth time is
   optional, the gender must be 男 or 女, and a truthy location is kept.
   Every failure is a ValueError.
   */
  function ValidateInput(u: Form): (r: Result<Validated>)
    requires WellTyped(u)
    ensures r.Ok? <==> (BirthDate(u).Ok? && BirthTime(u).Ok? && "gender" in u
                        && u["gender"] in {Text("男"), Text("女")})
    ensures r.Ok? ==> && r.value.birthDate == BirthDate(u).value && ValidDate(r.value.birthDate)
                      && r.value.birthTime == BirthTime(u).value
                      && u["gender"] == Text(r.value.gender)
                      && (r.value.location.Some? <==> "location" in u && Truthy(u["location"]))
                      && (r.value.location.Some? ==> r.value.location.value == u["location"])
    ensures r.Err? ==> r.error == ValueError
  {
    match BirthDate(u)
    case Err(e) => Err(e)
    case Ok(d) =>
      match BirthTime(u)
      case Err(e) => Err(e)
      case Ok(t) =>
        if "gender" !in u || u["gender"] !in {Text("男"), Text("女")} then Err(ValueError)
        else
          var location := if "location" in u && Truthy(u["location"]) then Some(u["location"]) else None;
          Ok(Validated(d, t, u["gender"].s, location))
  }

  /** `_get_year_pillar(year)`: stem `(year - 4) % 10`, branch `(year - 4) % 12`, 甲子 in 1984. */
  function YearPillar(year: int): (p: Pillar)
    ensures ValidPillar(p)
    ensures p.stem == (year - 4) % 10 && p.branch == (year - 4) % 12
  {
    CyclePillar(year - 4)
  }

  /** The year pillars repeat every sixty years; 1984 is 甲子. */
  lemma YearPillarPeriod(year: int)
    ensures YearPillar(year + 60) == YearPillar(year)
    ensures YearPillar(1984) == Pillar(0, 0)
  {
    CyclePeriod(year - 4);
  }

  /** `_get_month_pillar(year, month)`: branch `(month + 1) % 12`, stem from twice the year stem plus `month - 1`. */
  function MonthPillar(year: int, month: int): (p: Pillar)
    ensures ValidPillar(p)
    ensures p.branch == (month + 1) % 12
    ensures p.stem == ((2 * YearPillar(year).stem) % 10 + month - 1) % 10
  {
    var ys := YearPillar(year).stem;
    var x := (2 * ys) % 10 + month - 1;
    CycleParity(x);
    CycleParity(month + 1);
    EvenShift(x, ys - 5 * ((2 * ys) / 10));
    EvenShift(month + 1, 1);
    Pillar(x % 10, (month + 1) % 12)
  }

  /** The day count's origin: 1900-01-31, a 甲子 day. */
  const DayBase: Date := Date(1900, 1, 31)

  /** `_get_day_pillar(year, month, day)`: the days since 1900-01-31, taken mod 10 and mod 12. */
  function DayPillar(d: Date): (p: Pillar)
    requires ValidDate(d)
    ensures ValidPillar(p)
    ensures p == CyclePillar(DaysBetween(d, DayBase))
  {
    CyclePillar(DaysBetween(d, DayBase))
  }

  /** Consecutive days advance one step in the cycle. */
  lemma DayPillarNext(d: Date)
    requires ValidDate(d) && d != Date(MaxYear, 12, 31)
    ensures DayPillar(NextDay(d)) == CyclePillar(DaysBetween(d, DayBase) + 1)
  {
  }

  /** `_get_hour_pillar(day_stem, hour)`: branch `(hour % 24) // 2`, stem from twice the day stem plus the branch. */
  function HourPillar(dayStem: Stem, hour: int): (p: Pillar)
    ensures ValidPillar(p)
    ensures p.branch == (hour % 24) / 2
    ensures p.stem == ((2 * dayStem) % 10 + p.branch) % 10
  {
    var b := (hour % 24) / 2;
    var x := (2 * dayStem) % 10 + b;
    CycleParity(x);
    EvenShift(x, dayStem - 5 * ((2 * dayStem) / 10));
    Pillar(x % 10, b)
  }

  /** The two clock hours 2h and 2h+1 share a branch, 23:00 is the last branch and midnight the first. */
  lemma HourBranches(dayStem: Stem, h: int)
    requires 0 <= h < 12
    ensures HourPillar(dayStem, 2 * h) == HourPillar(dayStem, 2 * h + 1)
    ensures HourPillar(dayStem, 2 * h).branch == h
  {
    var x, y := 2 * h, 2 * h + 1;
    assert x % 24 == x && y % 24 == y;
    assert x / 2 == h && y / 2 == h;
    var p, q := HourPillar(dayStem, x), HourPillar(dayStem, y);
    assert p.branch == h && q.branch == h;
    assert p.stem == q.stem;
  }

  /** 23:00 falls in the last branch (亥) and midnight in the first (子): the day's first branch is not split. */
  lemma LateHourBranch(dayStem: Stem)
    ensures HourPillar(dayStem, 23).branch == 11 && HourPillar(dayStem, 0).branch == 0
  {
  }

  /** The day master's relation to each element that occurs, in the order 木火土金水. */
  function Relationships(dm: Element, c: seq<nat>, i: nat): (r: seq<(Element, Relation)>)
    requires |c| == 5 && i <= 5
    ensures RelationList(dm, c, i, r)
    decreases 5 - i
  {
    if i == 5 then []
    else
      var rest := Relationships(dm, c, i + 1);
      if c[i] > 0 then
        ConsRelationship(dm, c, i, rest);
        [(Elements[i], RelationOf(dm, Elements[i]))] + rest
      else rest
  }

  /**
   A relationship list from position `i`: each entry pairs an element that
   occurs, at or after `i`, with the day master's relation to it, in the
   order 木火土金水.
   */
  predicate RelationList(dm: Element, c: seq<nat>, i: nat, r: seq<(Element, Relation)>)
    requires |c| == 5
  {
    && (forall k :: 0 <= k < |r| ==> r[k].1 == RelationOf(dm, r[k].0))
    && (forall k :: 0 <= k < |r| ==> i <= ElementIndex(r[k].0) && c[ElementIndex(r[k].0)] > 0)
    && (forall k, l :: 0 <= k < l < |r| ==> ElementIndex(r[k].0) < ElementIndex(r[l].0))
  }

  /** Putting the element at `i` in front of a list from `i + 1` gives a list from `i`. */
  lemma ConsRelationship(dm: Element, c: seq<nat>, i: nat, rest: seq<(Element, Relation)>)
    requires |c| == 5 && i < 5 && c[i] > 0 && RelationList(dm, c, i + 1, rest)
    ensures RelationList(dm, c, i, [(Elements[i], RelationOf(dm, Elements[i]))] + rest)
  {
    ElementAt(i);
    var r := [(Elements[i], RelationOf(dm, Elements[i]))] + rest;
    forall k | 0 <= k < |r|
      ensures r[k].1 == RelationOf(dm, r[k].0) && i <= ElementIndex(r[k].0) && c[ElementIndex(r[k].0)] > 0
    {
      if k > 0 {
        assert r[k] == rest[k - 1];
      }
    }
    forall k, l | 0 <= k < l < |r|
      ensures ElementIndex(r[k].0) < ElementIndex(r[l].0)
    {
      assert r[l] == rest[l - 1];
      if k > 0 {
        assert r[k] == rest[k - 1];
      }
    }
  }

  /** `e` has an entry in the relationship list. */
  ghost predicate HasEntry(r: seq<(Element, Relation)>, e: Element)
  {
    exists k :: 0 <= k < |r| && r[k].0 == e
  }

  /** Every element from position `i` on that occurs has an entry, and no other element does. */
  lemma {:induction false} RelationshipsComplete(dm: Element, c: seq<nat>, i: nat, e: Element)
    requires |c| == 5 && i <= 5
    ensures HasEntry(Relationships(dm, c, i), e) <==> i <= ElementIndex(e) && c[ElementIndex(e)] > 0
    decreases 5 - i
  {
    if i < 5 {
      RelationshipsComplete(dm, c, i + 1, e);
      if c[i] > 0 {
        var x := (Elements[i], RelationOf(dm, Elements[i]));
        ConsEntry(x, Relationships(dm, c, i + 1), e);
      }
    }
  }

  lemma ConsEntry(x: (Element, Relation), rest: seq<(Element, Relation)>, e: Element)
    ensures HasEntry([x] + rest, e) <==> x.0 == e || HasEntry(rest, e)
  {
    var r := [x] + rest;
    if HasEntry(r, e) {
      var k :| 0 <= k < |r| && r[k].0 == e;
      if k > 0 {
        assert rest[k - 1].0 == e;
      }
    }
    if HasEntry(rest, e) {
      var k :| 0 <= k < |rest| && rest[k].0 == e;
      assert r[k + 1].0 == e;
    }
    if x.0 == e {
      assert r[0].0 == e;
    }
  }

  /** What `process_data` computes. */
  datatype Chart = Chart(
    year: Pillar, month: Pillar, day: Pillar, hour: Option<Pillar>,
    elements: seq<Element>, counts: seq<nat>, strongest: Element, weakest: Element,
    dayMaster: int, dayMasterElement: Element, relationships: seq<(Element, Relation)>)

  /** The pillars of a birth date and optional time: year, month, day, and the hour when a time is given. */
  function Pillars(d: Date, t: Option<Time>): (ps: seq<Pillar>)
    requires ValidDate(d)
    ensures |ps| == if t.Some? then 4 else 3
    ensures forall i :: 0 <= i < |ps| ==> ValidPillar(ps[i])
    ensures ps[0] == YearPillar(d.year) && ps[1] == MonthPillar(d.year, d.month) && ps[2] == DayPillar(d)
    ensures t.Some? ==> ps[3] == HourPillar(ps[2].stem, t.value.hour)
  {
    var dp := DayPillar(d);
    var base := [YearPillar(d.year), MonthPillar(d.year, d.month), dp];
    if t.Some? then base + [HourPillar(dp.stem, t.value.hour)] else base
  }

  /** `process_data(validated)`: the hour pillar exists only with a birth time. */
  function ProcessData(v: Validated): (c: Chart)
    requires ValidDate(v.birthDate)
    ensures ValidPillar(c.year) && ValidPillar(c.month) && ValidPillar(c.day)
    ensures c.hour.Some? <==> v.birthTime.Some?
    ensures c.hour.Some? ==> ValidPillar(c.hour.value) && c.hour.value == HourPillar(c.day.stem, v.birthTime.value.hour)
    ensures |c.elements| == (if v.birthTime.Some? then 8 else 6)
    ensures c.counts == Counts(c.elements)
    ensures forall i :: 0 <= i < 5 ==> c.counts[i] <= c.counts[ElementIndex(c.strongest)]
    ensures forall i :: 0 <= i < ElementIndex(c.strongest) ==> c.counts[i] < c.counts[ElementIndex(c.strongest)]
    ensures forall i :: 0 <= i < 5 ==> c.counts[ElementIndex(c.weakest)] <= c.counts[i]
    ensures forall i :: 0 <= i < ElementIndex(c.weakest) ==> c.counts[ElementIndex(c.weakest)] < c.counts[i]
    ensures c.dayMaster == c.day.stem && c.dayMasterElement == StemElement(c.day.stem)
    ensures c.relationships == Relationships(c.dayMasterElement, c.counts, 0)
  {
    var ps := Pillars(v.birthDate, v.birthTime);
    var hp := if v.birthTime.Some? then Some(ps[3]) else None;
    var elements := PillarElements(ps);
    var counts := Counts(elements);
    var si, wi := FirstMax(counts), FirstMin(counts);
    ElementAt(si);
    ElementAt(wi);
    var dm := StemElement(ps[2].stem);
    Chart(ps[0], ps[1], ps[2], hp, elements, counts, Elements[si], Elements[wi], ps[2].stem, dm, Relationships(dm, counts, 0))
  }

  /** The element counts add up to six without a birth time and eight with one. */
  lemma CountsTotal(v: Validated)
    requires ValidDate(v.birthDate)
    ensures Total(ProcessData(v).counts) == if v.birthTime.Some? then 8 else 6
  {
    CountsSum(ProcessData(v).elements);
  }

  /** The strongest element occurs; the weakest is missing whenever some element is. */
  lemma StrongestOccurs(v: Validated, e: Element)
    requires ValidDate(v.birthDate)
    ensures ProcessData(v).counts[ElementIndex(ProcessData(v).strongest)] >= 2
    ensures ProcessData(v).counts[ElementIndex(e)] == 0 ==> ProcessData(v).counts[ElementIndex(ProcessData(v).weakest)] == 0
  {
    var c := ProcessData(v);
    CountsTotal(v);
    var m := c.counts[ElementIndex(c.strongest)];
    assert Total(c.counts) <= 5 * m;
  }

  /** The relations listed are exactly those to the elements that occur in the chart. */
  lemma RelationshipsListed(v: Validated, e: Element)
    requires ValidDate(v.birthDate)
    ensures HasEntry(ProcessData(v).relationships, e) <==> CountOf(ProcessData(v).elements, e) > 0
  {
    var c := ProcessData(v);
    RelationshipsComplete(c.dayMasterElement, c.counts, 0, e);
  }

  /** `format_result(reply)`: "##" headers only, default title 总论. */
  function FormatResult(reply: string): (r: Sections.Formatted)
    ensures r.fullText == reply
    ensures |r.sections| == 1 <==> r.sections == map["总论" := Text.Strip(reply)]
  {
    Sections.Format(reply, "总论", "##")
  }

  /** A line starting with a single "#" is body text for BaZi: only "##" opens a section. */
  lemma SingleHashIsBody()
    ensures !Sections.IsHeader("# 标题", "##") && Sections.IsHeader("## 标题", "##")
  {
    var one, two := "# 标题", "## 标题";
    assert !Text.IsSpace(one[0]) && !Text.IsSpace(one[|one| - 1]);
    assert Text.TrimLeft(one) == one;
    assert Text.TrimRight(one) == one;
    assert Text.Strip(one) == one;
    assert one[..2] != "##" by { assert one[1] == ' '; }
    assert !Text.IsSpace(two[0]) && !Text.IsSpace(two[|two| - 1]);
    assert Text.TrimLeft(two) == two;
    assert Text.TrimRight(two) == two;
    assert Text.Strip(two) == two;
    assert two[..2] == "##";
  }
}

=== FILE: calendar.dfy ===
/**
 The proleptic Gregorian calendar as Python's `datetime.date` implements it:
 validity (years 1..9999), `toordinal`, day arithmetic with `timedelta`, and
 `datetime.strptime` for the two formats the source parses, "%Y-%m-%d" and
 "%H:%M".
 */
module Calendar {
  import opened Wrappers
  import opened Text

  const MinYear: int := 1
  const MaxYear: int := 9999
  /** `date(9999, 12, 31).toordinal()`. */
  const MaxOrdinal: int := 3652059

  datatype Date = Date(year: int, month: int, day: int)

  datatype Time = Time(hour: int, minute: int)

  predicate IsLeap(y: int)
  {
    y % 4 == 0 && (y % 100 != 0 || y % 400 == 0)
  }

  function DaysInMonth(y: int, m: int): (n: int)
    requires 1 <= m <= 12
    ensures 28 <= n <= 31
    ensures m == 2 ==> (n == 29 <==> IsLeap(y))
  {
    if m == 2 then (if IsLeap(y) then 29 else 28)
    else if m == 4 || m == 6 || m == 9 || m == 11 then 30
    else 31
  }

  function DaysInYear(y: int): int
  {
    if IsLeap(y) then 366 else 365
  }

  predicate ValidDate(d: Date)
  {
    && MinYear <= d.year <= MaxYear
    && 1 <= d.month <= 12
    && 1 <= d.day <= DaysInMonth(d.year, d.month)
  }

  predicate ValidTime(t: Time)
  {
    0 <= t.hour < 24 && 0 <= t.minute < 60
  }

  /** Python `date(y, m, d)`: a ValueError for a date outside the calendar. */
  function MakeDate(y: int, m: int, d: int): (r: Result<Date>)
    ensures r.Ok? <==> ValidDate(Date(y, m, d))
    ensures r.Ok? ==> r.value == Date(y, m, d)
    ensures r.Err? ==> r.error == ValueError
  {
    if ValidDate(Date(y, m, d)) then Ok(Date(y, m, d)) else Err(ValueError)
  }

  /** Python's `_DAYS_BEFORE_MONTH` table plus the leap day. */
  function DaysBeforeMonth(y: int, m: int): int
    requires 1 <= m <= 12
  {
    [0, 31, 59, 90, 120, 151, 181, 212, 243, 273, 304, 334][m - 1]
      + (if m > 2 && IsLeap(y) then 1 else 0)
  }

  function DaysBeforeYear(y: int): int
    requires y >= 1
  {
    var k := y - 1;
    k * 365 + k / 4 - k / 100 + k / 400
  }

  /** Python `date.toordinal()`: 0001-01-01 is day 1. */
  function Ordinal(d: Date): int
    requires ValidDate(d)
  {
    DaysBeforeYear(d.year) + DaysBeforeMonth(d.year, d.month) + d.day
  }

  /** `date.timetuple().tm_yday`: 1 on January 1st. */
  function DayOfYear(d: Date): (n: int)
    requires ValidDate(d)
    ensures 1 <= n <= DaysInYear(d.year)
    ensures n == Ordinal(d) - Ordinal(Date(d.year, 1, 1)) + 1
  {
    DaysBeforeMonth(d.year, d.month) + d.day
  }

  /** Python's `(a - b).days`. */
  function DaysBetween(a: Date, b: Date): int
    requires ValidDate(a) && ValidDate(b)
  {
    Ordinal(a) - Ordinal(b)
  }

  /** Python's `date < date`: lexicographic on (year, month, day). */
  predicate Before(a: Date, b: Date)
  {
    a.year < b.year || (a.year == b.year && (a.month < b.month || (a.month == b.month && a.day < b.day)))
  }

  lemma YearStep(y: int)
    requires y >= 1
    ensures DaysBeforeYear(y + 1) == DaysBeforeYear(y) + DaysInYear(y)
  {
    LeapCountStep(y);
  }

  /** Stepping from `y - 1` to `y` adds one to each count of multiples that `y` is one of. */
  lemma LeapCountStep(y: int)
    ensures y / 4 == (y - 1) / 4 + (if y % 4 == 0 then 1 else 0)
    ensures y / 100 == (y - 1) / 100 + (if y % 100 == 0 then 1 else 0)
    ensures y / 400 == (y - 1) / 400 + (if y % 400 == 0 then 1 else 0)
  {
    var k := y - 1;
    assert k == 4 * (k / 4) + k % 4;
    assert k == 100 * (k / 100) + k % 100;
    assert k == 400 * (k / 400) + k % 400;
  }

  lemma MonthStep(y: int, m: int)
    requires 1 <= m < 12
    ensures DaysBeforeMonth(y, m + 1) == DaysBeforeMonth(y, m) + DaysInMonth(y, m)
  {
  }

  /** Every day of a year comes before the first day of the next year. */
  lemma {:induction false} YearsApart(y1: int, y2: int)
    requires 1 <= y1 < y2
    ensures DaysBeforeYear(y1) + DaysInYear(y1) <= DaysBeforeYear(y2)
    decreases y2 - y1
  {
    YearStep(y1);
    if y1 + 1 < y2 {
      YearsApart(y1 + 1, y2);
    }
  }

  lemma {:induction false} MonthsApart(y: int, m1: int, m2: int)
    requires 1 <= m1 < m2 <= 12
    ensures DaysBeforeMonth(y, m1) + DaysInMonth(y, m1) <= DaysBeforeMonth(y, m2)
    decreases m2 - m1
  {
    MonthStep(y, m1);
    if m1 + 1 < m2 {
      MonthsApart(y, m1 + 1, m2);
    }
  }

  lemma DayWithinYear(d: Date)
    requires ValidDate(d)
    ensures DaysBeforeMonth(d.year, d.month) + d.day <= DaysInYear(d.year)
  {
  }

  /** `toordinal` is strictly increasing in the calendar order. */
  lemma OrdinalMonotone(a: Date, b: Date)
    requires ValidDate(a) && ValidDate(b)
    ensures Before(a, b) <==> Ordinal(a) < Ordinal(b)
    ensures a == b <==> Ordinal(a) == Ordinal(b)
  {
    if a.year < b.year {
      YearsApart(a.year, b.year);
      DayWithinYear(a);
    } else if b.year < a.year {
      YearsApart(b.year, a.year);
      DayWithinYear(b);
    } else if a.month < b.month {
      MonthsApart(a.year, a.month, b.month);
    } else if b.month < a.month {
      MonthsApart(a.year, b.month, a.month);
    }
  }

  /** Day 1 is 0001-01-01 and no other date. */
  lemma OrdinalLowerBound(d: Date)
    requires ValidDate(d)
    ensures 1 <= Ordinal(d)
    ensures Ordinal(d) == 1 <==> d == Date(MinYear, 1, 1)
  {
  }

  lemma OrdinalOfLastDay()
    ensures Ordinal(Date(MaxYear, 12, 31)) == MaxOrdinal
  {
  }

  /** The last day, 9999-12-31, has the largest ordinal and no other date has it. */
  lemma OrdinalUpperBound(d: Date)
    requires ValidDate(d)
    ensures Ordinal(d) <= MaxOrdinal
    ensures Ordinal(d) == MaxOrdinal <==> d == Date(MaxYear, 12, 31)
  {
    OrdinalOfLastDay();
    OrdinalMonotone(d, Date(MaxYear, 12, 31));
  }

  lemma OrdinalRange(d: Date)
    requires ValidDate(d)
    ensures 1 <= Ordinal(d) <= MaxOrdinal
    ensures Ordinal(d) == 1 <==> d == Date(MinYear, 1, 1)
    ensures Ordinal(d) == MaxOrdinal <==> d == Date(MaxYear, 12, 31)
  {
    OrdinalLowerBound(d);
    OrdinalUpperBound(d);
  }

  function NextDay(d: Date): (e: Date)
    requires ValidDate(d) && d != Date(MaxYear, 12, 31)
    ensures ValidDate(e) && Ordinal(e) == Ordinal(d) + 1
  {
    if d.day < DaysInMonth(d.year, d.month) then Date(d.year, d.month, d.day + 1)
    else if d.month < 12 then
      MonthStep(d.year, d.month);
      Date(d.year, d.month + 1, 1)
    else
      YearStep(d.year);
      Date(d.year + 1, 1, 1)
  }

  function PrevDay(d: Date): (e: Date)
    requires ValidDate(d) && d != Date(MinYear, 1, 1)
    ensures ValidDate(e) && Ordinal(e) == Ordinal(d) - 1
  {
    if d.day > 1 then Date(d.year, d.month, d.day - 1)
    else if d.month > 1 then
      MonthStep(d.year, d.month - 1);
      Date(d.year, d.month - 1, DaysInMonth(d.year, d.month - 1))
    else
      YearStep(d.year - 1);
      Date(d.year - 1, 12, 31)
  }

  /**
   Python `d + timedelta(days=n)`: the date `n` days later (earlier for a
   negative `n`), or an OverflowError outside years 1..9999.
   */
  function AddDays(d: Date, n: int): (r: Result<Date>)
    requires ValidDate(d)
    ensures r.Ok? <==> 1 <= Ordinal(d) + n <= MaxOrdinal
    ensures r.Ok? ==> ValidDate(r.value) && Ordinal(r.value) == Ordinal(d) + n
    ensures r.Err? ==> r.error == OverflowError
  {
    OrdinalRange(d);
    if n >= 0 then Later(d, n) else Earlier(d, -n)
  }

  /** `n` days forward, one day at a time. */
  function Later(d: Date, n: nat): (r: Result<Date>)
    requires ValidDate(d)
    ensures r.Ok? <==> Ordinal(d) + n <= MaxOrdinal
    ensures r.Ok? ==> ValidDate(r.value) && Ordinal(r.value) == Ordinal(d) + n
    ensures r.Err? ==> r.error == OverflowError
    decreases n
  {
    OrdinalRange(d);
    if n == 0 then Ok(d)
    else if d == Date(MaxYear, 12, 31) then Err(OverflowError)
    else Later(NextDay(d), n - 1)
  }

  /** `n` days back, one day at a time. */
  function Earlier(d: Date, n: nat): (r: Result<Date>)
    requires ValidDate(d)
    ensures r.Ok? <==> 1 <= Ordinal(d) - n
    ensures r.Ok? ==> ValidDate(r.value) && Ordinal(r.value) == Ordinal(d) - n
    ensures r.Err? ==> r.error == OverflowError
    decreases n
  {
    OrdinalRange(d);
    if n == 0 then Ok(d)
    else if d == Date(MinYear, 1, 1) then Err(OverflowError)
    else Earlier(PrevDay(d), n - 1)
  }

  // ---------------------------------------------------------------- strptime

  predicate IsNonZeroDigit(c: char) { '1' <= c <= '9' }

  /** The text `%m` accepts: `1[0-2]|0[1-9]|[1-9]`. */
  predicate MonthField(f: string)
  {
    || (|f| == 1 && IsNonZeroDigit(f[0]))
    || (|f| == 2 && f[0] == '0' && IsNonZeroDigit(f[1]))
    || (|f| == 2 && f[0] == '1' && '0' <= f[1] <= '2')
  }

  /** The text `%d` accepts: `3[01]|[12]\d|0[1-9]|[1-9]| [1-9]`. */
  predicate DayField(f: string)
  {
    || (|f| == 1 && IsNonZeroDigit(f[0]))
    || (|f| == 2 && (f[0] == '0' || f[0] == ' ') && IsNonZeroDigit(f[1]))
    || (|f| == 2 && (f[0] == '1' || f[0] == '2') && IsDigit(f[1]))
    || (|f| == 2 && f[0] == '3' && (f[1] == '0' || f[1] == '1'))
  }

  /** The text `%H` accepts: `2[0-3]|[0-1]\d|\d`. */
  predicate HourField(f: string)
  {
    || (|f| == 1 && IsDigit(f[0]))
    || (|f| == 2 && (f[0] == '0' || f[0] == '1') && IsDigit(f[1]))
    || (|f| == 2 && f[0] == '2' && '0' <= f[1] <= '3')
  }

  /** The text `%M` accepts: `[0-5]\d|\d`. */
  predicate MinuteField(f: string)
  {
    || (|f| == 1 && IsDigit(f[0]))
    || (|f| == 2 && '0' <= f[0] <= '5' && IsDigit(f[1]))
  }

  /** The value of a numeric field; `%d` allows one leading blank. */
  function FieldValue(f: string): nat
  {
    var g := if |f| > 0 && f[0] == ' ' then f[1..] else f;
    if AllDigits(g) then DigitsValue(g) else 0
  }

  /**
   `datetime.strptime(s, "%Y-%m-%d").date()`: the whole text must match the
   field patterns and name a real date; anything else is a ValueError.
   */
  function ParseDate(s: string): (r: Result<Date>)
    ensures r.Ok? ==> ValidDate(r.value)
    ensures r.Err? ==> r.error == ValueError
  {
    var parts := Split(s, '-');
    if |parts| == 3 && |parts[0]| == 4 && AllDigits(parts[0])
       && MonthField(parts[1]) && DayField(parts[2])
    then MakeDate(DigitsValue(parts[0]), FieldValue(parts[1]), FieldValue(parts[2]))
    else Err(ValueError)
  }

  /** `datetime.strptime(s, "%H:%M").time()`. */
  lemma HourFieldValue(f: string)
    requires HourField(f)
    ensures FieldValue(f) < 24
  {
    if |f| == 2 {
      TwoDigitsValue(f);
    } else {
      assert f[..0] == [];
      assert DigitsValue(f) == DigitVal(f[0]);
    }
  }

  lemma MinuteFieldValue(f: string)
    requires MinuteField(f)
    ensures FieldValue(f) < 60
  {
    assert AllDigits(f);
    if |f| == 2 {
      TwoDigitsValue(f);
      assert DigitVal(f[0]) <= 5;
    } else {
      assert f[..0] == [];
      assert DigitsValue(f) == DigitVal(f[0]);
    }
  }

  function ParseTime(s: string): (r: Result<Time>)
    ensures r.Ok? ==> ValidTime(r.value)
    ensures r.Err? ==> r.error == ValueError
  {
    var parts := Split(s, ':');
    if |parts| == 2 && HourField(parts[0]) && MinuteField(parts[1])
    then
      HourFieldValue(parts[0]);
      MinuteFieldValue(parts[1]);
      Ok(Time(FieldValue(parts[0]), FieldValue(parts[1])))
    else Err(ValueError)
  }

  /** `date.isoformat()`: YYYY-MM-DD with zero padding. */
  function IsoFormat(d: Date): string
  {
    FormatInt(d.year, 4) + "-" + FormatInt(d.month, 2) + "-" + FormatInt(d.day, 2)
  }

  lemma TwoDigitField(x: nat)
    requires x < 100
    ensures |FormatInt(x, 2)| == 2 && AllDigits(FormatInt(x, 2))
    ensures FieldValue(FormatInt(x, 2)) == x
    ensures 10 * DigitVal(FormatInt(x, 2)[0]) + DigitVal(FormatInt(x, 2)[1]) == x
  {
    FormatIntWidth(x, 2);
    FormatIntRoundTrip(x, 2);
    TwoDigitsValue(FormatInt(x, 2));
  }

  lemma MonthFieldOf(m: int)
    requires 1 <= m <= 12
    ensures MonthField(FormatInt(m, 2)) && FieldValue(FormatInt(m, 2)) == m
  {
    TwoDigitField(m);
  }

  lemma HourFieldOf(h: int)
    requires 0 <= h < 24
    ensures HourField(FormatInt(h, 2)) && FieldValue(FormatInt(h, 2)) == h
  {
    TwoDigitField(h);
  }

  lemma MinuteFieldOf(m: int)
    requires 0 <= m < 60
    ensures MinuteField(FormatInt(m, 2)) && FieldValue(FormatInt(m, 2)) == m
  {
    TwoDigitField(m);
  }

  lemma DayFieldOf(d: int)
    requires 1 <= d <= 31
    ensures DayField(FormatInt(d, 2)) && FieldValue(FormatInt(d, 2)) == d
  {
    TwoDigitField(d);
  }

  lemma NoSeparator(s: string, c: char)
    requires AllDigits(s) && !IsDigit(c)
    ensures c !in s
  {
    assert forall i :: 0 <= i < |s| ==> s[i] != c;
  }

  /** The ISO rendering splits at its dashes into the three zero-padded fields. */
  lemma IsoSplit(d: Date)
    requires ValidDate(d)
    ensures Split(IsoFormat(d), '-') == [FormatInt(d.year, 4), FormatInt(d.month, 2), FormatInt(d.day, 2)]
  {
    var y := FormatInt(d.year, 4);
    var m := FormatInt(d.month, 2);
    var dd := FormatInt(d.day, 2);
    FormatIntRoundTrip(d.year, 4);
    FormatIntRoundTrip(d.month, 2);
    FormatIntRoundTrip(d.day, 2);
    NoSeparator(y, '-');
    NoSeparator(m, '-');
    NoSeparator(dd, '-');
    SplitThree(y, m, dd, '-');
  }

  /** Parsing the ISO rendering of a date gives the date back. */
  lemma ParseDateRoundTrip(d: Date)
    requires ValidDate(d)
    ensures ParseDate(IsoFormat(d)) == Ok(d)
  {
    var y := FormatInt(d.year, 4);
    var m := FormatInt(d.month, 2);
    var dd := FormatInt(d.day, 2);
    IsoSplit(d);
    FormatIntWidth(d.year, 4);
    FormatIntRoundTrip(d.year, 4);
    MonthFieldOf(d.month);
    DayFieldOf(d.day);
    assert MakeDate(DigitsValue(y), FieldValue(m), FieldValue(dd)) == Ok(d);
  }

  /** `time.strftime("%H:%M")`. */
  function TimeFormat(t: Time): string
  {
    FormatInt(t.hour, 2) + ":" + FormatInt(t.minute, 2)
  }

  /** Parsing the HH:MM rendering of a time gives the time back. */
  lemma ParseTimeRoundTrip(t: Time)
    requires ValidTime(t)
    ensures ParseTime(TimeFormat(t)) == Ok(t)
  {
    var h := FormatInt(t.hour, 2);
    var m := FormatInt(t.minute, 2);
    TwoDigitField(t.hour);
    TwoDigitField(t.minute);
    NoSeparator(h, ':');
    NoSeparator(m, ':');
    assert Join([h, m], ':') == h + ":" + Join([m], ':');
    assert TimeFormat(t) == Join([h, m], ':');
    SplitJoin([h, m], ':');
    var parts := Split(TimeFormat(t), ':');
    assert parts == [h, m];
    HourFieldOf(t.hour);
    MinuteFieldOf(t.minute);
  }
}

=== FILE: chat_agent.dfy ===
/**
 The chat agent: a per-session context of at most twenty lines that the user
 message is appended to, the ten newest lines the reply is built from, the
 reply appended in turn, and clearing a session.
 */
module ChatAgent {
  import opened Wrappers
  import opened Values
  import Seqs

  /** Session id to its context lines. */
  type Contexts = map<string, seq<string>>

  /** Ten exchanges of two lines each. */
  const ContextLimit: nat := 20
  /** The newest lines given to the reply. */
  const PromptWindow: nat := 10

  const UserPrefix: string := "用户: "
  const ReplyPrefix: string := "霄占: "

  datatype ChatInput = ChatInput(userMessage: Value, sessionId: string, previousReading: Value)

  /** `validate_input(message)`: always valid; the message defaults to "" and the previous reading to {}. */
  function ValidateInput(payload: Payload, sessionId: string): (r: ChatInput)
    ensures r.sessionId == sessionId
    ensures "message" in payload ==> r.userMessage == payload["message"]
    ensures "message" !in payload ==> r.userMessage == Str("")
    ensures "previous_reading" in payload ==> r.previousReading == payload["previous_reading"]
    ensures "previous_reading" !in payload ==> r.previousReading == Dict(map[])
  {
    ChatInput(GetOr(payload, "message", Str("")), sessionId, GetOr(payload, "previous_reading", Dict(map[])))
  }

  /** The session's lines, empty for a session not seen yet. */
  function ContextOf(contexts: Contexts, session: string): seq<string>
  {
    if session in contexts then contexts[session] else []
  }

  datatype Step = Step(contexts: Contexts, context: seq<string>)

  /**
   `process_data(validated)`: the user line is appended and, past twenty
   lines, only the newest twenty are kept. `text` is the message as the
   f-string renders it.
   */
  function ProcessData(contexts: Contexts, session: string, text: string): (r: Step)
    ensures session in r.contexts && r.contexts[session] == r.context
    ensures forall s :: s in contexts && s != session ==> s in r.contexts && r.contexts[s] == contexts[s]
    ensures forall s :: s in r.contexts ==> s in contexts || s == session
    ensures var appended := ContextOf(contexts, session) + [UserPrefix + text];
            && |r.context| == (if |appended| > ContextLimit then ContextLimit else |appended|)
            && r.context == appended[|appended| - |r.context|..]
  {
    var appended := ContextOf(contexts, session) + [UserPrefix + text];
    var kept := if |appended| > ContextLimit then Seqs.SliceFrom(appended, -20) else appended;
    Step(contexts[session := kept], kept)
  }

  /** The reply to the user: the model's text, or one of four canned answers. */
  const Fallbacks: seq<string> := [
    "哈哈，这个问题很有趣呢！不过老夫需要再仔细想想，您可以换个角度问问看。",
    "嗯，您这个问题让我想起一句话：'山重水复疑无路，柳暗花明又一村'。有时候答案就在转角处呢！",
    "老夫行走江湖这么多年，您这个问题还真是第一次遇到！不如我们换个话题聊聊？",
    "哎呀，刚才走神了，您能再说一遍吗？老夫这就为您详细解答！"]

  datatype Reply = Reply(contexts: Contexts, response: string, history: seq<string>)

  /**
   The reading-context step of `generate_reading`, which runs before its
   `try`: a truthy previous reading must be a dict (anything else has no
   `get`), and when both its system and its reading are truthy the reading is
   sliced, which only text and lists allow.
   */
  function ReadingContextError(previous: Value): (e: Option<Exc>)
    ensures !Truthy(previous) ==> e.None?
    ensures Truthy(previous) && !previous.Dict? ==> e == Some(AttributeError)
    ensures previous.Dict? ==>
              var reading := GetOr(previous.fields, "reading", Str(""));
              (e.Some? <==> Truthy(GetOr(previous.fields, "system", Str(""))) && Truthy(reading)
                            && !(reading.Str? || reading.List?))
    ensures previous.Dict? && e.Some? ==> e == Some(TypeError)
  {
    if !Truthy(previous) then None
    else if !previous.Dict? then Some(AttributeError)
    else
      var system := GetOr(previous.fields, "system", Str(""));
      var reading := GetOr(previous.fields, "reading", Str(""));
      if Truthy(system) && Truthy(reading) && !(reading.Str? || reading.List?) then Some(TypeError)
      else None
  }

  /** The previous reading `validate_input` supplies when the payload has none passes the step. */
  lemma DefaultReadingPasses()
    ensures ReadingContextError(Dict(map[])).None?
  {
  }

  /**
   `generate_reading(processed)` with the model's answer and the random
   choice of canned answer as parameters: an unusable previous reading
   raises before anything is appended; otherwise the prompt history is the
   newest ten lines, and the reply line is appended on both paths. A session
   cleared in between has no list to append to.
   */
  function GenerateReading(contexts: Contexts, session: string, context: seq<string>, previous: Value,
                           answer: Result<string>, choice: nat): (r: Result<Reply>)
    requires choice < |Fallbacks|
    ensures r.Err? <==> ReadingContextError(previous).Some? || session !in contexts
    ensures ReadingContextError(previous).Some? ==> r == Err(ReadingContextError(previous).value)
    ensures ReadingContextError(previous).None? && r.Err? ==> r.error == KeyError
    ensures r.Ok? ==> && r.value.history == Seqs.LastN(context, PromptWindow)
                      && (answer.Ok? ==> r.value.response == answer.value)
                      && (answer.Err? ==> r.value.response in Fallbacks)
                      && r.value.contexts.Keys == contexts.Keys
                      && r.value.contexts[session] == contexts[session] + [ReplyPrefix + r.value.response]
                      && forall s :: s in contexts && s != session ==> r.value.contexts[s] == contexts[s]
  {
    match ReadingContextError(previous)
    case Some(e) => Err(e)
    case None =>
      if session !in contexts then Err(KeyError)
      else
        var response := if answer.Ok? then answer.value else Fallbacks[choice];
        Ok(Reply(contexts[session := contexts[session] + [ReplyPrefix + response]], response,
                 Seqs.LastN(context, PromptWindow)))
  }

  /** `clear_chat_context(session_id)`: only that session is forgotten. */
  function Clear(contexts: Contexts, session: string): (r: Contexts)
    ensures session !in r
    ensures forall s :: s != session ==> (s in r <==> s in contexts) && (s in r ==> r[s] == contexts[s])
  {
    contexts - {session}
  }

  predicate Bounded(contexts: Contexts, limit: nat)
  {
    forall s :: s in contexts ==> |contexts[s]| <= limit
  }

  /**
   One turn, the user line and then the reply, keeps every context at no
   more than twenty-one lines; right after the user line the session has
   at most twenty and ends with that line.
   */
  lemma TurnBounded(contexts: Contexts, session: string, text: string, previous: Value, answer: Result<string>, choice: nat)
    requires choice < |Fallbacks| && Bounded(contexts, ContextLimit + 1)
    ensures var step := ProcessData(contexts, session, text);
            && |step.context| <= ContextLimit
            && step.context[|step.context| - 1] == UserPrefix + text
            && var reply := GenerateReading(step.contexts, session, step.context, previous, answer, choice);
               (reply.Ok? <==> ReadingContextError(previous).None?)
               && (reply.Ok? ==> Bounded(reply.value.contexts, ContextLimit + 1))
  {
    var step := ProcessData(contexts, session, text);
    var reply := GenerateReading(step.contexts, session, step.context, previous, answer, choice);
    if reply.Ok? {
      forall s | s in reply.value.contexts
        ensures |reply.value.contexts[s]| <= ContextLimit + 1
      {
        if s != session {
          assert s in contexts;
        }
      }
    }
  }

  /** The history the reply sees ends with the user's own line, and is the whole context while it has ten lines or fewer. */
  lemma HistoryEndsWithMessage(contexts: Contexts, session: string, text: string, previous: Value, answer: Result<string>, choice: nat)
    requires choice < |Fallbacks|
    ensures var step := ProcessData(contexts, session, text);
            var r := GenerateReading(step.contexts, session, step.context, previous, answer, choice);
            r.Ok? ==> var reply := r.value;
            && |reply.history| >= 1 && reply.history[|reply.history| - 1] == UserPrefix + text
            && (|step.context| <= PromptWindow ==> reply.history == step.context)
  {
  }

  /** A cleared session starts over: the next user line is its only line. */
  lemma ClearThenProcess(contexts: Contexts, session: string, text: string)
    ensures ProcessData(Clear(contexts, session), session, text).context == [UserPrefix + text]
  {
  }
}

=== FILE: config_files.dfy ===
/**
 The layered configuration store of the agent runtime: loaded files keyed by
 their path relative to the configuration root, the dot-path `get_config`,
 and the per-agent, per-tool and per-deployment lookups.
 */
module ConfigFiles {
  import opened Wrappers
  import opened Values
  import opened Text

  /**
   What reading one configuration file produced: the file is missing, its
   suffix is not YAML or JSON, reading or parsing raised, or it parsed to a value.
   */
  datatype FileRead = Missing | Unsupported | Failed | Parsed(data: Value)

  /** `configs` keeps insertion order, which `list_configs` reports. */
  datatype Store = Store(configs: map<string, Value>, order: seq<string>, environment: string)

  ghost predicate Valid(s: Store)
  {
    && (forall i, j :: 0 <= i < j < |s.order| ==> s.order[i] != s.order[j])
    && s.configs.Keys == set k | k in s.order
  }

  /** `ConfigManager()`: nothing loaded; the environment comes from FORTUNE_ENV (default development). */
  function NewStore(env: Option<string>): (s: Store)
    ensures Valid(s) && s.configs == map[] && s.environment == env.GetOr("development")
  {
    Store(map[], [], env.GetOr("development"))
  }

  /**
   `load_config(path)`: a parsed file is stored (a falsy value as `{}`) and
   returned; every failure returns `{}` and stores nothing.
   */
  function LoadConfig(s: Store, path: string, read: FileRead): (r: (Store, Value))
    requires Valid(s)
    ensures Valid(r.0) && r.0.environment == s.environment
    ensures read.Parsed? ==> path in r.0.configs && r.0.configs[path] == r.1
    ensures read.Parsed? && Truthy(read.data) ==> r.1 == read.data
    ensures read.Parsed? && !Truthy(read.data) ==> r.1 == Dict(map[])
    ensures !read.Parsed? ==> r == (s, Dict(map[]))
    ensures forall k :: k != path ==> (k in r.0.configs <==> k in s.configs)
                                      && (k in s.configs ==> r.0.configs[k] == s.configs[k])
    ensures r.0.order == s.order + (if read.Parsed? && path !in s.configs then [path] else [])
  {
    match read
    case Parsed(data) =>
      var stored := if Truthy(data) then data else Dict(map[]);
      var order := if path in s.configs then s.order else s.order + [path];
      (Store(s.configs[path := stored], order, s.environment), stored)
    case _ => (s, Dict(map[]))
  }

  /** The files `_load_all_configs` loads, in order; the two directory listings are parameters. */
  function ConfigPaths(env: string, agentFiles: seq<string>, toolFiles: seq<string>): seq<string>
  {
    ["system.yaml", "strands_config.yaml", "deployment/" + env + ".yaml"]
      + Prefixed("agents/", agentFiles) + Prefixed("tools/", toolFiles)
  }

  function Prefixed(dir: string, names: seq<string>): (r: seq<string>)
    ensures |r| == |names| && forall i :: 0 <= i < |names| ==> r[i] == dir + names[i]
  {
    if |names| == 0 then [] else [dir + names[0]] + Prefixed(dir, names[1..])
  }

  /** Loading a list of files in turn, each read through `read`. */
  function LoadAll(s: Store, paths: seq<string>, read: string -> FileRead): (r: Store)
    requires Valid(s)
    ensures Valid(r) && r.environment == s.environment
    ensures forall k :: k in s.configs && k !in paths ==> k in r.configs && r.configs[k] == s.configs[k]
    ensures |s.order| <= |r.order| && r.order[..|s.order|] == s.order
    decreases |paths|
  {
    if |paths| == 0 then s
    else
      var s1 := LoadConfig(s, paths[0], read(paths[0])).0;
      assert s1.order[..|s.order|] == s.order;
      assert forall k :: k !in paths ==> k != paths[0] && k !in paths[1..];
      LoadAll(s1, paths[1..], read)
  }

  /** After loading, a path is present iff it was before or it is one of the paths and parsed. */
  lemma {:induction false} LoadAllKeys(s: Store, paths: seq<string>, read: string -> FileRead, k: string)
    requires Valid(s)
    ensures k in LoadAll(s, paths, read).configs <==> k in s.configs || (k in paths && read(k).Parsed?)
    decreases |paths|
  {
    if |paths| > 0 {
      var s1 := LoadConfig(s, paths[0], read(paths[0])).0;
      LoadAllKeys(s1, paths[1..], read, k);
      assert k in paths <==> k == paths[0] || k in paths[1..];
    }
  }

  /** `LoadAllKeys` for every path at once. */
  lemma LoadAllKeysEvery(s: Store, paths: seq<string>, read: string -> FileRead)
    requires Valid(s)
    ensures forall k :: k in LoadAll(s, paths, read).configs <==> k in s.configs || (k in paths && read(k).Parsed?)
  {
    forall k {
      LoadAllKeys(s, paths, read, k);
    }
  }

  /**
   `initialize`: the three fixed files, then the agent and tool files found
   on disk; afterwards a path is loaded iff it was already or it is one of
   those files and it parsed.
   */
  function Initialize(s: Store, agentFiles: seq<string>, toolFiles: seq<string>, read: string -> FileRead): (r: Store)
    requires Valid(s)
    ensures Valid(r) && r.environment == s.environment
    ensures forall k :: k in r.configs <==>
              k in s.configs || (k in ConfigPaths(s.environment, agentFiles, toolFiles) && read(k).Parsed?)
    ensures read("system.yaml").Parsed? ==> "system.yaml" in r.configs
    ensures read("strands_config.yaml").Parsed? ==> "strands_config.yaml" in r.configs
  {
    var paths := ConfigPaths(s.environment, agentFiles, toolFiles);
    assert paths[0] == "system.yaml" && paths[1] == "strands_config.yaml";
    LoadAllKeysEvery(s, paths, read);
    LoadAll(s, paths, read)
  }

  /**
   `get_config(path, default)`: the first dot-separated part names a loaded
   file; the rest walk down nested dicts; anything missing gives `default`.
   */
  function GetConfig(s: Store, path: string, default: Value): (v: Value)
    ensures var parts := Split(path, '.');
            && (parts[0] !in s.configs ==> v == default)
            && (parts[0] in s.configs ==> v == Walk(s.configs[parts[0]], parts[1..]).GetOr(default))
  {
    var parts := Split(path, '.');
    if parts[0] !in s.configs then default
    else Walk(s.configs[parts[0]], parts[1..]).GetOr(default)
  }

  /**
   A loaded file whose key contains a dot, such as "strands_config.yaml" or
   "system.yaml", cannot be reached through `get_config`: removing it changes
   no answer.
   */
  lemma DottedKeyUnreachable(s: Store, key: string, path: string, default: Value)
    requires '.' in key
    ensures GetConfig(s, path, default) == GetConfig(s.(configs := s.configs - {key}), path, default)
  {
    var parts := Split(path, '.');
    assert '.' !in parts[0];
    assert parts[0] != key;
  }

  /** `get_agent_config(name)`: the file `agents/<name>.yaml`, `{}` when not loaded. */
  function GetAgentConfig(s: Store, name: string): (v: Value)
    ensures "agents/" + name + ".yaml" in s.configs ==> v == s.configs["agents/" + name + ".yaml"]
    ensures "agents/" + name + ".yaml" !in s.configs ==> v == Dict(map[])
  {
    GetOr(s.configs, "agents/" + name + ".yaml", Dict(map[]))
  }

  /** `get_tool_config(name)`: the file `tools/<name>.yaml`, `{}` when not loaded. */
  function GetToolConfig(s: Store, name: string): (v: Value)
    ensures "tools/" + name + ".yaml" in s.configs ==> v == s.configs["tools/" + name + ".yaml"]
    ensures "tools/" + name + ".yaml" !in s.configs ==> v == Dict(map[])
  {
    GetOr(s.configs, "tools/" + name + ".yaml", Dict(map[]))
  }

  /** `get_strands_config()`. */
  function GetStrandsConfig(s: Store): (v: Value)
    ensures "strands_config.yaml" in s.configs ==> v == s.configs["strands_config.yaml"]
    ensures "strands_config.yaml" !in s.configs ==> v == Dict(map[])
  {
    GetOr(s.configs, "strands_config.yaml", Dict(map[]))
  }

  /** `get_system_config()`. */
  function GetSystemConfig(s: Store): (v: Value)
    ensures "system.yaml" in s.configs ==> v == s.configs["system.yaml"]
    ensures "system.yaml" !in s.configs ==> v == Dict(map[])
  {
    GetOr(s.configs, "system.yaml", Dict(map[]))
  }

  /** `get_deployment_config()`: the file for the current environment. */
  function GetDeploymentConfig(s: Store): (v: Value)
    ensures var k := "deployment/" + s.environment + ".yaml";
            (k in s.configs ==> v == s.configs[k]) && (k !in s.configs ==> v == Dict(map[]))
  {
    GetOr(s.configs, "deployment/" + s.environment + ".yaml", Dict(map[]))
  }

  /** An agent file found on disk and parsed is what `get_agent_config` returns after `initialize`. */
  lemma AgentFileLoaded(s: Store, agentFiles: seq<string>, toolFiles: seq<string>,
                        read: string -> FileRead, name: string)
    requires Valid(s) && name + ".yaml" in agentFiles && read("agents/" + name + ".yaml").Parsed?
    ensures "agents/" + name + ".yaml" in Initialize(s, agentFiles, toolFiles, read).configs
  {
    var k := "agents/" + name + ".yaml";
    var paths := ConfigPaths(s.environment, agentFiles, toolFiles);
    var i :| 0 <= i < |agentFiles| && agentFiles[i] == name + ".yaml";
    assert Prefixed("agents/", agentFiles)[i] == k;
    assert paths[3 + i] == k;
    LoadAllKeys(s, paths, read, k);
  }

  /**
   `reload_config(path)` is `load_config(path)`: reading the same contents
   again changes neither the store nor the answer.
   */
  lemma ReloadUnchanged(s: Store, path: string, read: FileRead)
    requires Valid(s)
    ensures var (s1, v1) := LoadConfig(s, path, read);
            LoadConfig(s1, path, read) == (s1, v1)
  {
    if read.Parsed? {
      var s1 := LoadConfig(s, path, read).0;
      assert s1.configs[path := s1.configs[path]] == s1.configs;
    }
  }

  /** `list_configs()`: every loaded path once, in loading order. */
  function ListConfigs(s: Store): (r: seq<string>)
    requires Valid(s)
    ensures forall k :: k in r <==> k in s.configs
    ensures forall i, j :: 0 <= i < j < |r| ==> r[i] != r[j]
  {
    s.order
  }
}

=== FILE: core_config.dfy ===
/**
 The application configuration of the classic entry point: the default
 tree, dot-path `get_value`/`set_value`, sections, and the plugin switches.
 The configuration is a tree of values; Python's in-place mutation of nested
 dicts is modelled by rebuilding the path.
 */
module CoreConfig {
  import opened Wrappers
  import opened Values
  import opened Text

  /** `_get_default_config`. */
  const DefaultConfig: Payload := map[
    "app" := Dict(map["name" := Str("Fortune Teller"), "version" := Str("0.1.0"), "debug" := Bool(false)]),
    "llm" := Dict(map["provider" := Str("openai"), "model" := Str("gpt-4"),
                      "temperature" := Real(0.7), "max_tokens" := Int(2000)]),
    "plugins" := Dict(map["enabled" := List([Str("bazi"), Str("tarot"), Str("zodiac")]),
                          "bazi" := Dict(map["data_dir" := Str("data/bazi")]),
                          "tarot" := Dict(map["data_dir" := Str("data/tarot")]),
                          "zodiac" := Dict(map["data_dir" := Str("data/zodiac")])])]

  /**
   `_load_config` once the file has been read: `loaded` is the parsed mapping,
   or None when the file is missing, unreadable or of an unknown format; an
   empty mapping falls back to the defaults as well.
   */
  function LoadConfig(loaded: Option<Payload>): (c: Payload)
    ensures loaded.None? ==> c == DefaultConfig
    ensures loaded.Some? && |loaded.value| > 0 ==> c == loaded.value
    ensures loaded.Some? && |loaded.value| == 0 ==> c == DefaultConfig
  {
    match loaded
    case None => DefaultConfig
    case Some(p) => if |p| == 0 then DefaultConfig else p
  }

  /** `get_config(section)`: everything for None; a missing section reads as `{}`. */
  function GetConfig(c: Payload, section: Option<string>): (v: Value)
    ensures section.None? ==> v == Dict(c)
    ensures section.Some? && section.value in c ==> v == c[section.value]
    ensures section.Some? && section.value !in c ==> v == Dict(map[])
  {
    match section
    case None => Dict(c)
    case Some(s) => GetOr(c, s, Dict(map[]))
  }

  /** `get_value(key_path, default)`. */
  function GetValue(c: Payload, keyPath: string, default: Value): (r: Value)
    ensures '.' !in keyPath ==> r == (if keyPath in c then c[keyPath] else default)
    ensures Split(keyPath, '.')[0] !in c ==> r == default
  {
    Walk(Dict(c), Split(keyPath, '.')).GetOr(default)
  }

  /**
   The loop of `set_value`: every part but the last names a dict, replaced by
   `{}` when missing or not a dict; the last part is assigned.
   */
  function SetPath(d: Payload, parts: seq<string>, v: Value): (r: Payload)
    requires |parts| >= 1
    ensures parts[0] in r
    ensures forall k :: k != parts[0] ==> (k in r <==> k in d) && (k in d ==> r[k] == d[k])
    decreases |parts|
  {
    var k := parts[0];
    if |parts| == 1 then d[k := v]
    else
      var child := if k in d && d[k].Dict? then d[k].fields else map[];
      d[k := Dict(SetPath(child, parts[1..], v))]
  }

  /** `set_value(key_path, value)`. */
  function SetValue(c: Payload, keyPath: string, v: Value): (r: Payload)
    ensures '.' !in keyPath ==> r == c[keyPath := v]
    ensures Split(keyPath, '.')[0] in r
    ensures forall k :: k != Split(keyPath, '.')[0] ==> (k in r <==> k in c) && (k in c ==> r[k] == c[k])
  {
    SetPath(c, Split(keyPath, '.'), v)
  }

  lemma {:induction false} SetPathThenWalk(d: Payload, parts: seq<string>, v: Value)
    requires |parts| >= 1
    ensures Walk(Dict(SetPath(d, parts, v)), parts) == Some(v)
    decreases |parts|
  {
    if |parts| > 1 {
      var k := parts[0];
      var child := if k in d && d[k].Dict? then d[k].fields else map[];
      SetPathThenWalk(child, parts[1..], v);
    }
  }

  /** `set_value(p, v)` followed by `get_value(p)` returns `v`, whatever the default. */
  lemma SetThenGet(c: Payload, keyPath: string, v: Value, default: Value)
    ensures GetValue(SetValue(c, keyPath, v), keyPath, default) == v
  {
    SetPathThenWalk(c, Split(keyPath, '.'), v);
  }

  /** Path `q` leaves the chain of `p` at some position both have: it is neither a prefix nor an extension of `p`. */
  predicate Diverges(q: seq<string>, p: seq<string>)
    decreases |q|
  {
    |q| > 0 && |p| > 0 && (q[0] != p[0] || Diverges(q[1..], p[1..]))
  }

  /** A path that leaves the set path's chain reads the same before and after, even where `{}` replaced a node. */
  lemma {:induction false} SetPathLeavesOthers(d: Payload, parts: seq<string>, v: Value, q: seq<string>)
    requires |parts| >= 1 && Diverges(q, parts)
    ensures Walk(Dict(SetPath(d, parts, v)), q) == Walk(Dict(d), q)
    decreases |parts|
  {
    var k := parts[0];
    if q[0] == k {
      assert |parts| > 1;
      var child := if k in d && d[k].Dict? then d[k].fields else map[];
      SetPathLeavesOthers(child, parts[1..], v, q[1..]);
      if !(k in d && d[k].Dict?) {
        assert Walk(Dict(child), q[1..]).None?;
      }
    }
  }

  /** `set_value` changes nothing outside the path it sets. */
  lemma SetLeavesOtherPaths(c: Payload, keyPath: string, v: Value, other: string, default: Value)
    requires Diverges(Split(other, '.'), Split(keyPath, '.'))
    ensures GetValue(SetValue(c, keyPath, v), other, default) == GetValue(c, other, default)
  {
    SetPathLeavesOthers(c, Split(keyPath, '.'), v, Split(other, '.'));
  }

  /** `config.get("plugins", {})`, which must be a dict for the `.get` calls that follow. */
  function PluginsSection(c: Payload): (r: Result<Payload>)
    ensures "plugins" !in c ==> r == Ok(map[])
    ensures "plugins" in c ==> (r.Ok? <==> c["plugins"].Dict?)
    ensures r.Ok? && "plugins" in c ==> r.value == c["plugins"].fields
    ensures r.Err? ==> r.error == AttributeError
  {
    match GetOr(c, "plugins", Dict(map[]))
    case Dict(f) => Ok(f)
    case _ => Err(AttributeError)
  }

  /** `get_plugin_config(name)`: the plugin's entry, `{}` when absent. */
  function GetPluginConfig(c: Payload, name: string): (r: Result<Value>)
    ensures r.Ok? <==> PluginsSection(c).Ok?
    ensures r.Ok? && name in PluginsSection(c).value ==> r.value == PluginsSection(c).value[name]
    ensures r.Ok? && name !in PluginsSection(c).value ==> r.value == Dict(map[])
  {
    match PluginsSection(c)
    case Err(e) => Err(e)
    case Ok(p) => Ok(GetOr(p, name, Dict(map[])))
  }

  /**
   Python `x in container` for the `enabled` entry: list membership, dict
   keys, or a substring test on a string; anything else raises TypeError.
   */
  function Membership(name: string, container: Value): (r: Result<bool>)
    ensures container.List? ==> r == Ok(Str(name) in container.items)
    ensures container.Dict? ==> r == Ok(name in container.fields)
    ensures container.Str? ==> r == Ok(Contains(container.s, name))
    ensures r.Err? <==> !(container.List? || container.Dict? || container.Str?)
  {
    match container
    case List(items) => Ok(Str(name) in items)
    case Dict(f) => Ok(name in f)
    case Str(s) => Ok(Contains(s, name))
    case _ => Err(TypeError)
  }

  /** `is_plugin_enabled(name)`: the name is listed under `plugins.enabled` (absent means none). */
  function IsPluginEnabled(c: Payload, name: string): (r: Result<bool>)
    ensures PluginsSection(c).Ok? && "enabled" !in PluginsSection(c).value ==> r == Ok(false)
    ensures PluginsSection(c).Ok? && "enabled" in PluginsSection(c).value
            && PluginsSection(c).value["enabled"].List? ==>
              r == Ok(Str(name) in PluginsSection(c).value["enabled"].items)
    ensures PluginsSection(c).Err? ==> r == Err(AttributeError)
  {
    match PluginsSection(c)
    case Err(e) => Err(e)
    case Ok(p) => Membership(name, GetOr(p, "enabled", List([])))
  }

  /** With the default configuration exactly bazi, tarot and zodiac are enabled. */
  lemma DefaultPlugins(name: string)
    ensures IsPluginEnabled(DefaultConfig, name) == Ok(name in {"bazi", "tarot", "zodiac"})
  {
    var items := [Str("bazi"), Str("tarot"), Str("zodiac")];
    assert PluginsSection(DefaultConfig).value["enabled"] == List(items);
    assert Str(name) in items <==> name in {"bazi", "tarot", "zodiac"};
  }

  /** Enabling by `set_value("plugins.enabled", [...])` is seen by `is_plugin_enabled`. */
  lemma SetEnabledList(c: Payload, names: seq<string>, name: string)
    ensures var c2 := SetPath(c, ["plugins", "enabled"], List(Strs(names)));
            IsPluginEnabled(c2, name) == Ok(name in names)
  {
    var c2 := SetPath(c, ["plugins", "enabled"], List(Strs(names)));
    SetPathThenWalk(c, ["plugins", "enabled"], List(Strs(names)));
    assert c2["plugins"].Dict?;
    StrsMembership(names, name);
  }

  /** The list of strings `names` as values. */
  function Strs(names: seq<string>): (r: seq<Value>)
    ensures |r| == |names| && forall i :: 0 <= i < |names| ==> r[i] == Str(names[i])
  {
    if |names| == 0 then [] else [Str(names[0])] + Strs(names[1..])
  }

  lemma StrsMembership(names: seq<string>, name: string)
    ensures Str(name) in Strs(names) <==> name in names
  {
    if Str(name) in Strs(names) {
      var i :| 0 <= i < |Strs(names)| && Strs(names)[i] == Str(name);
      assert names[i] == name;
    }
    if name in names {
      var i :| 0 <= i < |names| && names[i] == name;
      assert Strs(names)[i] == Str(name);
    }
  }
}

=== FILE: date_utils.dfy ===
/**
 The date helpers shared by the fortune systems: the zodiac sign of a month
 and day, the Chinese zodiac animal of a year, the rough lunar conversions
 anchored on an estimated new-year date, the weekday name, and
 placeholder-based date formatting.
 */
module DateUtils {
  import opened Wrappers
  import opened Text
  import opened Calendar
  import ZodiacSigns

  /** `get_zodiac_sign(month, day)`: None is the ("Unknown", "未知") answer. */
  function ZodiacSign(month: int, day: int): (r: Option<ZodiacSigns.Sign>)
    ensures 1 <= month <= 12 ==> r == Some(ZodiacSigns.SignOf(month, day))
    ensures r.None? <==> !(1 <= month <= 12)
  {
    ZodiacSigns.ScansAgree(month, day);
    ZodiacSigns.FirstMatch(ZodiacSigns.AquariusFirst, true, month, day)
  }

  const Animals: seq<string> := ["鼠", "牛", "虎", "兔", "龙", "蛇", "马", "羊", "猴", "鸡", "狗", "猪"]

  /** The index `get_chinese_zodiac` uses: Python's `(year - 4) % 12`, never negative. */
  function AnimalIndex(year: int): (i: int)
    ensures 0 <= i < 12 && (year - 4 - i) % 12 == 0
  {
    (year - 4) % 12
  }

  /** `get_chinese_zodiac(year)`. */
  function ChineseZodiac(year: int): (a: string)
    ensures a == Animals[AnimalIndex(year)]
  {
    Animals[AnimalIndex(year)]
  }

  /** The animals repeat every twelve years, and 4 CE (like 2020) is a year of the rat. */
  lemma AnimalCycle(year: int)
    ensures ChineseZodiac(year + 12) == ChineseZodiac(year)
    ensures ChineseZodiac(4) == "鼠" && ChineseZodiac(2020) == "鼠"
  {
  }

  /**
   The new-year estimate both lunar conversions share: `(5·year + 7) % 30`
   read as a January day (plus 10) below 21 and as a February day from 21 on.
   */
  function NewYearEstimate(year: int): (md: (int, int))
    ensures md in {(1, 12), (1, 17), (1, 22), (1, 27), (2, 22), (2, 27)}
  {
    var d := (year * 5 + 7) % 30;
    assert d in {2, 7, 12, 17, 22, 27} by {
      assert (year * 5) % 30 == 5 * (year % 6);
    }
    if d < 21 then (1, d + 10) else (2, d)
  }

  /** The new-year estimate as a date: `date(year, cny_month, cny_day)`, a ValueError outside years 1..9999. */
  function NewYear(year: int): (r: Result<Date>)
    ensures r.Ok? <==> MinYear <= year <= MaxYear
    ensures r.Ok? ==> r.value == Date(year, NewYearEstimate(year).0, NewYearEstimate(year).1)
    ensures r.Err? ==> r.error == ValueError
  {
    var (m, d) := NewYearEstimate(year);
    MakeDate(year, m, d)
  }

  /** The loop of `lunar_to_solar`: the days of lunar months 1..month-1, alternately 30 (odd) and 29 (even). */
  function MonthOffset(month: int): (n: int)
    decreases month
  {
    if month <= 1 then 0 else MonthOffset(month - 1) + 29 + (month - 1) % 2
  }

  /** The loop in closed form: 29 days per month plus one per odd month passed. */
  lemma {:induction false} MonthOffsetClosedForm(month: int)
    ensures month >= 1 ==> MonthOffset(month) == 29 * (month - 1) + month / 2
    ensures month <= 1 ==> MonthOffset(month) == 0
    decreases month
  {
    if month > 1 {
      MonthOffsetClosedForm(month - 1);
    }
  }

  /**
   `lunar_to_solar(year, month, day)`: the new-year estimate plus the month
   offset plus `day - 1` days; a ValueError for a year outside 1..9999 and an
   OverflowError when the sum leaves the calendar. The leap flag is ignored.
   */
  function LunarToSolar(year: int, month: int, day: int): (r: Result<Date>)
    ensures NewYear(year).Err? ==> r == Err(ValueError)
    ensures NewYear(year).Ok? ==>
              var n := Ordinal(NewYear(year).value) + MonthOffset(month) + day - 1;
              && (r.Ok? <==> 1 <= n <= MaxOrdinal)
              && (r.Ok? ==> ValidDate(r.value) && Ordinal(r.value) == n)
              && (r.Err? ==> r.error == OverflowError)
  {
    match NewYear(year)
    case Err(e) => Err(e)
    case Ok(start) => AddDays(start, MonthOffset(month) + day - 1)
  }

  /** What `solar_to_lunar` returns. */
  datatype Lunar = Lunar(year: int, month: int, day: int, leapMonth: bool, animal: string)

  /**
   `solar_to_lunar(year, month, day)`: before the estimate the date belongs
   to the previous lunar year, counted back from month 12 day 30; from the
   estimate on it counts forward from month 1 day 1, thirty days a month;
   both are clamped to 12 and 30. An invalid date raises ValueError.
   */
  function SolarToLunar(year: int, month: int, day: int): (r: Result<Lunar>)
    ensures r.Ok? <==> ValidDate(Date(year, month, day))
    ensures r.Err? ==> r.error == ValueError
    ensures r.Ok? ==> && 1 <= r.value.month <= 12 && 1 <= r.value.day <= 30
                      && !r.value.leapMonth && r.value.animal == ChineseZodiac(r.value.year)
                      && (r.value.year == year - 1 <==> Before(Date(year, month, day), NewYear(year).value))
                      && (r.value.year == year || r.value.year == year - 1)
  {
    match MakeDate(year, month, day)
    case Err(e) => Err(e)
    case Ok(solar) =>
      var cny := NewYear(year).value;
      var (ly, lm, ld) := Count(solar, cny);
      var lm' := if lm > 12 then 12 else lm;
      var ld' := if ld > 30 then 30 else ld;
      Ok(Lunar(ly, lm', ld', false, ChineseZodiac(ly)))
  }

  /** The unclamped year, month and day `solar_to_lunar` computes from the days between the date and the estimate. */
  function Count(solar: Date, cny: Date): (t: (int, int, int))
    requires ValidDate(solar) && ValidDate(cny) && solar.year == cny.year && cny.month <= 2
    ensures Before(solar, cny) ==> t.0 == solar.year - 1 && 11 <= t.1 <= 12 && 1 <= t.2 <= 30
    ensures !Before(solar, cny) ==> t.0 == solar.year && 1 <= t.1 && 1 <= t.2 <= 30
  {
    if Before(solar, cny) then
      var n := DaysBetween(cny, solar);
      NewYearBound(solar, cny);
      (solar.year - 1, 12 - n / 30, 30 - n % 30)
    else
      OrdinalMonotone(solar, cny);
      var n := DaysBetween(solar, cny);
      (solar.year, 1 + n / 30, 1 + n % 30)
  }

  /** A date earlier in the same year than the estimate is fewer than 60 days before it. */
  lemma NewYearBound(solar: Date, cny: Date)
    requires ValidDate(solar) && ValidDate(cny) && solar.year == cny.year && cny.month <= 2
    requires Before(solar, cny)
    ensures 0 < DaysBetween(cny, solar) < 60
  {
    OrdinalMonotone(solar, cny);
    var jan1 := Date(solar.year, 1, 1);
    assert Ordinal(solar) >= Ordinal(jan1) by {
      assert DayOfYear(solar) >= 1;
    }
    assert DayOfYear(cny) <= 31 + 29;
  }

  /** The estimated new-year date is lunar 1/1 of its own year, and lunar 1/1 converts back to it. */
  lemma NewYearRoundTrip(year: int)
    requires MinYear <= year <= MaxYear
    ensures var cny := NewYear(year).value;
            && SolarToLunar(cny.year, cny.month, cny.day) == Ok(Lunar(year, 1, 1, false, ChineseZodiac(year)))
            && LunarToSolar(year, 1, 1) == Ok(cny)
  {
    var cny := NewYear(year).value;
    OrdinalMonotone(cny, cny);
    var r := LunarToSolar(year, 1, 1);
    OrdinalRange(cny);
    OrdinalMonotone(r.value, cny);
  }

  /** The next lunar day is the next solar day, whenever both convert. */
  lemma LunarNextDay(year: int, month: int, day: int)
    requires LunarToSolar(year, month, day).Ok? && LunarToSolar(year, month, day + 1).Ok?
    ensures Ordinal(LunarToSolar(year, month, day + 1).value) == Ordinal(LunarToSolar(year, month, day).value) + 1
  {
  }

  /** Python `date.weekday()`: Monday is 0; 0001-01-01 was a Monday. */
  function Weekday(d: Date): (w: int)
    requires ValidDate(d)
    ensures 0 <= w < 7 && (Ordinal(d) - 1 - w) % 7 == 0
  {
    WeekdayResidue(Ordinal(d));
    (Ordinal(d) + 6) % 7
  }

  lemma WeekdayResidue(o: int)
    ensures (o - 1 - (o + 6) % 7) % 7 == 0
  {
    var q := (o + 6) / 7;
    assert o + 6 == 7 * q + (o + 6) % 7;
    assert o - 1 - (o + 6) % 7 == 7 * (q - 1);
  }

  const ChineseWeekdays: seq<string> := ["星期一", "星期二", "星期三", "星期四", "星期五", "星期六", "星期日"]
  const EnglishWeekdays: seq<string> := ["Monday", "Tuesday", "Wednesday", "Thursday", "Friday", "Saturday", "Sunday"]

  /** `get_day_of_week(year, month, day, return_chinese)`: a ValueError for an invalid date. */
  function DayOfWeek(year: int, month: int, day: int, chinese: bool): (r: Result<string>)
    ensures r.Ok? <==> ValidDate(Date(year, month, day))
    ensures r.Ok? ==> r.value == (if chinese then ChineseWeekdays else EnglishWeekdays)[Weekday(Date(year, month, day))]
    ensures r.Err? ==> r.error == ValueError
  {
    match MakeDate(year, month, day)
    case Err(e) => Err(e)
    case Ok(d) => Ok((if chinese then ChineseWeekdays else EnglishWeekdays)[Weekday(d)])
  }

  /** Seven days later is the same weekday. */
  lemma WeekLater(d: Date, e: Date)
    requires ValidDate(d) && ValidDate(e) && Ordinal(e) == Ordinal(d) + 7
    ensures Weekday(e) == Weekday(d)
  {
    var x := Ordinal(d) + 6;
    assert Ordinal(e) + 6 == x + 7;
    assert (x + 7) % 7 == x % 7;
  }

  /** What `format_date` may be given: a tuple (of integers), a date or datetime, or anything else. */
  datatype DateArg = Tuple(items: seq<int>) | DateValue(date: Date) | Other

  const DefaultFormat: string := "YYYY年MM月DD日"

  /**
   `format_date(date, format_str)`: the six placeholders are replaced in the
   order YYYY, YY, MM, M, DD, D. A tuple must have exactly three items (a
   longer one fails to unpack, a shorter one is unsupported); anything that
   is neither a tuple nor a date raises ValueError.
   */
  function FormatDate(arg: DateArg, fmt: string): (r: Result<string>)
    ensures r.Err? <==> !(arg.DateValue? || (arg.Tuple? && |arg.items| == 3))
    ensures r.Err? ==> r.error == ValueError
  {
    match arg
    case Tuple(items) =>
      if |items| == 3 then Ok(FormatParts(items[0], items[1], items[2], fmt)) else Err(ValueError)
    case DateValue(d) => Ok(FormatParts(d.year, d.month, d.day, fmt))
    case Other => Err(ValueError)
  }

  function FormatParts(year: int, month: int, day: int, fmt: string): string
  {
    var r1 := Replace(fmt, "YYYY", FormatInt(year, 4));
    var r2 := Replace(r1, "YY", FormatInt(year % 100, 2));
    var r3 := Replace(r2, "MM", FormatInt(month, 2));
    var r4 := Replace(r3, "M", FormatInt(month, 0));
    var r5 := Replace(r4, "DD", FormatInt(day, 2));
    Replace(r5, "D", FormatInt(day, 0))
  }

  predicate Avoids(s: string, c: char)
  {
    forall i :: 0 <= i < |s| ==> s[i] != c
  }

  lemma AvoidsConcat(a: string, b: string, c: char)
    requires Avoids(a, c) && Avoids(b, c)
    ensures Avoids(a + b, c)
  {
    forall i | 0 <= i < |a + b| ensures (a + b)[i] != c {
      if i >= |a| {
        assert (a + b)[i] == b[i - |a|];
      }
    }
  }

  /** A rendered number is digits and perhaps a minus sign, so no placeholder letter. */
  lemma FormatIntAvoids(x: int, width: nat, c: char)
    requires c == 'Y' || c == 'M' || c == 'D'
    ensures Avoids(FormatInt(x, width), c)
  {
    if x < 0 {
      var t := ZeroPad(NatToDigits(-x), if width >= 1 then width - 1 else 0);
      assert FormatInt(x, width) == "-" + t;
      AvoidsConcat("-", t, c);
    }
  }

  /** The default format renders the three numbers between 年, 月 and 日, each padded as written. */
  lemma DefaultFormatLayout(year: int, month: int, day: int)
    ensures FormatParts(year, month, day, DefaultFormat)
            == FormatInt(year, 4) + "年" + FormatInt(month, 2) + "月" + FormatInt(day, 2) + "日"
  {
    var y, m, d := FormatInt(year, 4), FormatInt(month, 2), FormatInt(day, 2);
    FormatIntAvoids(year, 4, 'Y');
    FormatIntAvoids(year, 4, 'M');
    FormatIntAvoids(year, 4, 'D');
    FormatIntAvoids(month, 2, 'M');
    FormatIntAvoids(month, 2, 'D');
    FormatIntAvoids(day, 2, 'D');
    var r1 := ReplaceYear(y);
    var r2 := ReplaceShortYear(y, FormatInt(year % 100, 2));
    var r3 := ReplaceMonth(y, m);
    var r4 := ReplaceMonthDigit(y, m, FormatInt(month, 0));
    var r5 := ReplaceDay(y, m, d);
    ReplaceDayDigit(y, m, d, FormatInt(day, 0));
  }

  lemma ReplaceYear(y: string) returns (r: string)
    ensures r == y + "年MM月DD日" && Replace(DefaultFormat, "YYYY", y) == r
  {
    r := y + "年MM月DD日";
    ReplaceAbsent("年MM月DD日", "YYYY", y);
  }

  lemma ReplaceShortYear(y: string, yy: string) returns (r: string)
    requires Avoids(y, 'Y')
    ensures r == y + "年MM月DD日" && Replace(r, "YY", yy) == r
  {
    r := y + "年MM月DD日";
    ReplaceSkipsPrefix(y, "年MM月DD日", "YY", yy);
    ReplaceAbsent("年MM月DD日", "YY", yy);
  }

  lemma ReplaceMonth(y: string, m: string) returns (r: string)
    requires Avoids(y, 'M')
    ensures r == y + "年" + m + "月DD日" && Replace(y + "年MM月DD日", "MM", m) == r
  {
    r := y + "年" + m + "月DD日";
    AvoidsConcat(y, "年", 'M');
    assert y + "年MM月DD日" == (y + "年") + "MM月DD日";
    ReplaceSkipsPrefix(y + "年", "MM月DD日", "MM", m);
    ReplaceAbsent("月DD日", "MM", m);
    assert Replace("MM月DD日", "MM", m) == m + Replace("月DD日", "MM", m);
  }

  lemma ReplaceMonthDigit(y: string, m: string, m1: string) returns (r: string)
    requires Avoids(y, 'M') && Avoids(m, 'M')
    ensures r == y + "年" + m + "月DD日" && Replace(r, "M", m1) == r
  {
    r := y + "年" + m + "月DD日";
    AvoidsConcat(y, "年", 'M');
    AvoidsConcat(y + "年", m, 'M');
    AvoidsConcat(y + "年" + m, "月DD日", 'M');
    ReplaceAbsent(r, "M", m1);
  }

  lemma ReplaceDay(y: string, m: string, d: string) returns (r: string)
    requires Avoids(y, 'D') && Avoids(m, 'D')
    ensures r == y + "年" + m + "月" + d + "日" && Replace(y + "年" + m + "月DD日", "DD", d) == r
  {
    r := y + "年" + m + "月" + d + "日";
    var p := y + "年" + m + "月";
    AvoidsConcat(y, "年", 'D');
    AvoidsConcat(y + "年", m, 'D');
    AvoidsConcat(y + "年" + m, "月", 'D');
    assert y + "年" + m + "月DD日" == p + "DD日";
    ReplaceSkipsPrefix(p, "DD日", "DD", d);
    ReplaceAbsent("日", "DD", d);
    assert Replace("DD日", "DD", d) == d + Replace("日", "DD", d);
  }

  lemma ReplaceDayDigit(y: string, m: string, d: string, d1: string)
    requires Avoids(y, 'D') && Avoids(m, 'D') && Avoids(d, 'D')
    ensures Replace(y + "年" + m + "月" + d + "日", "D", d1) == y + "年" + m + "月" + d + "日"
  {
    AvoidsConcat(y, "年", 'D');
    AvoidsConcat(y + "年", m, 'D');
    AvoidsConcat(y + "年" + m, "月", 'D');
    AvoidsConcat(y + "年" + m + "月", d, 'D');
    AvoidsConcat(y + "年" + m + "月" + d, "日", 'D');
    ReplaceAbsent(y + "年" + m + "月" + d + "日", "D", d1);
  }

  /**
   For years 0..9999 and months and days below 100 the default format is
   exactly `YYYY年MM月DD日`: eleven characters whose digit fields read back as
   the year, month and day.
   */
  lemma DefaultFormatZeroPadded(year: int, month: int, day: int)
    requires 0 <= year <= 9999 && 0 <= month <= 99 && 0 <= day <= 99
    ensures var s := FormatDate(DateValue(Date(year, month, day)), DefaultFormat).value;
            && |s| == 11 && s[4] == '年' && s[7] == '月' && s[10] == '日'
            && AllDigits(s[..4]) && DigitsValue(s[..4]) == year
            && AllDigits(s[5..7]) && DigitsValue(s[5..7]) == month
            && AllDigits(s[8..10]) && DigitsValue(s[8..10]) == day
  {
    DefaultFormatLayout(year, month, day);
    var y, m, d := FormatInt(year, 4), FormatInt(month, 2), FormatInt(day, 2);
    FormatIntWidth(year, 4);
    FormatIntWidth(month, 2);
    FormatIntWidth(day, 2);
    FormatIntRoundTrip(year, 4);
    FormatIntRoundTrip(month, 2);
    FormatIntRoundTrip(day, 2);
    var s := y + "年" + m + "月" + d + "日";
    assert s[..4] == y && s[5..7] == m && s[8..10] == d;
  }
}

=== FILE: form_input.dfy ===
/**
 The user input the classic fortune plugins validate: a dict whose values are
 text typed at the prompt or date and time objects built by the caller. The
 birth-date and birth-time rules are the same in the BaZi and zodiac plugins.
 */
module FormInput {
  import opened Wrappers
  import opened Calendar

  /** One input value: text, a date, a time, a datetime (which has both), None, or some other object. */
  datatype Input =
    | Text(s: string)
    | DateObj(date: Date)
    | TimeObj(time: Time)
    | DateTimeObj(date: Date, time: Time)
    | NoneInput
    | OtherObj(truthy: bool)

  type Form = map<string, Input>

  /** Date and time objects always hold a real date and a real time of day. */
  ghost predicate WellTyped(u: Form)
  {
    forall k :: k in u ==> match u[k]
      case DateObj(d) => ValidDate(d)
      case TimeObj(t) => ValidTime(t)
      case DateTimeObj(d, t) => ValidDate(d) && ValidTime(t)
      case _ => true
  }

  /** Python truthiness; date, time and datetime objects are always true. */
  predicate Truthy(v: Input)
  {
    match v
    case Text(s) => |s| > 0
    case NoneInput => false
    case OtherObj(t) => t
    case _ => true
  }

  /**
   `birth_date`: required; text is parsed as YYYY-MM-DD, an object with a
   `year` (a date or datetime) is taken as it is, anything else is an error.
   */
  function BirthDate(u: Form): (r: Result<Date>)
    requires WellTyped(u)
    ensures r.Ok? ==> ValidDate(r.value)
    ensures "birth_date" !in u ==> r.Err?
    ensures "birth_date" in u && u["birth_date"].Text? ==> r == ParseDate(u["birth_date"].s)
    ensures "birth_date" in u && (u["birth_date"].DateObj? || u["birth_date"].DateTimeObj?) ==> r == Ok(u["birth_date"].date)
    ensures "birth_date" in u && !(u["birth_date"].Text? || u["birth_date"].DateObj? || u["birth_date"].DateTimeObj?) ==> r.Err?
    ensures r.Err? ==> r.error == ValueError
  {
    if "birth_date" !in u then Err(ValueError)
    else match u["birth_date"]
      case Text(s) => ParseDate(s)
      case DateObj(d) => Ok(d)
      case DateTimeObj(d, _) => Ok(d)
      case _ => Err(ValueError)
  }

  /**
   `birth_time`: optional; absent or falsy gives None, text is parsed as
   HH:MM, an object with an `hour` (a time or datetime) is taken as it is.
   */
  function BirthTime(u: Form): (r: Result<Option<Time>>)
    requires WellTyped(u)
    ensures r.Ok? && r.value.Some? ==> ValidTime(r.value.value)
    ensures !("birth_time" in u && Truthy(u["birth_time"])) ==> r == Ok(None)
    ensures "birth_time" in u && u["birth_time"].Text? && |u["birth_time"].s| > 0 ==>
              (r.Ok? <==> ParseTime(u["birth_time"].s).Ok?)
              && (r.Ok? ==> r.value == Some(ParseTime(u["birth_time"].s).value))
    ensures "birth_time" in u && (u["birth_time"].TimeObj? || u["birth_time"].DateTimeObj?) ==> r == Ok(Some(u["birth_time"].time))
    ensures r.Err? ==> r.error == ValueError
  {
    if !("birth_time" in u && Truthy(u["birth_time"])) then Ok(None)
    else match u["birth_time"]
      case Text(s) =>
        (match ParseTime(s)
         case Ok(t) => Ok(Some(t))
         case Err(e) => Err(e))
      case TimeObj(t) => Ok(Some(t))
      case DateTimeObj(_, t) => Ok(Some(t))
      case _ => Err(ValueError)
  }
}

=== FILE: ganzhi.dfy ===
/**
 The sexagenary (stem-branch) vocabulary both BaZi calculators use: the ten
 heavenly stems and twelve earthly branches as indices, the five elements in
 the order 木火土金水, the element of every stem and branch, and the table of
 element relations the BaZi plugin reports.
 */
module Ganzhi {

  /** 甲乙丙丁戊己庚辛壬癸 are stems 0..9; 子丑寅卯辰巳午未申酉戌亥 are branches 0..11. */
  type Stem = i: int | 0 <= i < 10
  type Branch = i: int | 0 <= i < 12

  datatype Pillar = Pillar(stem: Stem, branch: Branch)

  /** A pillar that exists in the sixty-pair cycle: stem and branch of equal parity. */
  predicate ValidPillar(p: Pillar)
  {
    p.stem % 2 == p.branch % 2
  }

  /** The pillar at position `n` of the sixty-pair cycle (甲子 at 0). */
  function CyclePillar(n: int): (p: Pillar)
    ensures ValidPillar(p)
  {
    CycleParity(n);
    Pillar(n % 10, n % 12)
  }

  /** Ten and twelve are even, so the stem and the branch of a position keep its parity. */
  lemma CycleParity(n: int)
    ensures (n % 10) % 2 == n % 2 && (n % 12) % 2 == n % 2
  {
    EvenShift(n, 5 * (n / 10));
    EvenShift(n, 6 * (n / 12));
  }

  /** The cycle has period sixty. */
  lemma CyclePeriod(n: int)
    ensures CyclePillar(n + 60) == CyclePillar(n)
  {
    var q, r := n / 10, n % 10;
    assert n + 60 == 10 * (q + 6) + r;
    var s, t := n / 12, n % 12;
    assert n + 60 == 12 * (s + 5) + t;
  }

  /** Reducing a position mod sixty first changes neither its stem nor its branch. */
  lemma CycleMod(n: int)
    ensures CyclePillar(n % 60) == CyclePillar(n)
  {
    var q, r := n / 60, n % 60;
    ModOf(n, 10, 6 * q + r / 10, r % 10);
    ModOf(n, 12, 5 * q + r / 12, r % 12);
  }

  /** Positions sixty apart share their pillar. */
  lemma CycleShift(n: int, k: int)
    ensures CyclePillar(n + 60 * k) == CyclePillar(n)
  {
    ModOf(n + 60 * k, 10, n / 10 + 6 * k, n % 10);
    ModOf(n + 60 * k, 12, n / 12 + 5 * k, n % 12);
  }

  /** The remainder is determined by any quotient-remainder split. */
  lemma ModOf(n: int, m: int, q: int, r: int)
    requires m == 10 || m == 12
    requires 0 <= r < m && n == m * q + r
    ensures n % m == r
  {
    if m == 10 {
      assert n == 10 * (n / 10) + n % 10;
      assert n / 10 == q;
    } else {
      assert n == 12 * (n / 12) + n % 12;
      assert n / 12 == q;
    }
  }

  lemma EvenShift(n: int, k: int)
    ensures (n - 2 * k) % 2 == n % 2
  {
  }

  datatype Element = Wood | Fire | Earth | Metal | Water

  /** 木火土金水, the order the counts are reported in. */
  const Elements: seq<Element> := [Wood, Fire, Earth, Metal, Water]

  function ElementIndex(e: Element): (i: int)
    ensures 0 <= i < 5 && Elements[i] == e
  {
    match e
    case Wood => 0 case Fire => 1 case Earth => 2 case Metal => 3 case Water => 4
  }

  /** `Elements` lists each element once: the index of the `i`-th is `i`. */
  lemma ElementAt(i: int)
    requires 0 <= i < 5
    ensures ElementIndex(Elements[i]) == i
  {
  }

  /** Stems come in element pairs: 甲乙 wood, 丙丁 fire, 戊己 earth, 庚辛 metal, 壬癸 water. */
  function StemElement(stem: Stem): (e: Element)
    ensures ElementIndex(e) == stem / 2
  {
    Elements[stem / 2]
  }

  const BranchElements: seq<Element> :=
    [Water, Earth, Wood, Wood, Earth, Fire, Fire, Earth, Metal, Metal, Earth, Water]

  function BranchElement(branch: Branch): Element
  {
    BranchElements[branch]
  }

  /** 比和, 生, 克, 被克, 被生. */
  datatype Relation = Same | Generates | Controls | ControlledBy | GeneratedBy

  /** `ELEMENT_RELATIONS`, rows and columns in the order 木火土金水. */
  const Relations: seq<seq<Relation>> := [
    [Same, Generates, Controls, ControlledBy, GeneratedBy],
    [GeneratedBy, Same, Generates, Controls, ControlledBy],
    [ControlledBy, GeneratedBy, Same, Generates, Controls],
    [Controls, ControlledBy, GeneratedBy, Same, Generates],
    [Generates, Controls, ControlledBy, GeneratedBy, Same]]

  function RelationOf(a: Element, b: Element): Relation
  {
    Relations[ElementIndex(a)][ElementIndex(b)]
  }

  /**
   The table is the generating cycle 木→火→土→金→水→木 and the controlling
   cycle two steps ahead, stated from both sides: the diagonal is 比和, and
   a 生 b, b 被生 a, a 克 b and b 被克 a each hold exactly when the cycle says.
   */
  lemma RelationsFollowCycles(a: Element, b: Element)
    ensures var i, j := ElementIndex(a), ElementIndex(b);
            && (RelationOf(a, b) == Same <==> a == b)
            && (RelationOf(a, b) == Generates <==> j == (i + 1) % 5)
            && (RelationOf(a, b) == GeneratedBy <==> i == (j + 1) % 5)
            && (RelationOf(a, b) == Controls <==> j == (i + 2) % 5)
            && (RelationOf(a, b) == ControlledBy <==> i == (j + 2) % 5)
  {
  }

  /** Each relation read from the other side is its converse. */
  lemma RelationsConverse(a: Element, b: Element)
    ensures RelationOf(a, b) == Generates <==> RelationOf(b, a) == GeneratedBy
    ensures RelationOf(a, b) == Controls <==> RelationOf(b, a) == ControlledBy
    ensures RelationOf(a, b) == Same <==> RelationOf(b, a) == Same
  {
    RelationsFollowCycles(a, b);
    RelationsFollowCycles(b, a);
  }

  /** How many times `e` occurs in `s`: Python's `list.count`. */
  function CountOf(s: seq<Element>, e: Element): (n: nat)
    ensures n <= |s|
  {
    if |s| == 0 then 0 else (if s[0] == e then 1 else 0) + CountOf(s[1..], e)
  }

  /** The five counts, in the order 木火土金水. */
  function Counts(s: seq<Element>): (c: seq<nat>)
    ensures |c| == 5 && forall i :: 0 <= i < 5 ==> c[i] == CountOf(s, Elements[i])
  {
    [CountOf(s, Wood), CountOf(s, Fire), CountOf(s, Earth), CountOf(s, Metal), CountOf(s, Water)]
  }

  /** The sum of the five counts. */
  function Total(c: seq<nat>): nat
    requires |c| == 5
  {
    c[0] + c[1] + c[2] + c[3] + c[4]
  }

  /** Every element is one of the five, so the counts add up to the length. */
  lemma {:induction false} CountsSum(s: seq<Element>)
    ensures Total(Counts(s)) == |s|
  {
    if |s| > 0 {
      CountsSum(s[1..]);
      assert forall e :: CountOf(s, e) == (if s[0] == e then 1 else 0) + CountOf(s[1..], e);
    }
  }

  /** The elements of each pillar's stem and branch, in pillar order. */
  function PillarElements(ps: seq<Pillar>): (r: seq<Element>)
    ensures |r| == 2 * |ps|
    ensures forall i :: 0 <= i < |ps| ==> r[2 * i] == StemElement(ps[i].stem) && r[2 * i + 1] == BranchElement(ps[i].branch)
  {
    if |ps| == 0 then []
    else
      var rest := PillarElements(ps[1..]);
      var r := [StemElement(ps[0].stem), BranchElement(ps[0].branch)] + rest;
      assert forall i :: 1 <= i < |ps| ==> r[2 * i] == StemElement(ps[i].stem) && r[2 * i + 1] == BranchElement(ps[i].branch) by {
        forall i | 1 <= i < |ps|
          ensures r[2 * i] == StemElement(ps[i].stem) && r[2 * i + 1] == BranchElement(ps[i].branch)
        {
          var j := i - 1;
          assert ps[i] == ps[1..][j];
          assert r[2 * i] == rest[2 * j] && r[2 * i + 1] == rest[2 * j + 1];
        }
      }
      r
  }

  /** The first index holding a largest count: Python `max(counts, key=counts.get)` over a dict in the order 木火土金水. */
  function FirstMax(c: seq<nat>): (i: int)
    requires |c| >= 1
    ensures 0 <= i < |c|
    ensures forall j :: 0 <= j < |c| ==> c[j] <= c[i]
    ensures forall j :: 0 <= j < i ==> c[j] < c[i]
    decreases |c|
  {
    if |c| == 1 then 0
    else
      var k := FirstMax(c[..|c| - 1]);
      if c[|c| - 1] > c[k] then |c| - 1 else k
  }

  /** The first index holding a smallest count: Python `min(counts, key=counts.get)`. */
  function FirstMin(c: seq<nat>): (i: int)
    requires |c| >= 1
    ensures 0 <= i < |c|
    ensures forall j :: 0 <= j < |c| ==> c[i] <= c[j]
    ensures forall j :: 0 <= j < i ==> c[i] < c[j]
    decreases |c|
  {
    if |c| == 1 then 0
    else
      var k := FirstMin(c[..|c| - 1]);
      if c[|c| - 1] < c[k] then |c| - 1 else k
  }
}

=== FILE: i18n.dfy ===
/**
 The JSON translation manager: one table of texts per language code, loaded
 from the `.json` files of the locales directory, and the lookup with the
 fallback chain requested language, then English, then the key itself.
 Listing and reading the directory are parameters.
 */
module I18n {
  import opened Wrappers

  /** A loaded manager: the tables by language, and the codes in loading order (the dict's insertion order). */
  datatype Manager = Manager(translations: map<string, map<string, string>>, languages: seq<string>)

  ghost predicate Valid(m: Manager)
  {
    && (forall i, j :: 0 <= i < j < |m.languages| ==> m.languages[i] != m.languages[j])
    && m.translations.Keys == set l | l in m.languages
  }

  /** `filename.endswith('.json')`. */
  predicate IsJson(filename: string)
  {
    |filename| >= 5 && filename[|filename| - 5..] == ".json"
  }

  /** `filename[:-5]` for a JSON file: its language code. */
  function LangCode(filename: string): (code: string)
    requires IsJson(filename)
    ensures code + ".json" == filename
  {
    filename[..|filename| - 5]
  }

  /**
   The loop of `load_translations` over the directory listing: each JSON
   file whose read succeeds (`read` gives None when opening or parsing raised)
   becomes its code's table; other files are skipped.
   */
  function LoadFiles(m: Manager, files: seq<string>, read: string -> Option<map<string, string>>): (r: Manager)
    requires Valid(m)
    ensures Valid(r)
    decreases |files|
  {
    if |files| == 0 then m
    else
      var f := files[0];
      var m1 :=
        if IsJson(f) && read(f).Some? then
          var code := LangCode(f);
          Manager(m.translations[code := read(f).value],
                  if code in m.translations then m.languages else m.languages + [code])
        else m;
      LoadFiles(m1, files[1..], read)
  }

  /** `load_translations()` (and so `reload()`): start empty; a missing locales directory leaves it empty. */
  function LoadTranslations(dirExists: bool, files: seq<string>, read: string -> Option<map<string, string>>): (r: Manager)
    ensures Valid(r)
    ensures !dirExists ==> r.translations == map[]
  {
    var empty := Manager(map[], []);
    if dirExists then LoadFiles(empty, files, read) else empty
  }

  /** The directory holds a JSON file for `code` that reads successfully. */
  ghost predicate Loadable(files: seq<string>, read: string -> Option<map<string, string>>, code: string)
  {
    exists i :: 0 <= i < |files| && files[i] == code + ".json" && read(files[i]).Some?
  }

  /** A code is loaded iff it was before or the listing has a readable JSON file for it. */
  lemma {:induction false} LoadFilesKeys(m: Manager, files: seq<string>, read: string -> Option<map<string, string>>, code: string)
    requires Valid(m)
    ensures code in LoadFiles(m, files, read).translations <==> code in m.translations || Loadable(files, read, code)
    decreases |files|
  {
    if |files| > 0 {
      var f := files[0];
      var m1 :=
        if IsJson(f) && read(f).Some? then
          Manager(m.translations[LangCode(f) := read(f).value],
                  if LangCode(f) in m.translations then m.languages else m.languages + [LangCode(f)])
        else m;
      var rest := files[1..];
      LoadFilesKeys(m1, rest, read, code);
      if Loadable(files, read, code) && code !in m1.translations {
        var i :| 0 <= i < |files| && files[i] == code + ".json" && read(files[i]).Some?;
        if i == 0 {
          assert false;
        }
        assert rest[i - 1] == files[i];
      }
      if Loadable(rest, read, code) {
        var i :| 0 <= i < |rest| && rest[i] == code + ".json" && read(rest[i]).Some?;
        assert files[i + 1] == rest[i];
      }
      if IsJson(f) && read(f).Some? && code == LangCode(f) {
        assert files[0] == code + ".json";
      }
    }
  }

  /** `get_available_languages()`: every loaded code once, in loading order. */
  function AvailableLanguages(m: Manager): (r: seq<string>)
    requires Valid(m)
    ensures forall l :: l in r <==> l in m.translations
    ensures forall i, j :: 0 <= i < j < |r| ==> r[i] != r[j]
  {
    m.languages
  }

  /** After loading an existing directory, the available languages are exactly the codes of the readable JSON files. */
  lemma AvailableAfterLoad(files: seq<string>, read: string -> Option<map<string, string>>, code: string)
    ensures code in AvailableLanguages(LoadTranslations(true, files, read)) <==> Loadable(files, read, code)
  {
    LoadFilesKeys(Manager(map[], []), files, read, code);
  }

  /** `lang` has a text for `key`. */
  predicate Translated(m: Manager, lang: string, key: string)
  {
    lang in m.translations && key in m.translations[lang]
  }

  /** `get(key, lang)` (and the module's `t`). */
  function Get(m: Manager, key: string, lang: string): (r: string)
    ensures Translated(m, lang, key) ==> r == m.translations[lang][key]
    ensures !Translated(m, lang, key) && Translated(m, "en", key) ==> r == m.translations["en"][key]
    ensures r == key || Translated(m, lang, key) || Translated(m, "en", key)
  {
    if Translated(m, lang, key) then m.translations[lang][key]
    else if lang != "en" && Translated(m, "en", key) then m.translations["en"][key]
    else key
  }

  /** The chain in one step: a language without the key answers exactly as English does. */
  lemma FallbackIsEnglish(m: Manager, key: string, lang: string)
    ensures Get(m, key, lang) == if Translated(m, lang, key) then m.translations[lang][key] else Get(m, key, "en")
  {
  }

  /** The answer is the key itself or a text some table holds for that key, from `lang` or English only. */
  lemma GetSources(m: Manager, key: string, lang: string)
    ensures var r := Get(m, key, lang);
            || r == key
            || (Translated(m, lang, key) && r == m.translations[lang][key])
            || (Translated(m, "en", key) && r == m.translations["en"][key])
  {
  }

  /** A key no table translates comes back unchanged whatever the language. */
  lemma UntranslatedKey(m: Manager, key: string, lang: string)
    requires forall l :: l in m.translations ==> key !in m.translations[l]
    ensures Get(m, key, lang) == key
  {
  }
}

=== FILE: i18n_agent.dfy ===
/**
 The text lookup of the internationalisation agent: a fixed table per
 supported language, an unsupported language replaced by the default one,
 and a missing key answered with the key. Only the entries the system
 display names need are written out; the rest of the table is data.
 */
module I18nAgent {

  const SupportedLanguages: seq<string> := ["zh", "en"]
  const DefaultLanguage: string := "zh"

  /** The agent's text table, reduced to the system names. */
  const Texts: map<string, map<string, string>> := map[
    "zh" := map["system_bazi" := "八字命理", "system_tarot" := "塔罗牌", "system_zodiac" := "星座占星"],
    "en" := map["system_bazi" := "BaZi Fortune", "system_tarot" := "Tarot Cards", "system_zodiac" := "Western Astrology"]]

  /** The language `get_text` actually uses. */
  function Effective(language: string): (l: string)
    ensures l in SupportedLanguages
    ensures language in SupportedLanguages ==> l == language
    ensures language !in SupportedLanguages ==> l == DefaultLanguage
  {
    if language in SupportedLanguages then language else DefaultLanguage
  }

  /** `get_text(key, language)` over a text table (the agent's is `Texts`). */
  function GetText(texts: map<string, map<string, string>>, key: string, language: string): (r: string)
    ensures language in SupportedLanguages && language in texts && key in texts[language] ==> r == texts[language][key]
    ensures language !in SupportedLanguages && DefaultLanguage in texts && key in texts[DefaultLanguage] ==>
              r == texts[DefaultLanguage][key]
    ensures language in SupportedLanguages && !(language in texts && key in texts[language]) ==> r == key
    ensures language !in SupportedLanguages && !(DefaultLanguage in texts && key in texts[DefaultLanguage]) ==> r == key
  {
    var l := Effective(language);
    if l in texts && key in texts[l] then texts[l][key] else key
  }

  /** Asking in an unsupported language is asking in Chinese. */
  lemma UnsupportedIsChinese(texts: map<string, map<string, string>>, key: string, language: string)
    requires language != "zh" && language != "en"
    ensures GetText(texts, key, language) == GetText(texts, key, "zh")
  {
  }

  /** `get_system_display_name(system, language)`. */
  function SystemDisplayName(system: string, language: string): (r: string)
    ensures system == "bazi" ==> r == GetText(Texts, "system_bazi", language)
    ensures system == "tarot" ==> r == GetText(Texts, "system_tarot", language)
    ensures system == "zodiac" ==> r == GetText(Texts, "system_zodiac", language)
    ensures system !in {"bazi", "tarot", "zodiac"} ==> r == system
  {
    var names := map["bazi" := GetText(Texts, "system_bazi", language),
                      "tarot" := GetText(Texts, "system_tarot", language),
                      "zodiac" := GetText(Texts, "system_zodiac", language)];
    if system in names then names[system] else system
  }

  /** The three systems get distinct names in every language, and never their bare identifier. */
  lemma DisplayNamesDistinct(language: string)
    ensures var b, t, z := SystemDisplayName("bazi", language), SystemDisplayName("tarot", language),
                           SystemDisplayName("zodiac", language);
            b != t && t != z && b != z && b != "bazi" && t != "tarot" && z != "zodiac"
  {
    var l := Effective(language);
    assert SystemDisplayName("bazi", language) == Texts[l]["system_bazi"];
    assert SystemDisplayName("tarot", language) == Texts[l]["system_tarot"];
    assert SystemDisplayName("zodiac", language) == Texts[l]["system_zodiac"];
  }

  /** English names in English, Chinese ones otherwise. */
  lemma DisplayNameLanguage(language: string)
    ensures language == "en" ==> SystemDisplayName("tarot", language) == "Tarot Cards"
    ensures language != "en" ==> SystemDisplayName("tarot", language) == "塔罗牌"
  {
  }
}

=== FILE: keyboard.dfy ===
/**
 The arrow-key menu of the terminal interface: the key-by-key fold of
 `KeyboardMenu.show` over the keys read, and the maps from the selected
 index to a language, a tarot spread or a fortune system. Reading the
 terminal is the parameter `keys`; drawing the menu is left out.
 */
module Keyboard {
  import opened Wrappers

  const KeyUp: string := "\U{1b}[A"
  const KeyDown: string := "\U{1b}[B"

  /** How `show` ends: a selection, a quit, Ctrl+C, or still waiting when the keys run out. */
  datatype Outcome = Selected(index: int) | Quit | Interrupted | Waiting(index: int)

  /** The effect of one key other than the ones that end the menu. */
  function Move(idx: int, maxIndex: int, key: string): (r: int)
    ensures key == KeyUp ==> r == (if idx - 1 > 0 then idx - 1 else 0)
    ensures key == KeyDown ==> r == (if idx + 1 < maxIndex then idx + 1 else maxIndex)
    ensures key != KeyUp && key != KeyDown ==> r == idx
  {
    if key == KeyUp then (if 0 > idx - 1 then 0 else idx - 1)
    else if key == KeyDown then (if maxIndex < idx + 1 then maxIndex else idx + 1)
    else idx
  }

  /** `key.lower() == 'q'`. */
  predicate IsQuit(key: string)
  {
    key == "q" || key == "Q"
  }

  predicate IsEnter(key: string)
  {
    key == "\r" || key == "\n"
  }

  /** A key that ends the menu: Enter, q/Q or Ctrl+C. */
  predicate Ends(key: string)
  {
    IsEnter(key) || IsQuit(key) || key == "\U{3}"
  }

  /** Key `i` is the first key of `keys` that ends the menu. */
  predicate FirstEnd(keys: seq<string>, i: int)
  {
    0 <= i < |keys| && Ends(keys[i]) && forall j :: 0 <= j < i ==> !Ends(keys[j])
  }

  /** The highlighted index after the keys, one `Move` per key, from the first key on. */
  function IndexAfter(idx: int, maxIndex: int, keys: seq<string>): (r: int)
    ensures 0 <= idx <= maxIndex ==> 0 <= r <= maxIndex
    ensures (forall i :: 0 <= i < |keys| ==> keys[i] != KeyUp && keys[i] != KeyDown) ==> r == idx
    decreases |keys|
  {
    if |keys| == 0 then idx
    else
      assert forall i :: 0 <= i < |keys[1..]| ==> keys[1..][i] == keys[i + 1];
      IndexAfter(Move(idx, maxIndex, keys[0]), maxIndex, keys[1..])
  }

  /** One more key moves the index from where the earlier keys left it. */
  lemma {:induction false} IndexAfterSnoc(idx: int, maxIndex: int, keys: seq<string>, key: string)
    ensures IndexAfter(idx, maxIndex, keys + [key]) == Move(IndexAfter(idx, maxIndex, keys), maxIndex, key)
    decreases |keys|
  {
    if |keys| > 0 {
      assert (keys + [key])[1..] == keys[1..] + [key];
      IndexAfterSnoc(Move(idx, maxIndex, keys[0]), maxIndex, keys[1..], key);
    }
  }

  /**
   `show()` from the current index over the keys read from the terminal, in
   order: the menu waits until the first ending key, and that key decides how
   it ends; Enter selects the index the arrows before it have reached.
   */
  function Show(idx: int, maxIndex: int, keys: seq<string>): (r: Outcome)
    ensures r.Waiting? <==> forall i :: 0 <= i < |keys| ==> !Ends(keys[i])
    ensures r.Waiting? ==> r.index == IndexAfter(idx, maxIndex, keys)
    ensures forall i :: FirstEnd(keys, i) && IsEnter(keys[i]) ==> r == Selected(IndexAfter(idx, maxIndex, keys[..i]))
    ensures forall i :: FirstEnd(keys, i) && IsQuit(keys[i]) ==> r == Quit
    ensures forall i :: FirstEnd(keys, i) && keys[i] == "\U{3}" ==> r == Interrupted
    ensures r.Selected? ==> exists i :: FirstEnd(keys, i) && IsEnter(keys[i])
    ensures r.Quit? ==> exists i :: FirstEnd(keys, i) && IsQuit(keys[i])
    ensures r.Interrupted? ==> exists i :: FirstEnd(keys, i) && keys[i] == "\U{3}"
    decreases |keys|
  {
    if |keys| == 0 then Waiting(idx)
    else
      var key := keys[0];
      if key == KeyUp || key == KeyDown then
        assert !Ends(key);
        var r := Show(Move(idx, maxIndex, key), maxIndex, keys[1..]);
        ShiftFirstEnd(keys);
        ShiftIndexAfter(idx, maxIndex, keys);
        r
      else if IsEnter(key) then assert FirstEnd(keys, 0); Selected(idx)
      else if IsQuit(key) then assert FirstEnd(keys, 0); Quit
      else if key == "\U{3}" then assert FirstEnd(keys, 0); Interrupted
      else
        var r := Show(idx, maxIndex, keys[1..]);
        ShiftFirstEnd(keys);
        ShiftIndexAfter(idx, maxIndex, keys);
        r
  }

  /** The index after a prefix of `keys` is the index after the same prefix of the rest, from where the first key moved it. */
  lemma ShiftIndexAfter(idx: int, maxIndex: int, keys: seq<string>)
    requires |keys| > 0
    ensures forall i :: 0 < i <= |keys| ==>
              IndexAfter(idx, maxIndex, keys[..i]) == IndexAfter(Move(idx, maxIndex, keys[0]), maxIndex, keys[1..][..i - 1])
  {
    forall i | 0 < i <= |keys|
      ensures IndexAfter(idx, maxIndex, keys[..i]) == IndexAfter(Move(idx, maxIndex, keys[0]), maxIndex, keys[1..][..i - 1])
    {
      assert keys[..i][1..] == keys[1..][..i - 1];
    }
  }

  /** Behind a key that does not end the menu, the first ending key moves one place along. */
  lemma ShiftFirstEnd(keys: seq<string>)
    requires |keys| > 0 && !Ends(keys[0])
    ensures forall i :: FirstEnd(keys[1..], i) ==> FirstEnd(keys, i + 1)
    ensures forall i :: FirstEnd(keys, i) ==> i > 0 && FirstEnd(keys[1..], i - 1)
    ensures (forall i :: 0 <= i < |keys| ==> !Ends(keys[i])) <==> (forall i :: 0 <= i < |keys[1..]| ==> !Ends(keys[1..][i]))
  {
    forall i | FirstEnd(keys[1..], i) ensures FirstEnd(keys, i + 1) {
      forall j | 0 <= j < i + 1 ensures !Ends(keys[j]) {
        if j > 0 { assert keys[j] == keys[1..][j - 1]; }
      }
    }
    if forall i :: 0 <= i < |keys[1..]| ==> !Ends(keys[1..][i]) {
      forall i | 0 <= i < |keys| ensures !Ends(keys[i]) {
        if i > 0 { assert keys[i] == keys[1..][i - 1]; }
      }
    }
  }

  /** A step keeps an index that starts in range in range. */
  lemma MoveInRange(idx: int, maxIndex: int, key: string)
    requires 0 <= idx <= maxIndex
    ensures 0 <= Move(idx, maxIndex, key) <= maxIndex
  {
  }

  /** Whatever the keys, an index that starts in `0..maxIndex` is the one selected or still highlighted, and stays in range. */
  lemma {:induction false} ShowInRange(idx: int, maxIndex: int, keys: seq<string>)
    requires 0 <= idx <= maxIndex
    ensures Show(idx, maxIndex, keys).Selected? ==> 0 <= Show(idx, maxIndex, keys).index <= maxIndex
    ensures Show(idx, maxIndex, keys).Waiting? ==> 0 <= Show(idx, maxIndex, keys).index <= maxIndex
    decreases |keys|
  {
    if |keys| > 0 {
      var key := keys[0];
      if key == KeyUp || key == KeyDown {
        MoveInRange(idx, maxIndex, key);
        ShowInRange(Move(idx, maxIndex, key), maxIndex, keys[1..]);
      } else if !IsEnter(key) && !IsQuit(key) && key != "\U{3}" {
        ShowInRange(idx, maxIndex, keys[1..]);
      }
    }
  }

  /** Keys that are not arrows, Enter, q or Ctrl+C are ignored: dropping them changes nothing. */
  lemma {:induction false} IgnoredKey(idx: int, maxIndex: int, key: string, keys: seq<string>)
    requires key != KeyUp && key != KeyDown && !IsEnter(key) && !IsQuit(key) && key != "\U{3}"
    ensures Show(idx, maxIndex, [key] + keys) == Show(idx, maxIndex, keys)
  {
    assert ([key] + keys)[1..] == keys;
  }

  /** Pressing Down n times from the top of a menu of at least n+1 entries highlights entry n. */
  lemma {:induction false} DownsThenEnter(n: nat, maxIndex: int, idx: int)
    requires 0 <= idx && idx + n <= maxIndex
    ensures Show(idx, maxIndex, Downs(n) + ["\r"]) == Selected(idx + n)
    decreases n
  {
    var keys := Downs(n) + ["\r"];
    assert keys[..n] == Downs(n);
    assert FirstEnd(keys, n);
    DownsIndex(n, maxIndex, idx);
  }

  /** n presses of Down from idx reach idx + n when the menu has that entry. */
  lemma {:induction false} DownsIndex(n: nat, maxIndex: int, idx: int)
    requires 0 <= idx && idx + n <= maxIndex
    ensures IndexAfter(idx, maxIndex, Downs(n)) == idx + n
    decreases n
  {
    if n > 0 {
      assert Downs(n)[1..] == Downs(n - 1);
      DownsIndex(n - 1, maxIndex, idx + 1);
    }
  }

  function Downs(n: nat): (r: seq<string>)
    ensures |r| == n && forall i :: 0 <= i < n ==> r[i] == KeyDown
  {
    if n == 0 then [] else [KeyDown] + Downs(n - 1)
  }

  /** `select_language`: entry 0 is English and any other entry Chinese. */
  function LanguageOf(result: Option<int>): (r: Option<string>)
    ensures result.None? <==> r.None?
    ensures result == Some(0) ==> r == Some("en")
    ensures result.Some? && result.value != 0 ==> r == Some("zh")
  {
    match result
    case None => None
    case Some(i) => Some(if i == 0 then "en" else "zh")
  }

  /** The fallback prompt of `select_language`: "1" is English, "2" Chinese, anything else nothing. */
  function LanguageOfChoice(choice: string): (r: Option<string>)
    ensures r.Some? <==> choice == "1" || choice == "2"
    ensures choice == "1" ==> r == Some("en")
    ensures choice == "2" ==> r == Some("zh")
  {
    if choice == "1" then Some("en") else if choice == "2" then Some("zh") else None
  }

  const SpreadTypes: seq<string> := ["single", "three_card", "celtic_cross", "relationship"]
  const Systems: seq<string> := ["bazi", "tarot", "zodiac"]

  /** Python list indexing: a negative index counts from the end; anything out of range raises IndexError. */
  function PyIndex<T>(s: seq<T>, i: int): (r: Result<T>)
    ensures 0 <= i < |s| ==> r == Ok(s[i])
    ensures -|s| <= i < 0 ==> r == Ok(s[|s| + i])
    ensures r.Err? <==> !(-|s| <= i < |s|)
    ensures r.Err? ==> r.error == IndexError
  {
    if 0 <= i < |s| then Ok(s[i]) else if -|s| <= i < 0 then Ok(s[|s| + i]) else Err(IndexError)
  }

  /** `select_tarot_spread` after the menu returned. */
  function SpreadOf(result: Option<int>): (r: Result<Option<string>>)
    ensures result.None? ==> r == Ok(None)
    ensures result.Some? ==> (r.Ok? <==> -4 <= result.value < 4)
    ensures result == Some(0) ==> r == Ok(Some("single"))
    ensures result == Some(3) ==> r == Ok(Some("relationship"))
  {
    match result
    case None => Ok(None)
    case Some(i) =>
      match PyIndex(SpreadTypes, i)
      case Ok(s) => Ok(Some(s))
      case Err(e) => Err(e)
  }

  /** `select_fortune_system` after the menu returned. */
  function SystemOf(result: Option<int>): (r: Result<Option<string>>)
    ensures result.None? ==> r == Ok(None)
    ensures result.Some? ==> (r.Ok? <==> -3 <= result.value < 3)
    ensures result == Some(0) ==> r == Ok(Some("bazi"))
    ensures result == Some(2) ==> r == Ok(Some("zodiac"))
  {
    match result
    case None => Ok(None)
    case Some(i) =>
      match PyIndex(Systems, i)
      case Ok(s) => Ok(Some(s))
      case Err(e) => Err(e)
  }

  /** As `show` is called by the three selectors (four or three options from index 0), every selection maps to a value. */
  lemma SelectionsMap(keys: seq<string>)
    ensures var o := Show(0, 3, keys);
            o.Selected? ==> 0 <= o.index < 4 && SpreadOf(Some(o.index)) == Ok(Some(SpreadTypes[o.index]))
    ensures var o := Show(0, 2, keys);
            o.Selected? ==> 0 <= o.index < 3 && SystemOf(Some(o.index)) == Ok(Some(Systems[o.index]))
  {
    ShowInRange(0, 3, keys);
    ShowInRange(0, 2, keys);
  }
}

=== FILE: master_agent.dfy ===
/**
 The master agent: the per-session machine that goes from the menu to
 collecting one system's fields and back, the intent analysis behind it,
 the shape checks on dates and times typed at the prompt, the routing guard
 and the registration of specialist agents.

 The specialist agents' own answers are not part of this module: a finished
 collection is modelled as the request handed to the specialist.
 */
module MasterAgent {
  import opened Wrappers
  import opened Values
  import opened Calendar
  import Text

  datatype System = Bazi | Tarot | Zodiac

  function SystemKey(s: System): string
  {
    match s
    case Bazi => "bazi"
    case Tarot => "tarot"
    case Zodiac => "zodiac"
  }

  function SystemOfKey(k: string): (r: Option<System>)
    ensures r.Some? ==> SystemKey(r.value) == k
    ensures r.None? <==> k !in {"bazi", "tarot", "zodiac"}
  {
    if k == "bazi" then Some(Bazi) else if k == "tarot" then Some(Tarot)
    else if k == "zodiac" then Some(Zodiac) else None
  }

  /** Keys and systems are in one-to-one correspondence. */
  lemma SystemKeysRoundTrip(s: System)
    ensures SystemOfKey(SystemKey(s)) == Some(s)
  {
  }

  /** `system_map = {"1": "bazi", "2": "tarot", "3": "zodiac"}`. */
  function SelectionOf(content: string): (r: Option<System>)
    ensures r.Some? <==> content in {"1", "2", "3"}
  {
    if content == "1" then Some(Bazi) else if content == "2" then Some(Tarot)
    else if content == "3" then Some(Zodiac) else None
  }

  /** The numbered entries of the menu reply (`available_systems`). */
  const MenuSystems: seq<(string, System)> := [("1", Bazi), ("2", Tarot), ("3", Zodiac)]

  /** The menu shows exactly the choices the digit selection accepts, each system once. */
  lemma MenuMatchesSelection(content: string)
    ensures SelectionOf(content).Some? <==> exists i :: 0 <= i < |MenuSystems| && MenuSystems[i].0 == content
    ensures forall i :: 0 <= i < |MenuSystems| ==> SelectionOf(MenuSystems[i].0) == Some(MenuSystems[i].1)
    ensures forall s: System :: MenuSystems[MenuPosition(s)].1 == s
  {
    if SelectionOf(content).Some? {
      assert MenuSystems[MenuPosition(SelectionOf(content).value)].0 == content;
    }
  }

  /** Where a system sits in the menu. */
  function MenuPosition(s: System): (i: nat)
    ensures i < |MenuSystems|
  {
    match s
    case Bazi => 0
    case Tarot => 1
    case Zodiac => 2
  }

  // ---------------------------------------------------------------- shape checks

  predicate DigitsAt(t: string, i: nat, n: nat)
  {
    i + n <= |t| && forall k :: i <= k < i + n ==> Text.IsDigit(t[k])
  }

  /** `\d{4}-\d{2}-\d{2}` over the whole text. */
  predicate DateShape(t: string)
  {
    |t| == 10 && DigitsAt(t, 0, 4) && t[4] == '-' && DigitsAt(t, 5, 2) && t[7] == '-' && DigitsAt(t, 8, 2)
  }

  /** `\d{1,2}:\d{2}` over the whole text. */
  predicate TimeShape(t: string)
  {
    || (|t| == 4 && DigitsAt(t, 0, 1) && t[1] == ':' && DigitsAt(t, 2, 2))
    || (|t| == 5 && DigitsAt(t, 0, 2) && t[2] == ':' && DigitsAt(t, 3, 2))
  }

  /** `re.match(r'^\d{4}-\d{2}-\d{2}$', text)`: `$` also matches just before a final newline. */
  predicate IsDateFormat(t: string)
  {
    DateShape(t) || (|t| >= 1 && t[|t| - 1] == '\n' && DateShape(t[..|t| - 1]))
  }

  /** `re.match(r'^\d{1,2}:\d{2}$', text)`. */
  predicate IsTimeFormat(t: string)
  {
    TimeShape(t) || (|t| >= 1 && t[|t| - 1] == '\n' && TimeShape(t[..|t| - 1]))
  }

  /**
   The text is stripped before the checks, so the final-newline case never
   arises: on stripped text the checks are exactly the shapes.
   */
  lemma StrippedFormats(raw: string)
    ensures var t := Text.Strip(raw);
            (IsDateFormat(t) <==> DateShape(t)) && (IsTimeFormat(t) <==> TimeShape(t))
  {
    var t := Text.Strip(raw);
    if |t| >= 1 {
      assert t[|t| - 1] != '\n' by {
        assert !Text.IsSpace(t[|t| - 1]);
      }
    }
    FormatsWithoutNewline(t);
  }

  /** Without a final newline, the checks are exactly the shapes. */
  lemma FormatsWithoutNewline(t: string)
    requires |t| == 0 || t[|t| - 1] != '\n'
    ensures (IsDateFormat(t) <==> DateShape(t)) && (IsTimeFormat(t) <==> TimeShape(t))
  {
  }

  /** Four, two and two digits joined by dashes have the date shape. */
  lemma DateShapeJoin(y: string, m: string, dd: string)
    requires |y| == 4 && |m| == 2 && |dd| == 2 && Text.AllDigits(y) && Text.AllDigits(m) && Text.AllDigits(dd)
    ensures DateShape(y + "-" + m + "-" + dd)
  {
    var t := y + "-" + m + "-" + dd;
    assert forall k :: 0 <= k < 4 ==> t[k] == y[k];
    assert t[4] == '-' && t[7] == '-';
    assert forall k :: 5 <= k < 7 ==> t[k] == m[k - 5];
    assert forall k :: 8 <= k < 10 ==> t[k] == dd[k - 8];
  }

  /** Two and two digits joined by a colon have the time shape. */
  lemma TimeShapeJoin(h: string, m: string)
    requires |h| == 2 && |m| == 2 && Text.AllDigits(h) && Text.AllDigits(m)
    ensures TimeShape(h + ":" + m)
  {
    var t := h + ":" + m;
    assert forall k :: 0 <= k < 2 ==> t[k] == h[k];
    assert t[2] == ':';
    assert forall k :: 3 <= k < 5 ==> t[k] == m[k - 3];
  }

  /** A year of the calendar is four digits wide. */
  lemma YearField(year: int)
    requires MinYear <= year <= MaxYear
    ensures |Text.FormatInt(year, 4)| == 4 && Text.AllDigits(Text.FormatInt(year, 4))
  {
    assert Text.Pow10(4) == 10000 by {
      assert Text.Pow10(2) == 100;
    }
    Text.FormatIntWidth(year, 4);
  }

  /** Every date the calendar can hold, written as ISO text, passes the date check. */
  lemma IsoDatesPass(d: Date)
    requires ValidDate(d)
    ensures IsDateFormat(IsoFormat(d))
  {
    YearField(d.year);
    TwoDigitField(d.month);
    TwoDigitField(d.day);
    DateShapeJoin(Text.FormatInt(d.year, 4), Text.FormatInt(d.month, 2), Text.FormatInt(d.day, 2));
  }

  /** Every time of day written as HH:MM passes the time check. */
  lemma HhMmTimesPass(time: Time)
    requires ValidTime(time)
    ensures IsTimeFormat(TimeFormat(time))
  {
    TwoDigitField(time.hour);
    TwoDigitField(time.minute);
    TimeShapeJoin(Text.FormatInt(time.hour, 2), Text.FormatInt(time.minute, 2));
  }

  /** Text of the date shape splits at its two dashes. */
  lemma DateShapeSplit(t: string)
    requires DateShape(t)
    ensures Text.Split(t, '-') == [t[..4], t[5..7], t[8..]]
  {
    var parts := [t[..4], t[5..7], t[8..]];
    forall i | 0 <= i < 3
      ensures '-' !in parts[i]
    {
      assert Text.AllDigits(parts[i]);
    }
    assert Text.Join(parts[2..], '-') == t[8..];
    assert Text.Join(parts[1..], '-') == t[5..7] + "-" + t[8..];
    assert Text.Join(parts, '-') == t;
    Text.SplitJoin(parts, '-');
  }

  /**
   The shape check does not look at the calendar: text of the date shape
   whose month field is no month passes it, and the date parser rejects it.
   */
  lemma ShapeIsNotCalendar(t: string)
    requires DateShape(t) && !MonthField(t[5..7])
    ensures IsDateFormat(t) && ParseDate(t).Err?
  {
    DateShapeSplit(t);
  }

  /** The 45th of month 13 is such a text. */
  lemma MonthThirteenExample()
    ensures var t := "1990-13-45"; DateShape(t) && !MonthField(t[5..7])
  {
    var t := "1990-13-45";
    assert t[5..7] == "13";
  }

  // ---------------------------------------------------------------- gender

  const MaleWords: seq<string> := ["男", "male", "m"]
  const FemaleWords: seq<string> := ["女", "female", "f"]

  /** `"男" if content.lower() in ["男", "male", "m"] else "女"`, for the six accepted words. */
  function NormalizeGender(content: string): (r: Option<string>)
    ensures r.Some? <==> Text.Lower(content) in MaleWords + FemaleWords
    ensures r == Some("男") <==> Text.Lower(content) in MaleWords
    ensures r == Some("女") <==> Text.Lower(content) in FemaleWords
  {
    var c := Text.Lower(content);
    if c in MaleWords then Some("男") else if c in FemaleWords then Some("女") else None
  }

  /** Normalising is idempotent: 男 and 女 are accepted words that normalise to themselves. */
  lemma GenderIdempotent(content: string)
    requires NormalizeGender(content).Some?
    ensures NormalizeGender(NormalizeGender(content).value) == NormalizeGender(content)
  {
    assert Text.Lower("男") == "男";
    assert Text.Lower("女") == "女";
  }

  /** Upper-case spellings are accepted. */
  lemma GenderIgnoresCase()
    ensures NormalizeGender("M") == Some("男") && NormalizeGender("Female") == Some("女")
  {
    assert Text.Lower("M") == "m";
    assert Text.Lower("Female") == "female";
  }

  // ---------------------------------------------------------------- intent

  datatype Intent = Intent(requiresRouting: bool, system: Option<System>, confidence: real,
                           keywords: seq<string>, showMenu: bool)

  const MenuWords: seq<string> := ["", "help", "帮助", "菜单", "选择", "系统", "list", "开始"]

  function Keywords(s: System): seq<string>
  {
    match s
    case Bazi => ["八字", "命理", "生辰", "四柱", "五行"]
    case Tarot => ["塔罗", "塔罗牌", "抽牌", "占卜"]
    case Zodiac => ["星座", "占星", "星盘", "十二星座", "星象"]
  }

  /** Whether some keyword of `s` occurs in the text. */
  predicate Mentions(text: string, s: System)
  {
    exists k :: k in Keywords(s) && Text.Contains(text, k)
  }

  /** The first of `ks` that occurs in the text. */
  function FirstKeyword(text: string, ks: seq<string>): (r: Option<string>)
    ensures r.Some? ==> r.value in ks && Text.Contains(text, r.value)
    ensures r.None? <==> forall k :: k in ks ==> !Text.Contains(text, k)
  {
    if |ks| == 0 then None
    else if Text.Contains(text, ks[0]) then Some(ks[0])
    else
      FirstKeyword(text, ks[1..])
  }

  /** The intent when a keyword of `s` decides it. */
  function KeywordIntent(s: System, k: string): Intent
  {
    Intent(true, Some(s), 0.8, [k], false)
  }

  const MenuIntent: Intent := Intent(false, None, 0.0, [], true)

  /**
   The keyword stage of the intent analysis: the first system, in the order
   bazi, tarot, zodiac, one of whose keywords occurs, with that system's
   first keyword that occurs; otherwise the menu.
   */
  function KeywordScan(c: string): (r: Intent)
    ensures r.requiresRouting <==> Mentions(c, Bazi) || Mentions(c, Tarot) || Mentions(c, Zodiac)
    ensures r.requiresRouting ==> && r.system.Some? && r.confidence == 0.8 && Mentions(c, r.system.value)
                                  && |r.keywords| == 1 && r.keywords[0] in Keywords(r.system.value)
                                  && Text.Contains(c, r.keywords[0]) && !r.showMenu
    ensures r.system == Some(Tarot) ==> !Mentions(c, Bazi)
    ensures r.system == Some(Zodiac) ==> !Mentions(c, Bazi) && !Mentions(c, Tarot)
    ensures !r.requiresRouting ==> r == MenuIntent
  {
    match FirstKeyword(c, Keywords(Bazi))
    case Some(k) => KeywordIntent(Bazi, k)
    case None =>
      match FirstKeyword(c, Keywords(Tarot))
      case Some(k) => KeywordIntent(Tarot, k)
      case None =>
        match FirstKeyword(c, Keywords(Zodiac))
        case Some(k) => KeywordIntent(Zodiac, k)
        case None => MenuIntent
  }

  /**
   `_analyze_user_intent(content)`: a digit selects with confidence 1.0; a
   menu word asks for the menu; otherwise the keyword stage decides.
   */
  function AnalyzeIntent(content: string): (r: Intent)
    ensures r.showMenu <==> !r.requiresRouting
    ensures r.requiresRouting <==> r.system.Some?
  {
    var c := Text.Lower(Text.Strip(content));
    if c in {"1", "2", "3"} then Intent(true, SelectionOf(c), 1.0, [], false)
    else if c in MenuWords then MenuIntent
    else KeywordScan(c)
  }

  /**
   The three stages of the intent analysis on the stripped, lower-cased
   text: digits select, menu words ask for the menu, and otherwise the
   first system whose keyword occurs is routed to with confidence 0.8.
   */
  lemma IntentStages(content: string)
    ensures var r, c := AnalyzeIntent(content), Text.Lower(Text.Strip(content));
            && (c in {"1", "2", "3"} ==> r.system == SelectionOf(c) && r.confidence == 1.0 && r.keywords == [])
            && (c !in {"1", "2", "3"} && c in MenuWords ==> r == MenuIntent)
            && (c !in {"1", "2", "3"} && c !in MenuWords ==>
                  && (r.requiresRouting <==> Mentions(c, Bazi) || Mentions(c, Tarot) || Mentions(c, Zodiac))
                  && (r.requiresRouting ==> && r.confidence == 0.8 && Mentions(c, r.system.value)
                                            && |r.keywords| == 1 && r.keywords[0] in Keywords(r.system.value)
                                            && Text.Contains(c, r.keywords[0]))
                  && (r.system == Some(Tarot) ==> !Mentions(c, Bazi))
                  && (r.system == Some(Zodiac) ==> !Mentions(c, Bazi) && !Mentions(c, Tarot))
                  && (!r.requiresRouting ==> r == MenuIntent))
  {
  }

  /** The digit map of the intent analysis is the menu's digit map. */
  lemma DigitIntentIsSelection(content: string)
    requires content in {"1", "2", "3"}
    ensures AnalyzeIntent(content).system == SelectionOf(content)
    ensures AnalyzeIntent(content).requiresRouting
  {
    StripLowerPlain(content);
    IntentStages(content);
  }

  /** A single character that is neither blank nor an upper-case letter is its own stripped lower-case form. */
  lemma StripLowerPlain(t: string)
    requires |t| == 1 && !Text.IsSpace(t[0]) && !('A' <= t[0] <= 'Z')
    ensures Text.Strip(t) == t && Text.Lower(Text.Strip(t)) == t
  {
    assert Text.TrimLeft(t) == t;
    assert Text.TrimRight(t) == t;
    assert Text.Lower(t)[0] == t[0];
  }

  // ---------------------------------------------------------------- agents

  /** `available_agents`: system type to agent name, keyed by any hashable value. */
  type Agents = map<Value, Value>

  /** `_discover_agents`. */
  const Discovered: Agents := map[Str("bazi") := Str("BaZiAgent"), Str("tarot") := Str("TarotAgent"),
                                  Str("zodiac") := Str("ZodiacAgent"), Str("chat") := Str("ChatAgent")]

  predicate Hashable(v: Value)
  {
    !v.List? && !v.Dict?
  }

  datatype Registration = Registered(agentType: Value) | RegistrationFailed(error: Exc)

  /**
   `_handle_agent_registration(message)`: with both a name and a type the
   type maps to the name; anything else is an error reply and nothing is
   registered.
   */
  function Register(agents: Agents, payload: Payload): (r: (Agents, Registration))
    ensures var name, kind := GetOrNull(payload, "agent_name"), GetOrNull(payload, "agent_type");
            && (r.1.Registered? <==> Truthy(name) && Truthy(kind) && Hashable(kind))
            && (r.1.Registered? ==> r.0 == agents[kind := name] && r.1.agentType == kind)
            && (r.1.RegistrationFailed? ==> r.0 == agents)
            && (r.1.RegistrationFailed? && !(Truthy(name) && Truthy(kind)) ==> r.1.error == ValueError)
            && (r.1.RegistrationFailed? && Truthy(name) && Truthy(kind) ==> r.1.error == TypeError)
  {
    var name, kind := GetOrNull(payload, "agent_name"), GetOrNull(payload, "agent_type");
    if !(Truthy(name) && Truthy(kind)) then (agents, RegistrationFailed(ValueError))
    else if !Hashable(kind) then (agents, RegistrationFailed(TypeError))
    else (agents[kind := name], Registered(kind))
  }

  /** `_route_to_system`'s guard: a system with no registered agent raises. */
  function RouteGuard(agents: Agents, s: System): (r: Result<System>)
    ensures r.Ok? <==> Str(SystemKey(s)) in agents
    ensures r.Ok? ==> r.value == s
    ensures r.Err? ==> r.error == ValueError
  {
    if Str(SystemKey(s)) in agents then Ok(s) else Err(ValueError)
  }

  /** Registering a system's type makes the guard let it through; the discovered agents cover all three systems. */
  lemma RegistrationOpensRoute(agents: Agents, payload: Payload, s: System)
    requires GetOrNull(payload, "agent_type") == Str(SystemKey(s)) && Truthy(GetOrNull(payload, "agent_name"))
    ensures Register(agents, payload).1.Registered?
    ensures RouteGuard(Register(agents, payload).0, s).Ok?
    ensures RouteGuard(Discovered, s).Ok?
  {
  }

  datatype Validated = Interaction(content: string) | Request(payload: Payload) | Passed(payload: Payload)

  datatype MessageKind = UserInteraction | FortuneRequest | OtherKind

  /**
   `validate_input(message)`: an interaction needs non-blank content; a
   fortune request needs a system type with a registered agent; other
   messages pass unchanged.
   */
  function ValidateInput(kind: MessageKind, payload: Payload, agents: Agents): (r: Result<Validated>)
    ensures kind == UserInteraction ==>
              && (!GetOr(payload, "content", Str("")).Str? ==> r == Err(AttributeError))
              && (GetOr(payload, "content", Str("")).Str? ==>
                    var c := Text.Strip(GetOr(payload, "content", Str("")).s);
                    (c == "" ==> r == Err(ValueError)) && (c != "" ==> r == Ok(Interaction(c))))
    ensures kind == FortuneRequest ==>
              var st := GetOrNull(payload, "system_type");
              && (r.Ok? <==> Truthy(st) && Hashable(st) && st in agents)
              && (r.Ok? ==> r.value == Request(payload))
              && (r.Err? && Truthy(st) && !Hashable(st) ==> r.error == TypeError)
              && (r.Err? && !(Truthy(st) && !Hashable(st)) ==> r.error == ValueError)
    ensures kind == OtherKind ==> r == Ok(Passed(payload))
  {
    match kind
    case UserInteraction =>
      var c := GetOr(payload, "content", Str(""));
      if !c.Str? then Err(AttributeError)
      else if Text.Strip(c.s) == "" then Err(ValueError)
      else Ok(Interaction(Text.Strip(c.s)))
    case FortuneRequest =>
      var st := GetOrNull(payload, "system_type");
      if !Truthy(st) then Err(ValueError)
      else if !Hashable(st) then Err(TypeError)
      else if st !in agents then Err(ValueError)
      else Ok(Request(payload))
    case OtherKind => Ok(Passed(payload))
  }

  /** `_get_system_display_name`: the four known names, the type itself otherwise. */
  function DisplayName(systemType: string): (r: string)
    ensures systemType !in {"bazi", "tarot", "zodiac", "chat"} ==> r == systemType
    ensures systemType in {"bazi", "tarot", "zodiac", "chat"} ==> r != systemType
  {
    if systemType == "bazi" then "八字命理" else if systemType == "tarot" then "塔罗占卜"
    else if systemType == "zodiac" then "星座占星" else if systemType == "chat" then "智能对话"
    else systemType
  }

  // ---------------------------------------------------------------- sessions

  datatype Step = Menu | Collecting | OtherStep(name: string)

  datatype Session = Session(system: Option<System>, step: Step, data: map<string, string>)

  /** `{"system": None, "step": "menu", "data": {}}`. */
  const NewSession: Session := Session(None, Menu, map[])

  /** `data.get(key)` is truthy. */
  predicate Has(data: map<string, string>, key: string)
  {
    key in data && |data[key]| > 0
  }

  datatype Reply =
    | InputPrompt(nextField: string)
    | InputError(need: string)
    | SystemMenu
    | Routed(system: System, payload: Payload)
    | Failed(error: Exc)

  datatype Outcome = Outcome(session: Session, reply: Reply)

  /** Hand a finished request to a system; the guard's ValueError is caught into an error reply. */
  function Route(agents: Agents, s: System, payload: Payload, session: Session): (o: Outcome)
    ensures o.session == session
    ensures RouteGuard(agents, s).Ok? ==> o.reply == Routed(s, payload)
    ensures RouteGuard(agents, s).Err? ==> o.reply == Failed(ValueError)
  {
    match RouteGuard(agents, s)
    case Ok(_) => Outcome(session, Routed(s, payload))
    case Err(e) => Outcome(session, Failed(e))
  }

  /** The field each system asks for first. */
  function FirstField(s: System): string
  {
    match s
    case Bazi => "birth_date"
    case Tarot => "question"
    case Zodiac => "birth_date"
  }

  /**
   `_handle_menu_selection`: a digit starts collecting for its system; a
   routing intent does the same, except that tarot is routed at once with
   the message's own payload; anything else shows the menu and changes
   nothing.
   */
  function HandleMenu(session: Session, content: string, payload: Payload, agents: Agents): (o: Outcome)
    ensures SelectionOf(content).Some? ==>
              o == Outcome(Session(SelectionOf(content), Collecting, map[]), InputPrompt(FirstField(SelectionOf(content).value)))
    ensures SelectionOf(content).None? && !AnalyzeIntent(content).requiresRouting ==> o == Outcome(session, SystemMenu)
    ensures SelectionOf(content).None? && AnalyzeIntent(content).requiresRouting ==>
              var s := AnalyzeIntent(content).system.value;
              && o.session == Session(Some(s), Collecting, map[])
              && (s != Tarot ==> o.reply == InputPrompt("birth_date"))
              && (s == Tarot ==> o.reply == Route(agents, Tarot, payload, o.session).reply)
  {
    match SelectionOf(content)
    case Some(s) => Outcome(Session(Some(s), Collecting, map[]), InputPrompt(FirstField(s)))
    case None =>
      var intent := AnalyzeIntent(content);
      if intent.requiresRouting then
        var s := intent.system.value;
        var collecting := Session(Some(s), Collecting, map[]);
        if s == Tarot then Route(agents, Tarot, payload, collecting)
        else Outcome(collecting, InputPrompt("birth_date"))
      else Outcome(session, SystemMenu)
  }

  /** The bazi field still needed, as the error prompt names it. */
  function BaziNeed(data: map<string, string>): string
  {
    if !Has(data, "birth_date") then "birth_date"
    else if !Has(data, "birth_time") then "birth_time"
    else if !Has(data, "gender") then "gender"
    else "unknown"
  }

  /** The request the bazi agent receives once the gender is known. */
  function BaziRequest(data: map<string, string>): (p: Payload)
    requires "birth_date" in data && "birth_time" in data && "gender" in data
    ensures p.Keys == {"birth_date", "birth_time", "gender", "location"}
    ensures p["birth_date"] == Str(data["birth_date"]) && p["birth_time"] == Str(data["birth_time"])
    ensures p["gender"] == Str(data["gender"]) && p["location"] == Str("中国")
  {
    map["birth_date" := Str(data["birth_date"]), "birth_time" := Str(data["birth_time"]),
        "gender" := Str(data["gender"]), "location" := Str("中国")]
  }

  /** The date branch: no date yet and the text has the date shape. */
  predicate TakesDate(data: map<string, string>, content: string)
  {
    !Has(data, "birth_date") && IsDateFormat(content)
  }

  /** The time branch: the date branch is not taken, no time yet and the text has the time shape. */
  predicate TakesTime(data: map<string, string>, content: string)
  {
    !TakesDate(data, content) && !Has(data, "birth_time") && IsTimeFormat(content)
  }

  /** The gender branch as written: neither earlier branch is taken, no gender yet and the text is a gender word. */
  predicate TakesGender(data: map<string, string>, content: string)
  {
    !TakesDate(data, content) && !TakesTime(data, content) && !Has(data, "gender") && NormalizeGender(content).Some?
  }

  /** The session data with the normalised gender stored. */
  function WithGender(data: map<string, string>, content: string): (d: map<string, string>)
    requires NormalizeGender(content).Some?
    ensures d.Keys == data.Keys + {"gender"} && d["gender"] in {"男", "女"}
    ensures forall k :: k in data && k != "gender" ==> d[k] == data[k]
  {
    data["gender" := NormalizeGender(content).value]
  }

  /**
   `_handle_bazi_input_collection` as written: a date in the checked shape
   is taken first, then a time, then a gender word. The gender branch does
   not check that the date and time are there: the gender is stored and the
   step reset to the menu before the request is built, and building it
   raises KeyError when a field is missing. Any other text is answered with
   the prompt for the first missing field.
   */
  function CollectBazi(session: Session, content: string, agents: Agents): (o: Outcome)
    ensures TakesDate(session.data, content) ==>
              o == Outcome(session.(data := session.data["birth_date" := content]), InputPrompt("birth_time"))
    ensures TakesTime(session.data, content) ==>
              o == Outcome(session.(data := session.data["birth_time" := content]), InputPrompt("gender"))
    ensures TakesGender(session.data, content) ==>
              o.session == Session(session.system, Menu, WithGender(session.data, content))
    ensures TakesGender(session.data, content) && !("birth_date" in session.data && "birth_time" in session.data) ==>
              o.reply == Failed(KeyError)
    ensures TakesGender(session.data, content) && "birth_date" in session.data && "birth_time" in session.data ==>
              && (RouteGuard(agents, Bazi).Ok? ==> o.reply == Routed(Bazi, BaziRequest(WithGender(session.data, content))))
              && (RouteGuard(agents, Bazi).Err? ==> o.reply == Failed(ValueError))
    ensures !TakesDate(session.data, content) && !TakesTime(session.data, content) && !TakesGender(session.data, content) ==>
              o == Outcome(session, InputError(BaziNeed(session.data)))
  {
    var data := session.data;
    if TakesDate(data, content) then
      Outcome(session.(data := data["birth_date" := content]), InputPrompt("birth_time"))
    else if !Has(data, "birth_time") && IsTimeFormat(content) then
      Outcome(session.(data := data["birth_time" := content]), InputPrompt("gender"))
    else if !Has(data, "gender") && NormalizeGender(content).Some? then
      var data' := WithGender(data, content);
      var session' := Session(session.system, Menu, data');
      if "birth_date" !in data' || "birth_time" !in data' then Outcome(session', Failed(KeyError))
      else Route(agents, Bazi, BaziRequest(data'), session')
    else Outcome(session, InputError(BaziNeed(data)))
  }

  /** Typing the gender first, right after choosing BaZi, ends the collection with a KeyError. */
  lemma GenderFirstCollect(agents: Agents)
    ensures CollectBazi(Session(Some(Bazi), Collecting, map[]), "男", agents)
            == Outcome(Session(Some(Bazi), Menu, map["gender" := "男"]), Failed(KeyError))
  {
    assert Text.Lower("男") == "男";
    assert !IsTimeFormat("男") && !IsDateFormat("男");
  }

  /**
   `_handle_bazi_input_collection` as intended: the gender completes the
   collection only once the date and the time are in; before that it is
   answered with the prompt for the missing field.
   */
  function CollectBaziFixed(session: Session, content: string, agents: Agents): (o: Outcome)
    ensures !Has(session.data, "birth_date") && IsDateFormat(content) ==>
              o == Outcome(session.(data := session.data["birth_date" := content]), InputPrompt("birth_time"))
    ensures !(!Has(session.data, "birth_date") && IsDateFormat(content)) && !Has(session.data, "birth_time") && IsTimeFormat(content) ==>
              o == Outcome(session.(data := session.data["birth_time" := content]), InputPrompt("gender"))
    ensures o.reply.Routed? || o.reply.Failed? ==>
              && Has(session.data, "birth_date") && Has(session.data, "birth_time") && !Has(session.data, "gender")
              && NormalizeGender(content).Some?
              && o.session == Session(session.system, Menu, session.data["gender" := NormalizeGender(content).value])
    ensures o.reply.Routed? ==> o.reply.system == Bazi && o.reply.payload == BaziRequest(o.session.data)
    ensures o.reply.Failed? ==> o.reply.error == ValueError
    ensures o.reply.InputError? ==> o.session == session && o.reply.need == BaziNeed(session.data)
  {
    var data := session.data;
    if !Has(data, "birth_date") && IsDateFormat(content) then
      Outcome(session.(data := data["birth_date" := content]), InputPrompt("birth_time"))
    else if !Has(data, "birth_time") && IsTimeFormat(content) then
      Outcome(session.(data := data["birth_time" := content]), InputPrompt("gender"))
    else if Has(data, "birth_date") && Has(data, "birth_time") && !Has(data, "gender") && NormalizeGender(content).Some? then
      var data' := data["gender" := NormalizeGender(content).value];
      Route(agents, Bazi, BaziRequest(data'), Session(session.system, Menu, data'))
    else Outcome(session, InputError(BaziNeed(data)))
  }

  /**
   The corrected collection differs from the one as written only on a
   gender word typed before the date or the time is in: there the corrected
   one repeats the prompt for the missing field and keeps the session.
   */
  lemma FixedDiffersOnlyOnEarlyGender(s: Session, content: string, agents: Agents)
    ensures !(TakesGender(s.data, content) && !(Has(s.data, "birth_date") && Has(s.data, "birth_time"))) ==>
              CollectBaziFixed(s, content, agents) == CollectBazi(s, content, agents)
    ensures TakesGender(s.data, content) && !(Has(s.data, "birth_date") && Has(s.data, "birth_time")) ==>
              && CollectBaziFixed(s, content, agents) == Outcome(s, InputError(BaziNeed(s.data)))
              && CollectBazi(s, content, agents).session.step == Menu
  {
  }

  const SpreadChoices: seq<string> := ["single", "three_card", "celtic_cross", "relationship"]

  /** `spread_map`: "1".."4" to the tarot agent's spread names. */
  function SpreadOfChoice(content: string): (r: Option<string>)
    ensures r.Some? <==> content in {"1", "2", "3", "4"}
    ensures r.Some? ==> r.value in SpreadChoices
  {
    if content == "1" then Some("single") else if content == "2" then Some("three_card")
    else if content == "3" then Some("celtic_cross") else if content == "4" then Some("relationship")
    else None
  }

  /** The four choices name four different spreads. */
  lemma SpreadChoicesDistinct(a: string, b: string)
    requires SpreadOfChoice(a).Some? && SpreadOfChoice(b).Some? && a != b
    ensures SpreadOfChoice(a) != SpreadOfChoice(b)
  {
  }

  function TarotRequest(question: string, spread: string): (p: Payload)
    ensures p.Keys == {"question", "spread_type", "name", "focus_area"}
    ensures p["question"] == Str(question) && p["spread_type"] == Str(spread)
    ensures p["name"] == Str("缘主") && p["focus_area"] == Str("综合运势")
  {
    map["question" := Str(question), "spread_type" := Str(spread), "name" := Str("缘主"), "focus_area" := Str("综合运势")]
  }

  /**
   `_handle_tarot_input_collection`: first the question, then a spread
   number, which completes the collection; anything else is an error
   prompt for whichever is missing.
   */
  function CollectTarot(session: Session, content: string, agents: Agents): (o: Outcome)
    ensures var data, c := session.data, Text.Strip(content);
            && (!Has(data, "question") && c != "" ==>
                  o == Outcome(session.(data := data["question" := c]), InputPrompt("spread")))
            && (Has(data, "question") && !Has(data, "spread") && SpreadOfChoice(c).Some? ==>
                  && o.session == Session(session.system, Menu, data["spread" := SpreadOfChoice(c).value])
                  && o.reply == Route(agents, Tarot, TarotRequest(data["question"], SpreadOfChoice(c).value), o.session).reply)
    ensures o.reply.InputError? ==> o.session == session
                                    && o.reply.need == (if Has(session.data, "question") then "spread" else "question")
    ensures o.reply.Failed? ==> o.reply.error == ValueError
  {
    var data, c := session.data, Text.Strip(content);
    if !Has(data, "question") && c != "" then
      Outcome(session.(data := data["question" := c]), InputPrompt("spread"))
    else if Has(data, "question") && !Has(data, "spread") && SpreadOfChoice(c).Some? then
      var data' := data["spread" := SpreadOfChoice(c).value];
      Route(agents, Tarot, TarotRequest(data["question"], data'["spread"]), Session(session.system, Menu, data'))
    else if !Has(data, "question") then Outcome(session, InputError("question"))
    else Outcome(session, InputError("spread"))
  }

  /** `_handle_zodiac_input_collection`: a date completes the collection; anything else asks for it again. */
  function CollectZodiac(session: Session, content: string, agents: Agents): (o: Outcome)
    ensures !Has(session.data, "birth_date") && IsDateFormat(content) ==>
              && o.session == Session(session.system, Menu, session.data["birth_date" := content])
              && o.reply == Route(agents, Zodiac, map["birth_date" := Str(content), "name" := Str("缘主")], o.session).reply
    ensures !(!Has(session.data, "birth_date") && IsDateFormat(content)) ==>
              o == Outcome(session, InputError("birth_date"))
  {
    var data := session.data;
    if !Has(data, "birth_date") && IsDateFormat(content) then
      var data' := data["birth_date" := content];
      Route(agents, Zodiac, map["birth_date" := Str(data'["birth_date"]), "name" := Str("缘主")], Session(session.system, Menu, data'))
    else Outcome(session, InputError("birth_date"))
  }

  /** `_handle_input_collection`: dispatch on the session's system; with none, back to the menu. */
  function Collect(session: Session, content: string, agents: Agents): (o: Outcome)
    ensures session.system == Some(Bazi) ==> o == CollectBazi(session, content, agents)
    ensures session.system == Some(Tarot) ==> o == CollectTarot(session, content, agents)
    ensures session.system == Some(Zodiac) ==> o == CollectZodiac(session, content, agents)
    ensures session.system.None? ==> o == Outcome(session.(step := Menu), SystemMenu)
  {
    match session.system
    case Some(Bazi) => CollectBazi(session, content, agents)
    case Some(Tarot) => CollectTarot(session, content, agents)
    case Some(Zodiac) => CollectZodiac(session, content, agents)
    case None => Outcome(session.(step := Menu), SystemMenu)
  }

  /** The handler the session's step selects; an unknown step is reset to the menu first. */
  function Dispatch(s: Session, content: string, payload: Payload, agents: Agents): (o: Outcome)
    ensures s.step == Collecting ==> o == Collect(s, content, agents)
    ensures s.step != Collecting ==> o == HandleMenu(s.(step := Menu), content, payload, agents)
  {
    match s.step
    case Menu => HandleMenu(s, content, payload, agents)
    case Collecting => Collect(s, content, agents)
    case OtherStep(_) => HandleMenu(s.(step := Menu), content, payload, agents)
  }

  datatype Interaction = InteractionResult(sessions: map<string, Session>, reply: Reply)

  /** The session an id names, a fresh one at the menu for an unseen id. */
  function SessionOf(sessions: map<string, Session>, id: string): Session
  {
    if id in sessions then sessions[id] else NewSession
  }

  /** The session table with `id` set to `s`. */
  function Store(sessions: map<string, Session>, id: string, s: Session): (m: map<string, Session>)
    ensures m.Keys == sessions.Keys + {id} && id in m && m[id] == s
    ensures forall other :: other in sessions && other != id ==> m[other] == sessions[other]
  {
    sessions[id := s]
  }

  /**
   `_handle_user_interaction(message)`: the content is stripped (text only
   has `strip`), the session is looked up or started at the menu, and its
   step picks the handler; only that session changes.
   */
  function HandleUserInteraction(sessions: map<string, Session>, id: string, payload: Payload, agents: Agents): (r: Interaction)
    ensures !GetOr(payload, "content", Str("")).Str? ==> r == InteractionResult(sessions, Failed(AttributeError))
    ensures GetOr(payload, "content", Str("")).Str? ==>
              && r.sessions.Keys == sessions.Keys + {id}
              && (forall other :: other in sessions && other != id ==> r.sessions[other] == sessions[other])
  {
    var c := GetOr(payload, "content", Str(""));
    if !c.Str? then InteractionResult(sessions, Failed(AttributeError))
    else
      var o := Dispatch(SessionOf(sessions, id), Text.Strip(c.s), payload, agents);
      InteractionResult(Store(sessions, id, o.session), o.reply)
  }

  /** With text content, the session's new state and the reply are what the selected handler gives. */
  lemma InteractionDispatches(sessions: map<string, Session>, id: string, payload: Payload, agents: Agents)
    requires GetOr(payload, "content", Str("")).Str?
    ensures var r := HandleUserInteraction(sessions, id, payload, agents);
            var o := Dispatch(SessionOf(sessions, id), Text.Strip(GetOr(payload, "content", Str("")).s), payload, agents);
            id in r.sessions && r.sessions[id] == o.session && r.reply == o.reply
  {
  }

  /** `_handle_input_collection` with the corrected BaZi collection; the other systems are unchanged. */
  function CollectFixed(session: Session, content: string, agents: Agents): (o: Outcome)
    ensures session.system == Some(Bazi) ==> o == CollectBaziFixed(session, content, agents)
    ensures session.system != Some(Bazi) ==> o == Collect(session, content, agents)
  {
    if session.system == Some(Bazi) then CollectBaziFixed(session, content, agents) else Collect(session, content, agents)
  }

  /** The step dispatch with the corrected collection. */
  function DispatchFixed(s: Session, content: string, payload: Payload, agents: Agents): (o: Outcome)
    ensures s.step == Collecting ==> o == CollectFixed(s, content, agents)
    ensures s.step != Collecting ==> o == Dispatch(s, content, payload, agents)
  {
    if s.step == Collecting then CollectFixed(s, content, agents) else Dispatch(s, content, payload, agents)
  }

  /** `_handle_user_interaction` with the corrected collection: only the interacting session changes. */
  function HandleUserInteractionFixed(sessions: map<string, Session>, id: string, payload: Payload, agents: Agents): (r: Interaction)
    ensures !GetOr(payload, "content", Str("")).Str? ==> r == InteractionResult(sessions, Failed(AttributeError))
    ensures GetOr(payload, "content", Str("")).Str? ==>
              && r.sessions.Keys == sessions.Keys + {id}
              && (forall other :: other in sessions && other != id ==> r.sessions[other] == sessions[other])
  {
    var c := GetOr(payload, "content", Str(""));
    if !c.Str? then InteractionResult(sessions, Failed(AttributeError))
    else
      var o := DispatchFixed(SessionOf(sessions, id), Text.Strip(c.s), payload, agents);
      InteractionResult(Store(sessions, id, o.session), o.reply)
  }

  /** With text content, the corrected handler's session and reply are what the corrected dispatch gives. */
  lemma InteractionDispatchesFixed(sessions: map<string, Session>, id: string, payload: Payload, agents: Agents)
    requires GetOr(payload, "content", Str("")).Str?
    ensures var r := HandleUserInteractionFixed(sessions, id, payload, agents);
            var o := DispatchFixed(SessionOf(sessions, id), Text.Strip(GetOr(payload, "content", Str("")).s), payload, agents);
            id in r.sessions && r.sessions[id] == o.session && r.reply == o.reply
  {
  }

  // ---------------------------------------------------------------- invariants

  /** What a collecting session can hold: the fields its system has taken so far, each in its checked shape. */
  predicate DataFits(s: System, data: map<string, string>)
  {
    match s
    case Bazi =>
      && data.Keys <= {"birth_date", "birth_time"}
      && ("birth_date" in data ==> IsDateFormat(data["birth_date"]))
      && ("birth_time" in data ==> IsTimeFormat(data["birth_time"]))
    case Tarot => data.Keys <= {"question"} && ("question" in data ==> data["question"] != "")
    case Zodiac => data == map[]
  }

  predicate WellFormed(s: Session)
  {
    s.step == Collecting ==> s.system.Some? && DataFits(s.system.value, s.data)
  }

  predicate AllWellFormed(sessions: map<string, Session>)
  {
    forall id :: id in sessions ==> WellFormed(sessions[id])
  }

  /** A well-formed session stays well-formed through the menu. */
  lemma MenuKeepsWellFormed(s: Session, content: string, payload: Payload, agents: Agents)
    requires WellFormed(s)
    ensures WellFormed(HandleMenu(s, content, payload, agents).session)
  {
  }

  /**
   Collecting keeps the session well-formed, and a reply that ends the
   collection (a request handed on, or a routing failure) always comes with
   the step back at the menu; an error prompt changes nothing.
   */
  lemma CollectKeepsWellFormed(s: Session, content: string, agents: Agents)
    requires WellFormed(s) && s.step == Collecting
    ensures var o := Collect(s, content, agents);
            && WellFormed(o.session)
            && (o.reply.Routed? || o.reply.Failed? ==> o.session.step == Menu)
            && (o.reply.InputPrompt? ==> o.session.step == Collecting && o.session.system == s.system)
            && (o.reply.InputError? ==> o.session == s)
  {
    var o := Collect(s, content, agents);
    match s.system.value
    case Bazi =>
      if o.session.step == Collecting {
        assert o.reply.InputPrompt? || o.reply.InputError?;
      }
    case Tarot =>
    case Zodiac =>
  }

  /** Every interaction keeps all sessions well-formed. */
  lemma InteractionKeepsWellFormed(sessions: map<string, Session>, id: string, payload: Payload, agents: Agents)
    requires AllWellFormed(sessions)
    ensures AllWellFormed(HandleUserInteraction(sessions, id, payload, agents).sessions)
  {
    var c := GetOr(payload, "content", Str(""));
    if c.Str? {
      var content := Text.Strip(c.s);
      var s := SessionOf(sessions, id);
      var o := Dispatch(s, content, payload, agents);
      if s.step == Collecting {
        CollectKeepsWellFormed(s, content, agents);
      } else {
        MenuKeepsWellFormed(s.(step := Menu), content, payload, agents);
      }
      var r := HandleUserInteraction(sessions, id, payload, agents);
      InteractionDispatches(sessions, id, payload, agents);
      forall k | k in r.sessions
        ensures WellFormed(r.sessions[k])
      {
        if k != id {
          assert r.sessions[k] == sessions[k];
        }
      }
    }
  }

  /** The corrected collection keeps sessions well-formed in the same way. */
  lemma CollectFixedKeepsWellFormed(s: Session, content: string, agents: Agents)
    requires WellFormed(s) && s.step == Collecting
    ensures var o := CollectFixed(s, content, agents);
            && WellFormed(o.session)
            && (o.reply.Routed? || o.reply.Failed? ==> o.session.step == Menu)
            && (o.reply.InputError? ==> o.session == s)
  {
    if s.system != Some(Bazi) {
      CollectKeepsWellFormed(s, content, agents);
    }
  }

  /**
   In a well-formed session the corrected collection never raises
   KeyError, and every request it hands to the bazi agent carries a date
   and a time in the checked shapes and a gender of 男 or 女.
   */
  lemma BaziRequestsComplete(s: Session, content: string, agents: Agents)
    requires WellFormed(s) && s.step == Collecting && s.system == Some(Bazi)
    ensures var o := CollectBaziFixed(s, content, agents);
            && o.reply != Failed(KeyError)
            && (o.reply.Routed? ==>
                  && IsDateFormat(o.reply.payload["birth_date"].s)
                  && IsTimeFormat(o.reply.payload["birth_time"].s)
                  && o.reply.payload["gender"].s in {"男", "女"})
  {
  }

  /**
   As written, a gender word typed right after choosing BaZi resets the
   session to the menu with only the gender stored and answers with KeyError.
   */
  lemma GenderFirstFails(sessions: map<string, Session>, id: string, agents: Agents)
    requires id in sessions && sessions[id] == Session(Some(Bazi), Collecting, map[])
    ensures var r := HandleUserInteraction(sessions, id, map["content" := Str("男")], agents);
            && r.reply == Failed(KeyError)
            && r.sessions[id] == Session(Some(Bazi), Menu, map["gender" := "男"])
  {
    var c := "男";
    StripLowerPlain(c);
    InteractionStep(sessions, id, c, agents);
    DispatchBazi(sessions[id], c, map["content" := Str(c)], agents);
    GenderFirstCollect(agents);
  }

  /** With the guard, the same input is answered with the date prompt and the session is kept. */
  lemma GenderFirstPrompts(sessions: map<string, Session>, id: string, agents: Agents)
    requires id in sessions && sessions[id] == Session(Some(Bazi), Collecting, map[])
    ensures var r := HandleUserInteractionFixed(sessions, id, map["content" := Str("男")], agents);
            && r.reply == InputError("birth_date")
            && r.sessions[id] == sessions[id]
  {
    var c := "男";
    StripLowerPlain(c);
    assert GetOr(map["content" := Str(c)], "content", Str("")) == Str(c);
    assert !IsTimeFormat(c) && !IsDateFormat(c);
  }

  /** A one-field payload of text reaches the handler its session's step selects, with the text stripped. */
  lemma InteractionStep(sessions: map<string, Session>, id: string, text: string, agents: Agents)
    ensures var payload := map["content" := Str(text)];
            var r := HandleUserInteraction(sessions, id, payload, agents);
            var o := Dispatch(SessionOf(sessions, id), Text.Strip(text), payload, agents);
            id in r.sessions && r.sessions[id] == o.session && r.reply == o.reply
  {
    assert GetOr(map["content" := Str(text)], "content", Str("")) == Str(text);
    InteractionDispatches(sessions, id, map["content" := Str(text)], agents);
  }

  /** A collecting BaZi session hands its input to the BaZi collection. */
  lemma DispatchBazi(s: Session, content: string, payload: Payload, agents: Agents)
    requires s.step == Collecting && s.system == Some(Bazi)
    ensures Dispatch(s, content, payload, agents) == CollectBazi(s, content, agents)
  {
  }

  /** A menu-step session hands its input to the menu. */
  lemma DispatchMenu(s: Session, content: string, payload: Payload, agents: Agents)
    requires s.step == Menu
    ensures Dispatch(s, content, payload, agents) == HandleMenu(s, content, payload, agents)
  {
  }

  /** A menu number typed by a new session starts that system's collection and asks for its first field. */
  lemma ChooseSystem(sessions: map<string, Session>, id: string, c: string, agents: Agents)
    requires id !in sessions && Text.Strip(c) == c && SelectionOf(c).Some?
    ensures var r := HandleUserInteraction(sessions, id, map["content" := Str(c)], agents);
            && r.reply == InputPrompt(FirstField(SelectionOf(c).value))
            && r.sessions[id] == Session(SelectionOf(c), Collecting, map[])
  {
    InteractionStep(sessions, id, c, agents);
    assert SessionOf(sessions, id) == NewSession;
    DispatchMenu(NewSession, c, map["content" := Str(c)], agents);
  }

  /** Choosing 1 at the menu starts the BaZi collection and asks for the birth date. */
  lemma ChooseBazi(sessions: map<string, Session>, id: string, c: string, agents: Agents)
    requires id !in sessions && |c| == 1 && c[0] == '1'
    ensures var r := HandleUserInteraction(sessions, id, map["content" := Str(c)], agents);
            r.reply == InputPrompt("birth_date") && r.sessions[id] == Session(Some(Bazi), Collecting, map[])
  {
    StripLowerPlain(c);
    assert c == "1";
    ChooseSystem(sessions, id, c, agents);
  }

  /** The date step of the collection. */
  lemma DateStep(s: Session, date: string, agents: Agents)
    requires DateShape(date) && s == Session(Some(Bazi), Collecting, map[])
    ensures CollectBazi(s, date, agents) == Outcome(Session(Some(Bazi), Collecting, map["birth_date" := date]), InputPrompt("birth_time"))
  {
    assert IsDateFormat(date);
    assert !Has(s.data, "birth_date");
  }

  /** A date in the checked shape is stored and the time is asked for. */
  lemma GiveDate(sessions: map<string, Session>, id: string, date: string, agents: Agents)
    requires DateShape(date) && Text.Strip(date) == date
    requires id in sessions && sessions[id] == Session(Some(Bazi), Collecting, map[])
    ensures var r := HandleUserInteraction(sessions, id, map["content" := Str(date)], agents);
            r.reply == InputPrompt("birth_time")
            && r.sessions[id] == Session(Some(Bazi), Collecting, map["birth_date" := date])
  {
    InteractionStep(sessions, id, date, agents);
    DispatchBazi(sessions[id], date, map["content" := Str(date)], agents);
    DateStep(sessions[id], date, agents);
  }

  /** The time step of the collection. */
  lemma TimeStep(s: Session, date: string, time: string, agents: Agents)
    requires DateShape(date) && TimeShape(time)
    requires s == Session(Some(Bazi), Collecting, map["birth_date" := date])
    ensures CollectBazi(s, time, agents)
            == Outcome(Session(Some(Bazi), Collecting, map["birth_date" := date, "birth_time" := time]), InputPrompt("gender"))
  {
    assert !IsDateFormat(time) by {
      assert |time| <= 5;
    }
    assert IsTimeFormat(time);
    assert Has(s.data, "birth_date") && !Has(s.data, "birth_time");
  }

  /** A time in the checked shape is stored next and the gender is asked for. */
  lemma GiveTime(sessions: map<string, Session>, id: string, date: string, time: string, agents: Agents)
    requires DateShape(date) && TimeShape(time) && Text.Strip(time) == time
    requires id in sessions && sessions[id] == Session(Some(Bazi), Collecting, map["birth_date" := date])
    ensures var r := HandleUserInteraction(sessions, id, map["content" := Str(time)], agents);
            r.reply == InputPrompt("gender")
            && r.sessions[id] == Session(Some(Bazi), Collecting, map["birth_date" := date, "birth_time" := time])
  {
    InteractionStep(sessions, id, time, agents);
    DispatchBazi(sessions[id], time, map["content" := Str(time)], agents);
    TimeStep(sessions[id], date, time, agents);
  }

  /** The gender step of the collection. */
  lemma GenderStep(s: Session, date: string, time: string, gender: string, agents: Agents)
    requires DateShape(date) && TimeShape(time) && NormalizeGender(gender).Some? && Str("bazi") in agents
    requires s == Session(Some(Bazi), Collecting, map["birth_date" := date, "birth_time" := time])
    ensures var data' := s.data["gender" := NormalizeGender(gender).value];
            CollectBazi(s, gender, agents) == Outcome(Session(Some(Bazi), Menu, data'), Routed(Bazi, BaziRequest(data')))
  {
    assert Has(s.data, "birth_date") && Has(s.data, "birth_time") && !Has(s.data, "gender");
    assert !IsDateFormat(gender) && !IsTimeFormat(gender) by {
      assert |Text.Lower(gender)| == |gender|;
      assert |gender| <= 6;
    }
  }

  /** The gender completes the collection: the request goes to the bazi agent and the session is back at the menu. */
  lemma GiveGender(sessions: map<string, Session>, id: string, date: string, time: string, gender: string, agents: Agents)
    requires DateShape(date) && TimeShape(time) && NormalizeGender(gender).Some? && Text.Strip(gender) == gender
    requires Str("bazi") in agents
    requires id in sessions && sessions[id] == Session(Some(Bazi), Collecting, map["birth_date" := date, "birth_time" := time])
    ensures var r := HandleUserInteraction(sessions, id, map["content" := Str(gender)], agents);
            && r.reply == Routed(Bazi, BaziRequest(map["birth_date" := date, "birth_time" := time,
                                                       "gender" := NormalizeGender(gender).value]))
            && r.sessions[id].step == Menu
  {
    InteractionStep(sessions, id, gender, agents);
    DispatchBazi(sessions[id], gender, map["content" := Str(gender)], agents);
    GenderStep(sessions[id], date, time, gender, agents);
  }
}

=== FILE: message_bus.dfy ===
/**
 The in-process message bus: a subscriber registry, one FIFO inbox per
 recipient, a bounded message history, broadcast, and the statistics
 counters. asyncio queues are sequences; the handler calls the bus schedules
 with `create_task` are recorded, in order, as `tasks`.
 */
module Bus {
  import opened Wrappers
  import opened Values
  import opened Seqs

  datatype MessageType =
    | UserRequest | FortuneRequest | ChatRequest | FortuneResponse | ChatResponse
    | ErrorResponse | AgentCollaboration | StateUpdate | AdminCommand | StatusReport

  datatype Message = Message(
    kind: MessageType,
    sender: string,
    recipient: string,
    sessionId: string,
    language: string,
    payload: Payload,
    timestamp: string,
    correlationId: Option<string>,
    messageId: string)

  /** What `uuid4()` and `time.time()` would return while a message is built. */
  datatype Stamp = Stamp(messageId: string, timestamp: string)

  /**
   `Message(...)` with `__post_init__`: a missing id or timestamp is drawn
   from `stamp`, a missing payload becomes `{}`; the correlation id is never
   invented.
   */
  function NewMessage(kind: MessageType, sender: string, recipient: string, sessionId: string,
                      language: string, payload: Option<Payload>, timestamp: Option<string>,
                      correlationId: Option<string>, messageId: Option<string>, stamp: Stamp): (m: Message)
    ensures m.kind == kind && m.sender == sender && m.recipient == recipient
    ensures m.sessionId == sessionId && m.language == language
    ensures m.correlationId == correlationId
    ensures m.payload == (if payload.Some? then payload.value else map[])
    ensures m.messageId == (if messageId.Some? then messageId.value else stamp.messageId)
    ensures m.timestamp == (if timestamp.Some? then timestamp.value else stamp.timestamp)
  {
    Message(kind, sender, recipient, sessionId, language, payload.GetOr(map[]),
            timestamp.GetOr(stamp.timestamp), correlationId, messageId.GetOr(stamp.messageId))
  }

  /** Identity of a subscribed handler callable. */
  type HandlerId = nat

  datatype Stats = Stats(sent: nat, received: nat, errors: nat, activeQueues: int)

  datatype MessageBus = MessageBus(
    names: seq<string>,
    subscribers: map<string, seq<HandlerId>>,
    queues: map<string, seq<Message>>,
    history: seq<Message>,
    maxHistory: int,
    running: bool,
    stats: Stats,
    tasks: seq<(HandlerId, Message)>)

  const MaxHistory: int := 10000

  /** The queue counter matches the number of inboxes and the history respects its bound. */
  predicate Valid(b: MessageBus)
  {
    && b.stats.activeQueues == |b.queues|
    && 1 <= b.maxHistory && |b.history| <= b.maxHistory
  }

  /**
   `names` lists the subscriber keys, each once, in insertion order: the
   order in which the source's dict is iterated by a broadcast.
   */
  predicate KeyOrder(b: MessageBus)
  {
    && (forall i, j :: 0 <= i < j < |b.names| ==> b.names[i] != b.names[j])
    && (forall n :: n in b.subscribers ==> n in b.names)
    && (forall i :: 0 <= i < |b.names| ==> b.names[i] in b.subscribers)
  }

  function NewBus(): (b: MessageBus)
    ensures Valid(b) && KeyOrder(b) && !b.running && b.maxHistory == MaxHistory
    ensures b.queues == map[] && b.history == [] && b.subscribers == map[]
  {
    MessageBus([], map[], map[], [], MaxHistory, false, Stats(0, 0, 0, 0), [])
  }

  function Start(b: MessageBus): (r: MessageBus)
    requires Valid(b)
    ensures Valid(r) && r.running && r == b.(running := true)
  {
    b.(running := true)
  }

  /** The handlers registered for `name` (none when it never subscribed). */
  function HandlersOf(b: MessageBus, name: string): seq<HandlerId>
  {
    if name in b.subscribers then b.subscribers[name] else []
  }

  /** The messages waiting for `name` (none when it has no inbox). */
  function Inbox(b: MessageBus, name: string): seq<Message>
  {
    if name in b.queues then b.queues[name] else []
  }

  /** `subscribe`: appends the handler; a new name joins the end of the key order. */
  function Subscribe(b: MessageBus, name: string, h: HandlerId): (r: MessageBus)
    requires Valid(b)
    ensures Valid(r)
    ensures HandlersOf(r, name) == HandlersOf(b, name) + [h]
    ensures forall n :: n != name ==> HandlersOf(r, n) == HandlersOf(b, n)
    ensures r.names == b.names + (if name in b.subscribers then [] else [name])
    ensures KeyOrder(b) ==> KeyOrder(r)
    ensures r.queues == b.queues && r.history == b.history && r.stats == b.stats
  {
    var names := if name in b.subscribers then b.names else b.names + [name];
    b.(names := names, subscribers := b.subscribers[name := HandlersOf(b, name) + [h]])
  }

  /** `unsubscribe`: removes one occurrence of the handler; absent handlers or names change nothing. */
  function Unsubscribe(b: MessageBus, name: string, h: HandlerId): (r: MessageBus)
    requires Valid(b)
    ensures Valid(r)
    ensures h in HandlersOf(b, name) ==>
              multiset(HandlersOf(r, name)) == multiset(HandlersOf(b, name)) - multiset{h}
    ensures h !in HandlersOf(b, name) ==> r == b
    ensures forall n :: n != name ==> HandlersOf(r, n) == HandlersOf(b, n)
    ensures r.names == b.names && (KeyOrder(b) ==> KeyOrder(r))
  {
    if name in b.subscribers && h in b.subscribers[name] then
      b.(subscribers := b.subscribers[name := RemoveFirst(b.subscribers[name], h)])
    else b
  }

  /**
   `_add_to_history`: append, and past the bound keep only the newest half
   (`history[-max//2:]`, with Python's floor division).
   */
  function AddToHistory(b: MessageBus, m: Message): (r: MessageBus)
    requires Valid(b)
    ensures Valid(r) && r == b.(history := r.history)
    ensures |r.history| > 0 && r.history[|r.history| - 1] == m
    ensures |r.history| <= |b.history| + 1 && r.history == (b.history + [m])[|b.history| + 1 - |r.history|..]
    ensures |b.history| < b.maxHistory ==> r.history == b.history + [m]
    ensures |b.history| == b.maxHistory ==> |r.history| == (b.maxHistory + 1) / 2
  {
    var h := b.history + [m];
    if |h| > b.maxHistory then b.(history := SliceFrom(h, (-b.maxHistory) / 2))
    else b.(history := h)
  }

  /** One `create_task(handler(message))` per handler, in registration order. */
  function Spawn(hs: seq<HandlerId>, m: Message): (r: seq<(HandlerId, Message)>)
    ensures |r| == |hs| && forall i :: 0 <= i < |hs| ==> r[i] == (hs[i], m)
    decreases |hs|
  {
    if |hs| == 0 then [] else [(hs[0], m)] + Spawn(hs[1..], m)
  }

  /**
   `_route_message`: refuses a recipient with no handlers; otherwise creates
   the inbox if needed, appends the message, and schedules every handler.
   */
  function Route(b: MessageBus, m: Message): (r: (MessageBus, bool))
    requires Valid(b)
    ensures Valid(r.0)
    ensures r.1 <==> |HandlersOf(b, m.recipient)| > 0
    ensures Inbox(r.0, m.recipient) == Inbox(b, m.recipient) + (if r.1 then [m] else [])
    ensures forall n :: n != m.recipient ==> Inbox(r.0, n) == Inbox(b, n)
    ensures r.0.tasks == b.tasks + (if r.1 then Spawn(HandlersOf(b, m.recipient), m) else [])
    ensures r.0.stats.received == b.stats.received + (if r.1 then 1 else 0)
    ensures r.0.stats.sent == b.stats.sent && r.0.stats.errors == b.stats.errors
    ensures r.0.subscribers == b.subscribers && r.0.names == b.names
    ensures r.0.history == b.history && r.0.running == b.running
  {
    if m.recipient !in b.subscribers || |b.subscribers[m.recipient]| == 0 then (b, false)
    else
      var hs := b.subscribers[m.recipient];
      var created := m.recipient !in b.queues;
      var active := if created then b.stats.activeQueues + 1 else b.stats.activeQueues;
      (b.(queues := b.queues[m.recipient := Inbox(b, m.recipient) + [m]],
          stats := b.stats.(received := b.stats.received + 1, activeQueues := active),
          tasks := b.tasks + Spawn(hs, m)),
       true)
  }

  /** Two buses with the same queues show every name the same inbox. */
  lemma SameQueuesSameInboxes(x: MessageBus, y: MessageBus)
    requires x.queues == y.queues
    ensures forall n :: Inbox(x, n) == Inbox(y, n)
  {
  }

  /**
   `send_message`: a stopped bus refuses and records nothing; a running bus
   records the message in the history and counts it as sent before routing,
   and counts an error when routing fails.
   */
  function Send(b: MessageBus, m: Message): (r: (MessageBus, bool))
    requires Valid(b)
    ensures Valid(r.0)
    ensures !b.running ==> r == (b, false)
    ensures r.1 <==> b.running && |HandlersOf(b, m.recipient)| > 0
    ensures b.running ==> && r.0.stats.sent == b.stats.sent + 1
                          && r.0.stats.errors == b.stats.errors + (if r.1 then 0 else 1)
                          && r.0.stats.received == b.stats.received + (if r.1 then 1 else 0)
    ensures Inbox(r.0, m.recipient) == Inbox(b, m.recipient) + (if r.1 then [m] else [])
    ensures r.0.subscribers == b.subscribers && r.0.names == b.names && r.0.running == b.running
  {
    if !b.running then (b, false)
    else
      var b1 := AddToHistory(b, m);
      var b2 := b1.(stats := b1.stats.(sent := b1.stats.sent + 1));
      var routed := Route(b2, m);
      if routed.1 then routed
      else (routed.0.(stats := routed.0.stats.(errors := routed.0.stats.errors + 1)), false)
  }

  /**
   A running bus logs every message it is asked to send, delivered or not:
   the message is the newest history entry, the log stays within its bound,
   and what remains is the newest part of the old log followed by the message.
   */
  lemma SendLogsMessage(b: MessageBus, m: Message)
    requires Valid(b) && b.running
    ensures var h := Send(b, m).0.history;
              && |h| > 0 && h[|h| - 1] == m && |h| <= b.maxHistory
              && h == (b.history + [m])[|b.history| + 1 - |h|..]
  {
    assert Send(b, m).0.history == AddToHistory(b, m).history;
  }

  /** Sending touches no inbox but the recipient's. */
  lemma SendLeavesOtherInboxes(b: MessageBus, m: Message, n: string)
    requires Valid(b) && n != m.recipient
    ensures Inbox(Send(b, m).0, n) == Inbox(b, n)
  {
    if b.running {
      var b1 := AddToHistory(b, m);
      var b2 := b1.(stats := b1.stats.(sent := b1.stats.sent + 1));
      var routed := Route(b2, m);
      assert Inbox(routed.0, n) == Inbox(b2, n);
      if !routed.1 {
        SameQueuesSameInboxes(Send(b, m).0, routed.0);
      }
      SameQueuesSameInboxes(b2, b);
    }
  }

  /** One send to a subscribed recipient on a running bus appends to its inbox and keeps it deliverable. */
  lemma SendEnqueues(b: MessageBus, m: Message)
    requires Valid(b) && b.running && |HandlersOf(b, m.recipient)| > 0
    ensures Send(b, m).1
    ensures Inbox(Send(b, m).0, m.recipient) == Inbox(b, m.recipient) + [m]
  {
  }

  /** One iteration of `SendEach`: the next message joins the delivered prefix. */
  lemma SendEachStep(b: MessageBus, r: MessageBus, ms: seq<Message>, to: string, i: nat)
    requires Valid(r) && r.running && |HandlersOf(r, to)| > 0
    requires i < |ms| && ms[i].recipient == to && Inbox(r, to) == Inbox(b, to) + ms[..i]
    ensures Send(r, ms[i]).1
    ensures Inbox(Send(r, ms[i]).0, to) == Inbox(b, to) + ms[..i + 1]
  {
    SendEnqueues(r, ms[i]);
    AppendNext(Inbox(b, to), ms, i);
  }

  /**
   Sending each message in turn to a subscribed recipient of a running bus:
   every send is delivered, and the inbox grows by exactly those messages,
   in sending order.
   */
  method SendEach(b: MessageBus, ms: seq<Message>, to: string) returns (r: MessageBus, delivered: nat)
    requires Valid(b) && b.running && |HandlersOf(b, to)| > 0
    requires forall i :: 0 <= i < |ms| ==> ms[i].recipient == to
    ensures Valid(r) && r.running && HandlersOf(r, to) == HandlersOf(b, to)
    ensures delivered == |ms|
    ensures Inbox(r, to) == Inbox(b, to) + ms
  {
    r := b;
    delivered := 0;
    var i := 0;
    while i < |ms|
      invariant 0 <= i <= |ms| && delivered == i
      invariant Valid(r) && r.running && HandlersOf(r, to) == HandlersOf(b, to)
      invariant Inbox(r, to) == Inbox(b, to) + ms[..i]
    {
      var s := Send(r, ms[i]);
      SendEachStep(b, r, ms, to, i);
      if s.1 {
        delivered := delivered + 1;
      }
      r := s.0;
      i := i + 1;
    }
    assert ms[..|ms|] == ms;
  }

  /**
   `get_message` on what is already queued: the head of the inbox, which is
   removed; nothing for a name without an inbox. On an empty inbox the
   source waits (until the timeout, or for ever without one); here it
   answers nothing at once.
   */
  function GetMessage(b: MessageBus, name: string): (r: (MessageBus, Option<Message>))
    requires Valid(b)
    ensures Valid(r.0)
    ensures name !in b.queues ==> r == (b, None)
    ensures name in b.queues && |b.queues[name]| > 0 ==>
              && r.1 == Some(b.queues[name][0])
              && r.0 == b.(queues := b.queues[name := b.queues[name][1..]])
    ensures r.1.None? ==> r.0 == b
  {
    if name !in b.queues || |b.queues[name]| == 0 then (b, None)
    else (b.(queues := b.queues[name := b.queues[name][1..]]), Some(b.queues[name][0]))
  }

  /** `get_message` called `k` times, collecting what it returns. */
  method ReceiveEach(b: MessageBus, name: string, k: nat) returns (r: MessageBus, got: seq<Message>)
    requires Valid(b)
    ensures Valid(r)
    ensures k <= |Inbox(b, name)| ==> got == Inbox(b, name)[..k] && Inbox(r, name) == Inbox(b, name)[k..]
  {
    r := b;
    got := [];
    var i := 0;
    while i < k
      invariant 0 <= i <= k && Valid(r)
      invariant k <= |Inbox(b, name)| ==> got == Inbox(b, name)[..i] && Inbox(r, name) == Inbox(b, name)[i..]
    {
      var g := GetMessage(r, name);
      if g.1.Some? {
        got := got + [g.1.value];
      }
      if k <= |Inbox(b, name)| {
        assert Inbox(b, name)[..i + 1] == Inbox(b, name)[..i] + [Inbox(b, name)[i]];
      }
      r := g.0;
      i := i + 1;
    }
  }

  /**
   First in, first out, end to end: whatever was waiting in a subscribed
   recipient's inbox comes back first, then the messages sent to it, in
   sending order.
   */
  method SendThenReceive(b: MessageBus, ms: seq<Message>, to: string) returns (got: seq<Message>)
    requires Valid(b) && b.running && |HandlersOf(b, to)| > 0
    requires forall i :: 0 <= i < |ms| ==> ms[i].recipient == to
    ensures got == Inbox(b, to) + ms
  {
    var sent, _ := SendEach(b, ms, to);
    var received;
    received, got := ReceiveEach(sent, to, |Inbox(sent, to)|);
    assert Inbox(sent, to)[..|Inbox(sent, to)|] == Inbox(sent, to);
  }

  /** `_cleanup_queue`: drops the inbox and decrements the queue counter. */
  function CleanupQueue(b: MessageBus, name: string): (r: MessageBus)
    requires Valid(b)
    ensures Valid(r) && r.queues == b.queues - {name}
  {
    if name in b.queues then
      b.(queues := b.queues - {name}, stats := b.stats.(activeQueues := b.stats.activeQueues - 1))
    else b
  }

  /**
   `stop`: not running, and every inbox cleaned up one by one, so that none
   is left and the queue counter is back to zero.
   */
  function Stop(b: MessageBus): (r: MessageBus)
    requires Valid(b)
    ensures Valid(r) && !r.running && r.queues == map[] && r.stats.activeQueues == 0
    ensures r.subscribers == b.subscribers && r.history == b.history
  {
    b.(running := false, queues := map[], stats := b.stats.(activeQueues := b.stats.activeQueues - |b.queues|))
  }

  /** The copy `broadcast_message` sends to one subscriber. */
  function BroadcastCopy(m: Message, name: string, stamp: Stamp): (c: Message)
    ensures c.recipient == name && c.sender == m.sender && c.kind == m.kind
    ensures c.payload == m.payload && c.correlationId == m.correlationId && c.sessionId == m.sessionId
    ensures c.messageId == stamp.messageId
  {
    NewMessage(m.kind, m.sender, name, m.sessionId, m.language, Some(m.payload), None,
               m.correlationId, None, stamp)
  }

  /** The broadcast loop over the remaining subscriber names; `stamps(i)` is drawn for the i-th name. */
  function BroadcastLoop(b: MessageBus, m: Message, exclude: seq<string>, todo: seq<string>,
                         first: nat, stamps: nat -> Stamp): (r: (MessageBus, nat))
    requires Valid(b)
    ensures Valid(r.0) && r.0.subscribers == b.subscribers && r.0.names == b.names && r.0.running == b.running
    decreases |todo|
  {
    if |todo| == 0 then (b, 0)
    else if todo[0] in exclude then BroadcastLoop(b, m, exclude, todo[1..], first + 1, stamps)
    else
      var s := Send(b, BroadcastCopy(m, todo[0], stamps(first)));
      var rest := BroadcastLoop(s.0, m, exclude, todo[1..], first + 1, stamps);
      (rest.0, rest.1 + (if s.1 then 1 else 0))
  }

  /** `broadcast_message`: nothing on a stopped bus; otherwise one copy per subscriber name not excluded. */
  function Broadcast(b: MessageBus, m: Message, exclude: seq<string>, stamps: nat -> Stamp): (r: (MessageBus, nat))
    requires Valid(b)
    ensures Valid(r.0)
    ensures !b.running ==> r == (b, 0)
  {
    if !b.running then (b, 0) else BroadcastLoop(b, m, exclude, b.names, 0, stamps)
  }

  /** How many of `todo` are not excluded and have a handler in `subs`: the copies that get delivered. */
  function CountReachable(subs: map<string, seq<HandlerId>>, exclude: seq<string>, todo: seq<string>): nat
    decreases |todo|
  {
    if |todo| == 0 then 0
    else (if todo[0] !in exclude && todo[0] in subs && |subs[todo[0]]| > 0 then 1 else 0)
         + CountReachable(subs, exclude, todo[1..])
  }

  /** How many of `todo` are not excluded: the copies that get sent. */
  function CountIncluded(exclude: seq<string>, todo: seq<string>): nat
    decreases |todo|
  {
    if |todo| == 0 then 0
    else (if todo[0] !in exclude then 1 else 0) + CountIncluded(exclude, todo[1..])
  }

  /** Each copy sent to a name that has handlers is delivered; the rest are not. */
  lemma {:induction false} BroadcastLoopDelivered(b: MessageBus, m: Message, exclude: seq<string>, todo: seq<string>,
                                                  first: nat, stamps: nat -> Stamp)
    requires Valid(b) && b.running
    ensures BroadcastLoop(b, m, exclude, todo, first, stamps).1 == CountReachable(b.subscribers, exclude, todo)
    decreases |todo|
  {
    if |todo| > 0 {
      if todo[0] in exclude {
        BroadcastLoopDelivered(b, m, exclude, todo[1..], first + 1, stamps);
      } else {
        var s := Send(b, BroadcastCopy(m, todo[0], stamps(first)));
        BroadcastLoopDelivered(s.0, m, exclude, todo[1..], first + 1, stamps);
      }
    }
  }

  /** Every name not excluded is sent one copy, delivered or not. */
  lemma {:induction false} BroadcastLoopSent(b: MessageBus, m: Message, exclude: seq<string>, todo: seq<string>,
                                             first: nat, stamps: nat -> Stamp)
    requires Valid(b) && b.running
    ensures BroadcastLoop(b, m, exclude, todo, first, stamps).0.stats.sent
            == b.stats.sent + CountIncluded(exclude, todo)
    decreases |todo|
  {
    if |todo| > 0 {
      if todo[0] in exclude {
        BroadcastLoopSent(b, m, exclude, todo[1..], first + 1, stamps);
      } else {
        var s := Send(b, BroadcastCopy(m, todo[0], stamps(first)));
        BroadcastLoopSent(s.0, m, exclude, todo[1..], first + 1, stamps);
      }
    }
  }

  /**
   The broadcast count is the number of subscriber names, not excluded,
   that have at least one handler; every name not excluded counts as sent.
   */
  lemma BroadcastCount(b: MessageBus, m: Message, exclude: seq<string>, stamps: nat -> Stamp)
    requires Valid(b) && b.running
    ensures Broadcast(b, m, exclude, stamps).1 == CountReachable(b.subscribers, exclude, b.names)
    ensures Broadcast(b, m, exclude, stamps).0.stats.sent == b.stats.sent + CountIncluded(exclude, b.names)
  {
    BroadcastLoopDelivered(b, m, exclude, b.names, 0, stamps);
    BroadcastLoopSent(b, m, exclude, b.names, 0, stamps);
  }

  /** The history filters: a falsy session or agent filter is not applied. */
  predicate Matches(m: Message, sessionId: Option<string>, agent: Option<string>)
  {
    && (sessionId.None? || sessionId.value == "" || m.sessionId == sessionId.value)
    && (agent.None? || agent.value == "" || m.sender == agent.value || m.recipient == agent.value)
  }

  /** `get_message_history` as written: the filtered history sliced `[-limit:]`. */
  function GetMessageHistory(b: MessageBus, sessionId: Option<string>, agent: Option<string>, limit: int): (r: seq<Message>)
    ensures forall i :: 0 <= i < |r| ==> Matches(r[i], sessionId, agent)
    ensures var f := Filter(b.history, m => Matches(m, sessionId, agent));
            |r| <= |f| && r == f[|f| - |r|..]
  {
    SliceFrom(Filter(b.history, m => Matches(m, sessionId, agent)), -limit)
  }

  /** As written, a limit of 0 returns the whole filtered history instead of nothing. */
  lemma HistoryLimitZeroReturnsAll(b: MessageBus, sessionId: Option<string>, agent: Option<string>)
    ensures GetMessageHistory(b, sessionId, agent, 0) == Filter(b.history, m => Matches(m, sessionId, agent))
  {
  }

  /** A concrete bus whose history holds two messages: `limit = 0` yields both. */
  lemma HistoryLimitZeroExample(m: Message)
    ensures var b := NewBus().(history := [m, m]);
            |GetMessageHistory(b, None, None, 0)| == 2
  {
    var b := NewBus().(history := [m, m]);
    assert Filter(b.history, x => Matches(x, None, None)) == [m, m] by {
      assert Filter(b.history[1..], x => Matches(x, None, None)) == [m];
    }
  }

  /** `get_message_history` with the limit honoured: at most `limit` (and none for `limit <= 0`) of the newest matches. */
  function GetMessageHistoryFixed(b: MessageBus, sessionId: Option<string>, agent: Option<string>, limit: int): (r: seq<Message>)
    ensures |r| <= (if limit > 0 then limit else 0)
    ensures forall i :: 0 <= i < |r| ==> Matches(r[i], sessionId, agent)
    ensures var f := Filter(b.history, m => Matches(m, sessionId, agent));
            |r| <= |f| && r == f[|f| - |r|..] && (|r| < limit ==> r == f)
    ensures limit > 0 ==> r == GetMessageHistory(b, sessionId, agent, limit)
  {
    if limit <= 0 then [] else LastN(Filter(b.history, m => Matches(m, sessionId, agent)), limit)
  }
}

=== FILE: plugins.dfy ===
/**
 The module-level plugin registry: a name to plugin class map that each
 fortune system fills when its package is imported. A plugin class is any
 value of the type parameter; the registry is a value, so the copy that
 `get_all_plugins` hands out is independent of it by construction.
 */
module Plugins {
  import opened Wrappers

  /** `register_plugin(name, cls)`: a new name is added, an existing one is overwritten (after a warning). */
  function Register<C>(registry: map<string, C>, name: string, cls: C): (r: map<string, C>)
    ensures r.Keys == registry.Keys + {name}
    ensures r[name] == cls
    ensures forall n :: n in registry && n != name ==> r[n] == registry[n]
  {
    registry[name := cls]
  }

  /** `get_plugin_class(name)`: the registered class, KeyError when the name was never registered. */
  function GetPluginClass<C>(registry: map<string, C>, name: string): (r: Result<C>)
    ensures r.Ok? <==> name in registry
    ensures r.Ok? ==> r.value == registry[name]
    ensures r.Err? ==> r.error == KeyError
  {
    if name in registry then Ok(registry[name]) else Err(KeyError)
  }

  /** `get_all_plugins()`: every registered name with its class. */
  function GetAllPlugins<C>(registry: map<string, C>): (r: map<string, C>)
    ensures forall n :: n in r <==> GetPluginClass(registry, n).Ok?
    ensures forall n :: n in r ==> GetPluginClass(registry, n) == Ok(r[n])
  {
    registry
  }

  /** A registered class is what `get_plugin_class` returns. */
  lemma RegisterThenGet<C>(registry: map<string, C>, name: string, cls: C)
    ensures GetPluginClass(Register(registry, name, cls), name) == Ok(cls)
  {
  }

  /** Registering a name never changes what another name resolves to. */
  lemma RegisterLeavesOthers<C>(registry: map<string, C>, name: string, cls: C, other: string)
    requires other != name
    ensures GetPluginClass(Register(registry, name, cls), other) == GetPluginClass(registry, other)
  {
  }

  /** Registering a name twice keeps only the second class: the warning does not stop the overwrite. */
  lemma RegisterOverwrites<C>(registry: map<string, C>, name: string, c1: C, c2: C)
    ensures Register(Register(registry, name, c1), name, c2) == Register(registry, name, c2)
  {
  }

  /** The three fortune systems' package imports register exactly bazi, tarot and zodiac. */
  lemma ImportedSystems<C>(bazi: C, tarot: C, zodiac: C, name: string)
    ensures var r := Register(Register(Register(map[], "bazi", bazi), "zodiac", zodiac), "tarot", tarot);
            GetPluginClass(r, name).Ok? <==> name in {"bazi", "tarot", "zodiac"}
  {
  }
}

=== FILE: sections.dfy ===
/**
 The `format_result` step the three fortune plugins share: the model's reply
 is cut into titled sections at header lines, and a reply with at most one
 section is kept whole under the plugin's default title. The plugins differ
 in the default title and in the header marker: "##" for BaZi, "#" (which
 also covers "##") for tarot and the zodiac.
 */
module Sections {
  import opened Text

  /** The loop state: the sections saved so far in insertion order, the current title, and its pending lines. */
  datatype Parse = Parse(sections: map<string, string>, order: seq<string>, current: string, pending: seq<string>)

  /** What `format_result` returns: the sections in dict order and the reply unchanged. */
  datatype Formatted = Formatted(sections: map<string, string>, order: seq<string>, fullText: string)

  ghost predicate Valid(p: Parse)
  {
    && (forall i, j :: 0 <= i < j < |p.order| ==> p.order[i] != p.order[j])
    && p.sections.Keys == set k | k in p.order
  }

  /** `line.strip().startswith(marker)`. */
  predicate IsHeader(line: string, marker: string)
  {
    StartsWith(Strip(line), marker)
  }

  /** Python `s.strip('#')`. */
  function StripHashes(s: string): (r: string)
    ensures |r| <= |s|
    decreases |s|
  {
    if |s| > 0 && s[0] == '#' then StripHashes(s[1..])
    else if |s| > 0 && s[|s| - 1] == '#' then StripHashes(s[..|s| - 1])
    else s
  }

  /** The title a header line opens: `line.strip('#').strip()`. */
  function HeaderName(line: string): string
  {
    Strip(StripHashes(line))
  }

  /** Saving the pending lines, if any, under the current title (a repeated title is overwritten in place). */
  function Save(p: Parse): (r: Parse)
    requires Valid(p)
    ensures Valid(r) && r.current == p.current
    ensures |p.pending| == 0 ==> r == p
    ensures |p.pending| > 0 ==> r.sections == p.sections[p.current := Strip(Join(p.pending, '\n'))] && r.pending == []
  {
    if |p.pending| == 0 then p
    else
      var order := if p.current in p.sections then p.order else p.order + [p.current];
      Parse(p.sections[p.current := Strip(Join(p.pending, '\n'))], order, p.current, [])
  }

  /** One line of the loop. */
  function Step(p: Parse, line: string, marker: string): (r: Parse)
    requires Valid(p)
    ensures Valid(r)
  {
    if IsHeader(line, marker) then
      var s := Save(p);
      Parse(s.sections, s.order, HeaderName(line), [])
    else Parse(p.sections, p.order, p.current, p.pending + [line])
  }

  function Fold(p: Parse, lines: seq<string>, marker: string): (r: Parse)
    requires Valid(p)
    ensures Valid(r)
    decreases |lines|
  {
    if |lines| == 0 then p else Fold(Step(p, lines[0], marker), lines[1..], marker)
  }

  /** `format_result(reply)` with the plugin's default title and header marker. */
  function Format(reply: string, default: string, marker: string): (r: Formatted)
    ensures r.fullText == reply
    ensures |r.sections| >= 1
    ensures forall k :: k in r.sections <==> k in r.order
    ensures |r.sections| == 1 <==> r.sections == map[default := Strip(reply)]
  {
    var p := Save(Fold(Parse(map[], [], default, []), Split(reply, '\n'), marker));
    if |p.sections| <= 1 then Formatted(map[default := Strip(reply)], [default], reply)
    else
      Formatted(p.sections, p.order, reply)
  }

  /** The titles in play: the default one and the titles opened by header lines among `lines`. */
  ghost predicate Titled(k: string, default: string, lines: seq<string>, marker: string)
  {
    k == default || exists i :: 0 <= i < |lines| && IsHeader(lines[i], marker) && HeaderName(lines[i]) == k
  }

  /** The loop only ever uses the default title or a header line's title. */
  lemma {:induction false} FoldTitles(p: Parse, lines: seq<string>, marker: string, default: string, seen: seq<string>)
    requires Valid(p)
    requires Titled(p.current, default, seen, marker)
    requires forall k :: k in p.sections ==> Titled(k, default, seen, marker)
    ensures var r := Fold(p, lines, marker);
            && Titled(r.current, default, seen + lines, marker)
            && forall k :: k in r.sections ==> Titled(k, default, seen + lines, marker)
    decreases |lines|
  {
    if |lines| == 0 {
      assert seen + lines == seen;
    } else {
      var line, rest := lines[0], lines[1..];
      var seen1 := seen + [line];
      var p1 := Step(p, line, marker);
      forall k | Titled(k, default, seen, marker) ensures Titled(k, default, seen1, marker) {
        if k != default {
          var i :| 0 <= i < |seen| && IsHeader(seen[i], marker) && HeaderName(seen[i]) == k;
          assert seen1[i] == seen[i];
        }
      }
      if IsHeader(line, marker) {
        assert seen1[|seen|] == line;
      }
      FoldTitles(p1, rest, marker, default, seen1);
      assert seen1 + rest == seen + lines;
    }
  }

  /** Every title of the result is the default or the title of a header line of the reply. */
  lemma TitlesFromHeaders(reply: string, default: string, marker: string, k: string)
    requires k in Format(reply, default, marker).sections
    ensures Titled(k, default, Split(reply, '\n'), marker)
  {
    var lines := Split(reply, '\n');
    var p0 := Parse(map[], [], default, []);
    FoldTitles(p0, lines, marker, default, []);
    assert [] + lines == lines;
  }

  /** A reply without header lines is kept whole under the default title. */
  lemma NoHeadersKeepsWhole(reply: string, default: string, marker: string)
    requires forall i :: 0 <= i < |Split(reply, '\n')| ==> !IsHeader(Split(reply, '\n')[i], marker)
    ensures Format(reply, default, marker).sections == map[default := Strip(reply)]
  {
    var r := Format(reply, default, marker);
    forall k | k in r.sections ensures k == default {
      TitlesFromHeaders(reply, default, marker, k);
    }
    SubsetOfSingleton(r.sections.Keys, default);
  }

  lemma SubsetOfSingleton(s: set<string>, x: string)
    requires forall k :: k in s ==> k == x
    ensures |s| <= 1
  {
    if x in s {
      assert s == {x};
    } else {
      assert s == {};
    }
  }

  /** A line that starts with "##" after its margin is a header under both markers. */
  lemma DoubleHashIsHeader(line: string)
    requires IsHeader(line, "##")
    ensures IsHeader(line, "#")
  {
  }
}

=== FILE: seqs.dfy ===
/**
 Python list operations the source relies on: slicing with negative indices,
 `list.remove`, and keeping the newest entries of a bounded log.
 */
module Seqs {

  /** Python `s[i:]`: a negative `i` counts from the end, and both ends are clamped. */
  function SliceFrom<T>(s: seq<T>, i: int): (r: seq<T>)
    ensures |r| <= |s| && r == s[|s| - |r|..]
    ensures i >= 0 ==> |r| == (if i <= |s| then |s| - i else 0)
    ensures i < 0 ==> |r| == (if -i <= |s| then -i else |s|)
  {
    if i >= 0 then (if i <= |s| then s[i..] else [])
    else if -i <= |s| then s[|s| + i..]
    else s
  }

  /** Python `s[:n]`: a negative `n` counts from the end, and both ends are clamped. */
  function SliceTo<T>(s: seq<T>, n: int): (r: seq<T>)
    ensures |r| <= |s| && r == s[..|r|]
    ensures n >= 0 ==> |r| == (if n <= |s| then n else |s|)
    ensures n < 0 ==> |r| == (if -n <= |s| then |s| + n else 0)
  {
    if n >= 0 then (if n <= |s| then s[..n] else s)
    else if -n <= |s| then s[..|s| + n]
    else []
  }

  /** The newest `k` entries of `s` (all of them when there are fewer). */
  function LastN<T>(s: seq<T>, k: nat): (r: seq<T>)
    ensures |r| == (if k <= |s| then k else |s|)
    ensures r == s[|s| - |r|..]
  {
    if k <= |s| then s[|s| - k..] else s
  }

  /** Position of the first occurrence of `x`. */
  function IndexOf<T(==)>(s: seq<T>, x: T): (i: nat)
    requires x in s
    ensures i < |s| && s[i] == x && x !in s[..i]
  {
    if s[0] == x then 0
    else
      assert x in s[1..];
      var j := IndexOf(s[1..], x);
      assert s[..j + 1] == [s[0]] + s[1..][..j];
      j + 1
  }

  /** Python `list.remove(x)` with the ValueError of an absent `x` turned into "no change". */
  function RemoveFirst<T(==)>(s: seq<T>, x: T): (r: seq<T>)
    ensures x in s ==> |r| == |s| - 1 && multiset(r) == multiset(s) - multiset{x}
    ensures x !in s ==> r == s
  {
    if x !in s then s
    else
      var i := IndexOf(s, x);
      assert s == s[..i] + [s[i]] + s[i + 1..];
      s[..i] + s[i + 1..]
  }

  /** Extending a prefix `xs[..i]` by the next element, after a fixed head `a`. */
  lemma AppendNext<T>(a: seq<T>, xs: seq<T>, i: nat)
    requires i < |xs|
    ensures a + xs[..i] + [xs[i]] == a + xs[..i + 1]
  {
    assert xs[..i + 1] == xs[..i] + [xs[i]];
  }

  /** The elements of `s` satisfying `p`, in their original order. */
  function Filter<T>(s: seq<T>, p: T -> bool): (r: seq<T>)
    ensures |r| <= |s|
    ensures forall i :: 0 <= i < |r| ==> p(r[i])
    ensures forall x :: x in r ==> x in s
  {
    if |s| == 0 then []
    else if p(s[0]) then [s[0]] + Filter(s[1..], p)
    else Filter(s[1..], p)
  }

  lemma {:induction false} FilterComplete<T>(s: seq<T>, p: T -> bool, x: T)
    requires x in s && p(x)
    ensures x in Filter(s, p)
  {
    if s[0] != x {
      FilterComplete(s[1..], p, x);
    }
  }
}

=== FILE: shuffle.dfy ===
/**
 The Fisher–Yates shuffle both tarot drawing services use, with the random
 draws passed in: the pass from the last position down to position 1 swaps
 each position with a drawn position at or below it. Also the facts about
 distinct entries that drawing a prefix of a shuffled deck relies on.
 */
module Shuffle {

  /** Exchange the entries at `i` and `j`. */
  function Swap<T>(s: seq<T>, i: int, j: int): (r: seq<T>)
    requires 0 <= i < |s| && 0 <= j < |s|
    ensures |r| == |s| && r[i] == s[j] && r[j] == s[i]
    ensures forall k :: 0 <= k < |s| && k != i && k != j ==> r[k] == s[k]
  {
    s[i := s[j]][j := s[i]]
  }

  /** A swap keeps the multiset of entries. */
  lemma SwapPermutes<T>(s: seq<T>, i: int, j: int)
    requires 0 <= i < |s| && 0 <= j < |s|
    ensures multiset(Swap(s, i, j)) == multiset(s)
  {
    var t := s[i := s[j]];
    assert multiset(t) == multiset(s) - multiset{s[i]} + multiset{s[j]};
  }

  /**
   The draws a pass over `n` entries makes, in the order it makes them: one
   for each position from `n - 1` down to 1, the draw for position `i` in
   `0..i` (`randbelow(i + 1)`, `randrange(i + 1)`).
   */
  predicate ValidDraws(draws: seq<int>, n: int)
  {
    && |draws| == (if n <= 1 then 0 else n - 1)
    && forall k :: 0 <= k < |draws| ==> 0 <= draws[k] <= n - 1 - k
  }

  /** The pass from its `k`-th step on: step `k` swaps position `|s| - 1 - k` with `draws[k]`. */
  function Pass<T>(s: seq<T>, draws: seq<int>, k: nat): (r: seq<T>)
    requires ValidDraws(draws, |s|) && k <= |draws|
    ensures |r| == |s|
    decreases |draws| - k
  {
    if k == |draws| then s
    else Pass(Swap(s, |s| - 1 - k, draws[k]), draws, k + 1)
  }

  /** `fisher_yates_shuffle(cards)` / `_fisher_yates_shuffle(deck)` as a function of the draws. */
  function FisherYates<T>(s: seq<T>, draws: seq<int>): (r: seq<T>)
    requires ValidDraws(draws, |s|)
  {
    Pass(s, draws, 0)
  }

  /** Every step is a swap, so the pass only rearranges the entries. */
  lemma {:induction false} PassPermutes<T>(s: seq<T>, draws: seq<int>, k: nat)
    requires ValidDraws(draws, |s|) && k <= |draws|
    ensures multiset(Pass(s, draws, k)) == multiset(s)
    decreases |draws| - k
  {
    if k < |draws| {
      SwapPermutes(s, |s| - 1 - k, draws[k]);
      PassPermutes(Swap(s, |s| - 1 - k, draws[k]), draws, k + 1);
    }
  }

  /** The shuffle is a permutation of its input. */
  lemma ShufflePermutes<T>(s: seq<T>, draws: seq<int>)
    requires ValidDraws(draws, |s|)
    ensures multiset(FisherYates(s, draws)) == multiset(s)
  {
    PassPermutes(s, draws, 0);
  }

  /** Drawing each position itself swaps nothing: the deck comes back unchanged. */
  lemma {:induction false} IdentityDraws<T>(s: seq<T>, draws: seq<int>, k: nat)
    requires ValidDraws(draws, |s|) && k <= |draws|
    requires forall m :: 0 <= m < |draws| ==> draws[m] == |s| - 1 - m
    ensures Pass(s, draws, k) == s
    decreases |draws| - k
  {
    if k < |draws| {
      assert Swap(s, |s| - 1 - k, draws[k]) == s;
      IdentityDraws(s, draws, k + 1);
    }
  }

  /** The in-place loop over an array, returning the shuffled contents. */
  method ShuffleInPlace<T>(deck: seq<T>, draws: seq<int>) returns (r: seq<T>)
    requires ValidDraws(draws, |deck|)
    ensures r == FisherYates(deck, draws)
    ensures multiset(r) == multiset(deck)
  {
    var a := new T[|deck|](k requires 0 <= k < |deck| => deck[k]);
    assert a[..] == deck;
    var k := 0;
    while k < |draws|
      invariant 0 <= k <= |draws|
      invariant a.Length == |deck|
      invariant Pass(a[..], draws, k) == FisherYates(deck, draws)
    {
      var i, j := |deck| - 1 - k, draws[k];
      ghost var after := Swap(a[..], i, j);
      a[i], a[j] := a[j], a[i];
      assert forall m :: 0 <= m < a.Length ==> a[m] == after[m];
      assert a[..] == after;
      k := k + 1;
    }
    ShufflePermutes(deck, draws);
    r := a[..];
  }

  /** No entry occurs twice. */
  predicate Distinct<T(==)>(s: seq<T>)
  {
    forall i, j :: 0 <= i < j < |s| ==> s[i] != s[j]
  }

  /** Two equal entries make the entry occur at least twice. */
  lemma TwiceCounted<T>(s: seq<T>, i: int, j: int)
    requires 0 <= i < j < |s| && s[i] == s[j]
    ensures multiset(s)[s[i]] >= 2
  {
    assert s == s[..j] + s[j..];
    assert s[i] in s[..j];
    assert s[j] in s[j..];
  }

  /** A sequence whose multiset holds each entry at most once has distinct entries. */
  lemma DistinctByMultiset<T>(s: seq<T>)
    requires forall x :: multiset(s)[x] <= 1
    ensures Distinct(s)
  {
    forall i, j | 0 <= i < j < |s|
      ensures s[i] != s[j]
    {
      if s[i] == s[j] {
        TwiceCounted(s, i, j);
        assert false;
      }
    }
  }

  /** Without repeats, each entry is counted once. */
  lemma {:induction false} DistinctCountsOnce<T>(s: seq<T>, x: T)
    requires Distinct(s)
    ensures multiset(s)[x] <= 1
  {
    if |s| > 0 {
      assert s == [s[0]] + s[1..];
      assert Distinct(s[1..]);
      DistinctCountsOnce(s[1..], x);
      if x == s[0] {
        assert x !in s[1..];
      }
    }
  }

  /** Taking some of the entries of a sequence without repeats gives a sequence without repeats. */
  lemma SubMultisetDistinct<T>(r: seq<T>, s: seq<T>)
    requires Distinct(s) && multiset(r) <= multiset(s)
    ensures Distinct(r)
  {
    forall x ensures multiset(r)[x] <= 1 {
      DistinctCountsOnce(s, x);
    }
    DistinctByMultiset(r);
  }

  /** `list(range(n))`. */
  function Range(n: int): (r: seq<int>)
    ensures |r| == (if n <= 0 then 0 else n)
    ensures forall i :: 0 <= i < |r| ==> r[i] == i
    decreases if n <= 0 then 0 else n
  {
    if n <= 0 then [] else Range(n - 1) + [n - 1]
  }

  /** Each number below `n` occurs once in `range(n)`, nothing else occurs. */
  lemma {:induction false} RangeCounts(n: int, x: int)
    ensures multiset(Range(n))[x] == (if 0 <= x < n then 1 else 0)
    decreases if n <= 0 then 0 else n
  {
    if n > 0 {
      RangeCounts(n - 1, x);
    }
  }

  /** A rearrangement of `range(n)` holds each number below `n` once. */
  lemma RangePermutation(n: int, s: seq<int>)
    requires multiset(s) == multiset(Range(n))
    ensures Distinct(s)
    ensures forall x :: x in s <==> 0 <= x < n
  {
    forall x ensures multiset(s)[x] == (if 0 <= x < n then 1 else 0) && (x in s <==> 0 <= x < n) {
      RangeCounts(n, x);
      assert x in s <==> x in multiset(s);
    }
    DistinctByMultiset(s);
  }

  /** A prefix of a sequence without repeats has none either. */
  lemma DistinctPrefix<T>(s: seq<T>, m: int)
    requires Distinct(s) && 0 <= m <= |s|
    ensures Distinct(s[..m])
  {
    assert forall i :: 0 <= i < m ==> s[..m][i] == s[i];
  }

  /**
   A shuffled `range(n)` holds each number below `n` once: its entries are
   distinct, each is below `n`, and each number below `n` is one of them.
   */
  lemma ShuffledRange(n: int, draws: seq<int>)
    requires ValidDraws(draws, |Range(n)|)
    ensures Distinct(FisherYates(Range(n), draws))
    ensures forall x :: x in FisherYates(Range(n), draws) <==> 0 <= x < n
  {
    ShufflePermutes(Range(n), draws);
    RangePermutation(n, FisherYates(Range(n), draws));
  }
}

=== FILE: state_manager.dfy ===
/**
 The session and cache store: sessions live in `active` (and, once
 persisted, in `stored`, which stands for the JSON files of the storage
 directory); the cache is a key/value map with optional expiry times.

 A session holds a dynamic value per dataclass field, because `update_session`
 writes any value with `setattr`. Clock readings are the parameter `now`: an
 `Instant` pairs `time.time()` with the text `str(time.time())` that the
 source stores. Python's `float()` on stored text is the parameter
 `parseFloat`, so that whatever text a session file holds can be judged.
 */
module State {
  import opened Wrappers
  import opened Values

  /** One reading of `time.time()` and its `str()`. */
  datatype Instant = Instant(seconds: real, text: string)

  /** `float(text)` as Python computes it; `None` stands for its ValueError. */
  type FloatParser = string -> Option<real>

  /** A clock whose text reads back, through `parseFloat`, as the same number (true of Python's `str(float)`). */
  predicate Readable(now: Instant, parseFloat: FloatParser)
  {
    parseFloat(now.text) == Some(now.seconds)
  }

  const SessionTimeout: int := 3600
  const CleanupInterval: int := 300

  /**
   A `SessionState`. Every attribute holds a dynamic value, since
   `update_session` stores whatever it is given with `setattr`.
   */
  datatype Session = Session(
    sessionId: Value,
    userId: Value,
    language: Value,
    currentSystem: Value,
    lastReading: Value,
    chatContext: Value,
    createdAt: Value,
    updatedAt: Value,
    fortuneHistory: Value,
    preferences: Value)

  /** The attribute names `hasattr` accepts, in declaration order. */
  const FieldOrder: seq<string> := [
    "session_id", "user_id", "language", "current_system", "last_reading",
    "chat_context", "created_at", "updated_at", "fortune_history", "preferences"
  ]

  predicate IsField(k: string)
  {
    k in FieldOrder
  }

  /** `getattr(session, k)` for an attribute name. */
  function Field(s: Session, k: string): (v: Option<Value>)
    ensures v.Some? <==> IsField(k)
  {
    if k == "session_id" then Some(s.sessionId)
    else if k == "user_id" then Some(s.userId)
    else if k == "language" then Some(s.language)
    else if k == "current_system" then Some(s.currentSystem)
    else if k == "last_reading" then Some(s.lastReading)
    else if k == "chat_context" then Some(s.chatContext)
    else if k == "created_at" then Some(s.createdAt)
    else if k == "updated_at" then Some(s.updatedAt)
    else if k == "fortune_history" then Some(s.fortuneHistory)
    else if k == "preferences" then Some(s.preferences)
    else None
  }

  /** `if hasattr(session, k): setattr(session, k, v)`. */
  function SetField(s: Session, k: string, v: Value): (t: Session)
    ensures IsField(k) ==> Field(t, k) == Some(v)
    ensures forall j :: j != k ==> Field(t, j) == Field(s, j)
    ensures !IsField(k) ==> t == s
  {
    if k == "session_id" then s.(sessionId := v)
    else if k == "user_id" then s.(userId := v)
    else if k == "language" then s.(language := v)
    else if k == "current_system" then s.(currentSystem := v)
    else if k == "last_reading" then s.(lastReading := v)
    else if k == "chat_context" then s.(chatContext := v)
    else if k == "created_at" then s.(createdAt := v)
    else if k == "updated_at" then s.(updatedAt := v)
    else if k == "fortune_history" then s.(fortuneHistory := v)
    else if k == "preferences" then s.(preferences := v)
    else s
  }

  function OptionalText(o: Option<string>): Value
  {
    if o.Some? then Str(o.value) else Null
  }

  /**
   `SessionState(session_id, user_id, language)` with `__post_init__`: both
   timestamps are the same clock text, the context and history are empty
   lists, the preferences an empty dict.
   */
  function NewSession(id: string, userId: Option<string>, language: string, now: Instant): (s: Session)
    ensures s.sessionId == Str(id) && s.userId == OptionalText(userId) && s.language == Str(language)
    ensures s.createdAt == s.updatedAt == Str(now.text)
    ensures s.chatContext == List([]) && s.fortuneHistory == List([]) && s.preferences == Dict(map[])
    ensures s.currentSystem == Null && s.lastReading == Null
  {
    Session(Str(id), OptionalText(userId), Str(language), Null, Null, List([]),
            Str(now.text), Str(now.text), List([]), Dict(map[]))
  }

  /**
   `__post_init__` as it runs again when a session is rebuilt from its file
   with `SessionState(**data)`: missing timestamps become the clock text,
   a missing context or history an empty list, missing preferences an
   empty dict. Only a JSON `null` counts as missing.
   */
  function PostInit(s: Session, now: Instant): (t: Session)
    ensures !t.createdAt.Null? && !t.updatedAt.Null? && !t.chatContext.Null?
    ensures !t.fortuneHistory.Null? && !t.preferences.Null?
    ensures forall k :: Field(s, k) != Some(Null) ==> Field(t, k) == Field(s, k)
    ensures s.createdAt.Null? ==> t.createdAt == Str(now.text)
    ensures s.updatedAt.Null? ==> t.updatedAt == Str(now.text)
    ensures s.chatContext.Null? ==> t.chatContext == List([])
    ensures s.fortuneHistory.Null? ==> t.fortuneHistory == List([])
    ensures s.preferences.Null? ==> t.preferences == Dict(map[])
  {
    var stamp := Str(now.text);
    s.(createdAt := if s.createdAt.Null? then stamp else s.createdAt,
       updatedAt := if s.updatedAt.Null? then stamp else s.updatedAt,
       chatContext := if s.chatContext.Null? then List([]) else s.chatContext,
       fortuneHistory := if s.fortuneHistory.Null? then List([]) else s.fortuneHistory,
       preferences := if s.preferences.Null? then Dict(map[]) else s.preferences)
  }

  /** A new session is the bare constructor call followed by `__post_init__`; reloading it changes nothing. */
  lemma NewSessionIsPostInit(id: string, userId: Option<string>, language: string, now: Instant, later: Instant)
    ensures NewSession(id, userId, language, now)
            == PostInit(Session(Str(id), OptionalText(userId), Str(language), Null, Null, Null, Null, Null, Null, Null), now)
    ensures PostInit(NewSession(id, userId, language, now), later) == NewSession(id, userId, language, now)
  {
  }

  /** Reloading changes a session exactly when one of the five defaulted attributes is `null`. */
  lemma PostInitChangesOnlyNulls(s: Session, now: Instant)
    ensures PostInit(s, now) == s <==>
              !s.createdAt.Null? && !s.updatedAt.Null? && !s.chatContext.Null?
              && !s.fortuneHistory.Null? && !s.preferences.Null?
    ensures PostInit(PostInit(s, now), now) == PostInit(s, now)
  {
  }

  /** Python's `str()` of a session id that is not text; it names the session's file. */
  type Renderer = Value -> string

  /** The stem of `f"{session.session_id}.json"`. */
  function FileName(id: Value, render: Renderer): (n: string)
    ensures id.Str? ==> n == id.s
  {
    if id.Str? then id.s else render(id)
  }

  datatype Stats = Stats(activeSessions: nat, created: nat, hits: nat, misses: nat, persisted: nat)

  datatype Manager = Manager(
    active: map<string, Session>,
    stored: map<string, Session>,
    cache: map<string, Value>,
    expiry: map<string, real>,
    running: bool,
    stats: Stats)

  /**
   Only cached keys carry an expiry (so the `del self.cache[key]` of an
   expired entry never fails), the session counter matches the active
   sessions, and a stored session whose id is text sits in the file named
   after that id (the only name `_persist_session` gives it).
   */
  predicate Valid(m: Manager)
  {
    && (forall k :: k in m.expiry ==> k in m.cache)
    && m.stats.activeSessions == |m.active|
    && (forall k :: k in m.stored && m.stored[k].sessionId.Str? ==> m.stored[k].sessionId.s == k)
  }

  function NewManager(): (m: Manager)
    ensures Valid(m) && !m.running && m.active == map[] && m.cache == map[]
  {
    Manager(map[], map[], map[], map[], false, Stats(0, 0, 0, 0, 0))
  }

  // ---------------------------------------------------------------- expiry

  /** Python `float(v)`: numbers and booleans convert, text goes through `parseFloat`, anything else is a TypeError. */
  function FloatOf(v: Value, parseFloat: FloatParser): (r: Option<real>)
    ensures v.Int? ==> r == Some(v.i as real)
    ensures v.Real? ==> r == Some(v.r)
    ensures v.Str? ==> r == parseFloat(v.s)
    ensures v.Null? || v.List? || v.Dict? ==> r.None?
  {
    match v
    case Int(i) => Some(i as real)
    case Real(x) => Some(x)
    case Bool(b) => Some(if b then 1.0 else 0.0)
    case Str(s) => parseFloat(s)
    case _ => None
  }

  /**
   `_is_session_expired`: idle for longer than the timeout, strictly; a
   timestamp `float()` rejects counts as expired.
   */
  predicate Expired(s: Session, now: real, parseFloat: FloatParser)
  {
    match FloatOf(s.updatedAt, parseFloat)
    case None => true
    case Some(t) => now - t > SessionTimeout as real
  }

  /** A session stamped by a readable clock expires exactly when the timeout has passed since that stamp. */
  lemma StampedSessionExpiry(s: Session, stamp: Instant, now: real, parseFloat: FloatParser)
    requires s.updatedAt == Str(stamp.text) && Readable(stamp, parseFloat)
    ensures Expired(s, now, parseFloat) <==> now - stamp.seconds > SessionTimeout as real
  {
  }

  /** An unreadable stamp is expired at every instant. */
  lemma UnreadableStampExpired(s: Session, now: real, parseFloat: FloatParser)
    requires FloatOf(s.updatedAt, parseFloat).None?
    ensures Expired(s, now, parseFloat)
  {
  }

  // ---------------------------------------------------------------- sessions

  /**
   `create_session`: files a new session under the id drawn from `uuid4()`,
   counts it, and returns the id.
   */
  function CreateSession(m: Manager, userId: Option<string>, language: string, id: string, now: Instant): (r: (Manager, string))
    requires Valid(m)
    ensures Valid(r.0) && r.1 == id
    ensures id in r.0.active && r.0.active[id] == NewSession(id, userId, language, now)
    ensures forall other :: other != id ==> (other in r.0.active <==> other in m.active)
    ensures id !in m.active ==> |r.0.active| == |m.active| + 1
    ensures r.0.stats.created == m.stats.created + 1
    ensures r.0.cache == m.cache && r.0.stored == m.stored
  {
    var active := m.active[id := NewSession(id, userId, language, now)];
    (m.(active := active, stats := m.stats.(activeSessions := |active|, created := m.stats.created + 1)), id)
  }

  function Refresh(s: Session, now: Instant): (t: Session)
    ensures t.updatedAt == Str(now.text)
    ensures forall k :: k != "updated_at" ==> Field(t, k) == Field(s, k)
  {
    s.(updatedAt := Str(now.text))
  }

  /**
   `get_session`: an active session is returned with its `updated_at`
   refreshed; otherwise the file named after the id is loaded (through
   `__post_init__`), becomes active under that id and is refreshed;
   otherwise nothing changes and nothing is returned.
   */
  function GetSession(m: Manager, id: string, now: Instant): (r: (Manager, Option<Session>))
    requires Valid(m)
    ensures Valid(r.0)
    ensures r.1.Some? <==> id in m.active || id in m.stored
    ensures r.1.Some? ==> id in r.0.active && r.0.active[id] == r.1.value
    ensures id in m.active ==> r.1 == Some(Refresh(m.active[id], now))
    ensures id !in m.active && id in m.stored ==> r.1 == Some(Refresh(PostInit(m.stored[id], now), now))
    ensures r.1.None? ==> r.0 == m
    ensures forall other :: other != id ==> (other in r.0.active <==> other in m.active)
    ensures forall other :: other != id && other in m.active ==> r.0.active[other] == m.active[other]
    ensures r.0.cache == m.cache && r.0.expiry == m.expiry && r.0.stored == m.stored
  {
    if id in m.active then
      var s := Refresh(m.active[id], now);
      (m.(active := m.active[id := s]), Some(s))
    else if id in m.stored then
      var s := Refresh(PostInit(m.stored[id], now), now);
      var active := m.active[id := s];
      (m.(active := active, stats := m.stats.(activeSessions := |active|)), Some(s))
    else (m, None)
  }

  /** The `for key, value in updates.items()` loop: every attribute named in `updates` is set; other keys are ignored. */
  function ApplyUpdates(s: Session, updates: map<string, Value>, names: seq<string>): (t: Session)
    ensures forall k :: k in names && IsField(k) && k in updates ==> Field(t, k) == Some(updates[k])
    ensures forall k :: k !in names || k !in updates ==> Field(t, k) == Field(s, k)
    decreases |names|
  {
    if |names| == 0 then s
    else
      var k := names[|names| - 1];
      var s1 := ApplyUpdates(s, updates, names[..|names| - 1]);
      assert forall j :: j in names ==> j == k || j in names[..|names| - 1];
      if k in updates then SetField(s1, k, updates[k]) else s1
  }

  /**
   `update_session`: false for a session that cannot be found; otherwise the
   fields named in `updates` are set, `updated_at` is stamped last (so it
   cannot be overwritten), and the session is persisted to the file named
   after its own, possibly just updated, `session_id`. The session stays
   active under the id it was asked for.
   */
  function UpdateSession(m: Manager, id: string, updates: map<string, Value>, now: Instant, render: Renderer): (r: (Manager, bool))
    requires Valid(m)
    ensures Valid(r.0)
    ensures r.1 <==> id in m.active || id in m.stored
    ensures !r.1 ==> r.0 == m
    ensures r.1 ==> id in r.0.active && r.0.active[id].updatedAt == Str(now.text)
    ensures r.1 ==> forall k :: IsField(k) && k != "updated_at" && k in updates ==> Field(r.0.active[id], k) == Some(updates[k])
    ensures r.1 ==> var n := FileName(r.0.active[id].sessionId, render);
                    && n in r.0.stored && r.0.stored[n] == r.0.active[id]
                    && forall o :: o != n ==> (o in r.0.stored <==> o in m.stored) && (o in m.stored ==> r.0.stored[o] == m.stored[o])
    ensures forall o :: o != id ==> (o in r.0.active <==> o in m.active) && (o in m.active ==> r.0.active[o] == m.active[o])
    ensures r.0.cache == m.cache && r.0.expiry == m.expiry && r.0.running == m.running
    ensures r.1 ==> r.0.stats.persisted == m.stats.persisted + 1
  {
    var g := GetSession(m, id, now);
    if g.1.None? then (g.0, false)
    else
      var s := Refresh(ApplyUpdates(g.1.value, updates, FieldOrder), now);
      var m1 := g.0;
      (m1.(active := m1.active[id := s], stored := m1.stored[FileName(s.sessionId, render) := s],
           stats := m1.stats.(persisted := m1.stats.persisted + 1)), true)
  }

  /** An update that renames the session writes the file of the new name and leaves the old file as it was. */
  lemma RenamingUpdateWritesNewFile(m: Manager, id: string, newId: string, now: Instant, render: Renderer)
    requires Valid(m) && id in m.active && newId != id
    ensures var r := UpdateSession(m, id, map["session_id" := Str(newId)], now, render).0;
            && newId in r.stored && r.stored[newId].sessionId == Str(newId)
            && (id in r.stored <==> id in m.stored)
            && (id in m.stored ==> r.stored[id] == m.stored[id])
            && id in r.active && r.active[id].sessionId == Str(newId)
  {
    var r := UpdateSession(m, id, map["session_id" := Str(newId)], now, render).0;
    assert Field(r.active[id], "session_id") == Some(Str(newId));
  }

  /** An update leaves a field alone unless `updates` names it (and `updated_at` is always the new stamp). */
  lemma UpdateTouchesOnlyNamedFields(m: Manager, id: string, updates: map<string, Value>, now: Instant, render: Renderer, k: string)
    requires Valid(m) && id in m.active
    requires k != "updated_at" && (k !in updates || !IsField(k))
    ensures Field(UpdateSession(m, id, updates, now, render).0.active[id], k) == Field(m.active[id], k)
  {
  }

  /** `delete_session`: the session leaves the active set and the store; the result is always true. */
  function DeleteSession(m: Manager, id: string): (r: (Manager, bool))
    requires Valid(m)
    ensures Valid(r.0) && r.1
    ensures id !in r.0.active && id !in r.0.stored
    ensures r.0.active == m.active - {id} && r.0.stored == m.stored - {id}
    ensures r.0.cache == m.cache && r.0.expiry == m.expiry
  {
    var active := m.active - {id};
    (m.(active := active, stored := m.stored - {id}, stats := m.stats.(activeSessions := |active|)), true)
  }

  /** The ids `_cleanup_expired_sessions` collects. */
  function ExpiredIds(m: Manager, now: real, parseFloat: FloatParser): (ids: set<string>)
    requires Valid(m)
    ensures forall id :: id in ids <==> id in m.active && Expired(m.active[id], now, parseFloat)
  {
    set id | id in m.active && Expired(m.active[id], now, parseFloat)
  }

  /**
   `_cleanup_expired_sessions`: `delete_session` for every expired id, one
   at a time. Exactly the expired sessions go, from the active set and the
   store; the others stay as they were.
   */
  method CleanupExpiredSessions(m: Manager, now: real, parseFloat: FloatParser) returns (r: Manager)
    requires Valid(m)
    ensures Valid(r)
    ensures forall id :: id in r.active <==> id in m.active && !Expired(m.active[id], now, parseFloat)
    ensures forall id :: id in r.active ==> r.active[id] == m.active[id]
    ensures forall id :: id in r.stored <==> id in m.stored && id !in ExpiredIds(m, now, parseFloat)
    ensures r.cache == m.cache && r.expiry == m.expiry
  {
    var expired := ExpiredIds(m, now, parseFloat);
    var todo := expired;
    r := m;
    while todo != {}
      invariant todo <= expired && Valid(r)
      invariant forall id :: id in r.active <==> id in m.active && (id !in expired || id in todo)
      invariant forall id :: id in r.active ==> r.active[id] == m.active[id]
      invariant forall id :: id in r.stored <==> id in m.stored && (id !in expired || id in todo)
      invariant r.cache == m.cache && r.expiry == m.expiry
      decreases |todo|
    {
      var id :| id in todo;
      r := DeleteSession(r, id).0;
      todo := todo - {id};
    }
  }

  // ---------------------------------------------------------------- cache

  /** `set_cache`: stores the value; a truthy `ttl` sets the expiry to `now + ttl`, a falsy one keeps any earlier expiry. */
  function SetCache(m: Manager, key: string, value: Value, ttl: Option<int>, now: real): (r: Manager)
    requires Valid(m)
    ensures Valid(r)
    ensures key in r.cache && r.cache[key] == value
    ensures ttl.Some? && ttl.value != 0 ==> key in r.expiry && r.expiry[key] == now + ttl.value as real
    ensures !(ttl.Some? && ttl.value != 0) ==> r.expiry == m.expiry
    ensures forall k :: k != key ==> (k in r.cache <==> k in m.cache) && (k in r.expiry <==> k in m.expiry)
    ensures r.active == m.active && r.stats == m.stats
  {
    var expiry := if ttl.Some? && ttl.value != 0 then m.expiry[key := now + ttl.value as real] else m.expiry;
    m.(cache := m.cache[key := value], expiry := expiry)
  }

  /**
   `get_cache`: an entry past its expiry (strictly) is removed and missed;
   otherwise a cached key is a hit and anything else a miss.
   */
  function GetCache(m: Manager, key: string, now: real): (r: (Manager, Option<Value>))
    requires Valid(m)
    ensures Valid(r.0)
    ensures r.1.Some? <==> key in m.cache && (key !in m.expiry || now <= m.expiry[key])
    ensures r.1.Some? ==> r.1.value == m.cache[key]
    ensures key in m.expiry && now > m.expiry[key] ==> key !in r.0.cache && key !in r.0.expiry
    ensures r.1.Some? ==> r.0.stats == m.stats.(hits := m.stats.hits + 1)
    ensures r.1.None? ==> r.0.stats == m.stats.(misses := m.stats.misses + 1)
    ensures forall k :: k != key ==> (k in r.0.cache <==> k in m.cache) && (k in r.0.expiry <==> k in m.expiry)
    ensures r.0.active == m.active
  {
    if key in m.expiry && now > m.expiry[key] then
      (m.(cache := m.cache - {key}, expiry := m.expiry - {key}, stats := m.stats.(misses := m.stats.misses + 1)), None)
    else if key in m.cache then
      (m.(stats := m.stats.(hits := m.stats.hits + 1)), Some(m.cache[key]))
    else
      (m.(stats := m.stats.(misses := m.stats.misses + 1)), None)
  }

  /** A value cached with a positive lifetime is served up to and including its expiry instant, and not after. */
  lemma CacheServesUntilExpiry(m: Manager, key: string, value: Value, ttl: int, setAt: real, now: real)
    requires Valid(m) && ttl != 0
    ensures var r := GetCache(SetCache(m, key, value, Some(ttl), setAt), key, now);
            && (now <= setAt + ttl as real ==> r.1 == Some(value))
            && (now > setAt + ttl as real ==> r.1.None? && key !in r.0.cache)
  {
  }

  /** Without a lifetime the value stays until an earlier expiry of the same key, if any. */
  lemma CacheKeepsEarlierExpiry(m: Manager, key: string, value: Value, ttl: Option<int>, setAt: real, now: real)
    requires Valid(m) && key in m.expiry && (ttl.None? || ttl.value == 0) && now > m.expiry[key]
    ensures GetCache(SetCache(m, key, value, ttl, setAt), key, now).1.None?
  {
  }

  /** Each lookup counts exactly one hit or one miss. */
  lemma LookupCountsOnce(m: Manager, key: string, now: real)
    requires Valid(m)
    ensures var s := GetCache(m, key, now).0.stats;
            s.hits + s.misses == m.stats.hits + m.stats.misses + 1
  {
  }

  /** `delete_cache`: true exactly when the key was cached; both the value and its expiry go. */
  function DeleteCache(m: Manager, key: string): (r: (Manager, bool))
    requires Valid(m)
    ensures Valid(r.0)
    ensures r.1 <==> key in m.cache
    ensures key !in r.0.cache && key !in r.0.expiry
    ensures r.0.cache == m.cache - {key} && r.0.expiry == m.expiry - {key}
    ensures r.0.active == m.active && r.0.stats == m.stats
  {
    (m.(cache := m.cache - {key}, expiry := m.expiry - {key}), key in m.cache)
  }

  /**
   `_cleanup_expired_cache`: `delete_cache` for every key whose expiry has
   passed (strictly); entries without an expiry, or not yet due, stay.
   */
  method CleanupExpiredCache(m: Manager, now: real) returns (r: Manager)
    requires Valid(m)
    ensures Valid(r)
    ensures forall k :: k in r.cache <==> k in m.cache && !(k in m.expiry && now > m.expiry[k])
    ensures forall k :: k in r.cache ==> r.cache[k] == m.cache[k]
    ensures forall k :: k in r.expiry <==> k in m.expiry && now <= m.expiry[k]
    ensures r.active == m.active && r.stats == m.stats
  {
    var due := set k | k in m.expiry && now > m.expiry[k];
    var todo := due;
    r := m;
    while todo != {}
      invariant todo <= due && Valid(r)
      invariant forall k :: k in r.cache <==> k in m.cache && (k !in due || k in todo)
      invariant forall k :: k in r.cache ==> r.cache[k] == m.cache[k]
      invariant forall k :: k in r.expiry <==> k in m.expiry && (k !in due || k in todo)
      invariant forall k :: k in r.expiry ==> r.expiry[k] == m.expiry[k]
      invariant r.active == m.active && r.stats == m.stats
      decreases |todo|
    {
      var k :| k in todo;
      r := DeleteCache(r, k).0;
      todo := todo - {k};
    }
  }

  // ---------------------------------------------------------------- lifecycle

  /** A stored session that `_load_persisted_sessions` keeps: rebuilt through `__post_init__`, it has not expired. */
  predicate Loads(m: Manager, f: string, now: Instant, parseFloat: FloatParser)
    requires f in m.stored
  {
    !Expired(PostInit(m.stored[f], now), now.seconds, parseFloat)
  }

  /**
   `initialize`: every stored session is rebuilt through `__post_init__`;
   an expired one has its file deleted, a live one becomes active under its
   own `session_id`. The manager is not yet running.
   */
  function Initialize(m: Manager, now: Instant, parseFloat: FloatParser): (r: Manager)
    requires Valid(m)
    ensures Valid(r) && !r.running
    ensures forall f :: f in m.stored && Loads(m, f, now, parseFloat) && m.stored[f].sessionId.Str? ==>
              var s := PostInit(m.stored[f], now);
              s.sessionId.s in r.active && r.active[s.sessionId.s] == s
    ensures forall f :: f in r.stored <==> f in m.stored && Loads(m, f, now, parseFloat)
    ensures forall f :: f in r.stored ==> r.stored[f] == m.stored[f]
    ensures forall id :: id in r.active <==> id in m.active || (id in m.stored && Loads(m, id, now, parseFloat) && m.stored[id].sessionId.Str?)
    ensures forall id :: id in m.active && !(id in m.stored && Loads(m, id, now, parseFloat) && m.stored[id].sessionId.Str?) ==>
              r.active[id] == m.active[id]
    ensures r.cache == m.cache && r.expiry == m.expiry
  {
    var kept := map f | f in m.stored && Loads(m, f, now, parseFloat) :: m.stored[f];
    var live := map f | f in kept && kept[f].sessionId.Str? :: PostInit(kept[f], now);
    var active := m.active + live;
    m.(active := active, stored := kept, running := false, stats := m.stats.(activeSessions := |active|))
  }

  /** A file whose timestamp is `null` is loaded: `__post_init__` stamps it with the load time before the expiry test. */
  lemma NullStampLoads(m: Manager, f: string, now: Instant, parseFloat: FloatParser)
    requires Valid(m) && f in m.stored && m.stored[f].updatedAt.Null? && m.stored[f].sessionId.Str?
    requires Readable(now, parseFloat)
    ensures f in Initialize(m, now, parseFloat).active && f in Initialize(m, now, parseFloat).stored
  {
    assert Loads(m, f, now, parseFloat);
  }

  function Start(m: Manager): (r: Manager)
    ensures r.running && r == m.(running := true)
  {
    m.(running := true)
  }

  /** `visit` lists every active id exactly once: the iteration order of `active_sessions`. */
  predicate Lists(visit: seq<string>, ids: set<string>)
  {
    && (forall k :: k in ids ==> k in visit) && (forall i :: 0 <= i < |visit| ==> visit[i] in ids)
    && (forall i, j :: 0 <= i < j < |visit| ==> visit[i] != visit[j])
  }

  /** The last id of `visit` whose active session is written to file `n`; its version is what the file holds after `stop`. */
  function LastWriter(active: map<string, Session>, visit: seq<string>, n: string, render: Renderer): (w: Option<string>)
    ensures w.Some? ==> w.value in visit && w.value in active && FileName(active[w.value].sessionId, render) == n
    ensures w.None? <==> forall k :: k in visit && k in active ==> FileName(active[k].sessionId, render) != n
    decreases |visit|
  {
    if |visit| == 0 then None
    else
      var k := visit[|visit| - 1];
      if k in active && FileName(active[k].sessionId, render) == n then Some(k)
      else
        assert forall j :: j in visit ==> j == k || j in visit[..|visit| - 1];
        LastWriter(active, visit[..|visit| - 1], n, render)
  }

  /** `_persist_all_sessions`: each visited active session is written to its file in turn; the count of writes comes along. */
  function PersistAll(stored: map<string, Session>, active: map<string, Session>, visit: seq<string>, render: Renderer): (r: (map<string, Session>, nat))
    ensures forall n :: LastWriter(active, visit, n, render).Some? ==>
              n in r.0 && r.0[n] == active[LastWriter(active, visit, n, render).value]
    ensures forall n :: LastWriter(active, visit, n, render).None? ==>
              (n in r.0 <==> n in stored) && (n in stored ==> r.0[n] == stored[n])
    ensures (forall i :: 0 <= i < |visit| ==> visit[i] in active) ==> r.1 == |visit|
    decreases |visit|
  {
    if |visit| == 0 then (stored, 0)
    else
      var k := visit[|visit| - 1];
      var p := PersistAll(stored, active, visit[..|visit| - 1], render);
      if k in active then (p.0[FileName(active[k].sessionId, render) := active[k]], p.1 + 1) else p
  }

  /**
   `stop`: not running, and every active session is persisted, in the order
   `visit` of the active dict, to the file named after its own `session_id`.
   */
  function Stop(m: Manager, visit: seq<string>, render: Renderer): (r: Manager)
    requires Valid(m)
    ensures Valid(r) && !r.running
    ensures forall n :: LastWriter(m.active, visit, n, render).Some? ==>
              n in r.stored && r.stored[n] == m.active[LastWriter(m.active, visit, n, render).value]
    ensures forall n :: LastWriter(m.active, visit, n, render).None? ==>
              (n in r.stored <==> n in m.stored) && (n in m.stored ==> r.stored[n] == m.stored[n])
    ensures Lists(visit, m.active.Keys) ==> r.stats.persisted == m.stats.persisted + |visit|
    ensures r.active == m.active && r.cache == m.cache && r.expiry == m.expiry
  {
    var p := PersistAll(m.stored, m.active, visit, render);
    m.(running := false, stored := p.0, stats := m.stats.(persisted := m.stats.persisted + p.1))
  }

  /** When every active session still carries the id it is filed under, `stop` writes each one to the file of that id. */
  lemma StopPersistsEach(m: Manager, visit: seq<string>, render: Renderer, id: string)
    requires Valid(m) && Lists(visit, m.active.Keys)
    requires forall k :: k in m.active ==> m.active[k].sessionId == Str(k)
    requires id in m.active
    ensures id in Stop(m, visit, render).stored && Stop(m, visit, render).stored[id] == m.active[id]
  {
    var w := LastWriter(m.active, visit, id, render);
    assert FileName(m.active[id].sessionId, render) == id;
    assert w.Some?;
  }

  /**
   Persisting and loading again: after `stop` and a later `initialize`, an
   active session filed under its own id comes back as `__post_init__`
   rebuilds it, unless it has expired meanwhile.
   */
  lemma StopThenInitialize(m: Manager, visit: seq<string>, render: Renderer, id: string, now: Instant, parseFloat: FloatParser)
    requires Valid(m) && Lists(visit, m.active.Keys)
    requires forall k :: k in m.active ==> m.active[k].sessionId == Str(k)
    requires id in m.active && !Expired(PostInit(m.active[id], now), now.seconds, parseFloat)
    ensures var r := Initialize(Stop(m, visit, render), now, parseFloat);
            id in r.active && r.active[id] == PostInit(m.active[id], now)
  {
    var st := Stop(m, visit, render);
    StopPersistsEach(m, visit, render, id);
    assert Loads(st, id, now, parseFloat);
  }
}

=== FILE: strands_config.dfy ===
/**
 The runtime configuration: parsing a loaded configuration tree into the
 runtime, agent, tool and MCP-tool records, the by-name lookups, and
 `to_dict`, whose output parses back to the same configuration.

 The records keep every field as a dynamic value, since the parser does no
 type checking of its own.
 */
module StrandsConfig {
  import opened Wrappers
  import opened Values

  datatype RuntimeConfig = RuntimeConfig(name: Value, version: Value, maxAgents: Value,
                                         messageTimeout: Value, statePersistence: Value)

  datatype AgentConfig = AgentConfig(name: Value, className: Value, maxInstances: Value,
                                     autoStart: Value, config: Value)

  datatype ToolConfig = ToolConfig(name: Value, className: Value, config: Value)

  datatype McpToolConfig = McpToolConfig(name: Value, server: Value, description: Value, config: Value)

  datatype Config = Config(runtime: RuntimeConfig, agents: seq<AgentConfig>, tools: seq<ToolConfig>,
                           mcpTools: seq<McpToolConfig>)

  /** The dataclass defaults of `RuntimeConfig`. */
  const DefaultRuntime: RuntimeConfig :=
    RuntimeConfig(Str("fortune_teller_system"), Str("2.0.0"), Int(50), Int(30), Bool(true))

  /** `_parse_runtime_config`: each missing field takes its default; a non-dict section has no `.get`. */
  function ParseRuntime(data: Payload): (r: Result<RuntimeConfig>)
    ensures "runtime" !in data ==> r == Ok(DefaultRuntime)
    ensures "runtime" in data && !data["runtime"].Dict? ==> r == Err(AttributeError)
    ensures r.Ok? && "runtime" in data ==>
              var f := data["runtime"].fields;
              && r.value.name == GetOr(f, "name", DefaultRuntime.name)
              && r.value.version == GetOr(f, "version", DefaultRuntime.version)
              && r.value.maxAgents == GetOr(f, "max_agents", DefaultRuntime.maxAgents)
              && r.value.messageTimeout == GetOr(f, "message_timeout", DefaultRuntime.messageTimeout)
              && r.value.statePersistence == GetOr(f, "state_persistence", DefaultRuntime.statePersistence)
  {
    var section := GetOr(data, "runtime", Dict(map[]));
    if !section.Dict? then Err(AttributeError)
    else
      var f := section.fields;
      Ok(RuntimeConfig(GetOr(f, "name", Str("fortune_teller_system")), GetOr(f, "version", Str("2.0.0")),
                       GetOr(f, "max_agents", Int(50)), GetOr(f, "message_timeout", Int(30)),
                       GetOr(f, "state_persistence", Bool(true))))
  }

  /**
   What `for item in data.get(key, [])` iterates over. A list yields its
   items. An empty dict or string yields nothing. A non-empty dict or string
   yields strings, on which the first `item["name"]` raises TypeError; any
   other value is not iterable.
   */
  function Entries(data: Payload, key: string): (r: Result<seq<Value>>)
    ensures key !in data ==> r == Ok([])
    ensures key in data && data[key].List? ==> r == Ok(data[key].items)
    ensures r.Err? ==> r.error == TypeError
  {
    match GetOr(data, key, List([]))
    case List(items) => Ok(items)
    case Dict(f) => if |f| == 0 then Ok([]) else Err(TypeError)
    case Str(s) => if |s| == 0 then Ok([]) else Err(TypeError)
    case _ => Err(TypeError)
  }

  /** An entry that the list parsers accept: a dict holding every required key. */
  predicate Entry(v: Value, required: set<string>)
  {
    v.Dict? && required <= v.fields.Keys
  }

  /** Subscripting a non-dict raises TypeError; a missing key raises KeyError. */
  function EntryError(v: Value): Exc
  {
    if v.Dict? then KeyError else TypeError
  }

  const AgentKeys: set<string> := {"name", "class"}
  const ToolKeys: set<string> := {"name", "class"}
  const McpKeys: set<string> := {"name", "server", "description"}

  /** One `AgentConfig(...)` built from an accepted entry: name and class as given, the rest defaulted. */
  function AgentOf(v: Value): (a: AgentConfig)
    requires Entry(v, AgentKeys)
    ensures a.name == v.fields["name"] && a.className == v.fields["class"]
    ensures a.maxInstances == GetOr(v.fields, "max_instances", Int(1))
    ensures a.autoStart == GetOr(v.fields, "auto_start", Bool(true))
    ensures a.config == GetOr(v.fields, "config", Dict(map[]))
  {
    var f := v.fields;
    AgentConfig(f["name"], f["class"], GetOr(f, "max_instances", Int(1)),
                GetOr(f, "auto_start", Bool(true)), GetOr(f, "config", Dict(map[])))
  }

  /** `_parse_agents_config` over the entries from position 0 on. */
  function ParseAgents(items: seq<Value>): (r: Result<seq<AgentConfig>>)
    ensures r.Ok? <==> forall i :: 0 <= i < |items| ==> Entry(items[i], AgentKeys)
    ensures r.Err? ==> r.error in {KeyError, TypeError}
    ensures r.Ok? ==> |r.value| == |items|
    ensures r.Ok? ==> forall i :: 0 <= i < |items| ==> r.value[i] == AgentOf(items[i])
  {
    if |items| == 0 then Ok([])
    else if !Entry(items[0], AgentKeys) then Err(EntryError(items[0]))
    else
      var head := AgentOf(items[0]);
      match ParseAgents(items[1..])
      case Err(e) => Err(e)
      case Ok(rest) => Ok([head] + rest)
  }

  /** One `ToolConfig(...)` built from an accepted entry. */
  function ToolOf(v: Value): (c: ToolConfig)
    requires Entry(v, ToolKeys)
    ensures c.name == v.fields["name"] && c.className == v.fields["class"]
    ensures c.config == GetOr(v.fields, "config", Dict(map[]))
  {
    ToolConfig(v.fields["name"], v.fields["class"], GetOr(v.fields, "config", Dict(map[])))
  }

  /** `_parse_tools_config`. */
  function ParseTools(items: seq<Value>): (r: Result<seq<ToolConfig>>)
    ensures r.Ok? <==> forall i :: 0 <= i < |items| ==> Entry(items[i], ToolKeys)
    ensures r.Err? ==> r.error in {KeyError, TypeError}
    ensures r.Ok? ==> |r.value| == |items|
    ensures r.Ok? ==> forall i :: 0 <= i < |items| ==> r.value[i] == ToolOf(items[i])
  {
    if |items| == 0 then Ok([])
    else if !Entry(items[0], ToolKeys) then Err(EntryError(items[0]))
    else
      var head := ToolOf(items[0]);
      match ParseTools(items[1..])
      case Err(e) => Err(e)
      case Ok(rest) => Ok([head] + rest)
  }

  /** One `MCPToolConfig(...)` built from an accepted entry. */
  function McpOf(v: Value): (c: McpToolConfig)
    requires Entry(v, McpKeys)
    ensures c.name == v.fields["name"] && c.server == v.fields["server"]
    ensures c.description == v.fields["description"]
    ensures c.config == GetOr(v.fields, "config", Dict(map[]))
  {
    McpToolConfig(v.fields["name"], v.fields["server"], v.fields["description"], GetOr(v.fields, "config", Dict(map[])))
  }

  /** `_parse_mcp_tools_config`. */
  function ParseMcpTools(items: seq<Value>): (r: Result<seq<McpToolConfig>>)
    ensures r.Ok? <==> forall i :: 0 <= i < |items| ==> Entry(items[i], McpKeys)
    ensures r.Err? ==> r.error in {KeyError, TypeError}
    ensures r.Ok? ==> |r.value| == |items|
    ensures r.Ok? ==> forall i :: 0 <= i < |items| ==> r.value[i] == McpOf(items[i])
  {
    if |items| == 0 then Ok([])
    else if !Entry(items[0], McpKeys) then Err(EntryError(items[0]))
    else
      var head := McpOf(items[0]);
      match ParseMcpTools(items[1..])
      case Err(e) => Err(e)
      case Ok(rest) => Ok([head] + rest)
  }

  /** `StrandsConfig(config_data)`: the sections are parsed in the constructor's order; the first failure propagates. */
  function Parse(data: Payload): (r: Result<Config>)
    ensures r.Ok? ==> ParseRuntime(data).Ok? && Entries(data, "agents").Ok?
    ensures r.Ok? ==> r.value.runtime == ParseRuntime(data).value
    ensures r.Ok? ==> |r.value.agents| == |Entries(data, "agents").value|
    ensures data == map[] ==> r == Ok(Config(DefaultRuntime, [], [], []))
  {
    match ParseRuntime(data)
    case Err(e) => Err(e)
    case Ok(runtime) =>
      match Entries(data, "agents")
      case Err(e) => Err(e)
      case Ok(agentItems) =>
        match ParseAgents(agentItems)
        case Err(e) => Err(e)
        case Ok(agents) =>
          match Entries(data, "tools")
          case Err(e) => Err(e)
          case Ok(toolItems) =>
            match ParseTools(toolItems)
            case Err(e) => Err(e)
            case Ok(tools) =>
              match Entries(data, "mcp_tools")
              case Err(e) => Err(e)
              case Ok(mcpItems) =>
                match ParseMcpTools(mcpItems)
                case Err(e) => Err(e)
                case Ok(mcp) => Ok(Config(runtime, agents, tools, mcp))
  }

  // ---------------------------------------------------------------- lookups

  /** `get_agent_config`: the first agent entry with that name. */
  function GetAgentConfig(c: Config, name: string): (r: Option<AgentConfig>)
    ensures r.None? <==> forall i :: 0 <= i < |c.agents| ==> c.agents[i].name != Str(name)
    ensures r.Some? ==> exists i :: 0 <= i < |c.agents| && c.agents[i] == r.value
                                     && forall j :: 0 <= j < i ==> c.agents[j].name != Str(name)
    ensures r.Some? ==> r.value.name == Str(name)
    decreases |c.agents|
  {
    if |c.agents| == 0 then None
    else if c.agents[0].name == Str(name) then Some(c.agents[0])
    else
      var r := GetAgentConfig(c.(agents := c.agents[1..]), name);
      assert r.Some? ==> exists i :: 1 <= i < |c.agents| && c.agents[i] == r.value
                                     && forall j :: 0 <= j < i ==> c.agents[j].name != Str(name)
      by {
        if r.Some? {
          var k :| 0 <= k < |c.agents[1..]| && c.agents[1..][k] == r.value
                   && forall j :: 0 <= j < k ==> c.agents[1..][j].name != Str(name);
          NoneNamedShift(c.agents, name, k);
        }
      }
      r
  }

  /** No entry before `k` in the tail is named `name`, nor is the head: none before `k + 1` in the whole list. */
  lemma NoneNamedShift(agents: seq<AgentConfig>, name: string, k: int)
    requires 0 <= k < |agents| - 1 && agents[0].name != Str(name)
    requires forall j :: 0 <= j < k ==> agents[1..][j].name != Str(name)
    ensures forall j :: 0 <= j < k + 1 ==> agents[j].name != Str(name)
    ensures agents[k + 1] == agents[1..][k]
  {
    forall j | 0 <= j < k + 1 ensures agents[j].name != Str(name) {
      if j > 0 { assert agents[j] == agents[1..][j - 1]; }
    }
  }

  /** `get_tool_config`: the first tool entry with that name. */
  function GetToolConfig(c: Config, name: string): (r: Option<ToolConfig>)
    ensures r.None? <==> forall i :: 0 <= i < |c.tools| ==> c.tools[i].name != Str(name)
    ensures r.Some? ==> exists i :: 0 <= i < |c.tools| && c.tools[i] == r.value
                                     && forall j :: 0 <= j < i ==> c.tools[j].name != Str(name)
    ensures r.Some? ==> r.value.name == Str(name)
    decreases |c.tools|
  {
    if |c.tools| == 0 then None
    else if c.tools[0].name == Str(name) then Some(c.tools[0])
    else
      var r := GetToolConfig(c.(tools := c.tools[1..]), name);
      assert forall i :: 1 <= i < |c.tools| ==> c.tools[i] == c.tools[1..][i - 1];
      assert r.Some? ==> exists i :: 1 <= i < |c.tools| && c.tools[i] == r.value
                                     && forall j :: 0 <= j < i ==> c.tools[j].name != Str(name)
      by {
        if r.Some? {
          var k :| 0 <= k < |c.tools[1..]| && c.tools[1..][k] == r.value
                   && forall j :: 0 <= j < k ==> c.tools[1..][j].name != Str(name);
          assert c.tools[k + 1] == r.value;
          forall j | 0 <= j < k + 1 ensures c.tools[j].name != Str(name) {
            if j > 0 { assert c.tools[j] == c.tools[1..][j - 1]; }
          }
        }
      }
      r
  }

  /** `get_mcp_tool_config`: the first MCP tool entry with that name. */
  function GetMcpToolConfig(c: Config, name: string): (r: Option<McpToolConfig>)
    ensures r.None? <==> forall i :: 0 <= i < |c.mcpTools| ==> c.mcpTools[i].name != Str(name)
    ensures r.Some? ==> exists i :: 0 <= i < |c.mcpTools| && c.mcpTools[i] == r.value
                                     && forall j :: 0 <= j < i ==> c.mcpTools[j].name != Str(name)
    ensures r.Some? ==> r.value.name == Str(name)
    decreases |c.mcpTools|
  {
    if |c.mcpTools| == 0 then None
    else if c.mcpTools[0].name == Str(name) then Some(c.mcpTools[0])
    else
      var r := GetMcpToolConfig(c.(mcpTools := c.mcpTools[1..]), name);
      assert forall i :: 1 <= i < |c.mcpTools| ==> c.mcpTools[i] == c.mcpTools[1..][i - 1];
      assert r.Some? ==> exists i :: 1 <= i < |c.mcpTools| && c.mcpTools[i] == r.value
                                     && forall j :: 0 <= j < i ==> c.mcpTools[j].name != Str(name)
      by {
        if r.Some? {
          var k :| 0 <= k < |c.mcpTools[1..]| && c.mcpTools[1..][k] == r.value
                   && forall j :: 0 <= j < k ==> c.mcpTools[1..][j].name != Str(name);
          assert c.mcpTools[k + 1] == r.value;
          forall j | 0 <= j < k + 1 ensures c.mcpTools[j].name != Str(name) {
            if j > 0 { assert c.mcpTools[j] == c.mcpTools[1..][j - 1]; }
          }
        }
      }
      r
  }

  // ---------------------------------------------------------------- to_dict

  function RuntimeDict(r: RuntimeConfig): Value
  {
    Dict(map["name" := r.name, "version" := r.version, "max_agents" := r.maxAgents,
             "message_timeout" := r.messageTimeout, "state_persistence" := r.statePersistence])
  }

  function AgentDict(a: AgentConfig): Value
  {
    Dict(map["name" := a.name, "class" := a.className, "max_instances" := a.maxInstances,
             "auto_start" := a.autoStart, "config" := a.config])
  }

  function ToolDict(t: ToolConfig): Value
  {
    Dict(map["name" := t.name, "class" := t.className, "config" := t.config])
  }

  function McpDict(t: McpToolConfig): Value
  {
    Dict(map["name" := t.name, "server" := t.server, "description" := t.description, "config" := t.config])
  }

  function AgentDicts(s: seq<AgentConfig>): (r: seq<Value>)
    ensures |r| == |s| && forall i :: 0 <= i < |s| ==> r[i] == AgentDict(s[i])
  {
    if |s| == 0 then [] else [AgentDict(s[0])] + AgentDicts(s[1..])
  }

  function ToolDicts(s: seq<ToolConfig>): (r: seq<Value>)
    ensures |r| == |s| && forall i :: 0 <= i < |s| ==> r[i] == ToolDict(s[i])
  {
    if |s| == 0 then [] else [ToolDict(s[0])] + ToolDicts(s[1..])
  }

  function McpDicts(s: seq<McpToolConfig>): (r: seq<Value>)
    ensures |r| == |s| && forall i :: 0 <= i < |s| ==> r[i] == McpDict(s[i])
  {
    if |s| == 0 then [] else [McpDict(s[0])] + McpDicts(s[1..])
  }

  /** `to_dict`: the four sections, with each class name written under "class". */
  function ToDict(c: Config): (d: Payload)
    ensures d.Keys == {"runtime", "agents", "tools", "mcp_tools"}
    ensures d["agents"].List? && |d["agents"].items| == |c.agents|
    ensures forall i :: 0 <= i < |c.agents| ==>
              d["agents"].items[i].Dict? && "class" in d["agents"].items[i].fields
              && d["agents"].items[i].fields["class"] == c.agents[i].className
  {
    map["runtime" := RuntimeDict(c.runtime), "agents" := List(AgentDicts(c.agents)),
        "tools" := List(ToolDicts(c.tools)), "mcp_tools" := List(McpDicts(c.mcpTools))]
  }

  /** The agent record read back from its own `to_dict` entry. */
  lemma AgentEntryRoundTrip(a: AgentConfig)
    ensures Entry(AgentDict(a), AgentKeys) && AgentOf(AgentDict(a)) == a
  {
  }

  /** Parsing an accepted entry in front of a list. */
  lemma ParseAgentsCons(x: Value, rest: seq<Value>)
    requires Entry(x, AgentKeys)
    ensures ParseAgents([x] + rest)
            == if ParseAgents(rest).Ok? then Ok([AgentOf(x)] + ParseAgents(rest).value) else ParseAgents(rest)
  {
    assert ([x] + rest)[1..] == rest;
  }

  lemma {:induction false} AgentsRoundTrip(s: seq<AgentConfig>)
    ensures ParseAgents(AgentDicts(s)) == Ok(s)
  {
    if |s| > 0 {
      AgentsRoundTrip(s[1..]);
      AgentEntryRoundTrip(s[0]);
      assert AgentDicts(s) == [AgentDict(s[0])] + AgentDicts(s[1..]);
      ParseAgentsCons(AgentDict(s[0]), AgentDicts(s[1..]));
      assert s == [s[0]] + s[1..];
    }
  }

  /** The tool and MCP tool records read back from their own `to_dict` entries. */
  lemma ToolEntryRoundTrip(t: ToolConfig)
    ensures Entry(ToolDict(t), ToolKeys) && ToolOf(ToolDict(t)) == t
  {
  }

  lemma McpEntryRoundTrip(t: McpToolConfig)
    ensures Entry(McpDict(t), McpKeys) && McpOf(McpDict(t)) == t
  {
  }

  lemma ParseToolsCons(x: Value, rest: seq<Value>)
    requires Entry(x, ToolKeys)
    ensures ParseTools([x] + rest)
            == if ParseTools(rest).Ok? then Ok([ToolOf(x)] + ParseTools(rest).value) else ParseTools(rest)
  {
    assert ([x] + rest)[1..] == rest;
  }

  lemma ParseMcpToolsCons(x: Value, rest: seq<Value>)
    requires Entry(x, McpKeys)
    ensures ParseMcpTools([x] + rest)
            == if ParseMcpTools(rest).Ok? then Ok([McpOf(x)] + ParseMcpTools(rest).value) else ParseMcpTools(rest)
  {
    assert ([x] + rest)[1..] == rest;
  }

  lemma {:induction false} ToolsRoundTrip(s: seq<ToolConfig>)
    ensures ParseTools(ToolDicts(s)) == Ok(s)
  {
    if |s| > 0 {
      ToolsRoundTrip(s[1..]);
      ToolEntryRoundTrip(s[0]);
      assert ToolDicts(s) == [ToolDict(s[0])] + ToolDicts(s[1..]);
      ParseToolsCons(ToolDict(s[0]), ToolDicts(s[1..]));
      assert s == [s[0]] + s[1..];
    }
  }

  lemma {:induction false} McpRoundTrip(s: seq<McpToolConfig>)
    ensures ParseMcpTools(McpDicts(s)) == Ok(s)
  {
    if |s| > 0 {
      McpRoundTrip(s[1..]);
      McpEntryRoundTrip(s[0]);
      assert McpDicts(s) == [McpDict(s[0])] + McpDicts(s[1..]);
      ParseMcpToolsCons(McpDict(s[0]), McpDicts(s[1..]));
      assert s == [s[0]] + s[1..];
    }
  }

  /** Parsing the output of `to_dict` reproduces the runtime, agents, tools and MCP tools. */
  lemma ToDictRoundTrip(c: Config)
    ensures Parse(ToDict(c)) == Ok(c)
  {
    var d := ToDict(c);
    RuntimeRoundTrip(c);
    assert Entries(d, "agents") == Ok(AgentDicts(c.agents));
    AgentsRoundTrip(c.agents);
    assert Entries(d, "tools") == Ok(ToolDicts(c.tools));
    ToolsRoundTrip(c.tools);
    assert Entries(d, "mcp_tools") == Ok(McpDicts(c.mcpTools));
    McpRoundTrip(c.mcpTools);
  }

  /** The runtime section of `to_dict` reads back as the same runtime record. */
  lemma RuntimeRoundTrip(c: Config)
    ensures ParseRuntime(ToDict(c)) == Ok(c.runtime)
  {
    var f := RuntimeDict(c.runtime).fields;
    assert ToDict(c)["runtime"] == Dict(f);
    assert GetOr(f, "name", Str("")) == c.runtime.name;
  }
}

=== FILE: strands_runtime.dfy ===
/**
 The agent runtime: it loads the configuration files, parses the Strands
 configuration, creates the configured tools and agents through the
 built-in class tables, starts the auto-start agents, and shuts everything
 down again.

 Registries are Python dicts keyed by the configured `name` value: `items`
 holds the entries and `order` their insertion order, which `list_agents`,
 `list_tools` and the shutdown loops follow. What reading a file, a setup
 hook, a start hook or a cleanup hook does is a parameter (`World`): the
 n-th tool or agent created, or the n-th configuration entry visited, draws
 outcome n; a shutdown draws the outcome of the registered name.
 */
module Runtime {
  import opened Wrappers
  import opened Values
  import Agent
  import Bus
  import State
  import Tools
  import ConfigFiles
  import StrandsConfig

  datatype Registry<T> = Registry(items: map<Value, T>, order: seq<Value>)

  /** The order lists every key once. */
  ghost predicate Indexed<T>(r: Registry<T>)
  {
    && (forall i, j :: 0 <= i < j < |r.order| ==> r.order[i] != r.order[j])
    && r.items.Keys == set k | k in r.order
  }

  function EmptyRegistry<T>(): (r: Registry<T>)
    ensures Indexed(r) && r.items == map[]
  {
    Registry(map[], [])
  }

  /** `d[k] = v`: a new key goes to the end, an existing key keeps its place. */
  function Put<T>(r: Registry<T>, k: Value, v: T): (s: Registry<T>)
    requires Indexed(r)
    ensures Indexed(s) && s.items == r.items[k := v]
    ensures s.order == if k in r.items then r.order else r.order + [k]
  {
    if k in r.items then Registry(r.items[k := v], r.order)
    else Registry(r.items[k := v], r.order + [k])
  }

  /** What the environment does: file reads, the clock, `str()` of non-text session ids, the order of the active sessions at `stop`, and every hook's outcome. */
  datatype World = World(
    agentFiles: seq<string>,
    toolFiles: seq<string>,
    read: string -> ConfigFiles.FileRead,
    clock: State.Instant,
    parseFloat: State.FloatParser,
    render: State.Renderer,
    visit: seq<string>,
    toolSetup: nat -> Option<Exc>,
    agentSetup: nat -> Option<Exc>,
    agentStart: nat -> Option<Exc>,
    agentStop: Value -> Option<Exc>,
    agentCleanup: Value -> Option<Exc>,
    toolCleanup: Value -> Option<Exc>)

  datatype Runtime = Runtime(
    store: ConfigFiles.Store,
    config: Option<StrandsConfig.Config>,
    bus: Bus.MessageBus,
    sessions: State.Manager,
    agents: Registry<Agent.Agent>,
    tools: Registry<Tools.Tool>,
    running: bool,
    initialized: bool)

  /**
   The parts are consistent, the registries are indexed, and a running
   runtime has been initialized, which needs a parsed configuration.
   */
  ghost predicate Valid(rt: Runtime)
  {
    && ConfigFiles.Valid(rt.store)
    && Bus.Valid(rt.bus)
    && State.Valid(rt.sessions)
    && Indexed(rt.agents)
    && Indexed(rt.tools)
    && (rt.running ==> rt.initialized)
    && (rt.initialized ==> rt.config.Some?)
  }

  /** `StrandsRuntime(config_root)`: nothing loaded, registered or running. */
  function NewRuntime(env: Option<string>): (rt: Runtime)
    ensures Valid(rt) && !rt.initialized && !rt.running
    ensures rt.agents.items == map[] && rt.tools.items == map[]
  {
    Runtime(ConfigFiles.NewStore(env), None, Bus.NewBus(), State.NewManager(),
            EmptyRegistry(), EmptyRegistry(), false, false)
  }

  /** The class tables `_register_builtin_classes` fills. */
  const AgentClasses: set<string> := {"MasterAgent", "BaZiAgent", "TarotAgent", "ZodiacAgent", "ChatAgent", "I18nAgent"}
  const ToolClasses: set<string> := {"LLMTool", "DateTool"}

  /** A value Python can use as a dict key. */
  predicate Hashable(v: Value)
  {
    !(v.List? || v.Dict?)
  }

  /**
   `classes.get(class_name)`: the class when the name is a registered string,
   None for any other hashable value, TypeError for a list or dict.
   */
  function ClassLookup(v: Value, classes: set<string>): (r: Result<Option<string>>)
    ensures r.Err? <==> !Hashable(v)
    ensures r.Err? ==> r.error == TypeError
    ensures r.Ok? && r.value.Some? <==> v.Str? && v.s in classes
    ensures r.Ok? && r.value.Some? ==> r.value.value == v.s
  {
    if !Hashable(v) then Err(TypeError)
    else if v.Str? && v.s in classes then Ok(Some(v.s))
    else Ok(None)
  }

  /** The tool a class constructs. */
  function ToolOfClass(cls: string): (t: Tools.Tool)
    ensures !t.initialized
    ensures cls == "DateTool" ==> t == Tools.NewDateTool()
    ensures cls != "DateTool" ==> t.name == "llm_tool"
  {
    if cls == "DateTool" then Tools.NewDateTool()
    else Tools.NewTool("llm_tool").(description := "大语言模型服务工具")
  }

  /** The name an agent is constructed with, as text. */
  function AgentName(v: Value): string
  {
    if v.Str? then v.s else ""
  }

  /** `config or {}` followed by `config.get(...)` fails on a truthy non-dict. */
  predicate ConstructorFails(config: Value)
  {
    Truthy(config) && !config.Dict?
  }

  /** `config or {}`: the dict the agent is constructed with once the constructor check passed. */
  function ConfigDict(config: Value): (d: Payload)
    ensures config.Dict? ==> d == config.fields
    ensures !Truthy(config) ==> d == map[]
  {
    if config.Dict? then config.fields else map[]
  }

  // ------------------------------------------------------------------- tools

  /** The configured tool is registered: its class is known, its setup returned and its name is hashable. */
  predicate ToolCreated(tc: StrandsConfig.ToolConfig, setup: Option<Exc>)
  {
    tc.className.Str? && tc.className.s in ToolClasses && setup.None? && Hashable(tc.name)
  }

  /**
   `_create_tool`: the class lookup happens outside the `try`, so an
   unhashable class name propagates; an unknown class is skipped; a failing
   setup or an unhashable name is logged and nothing is registered.
   */
  function CreateTool(reg: Registry<Tools.Tool>, tc: StrandsConfig.ToolConfig, setup: Option<Exc>): (r: Result<Registry<Tools.Tool>>)
    requires Indexed(reg)
    ensures r.Err? <==> !Hashable(tc.className)
    ensures r.Ok? ==> Indexed(r.value)
    ensures r.Ok? && ToolCreated(tc, setup) ==>
              r.value.items == reg.items[tc.name := Tools.Initialize(ToolOfClass(tc.className.s), None).tool]
    ensures r.Ok? && !ToolCreated(tc, setup) ==> r.value == reg
  {
    match ClassLookup(tc.className, ToolClasses)
    case Err(e) => Err(e)
    case Ok(None) => Ok(reg)
    case Ok(Some(cls)) =>
      var step := Tools.Initialize(ToolOfClass(cls), setup);
      if step.raised.Some? || !Hashable(tc.name) then Ok(reg)
      else Ok(Put(reg, tc.name, step.tool))
  }

  /** Outcome of a loop over the registry: the registry reached and what escaped. */
  datatype RegStep<T> = RegStep(reg: Registry<T>, raised: Option<Exc>)

  /** `_initialize_tools`: entry i draws setup outcome `k + i`. */
  function CreateTools(reg: Registry<Tools.Tool>, tcs: seq<StrandsConfig.ToolConfig>, k: nat,
                       setup: nat -> Option<Exc>): (r: RegStep<Tools.Tool>)
    requires Indexed(reg)
    ensures Indexed(r.reg)
    ensures reg.items.Keys <= r.reg.items.Keys
    ensures r.raised.Some? ==> r.raised == Some(TypeError)
    decreases |tcs|
  {
    if |tcs| == 0 then RegStep(reg, None)
    else match CreateTool(reg, tcs[0], setup(k))
      case Err(e) => RegStep(reg, Some(e))
      case Ok(reg1) => CreateTools(reg1, tcs[1..], k + 1, setup)
  }

  /** The loop raises exactly when some entry's class name is unhashable, and then a TypeError. */
  lemma {:induction false} CreateToolsRaises(reg: Registry<Tools.Tool>, tcs: seq<StrandsConfig.ToolConfig>, k: nat,
                                             setup: nat -> Option<Exc>)
    requires Indexed(reg)
    ensures CreateTools(reg, tcs, k, setup).raised.Some? <==> exists i :: 0 <= i < |tcs| && !Hashable(tcs[i].className)
    ensures CreateTools(reg, tcs, k, setup).raised.Some? ==> CreateTools(reg, tcs, k, setup).raised == Some(TypeError)
    decreases |tcs|
  {
    if |tcs| > 0 {
      match CreateTool(reg, tcs[0], setup(k))
      case Err(_) =>
      case Ok(reg1) =>
        CreateToolsRaises(reg1, tcs[1..], k + 1, setup);
        assert forall i :: 1 <= i < |tcs| ==> tcs[i] == tcs[1..][i - 1];
    }
  }

  /** Entry i of the loop starting at outcome k registers its tool under `n`. */
  ghost predicate CreatesTool(tcs: seq<StrandsConfig.ToolConfig>, k: nat, setup: nat -> Option<Exc>, n: Value, i: int)
  {
    0 <= i < |tcs| && tcs[i].name == n && ToolCreated(tcs[i], setup(k + i))
  }

  /** An entry of the tail is the next entry of the whole list, with the next outcome. */
  lemma CreatesToolShift(tcs: seq<StrandsConfig.ToolConfig>, k: nat, setup: nat -> Option<Exc>, n: Value, i: int)
    requires |tcs| > 0 && CreatesTool(tcs[1..], k + 1, setup, n, i)
    ensures CreatesTool(tcs, k, setup, n, i + 1)
  {
    assert tcs[1..][i] == tcs[i + 1];
  }

  /** One creation step adds at most the configured name. */
  lemma CreateToolKey(reg: Registry<Tools.Tool>, tc: StrandsConfig.ToolConfig, setup: Option<Exc>, n: Value)
    requires Indexed(reg) && CreateTool(reg, tc, setup).Ok?
    ensures n in CreateTool(reg, tc, setup).value.items <==> n in reg.items || (tc.name == n && ToolCreated(tc, setup))
  {
  }

  /**
   When nothing escapes, a name is registered afterwards iff it was before or
   some entry with that name created its tool.
   */
  lemma {:induction false} CreateToolsKeys(reg: Registry<Tools.Tool>, tcs: seq<StrandsConfig.ToolConfig>, k: nat,
                                           setup: nat -> Option<Exc>, n: Value)
    requires Indexed(reg)
    requires CreateTools(reg, tcs, k, setup).raised.None?
    ensures n in CreateTools(reg, tcs, k, setup).reg.items <==>
              n in reg.items || exists i :: CreatesTool(tcs, k, setup, n, i)
    decreases |tcs|
  {
    if |tcs| > 0 {
      var reg1 := CreateTool(reg, tcs[0], setup(k)).value;
      CreateToolKey(reg, tcs[0], setup(k), n);
      CreateToolsKeys(reg1, tcs[1..], k + 1, setup, n);
      assert CreateTools(reg, tcs, k, setup) == CreateTools(reg1, tcs[1..], k + 1, setup);
      var rest, k1 := tcs[1..], k + 1;
      forall i | CreatesTool(rest, k1, setup, n, i)
        ensures CreatesTool(tcs, k, setup, n, i + 1)
      {
        CreatesToolShift(tcs, k, setup, n, i);
      }
      if tcs[0].name == n && ToolCreated(tcs[0], setup(k)) {
        assert CreatesTool(tcs, k, setup, n, 0);
      }
      if exists i :: CreatesTool(tcs, k, setup, n, i) {
        var i :| CreatesTool(tcs, k, setup, n, i);
        if i > 0 {
          assert tcs[1..][i - 1] == tcs[i];
          assert CreatesTool(tcs[1..], k + 1, setup, n, i - 1);
        }
      }
    }
  }

  // ------------------------------------------------------------------ agents

  /** The configured agent is registered: known class, constructor and setup succeed, hashable name. */
  predicate AgentCreated(ac: StrandsConfig.AgentConfig, setup: Option<Exc>)
  {
    && ac.className.Str? && ac.className.s in AgentClasses
    && !ConstructorFails(ac.config) && setup.None? && Hashable(ac.name)
  }

  /**
   `_create_agent`: as for tools, plus the constructor's failure on a
   truthy non-dict `config`; a registered agent is IDLE after `initialize`,
   with the breaker its config sets (`set_runtime` only stores a reference).
   */
  function CreateAgent(reg: Registry<Agent.Agent>, ac: StrandsConfig.AgentConfig, setup: Option<Exc>): (r: Result<Registry<Agent.Agent>>)
    requires Indexed(reg)
    ensures r.Err? <==> !Hashable(ac.className)
    ensures r.Ok? ==> Indexed(r.value)
    ensures r.Ok? && AgentCreated(ac, setup) ==>
              ac.name in r.value.items && r.value.items[ac.name].state == Agent.Idle
              && r.value.items[ac.name].name == AgentName(ac.name)
              && r.value.items[ac.name].breaker == Agent.LoadConfiguration(Agent.DefaultBreaker, ConfigDict(ac.config))
              && forall n :: n != ac.name && n in reg.items ==> n in r.value.items && r.value.items[n] == reg.items[n]
    ensures r.Ok? && !AgentCreated(ac, setup) ==> r.value == reg
    ensures r.Ok? ==> r.value.items.Keys == reg.items.Keys + (if AgentCreated(ac, setup) then {ac.name} else {})
  {
    match ClassLookup(ac.className, AgentClasses)
    case Err(e) => Err(e)
    case Ok(None) => Ok(reg)
    case Ok(Some(_)) =>
      if ConstructorFails(ac.config) then Ok(reg)
      else
        var step := Agent.Initialize(Agent.NewAgent(AgentName(ac.name)), ConfigDict(ac.config), setup);
        if step.raised.Some? || !Hashable(ac.name) then Ok(reg)
        else Ok(Put(reg, ac.name, step.agent))
  }

  /** `_initialize_agents`: entry i draws setup outcome `k + i`. */
  function CreateAgents(reg: Registry<Agent.Agent>, acs: seq<StrandsConfig.AgentConfig>, k: nat,
                        setup: nat -> Option<Exc>): (r: RegStep<Agent.Agent>)
    requires Indexed(reg)
    ensures Indexed(r.reg)
    ensures reg.items.Keys <= r.reg.items.Keys
    ensures r.raised.Some? ==> r.raised == Some(TypeError)
    decreases |acs|
  {
    if |acs| == 0 then RegStep(reg, None)
    else match CreateAgent(reg, acs[0], setup(k))
      case Err(e) => RegStep(reg, Some(e))
      case Ok(reg1) => CreateAgents(reg1, acs[1..], k + 1, setup)
  }

  /** The loop raises exactly when some entry's class name is unhashable, and then a TypeError. */
  lemma {:induction false} CreateAgentsRaises(reg: Registry<Agent.Agent>, acs: seq<StrandsConfig.AgentConfig>, k: nat,
                                              setup: nat -> Option<Exc>)
    requires Indexed(reg)
    ensures CreateAgents(reg, acs, k, setup).raised.Some? <==> exists i :: 0 <= i < |acs| && !Hashable(acs[i].className)
    ensures CreateAgents(reg, acs, k, setup).raised.Some? ==> CreateAgents(reg, acs, k, setup).raised == Some(TypeError)
    decreases |acs|
  {
    if |acs| > 0 {
      match CreateAgent(reg, acs[0], setup(k))
      case Err(_) =>
      case Ok(reg1) =>
        CreateAgentsRaises(reg1, acs[1..], k + 1, setup);
        assert forall i :: 1 <= i < |acs| ==> acs[i] == acs[1..][i - 1];
    }
  }

  /** Entry i of the loop starting at outcome k registers its agent under `n`. */
  ghost predicate CreatesAgent(acs: seq<StrandsConfig.AgentConfig>, k: nat, setup: nat -> Option<Exc>, n: Value, i: int)
  {
    0 <= i < |acs| && acs[i].name == n && AgentCreated(acs[i], setup(k + i))
  }

  /** An entry of the tail is the next entry of the whole list, with the next outcome. */
  lemma CreatesAgentShift(acs: seq<StrandsConfig.AgentConfig>, k: nat, setup: nat -> Option<Exc>, n: Value, i: int)
    requires |acs| > 0 && CreatesAgent(acs[1..], k + 1, setup, n, i)
    ensures CreatesAgent(acs, k, setup, n, i + 1)
  {
    assert acs[1..][i] == acs[i + 1];
  }

  /** One creation step adds at most the configured name. */
  lemma CreateAgentKey(reg: Registry<Agent.Agent>, ac: StrandsConfig.AgentConfig, setup: Option<Exc>, n: Value)
    requires Indexed(reg) && CreateAgent(reg, ac, setup).Ok?
    ensures n in CreateAgent(reg, ac, setup).value.items <==> n in reg.items || (ac.name == n && AgentCreated(ac, setup))
  {
  }

  /**
   When nothing escapes, a name is registered afterwards iff it was before or
   some entry with that name created its agent.
   */
  lemma {:induction false} CreateAgentsKeys(reg: Registry<Agent.Agent>, acs: seq<StrandsConfig.AgentConfig>, k: nat,
                                           setup: nat -> Option<Exc>, n: Value)
    requires Indexed(reg)
    requires CreateAgents(reg, acs, k, setup).raised.None?
    ensures n in CreateAgents(reg, acs, k, setup).reg.items <==>
              n in reg.items || exists i :: CreatesAgent(acs, k, setup, n, i)
    decreases |acs|
  {
    if |acs| > 0 {
      var reg1 := CreateAgent(reg, acs[0], setup(k)).value;
      CreateAgentKey(reg, acs[0], setup(k), n);
      CreateAgentsKeys(reg1, acs[1..], k + 1, setup, n);
      assert CreateAgents(reg, acs, k, setup) == CreateAgents(reg1, acs[1..], k + 1, setup);
      var rest, k1 := acs[1..], k + 1;
      forall i | CreatesAgent(rest, k1, setup, n, i)
        ensures CreatesAgent(acs, k, setup, n, i + 1)
      {
        CreatesAgentShift(acs, k, setup, n, i);
      }
      if acs[0].name == n && AgentCreated(acs[0], setup(k)) {
        assert CreatesAgent(acs, k, setup, n, 0);
      }
      if exists i :: CreatesAgent(acs, k, setup, n, i) {
        var i :| CreatesAgent(acs, k, setup, n, i);
        if i > 0 {
          assert acs[1..][i - 1] == acs[i];
          assert CreatesAgent(acs[1..], k + 1, setup, n, i - 1);
        }
      }
    }
  }

  /** Every agent the creation loop registers is IDLE. */
  lemma {:induction false} CreateAgentsIdle(reg: Registry<Agent.Agent>, acs: seq<StrandsConfig.AgentConfig>, k: nat,
                                            setup: nat -> Option<Exc>)
    requires Indexed(reg)
    requires forall n :: n in reg.items ==> reg.items[n].state == Agent.Idle
    ensures forall n :: n in CreateAgents(reg, acs, k, setup).reg.items ==>
              CreateAgents(reg, acs, k, setup).reg.items[n].state == Agent.Idle
    decreases |acs|
  {
    if |acs| > 0 {
      match CreateAgent(reg, acs[0], setup(k))
      case Err(_) =>
      case Ok(reg1) =>
        assert forall n :: n in reg1.items ==> reg1.items[n].state == Agent.Idle by {
          forall n | n in reg1.items
            ensures reg1.items[n].state == Agent.Idle
          {
            assert n in reg.items || n == acs[0].name;
          }
        }
        CreateAgentsIdle(reg1, acs[1..], k + 1, setup);
        assert CreateAgents(reg, acs, k, setup) == CreateAgents(reg1, acs[1..], k + 1, setup);
    }
  }

  // --------------------------------------------------------------- lifecycle

  /** Outcome of a runtime call: the runtime afterwards and what it raised. */
  datatype Step = Step(rt: Runtime, raised: Option<Exc>)

  /** `StrandsConfig(data)`: the loaded file must be a mapping for its `.get` calls. */
  function ParseStrands(data: Value): (r: Result<StrandsConfig.Config>)
    ensures !data.Dict? ==> r == Err(AttributeError)
    ensures data.Dict? ==> r == StrandsConfig.Parse(data.fields)
  {
    if data.Dict? then StrandsConfig.Parse(data.fields) else Err(AttributeError)
  }

  /**
   `initialize`: nothing happens when already initialized; otherwise the
   configuration files are loaded, the Strands configuration parsed, the
   bus and the session manager initialized, then the tools and the agents
   created, and only then is the runtime marked initialized. An exception
   leaves the runtime as far as it got.
   */
  function Initialize(rt: Runtime, w: World): (r: Step)
    requires Valid(rt)
    ensures Valid(r.rt)
    ensures rt.initialized ==> r == Step(rt, None)
    ensures r.rt.initialized <==> rt.initialized || r.raised.None?
    ensures r.rt.running == rt.running
    ensures !rt.initialized && r.raised.None? ==>
              && r.rt.config.Some?
              && CreateTools(rt.tools, r.rt.config.value.tools, 0, w.toolSetup) == RegStep(r.rt.tools, None)
              && CreateAgents(rt.agents, r.rt.config.value.agents, 0, w.agentSetup) == RegStep(r.rt.agents, None)
  {
    if rt.initialized then Step(rt, None)
    else
      var store := ConfigFiles.Initialize(rt.store, w.agentFiles, w.toolFiles, w.read);
      var rt1 := rt.(store := store);
      match ParseStrands(ConfigFiles.GetStrandsConfig(store))
      case Err(e) => Step(rt1, Some(e))
      case Ok(cfg) =>
        var rt2 := rt1.(config := Some(cfg), bus := rt1.bus.(running := false),
                        sessions := State.Initialize(rt1.sessions, w.clock, w.parseFloat));
        var tools := CreateTools(rt2.tools, cfg.tools, 0, w.toolSetup);
        var rt3 := rt2.(tools := tools.reg);
        if tools.raised.Some? then Step(rt3, tools.raised)
        else
          var agents := CreateAgents(rt3.agents, cfg.agents, 0, w.agentSetup);
          var rt4 := rt3.(agents := agents.reg);
          if agents.raised.Some? then Step(rt4, agents.raised)
          else Step(rt4.(initialized := true), None)
  }

  /**
   Initializing a runtime with no agents yet registers exactly the
   configured agents that are created, and each starts out IDLE.
   */
  lemma InitializeRegistersAgents(rt: Runtime, w: World, n: Value)
    requires Valid(rt) && !rt.initialized && rt.agents.items == map[]
    requires Initialize(rt, w).raised.None?
    ensures var r := Initialize(rt, w).rt;
            && r.config.Some?
            && (n in r.agents.items <==> exists i :: CreatesAgent(r.config.value.agents, 0, w.agentSetup, n, i))
            && (n in r.agents.items ==> r.agents.items[n].state == Agent.Idle)
  {
    var r := Initialize(rt, w).rt;
    var cfg := r.config.value;
    CreateAgentsKeys(rt.agents, cfg.agents, 0, w.agentSetup, n);
    CreateAgentsIdle(rt.agents, cfg.agents, 0, w.agentSetup);
  }

  /**
   `_start_auto_start_agents`: entries whose `auto_start` is truthy and whose
   name is registered are started in configuration order; a failing start is
   logged and the loop goes on, but the membership test on an unhashable
   name raises out of the loop. Entry i draws start outcome `k + i`.
   */
  function AutoStart(agents: map<Value, Agent.Agent>, acs: seq<StrandsConfig.AgentConfig>, k: nat,
                     start: nat -> Option<Exc>): (r: (map<Value, Agent.Agent>, Option<Exc>))
    ensures r.0.Keys == agents.Keys
    ensures r.1.Some? ==> r.1 == Some(TypeError)
    ensures (forall i :: 0 <= i < |acs| ==> !Truthy(acs[i].autoStart)) ==> r == (agents, None)
    decreases |acs|
  {
    assert forall i :: 1 <= i < |acs| ==> acs[i] == acs[1..][i - 1];
    if |acs| == 0 then (agents, None)
    else
      var ac := acs[0];
      if !Truthy(ac.autoStart) then AutoStart(agents, acs[1..], k + 1, start)
      else if !Hashable(ac.name) then (agents, Some(TypeError))
      else if ac.name !in agents then AutoStart(agents, acs[1..], k + 1, start)
      else AutoStart(agents[ac.name := Agent.Start(agents[ac.name], start(k)).agent], acs[1..], k + 1, start)
  }

  /** The loop raises exactly when a flagged entry has an unhashable name. */
  lemma {:induction false} AutoStartRaises(agents: map<Value, Agent.Agent>, acs: seq<StrandsConfig.AgentConfig>, k: nat,
                                           start: nat -> Option<Exc>)
    ensures AutoStart(agents, acs, k, start).1.Some? <==>
              exists i :: 0 <= i < |acs| && Truthy(acs[i].autoStart) && !Hashable(acs[i].name)
    decreases |acs|
  {
    if |acs| > 0 {
      var ac := acs[0];
      var next := if Truthy(ac.autoStart) && ac.name in agents
                  then agents[ac.name := Agent.Start(agents[ac.name], start(k)).agent] else agents;
      if !(Truthy(ac.autoStart) && !Hashable(ac.name)) {
        AutoStartRaises(next, acs[1..], k + 1, start);
        assert forall i :: 1 <= i < |acs| ==> acs[i] == acs[1..][i - 1];
      }
    }
  }

  /** An agent no flagged entry names is left as it was. */
  lemma {:induction false} AutoStartLeavesUnflagged(agents: map<Value, Agent.Agent>, acs: seq<StrandsConfig.AgentConfig>,
                                                    k: nat, start: nat -> Option<Exc>, n: Value)
    requires n in agents
    requires forall i :: 0 <= i < |acs| && acs[i].name == n ==> !Truthy(acs[i].autoStart)
    ensures AutoStart(agents, acs, k, start).0[n] == agents[n]
    decreases |acs|
  {
    if |acs| > 0 {
      var ac := acs[0];
      assert forall i :: 0 <= i < |acs[1..]| ==> acs[1..][i] == acs[i + 1];
      if Truthy(ac.autoStart) && Hashable(ac.name) && ac.name in agents {
        AutoStartLeavesUnflagged(agents[ac.name := Agent.Start(agents[ac.name], start(k)).agent], acs[1..], k + 1, start, n);
      } else if !Truthy(ac.autoStart) || ac.name !in agents {
        AutoStartLeavesUnflagged(agents, acs[1..], k + 1, start, n);
      }
    }
  }

  /**
   An agent named by exactly one entry, a flagged one at position i, is
   started with its own outcome `k + i`, whatever the other starts do.
   */
  lemma {:induction false} AutoStartIsolated(agents: map<Value, Agent.Agent>, acs: seq<StrandsConfig.AgentConfig>,
                                             k: nat, start: nat -> Option<Exc>, i: nat)
    requires i < |acs| && acs[i].name in agents && Truthy(acs[i].autoStart)
    requires forall j :: 0 <= j < |acs| && j != i ==> acs[j].name != acs[i].name
    requires forall j :: 0 <= j < |acs| ==> Hashable(acs[j].name)
    ensures var n := acs[i].name;
            AutoStart(agents, acs, k, start).0[n] == Agent.Start(agents[n], start(k + i)).agent
    decreases |acs|
  {
    var ac := acs[0];
    var n := acs[i].name;
    var next := if Truthy(ac.autoStart) && ac.name in agents
                then agents[ac.name := Agent.Start(agents[ac.name], start(k)).agent] else agents;
    assert forall j :: 0 <= j < |acs[1..]| ==> acs[1..][j] == acs[j + 1];
    if i == 0 {
      assert next[n] == Agent.Start(agents[n], start(k)).agent;
      AutoStartLeavesUnflagged(next, acs[1..], k + 1, start, n);
    } else {
      assert next[n] == agents[n];
      AutoStartIsolated(next, acs[1..], k + 1, start, i - 1);
    }
  }

  /**
   `start`: initializes first when needed (an exception propagates), does
   nothing when already running, and otherwise starts the bus, the session
   manager and the auto-start agents before marking the runtime running.
   */
  function Start(rt: Runtime, w: World): (r: Step)
    requires Valid(rt)
    ensures Valid(r.rt)
    ensures r.raised.None? ==> r.rt.running && r.rt.initialized
    ensures rt.running ==> r == Step(rt, None)
    ensures r.raised.None? && !rt.running ==> r.rt.bus.running && r.rt.sessions.running
    ensures r.rt.agents.items.Keys == Initialize(rt, w).rt.agents.items.Keys
  {
    var init := if !rt.initialized then Initialize(rt, w) else Step(rt, None);
    if init.raised.Some? then init
    else if init.rt.running then init
    else Launch(init.rt, w)
  }

  /** The part of `start` after initialization: the bus, the session manager, then the auto-start agents. */
  function Launch(rt: Runtime, w: World): (r: Step)
    requires Valid(rt) && rt.initialized && !rt.running
    ensures Valid(r.rt) && r.rt.initialized
    ensures r.rt.running <==> r.raised.None?
    ensures r.rt.bus.running && r.rt.sessions.running
    ensures r.rt.agents.items.Keys == rt.agents.items.Keys
  {
    var rt1 := rt.(bus := Bus.Start(rt.bus), sessions := State.Start(rt.sessions));
    var started := AutoStart(rt1.agents.items, rt1.config.value.agents, 0, w.agentStart);
    var rt2 := rt1.(agents := Registry(started.0, rt1.agents.order));
    if started.1.Some? then Step(rt2, started.1)
    else Step(rt2.(running := true), None)
  }

  /** `_stop_all_agents`: every registered agent is shut down in order; a failure is logged and the loop goes on. */
  function StopAgents(agents: map<Value, Agent.Agent>, order: seq<Value>,
                      stop: Value -> Option<Exc>, cleanup: Value -> Option<Exc>): (r: map<Value, Agent.Agent>)
    requires forall k :: k in order ==> k in agents
    ensures r.Keys == agents.Keys
    ensures forall n :: n in agents && n !in order ==> r[n] == agents[n]
    decreases |order|
  {
    if |order| == 0 then agents
    else
      var n := order[0];
      StopAgents(agents[n := Agent.ShutdownAgent(agents[n], stop(n), cleanup(n)).agent], order[1..], stop, cleanup)
  }

  /** Each agent listed once is shut down exactly once, with its own outcomes; the others are untouched. */
  lemma {:induction false} StopAgentsEach(agents: map<Value, Agent.Agent>, order: seq<Value>,
                                          stop: Value -> Option<Exc>, cleanup: Value -> Option<Exc>, n: Value)
    requires forall k :: k in order ==> k in agents
    requires forall i, j :: 0 <= i < j < |order| ==> order[i] != order[j]
    requires n in agents
    ensures n in order ==> StopAgents(agents, order, stop, cleanup)[n] == Agent.ShutdownAgent(agents[n], stop(n), cleanup(n)).agent
    ensures n !in order ==> StopAgents(agents, order, stop, cleanup)[n] == agents[n]
    decreases |order|
  {
    if |order| > 0 {
      var m := order[0];
      var next := agents[m := Agent.ShutdownAgent(agents[m], stop(m), cleanup(m)).agent];
      assert forall i :: 0 <= i < |order[1..]| ==> order[1..][i] == order[i + 1];
      assert m !in order[1..];
      assert n in order <==> n == m || n in order[1..];
      StopAgentsEach(next, order[1..], stop, cleanup, n);
    }
  }

  /** `_stop_all_tools`: every registered tool is shut down in order; a failure is logged and the loop goes on. */
  function StopTools(tools: map<Value, Tools.Tool>, order: seq<Value>, cleanup: Value -> Option<Exc>): (r: map<Value, Tools.Tool>)
    requires forall k :: k in order ==> k in tools
    ensures r.Keys == tools.Keys
    ensures forall n :: n in tools && n !in order ==> r[n] == tools[n]
    decreases |order|
  {
    if |order| == 0 then tools
    else
      var n := order[0];
      StopTools(tools[n := Tools.Shutdown(tools[n], cleanup(n)).tool], order[1..], cleanup)
  }

  /** Each tool listed once is shut down exactly once, with its own outcome; the others are untouched. */
  lemma {:induction false} StopToolsEach(tools: map<Value, Tools.Tool>, order: seq<Value>,
                                         cleanup: Value -> Option<Exc>, n: Value)
    requires forall k :: k in order ==> k in tools
    requires forall i, j :: 0 <= i < j < |order| ==> order[i] != order[j]
    requires n in tools
    ensures n in order ==> StopTools(tools, order, cleanup)[n] == Tools.Shutdown(tools[n], cleanup(n)).tool
    ensures n !in order ==> StopTools(tools, order, cleanup)[n] == tools[n]
    decreases |order|
  {
    if |order| > 0 {
      var m := order[0];
      var next := tools[m := Tools.Shutdown(tools[m], cleanup(m)).tool];
      assert forall i :: 0 <= i < |order[1..]| ==> order[1..][i] == order[i + 1];
      assert m !in order[1..];
      assert n in order <==> n == m || n in order[1..];
      StopToolsEach(next, order[1..], cleanup, n);
    }
  }

  /**
   `stop`: nothing happens unless running; otherwise every agent and every
   tool is shut down, the session manager and the bus are stopped, and the
   runtime is no longer running. Nothing escapes.
   */
  function Stop(rt: Runtime, w: World): (r: Runtime)
    requires Valid(rt)
    ensures Valid(r) && !r.running
    ensures !rt.running ==> r == rt
    ensures r.initialized == rt.initialized
    ensures r.agents.items.Keys == rt.agents.items.Keys && r.tools.items.Keys == rt.tools.items.Keys
    ensures rt.running ==> !r.bus.running && r.bus.queues == map[] && !r.sessions.running
  {
    if !rt.running then rt
    else
      rt.(agents := Registry(StopAgents(rt.agents.items, rt.agents.order, w.agentStop, w.agentCleanup), rt.agents.order),
          tools := Registry(StopTools(rt.tools.items, rt.tools.order, w.toolCleanup), rt.tools.order),
          sessions := State.Stop(rt.sessions, w.visit, w.render),
          bus := Bus.Stop(rt.bus),
          running := false)
  }

  /**
   After `stop` every agent is stopping or stopped, and stopped unless its
   own stop hook raised; every tool is uninitialized unless its own cleanup
   raised.
   */
  lemma StopShutsDownAll(rt: Runtime, w: World, n: Value)
    requires Valid(rt) && rt.running
    ensures n in rt.agents.items ==>
              && Stop(rt, w).agents.items[n] == Agent.ShutdownAgent(rt.agents.items[n], w.agentStop(n), w.agentCleanup(n)).agent
              && Stop(rt, w).agents.items[n].state in {Agent.ShuttingDown, Agent.Shutdown}
              && (w.agentStop(n).None? ==> Stop(rt, w).agents.items[n].state == Agent.Shutdown)
    ensures n in rt.tools.items ==>
              (Stop(rt, w).tools.items[n].initialized <==> w.toolCleanup(n).Some? && rt.tools.items[n].initialized)
  {
    if n in rt.agents.items {
      StopAgentsEach(rt.agents.items, rt.agents.order, w.agentStop, w.agentCleanup, n);
    }
    if n in rt.tools.items {
      StopToolsEach(rt.tools.items, rt.tools.order, w.toolCleanup, n);
    }
  }

  /**
   Starting again after a clean stop does not revive the agents: the runtime
   is already initialized, so no agent is recreated, and every auto-start
   agent that was shut down is refused by `start` and ends in ERROR.
   */
  lemma RestartLeavesAgentsInError(rt: Runtime, w: World, i: nat)
    requires Valid(rt) && rt.running
    requires var acs := rt.config.value.agents;
             && i < |acs| && acs[i].name in rt.agents.items && Truthy(acs[i].autoStart)
             && (forall j :: 0 <= j < |acs| && j != i ==> acs[j].name != acs[i].name)
             && (forall j :: 0 <= j < |acs| ==> Hashable(acs[j].name))
             && w.agentStop(acs[i].name).None?
    ensures var r := Start(Stop(rt, w), w);
            r.raised.None? && r.rt.agents.items[rt.config.value.agents[i].name].state == Agent.Error
  {
    var acs := rt.config.value.agents;
    var n := acs[i].name;
    var s := Stop(rt, w);
    StopShutsDownAll(rt, w, n);
    assert s.agents.items[n].state == Agent.Shutdown;
    var rt1 := s.(bus := Bus.Start(s.bus), sessions := State.Start(s.sessions));
    AutoStartIsolated(rt1.agents.items, acs, 0, w.agentStart, i);
    AutoStartRaises(rt1.agents.items, acs, 0, w.agentStart);
  }

  // ----------------------------------------------------------------- queries

  /** `get_agent(name)`: the registered agent, None when absent. */
  function GetAgent(rt: Runtime, name: string): (r: Option<Agent.Agent>)
    ensures r.Some? <==> Str(name) in rt.agents.items
    ensures r.Some? ==> r.value == rt.agents.items[Str(name)]
  {
    if Str(name) in rt.agents.items then Some(rt.agents.items[Str(name)]) else None
  }

  /** `get_tool(name)`: the registered tool, None when absent. */
  function GetTool(rt: Runtime, name: string): (r: Option<Tools.Tool>)
    ensures r.Some? <==> Str(name) in rt.tools.items
    ensures r.Some? ==> r.value == rt.tools.items[Str(name)]
  {
    if Str(name) in rt.tools.items then Some(rt.tools.items[Str(name)]) else None
  }

  /** `list_agents()`: every registered name once, in registration order. */
  function ListAgents(rt: Runtime): (r: seq<Value>)
    requires Valid(rt)
    ensures forall n :: n in r <==> n in rt.agents.items
    ensures forall i, j :: 0 <= i < j < |r| ==> r[i] != r[j]
  {
    rt.agents.order
  }

  /** `list_tools()`: every registered name once, in registration order. */
  function ListTools(rt: Runtime): (r: seq<Value>)
    requires Valid(rt)
    ensures forall n :: n in r <==> n in rt.tools.items
    ensures forall i, j :: 0 <= i < j < |r| ==> r[i] != r[j]
  {
    rt.tools.order
  }

  datatype Status = Status(initialized: bool, running: bool, agentCount: nat, toolCount: nat)

  /** The `runtime` part of `get_status()`. */
  function GetStatus(rt: Runtime): (s: Status)
    ensures s.initialized == rt.initialized && s.running == rt.running
    ensures s.agentCount == |rt.agents.items.Keys| && s.toolCount == |rt.tools.items.Keys|
  {
    Status(rt.initialized, rt.running, |rt.agents.items|, |rt.tools.items|)
  }

  /** A list of distinct values has as many elements as its set. */
  lemma {:induction false} DistinctCard(s: seq<Value>)
    requires forall i, j :: 0 <= i < j < |s| ==> s[i] != s[j]
    ensures |set x | x in s| == |s|
  {
    if |s| > 0 {
      var t := s[1..];
      assert forall i, j :: 0 <= i < j < |t| ==> t[i] != t[j] by {
        forall i, j | 0 <= i < j < |t| ensures t[i] != t[j] {
          assert t[i] == s[i + 1] && t[j] == s[j + 1];
        }
      }
      DistinctCard(t);
      assert (set x | x in s) == (set x | x in t) + {s[0]};
      forall j | 0 <= j < |t|
        ensures t[j] != s[0]
      {
        assert t[j] == s[j + 1];
      }
    }
  }

  /** The counts `get_status` reports are the lengths of `list_agents()` and `list_tools()`. */
  lemma StatusCountsListings(rt: Runtime)
    requires Valid(rt)
    ensures GetStatus(rt).agentCount == |ListAgents(rt)|
    ensures GetStatus(rt).toolCount == |ListTools(rt)|
  {
    DistinctCard(rt.agents.order);
    DistinctCard(rt.tools.order);
  }
}

=== FILE: tarot_agent.dfy ===
/**
 The tarot agent: the payload check that requires a question, the agent's
 own table of spreads with its fallback to a single card, the cards from
 the picker tool or a stand-in when the tool fails, and the position label
 of each card.
 */
module TarotAgent {
  import opened Wrappers
  import opened Values
  import opened Shuffle
  import Text
  import TarotPicker

  datatype Validation = Invalid | Valid(question: string, name: Value, focus: Value, spreadType: Value)

  /**
   `validate_input(message)`: the question (default "") is stripped and must
   be non-empty; only text has `strip`. Name, focus and spread type default
   to 缘主, 综合运势 and three_card.
   */
  function ValidateInput(p: Payload): (r: Result<Validation>)
    ensures r.Err? <==> !GetOr(p, "question", Str("")).Str?
    ensures r.Err? ==> r.error == AttributeError
    ensures r.Ok? ==> (r.value.Invalid? <==> Text.Strip(GetOr(p, "question", Str("")).s) == "")
    ensures r.Ok? && r.value.Valid? ==>
              && r.value.question == Text.Strip(p["question"].s)
              && r.value.name == GetOr(p, "name", Str("缘主"))
              && r.value.focus == GetOr(p, "focus_area", Str("综合运势"))
              && r.value.spreadType == GetOr(p, "spread_type", Str("three_card"))
  {
    var q := GetOr(p, "question", Str(""));
    if !q.Str? then Err(AttributeError)
    else if Text.Strip(q.s) == "" then Ok(Invalid)
    else Ok(Valid(Text.Strip(q.s), GetOr(p, "name", Str("缘主")), GetOr(p, "focus_area", Str("综合运势")),
                  GetOr(p, "spread_type", Str("three_card"))))
  }

  datatype SpreadConfig = SpreadConfig(name: string, positions: seq<string>, cardCount: nat)

  /** The agent's `spreads` table (its relationship spread has four positions). */
  function SpreadTable(key: string): (r: Option<SpreadConfig>)
    ensures r.Some? ==> |r.value.positions| == r.value.cardCount
    ensures r.Some? <==> key in {"single", "three_card", "celtic_cross", "relationship"}
  {
    if key == "single" then Some(SpreadConfig("单牌阅读", ["当前状况"], 1))
    else if key == "three_card" then Some(SpreadConfig("三牌阵", ["过去", "现在", "未来"], 3))
    else if key == "celtic_cross" then
      Some(SpreadConfig("凯尔特十字", ["当前状况", "挑战", "远程过去", "近期过去", "可能结果", "近期未来", "你的方法", "外部影响", "希望与恐惧", "最终结果"], 10))
    else if key == "relationship" then Some(SpreadConfig("关系阵", ["你", "对方", "关系", "建议"], 4))
    else None
  }

  /** `spreads.get(spread_type, spreads["single"])`: an unknown type falls back to one card; a list or dict cannot be hashed. */
  function SpreadFor(spreadType: Value): (r: Result<SpreadConfig>)
    ensures r.Err? <==> spreadType.List? || spreadType.Dict?
    ensures r.Err? ==> r.error == TypeError
    ensures r.Ok? ==> |r.value.positions| == r.value.cardCount
    ensures r.Ok? && spreadType.Str? && SpreadTable(spreadType.s).Some? ==> r.value == SpreadTable(spreadType.s).value
    ensures r.Ok? && !(spreadType.Str? && SpreadTable(spreadType.s).Some?) ==> r.value == SpreadTable("single").value
  {
    if spreadType.List? || spreadType.Dict? then Err(TypeError)
    else if spreadType.Str? && SpreadTable(spreadType.s).Some? then Ok(SpreadTable(spreadType.s).value)
    else Ok(SpreadTable("single").value)
  }

  /** The card put in for every position when the picker fails: The Fool, upright. */
  const StandIn: TarotPicker.Drawn := TarotPicker.Drawn(0, false)

  datatype Processed = Processed(config: SpreadConfig, cards: seq<TarotPicker.Drawn>)

  /**
   `process_data(validated)` with the picker's answer as a parameter: its
   cards when it succeeds, otherwise The Fool once per position.
   */
  function ProcessData(v: Validation, tool: Result<seq<TarotPicker.Drawn>>): (r: Result<Processed>)
    requires v.Valid?
    ensures r.Err? <==> v.spreadType.List? || v.spreadType.Dict?
    ensures r.Ok? ==> r.value.config == SpreadFor(v.spreadType).value
    ensures r.Ok? && tool.Ok? ==> r.value.cards == tool.value
    ensures r.Ok? && tool.Err? ==> |r.value.cards| == r.value.config.cardCount
                                   && forall k :: 0 <= k < |r.value.cards| ==> r.value.cards[k] == StandIn
  {
    match SpreadFor(v.spreadType)
    case Err(e) => Err(e)
    case Ok(config) =>
      var cards := if tool.Ok? then tool.value else seq(config.cardCount, _ => StandIn);
      Ok(Processed(config, cards))
  }

  /** The label of the `i`-th card: its position, or 位置{i+1} past the last position. */
  function Label(config: SpreadConfig, i: nat): (l: string)
    ensures i < |config.positions| ==> l == config.positions[i]
    ensures i >= |config.positions| ==> l == "位置" + Text.NatToDigits(i + 1)
  {
    if i < |config.positions| then config.positions[i] else "位置" + Text.NatToDigits(i + 1)
  }

  /** 正位 or 逆位, or Upright or Reversed in English. */
  function OrientationText(card: TarotPicker.Drawn, english: bool): (t: string)
    ensures english ==> (t == "Reversed" <==> card.reversed) && (t == "Upright" <==> !card.reversed)
    ensures !english ==> (t == "逆位" <==> card.reversed) && (t == "正位" <==> !card.reversed)
  {
    if english then (if card.reversed then "Reversed" else "Upright")
    else (if card.reversed then "逆位" else "正位")
  }

  /**
   When the picker answers the request the agent makes (one card per
   position), every card is labelled with a position of the spread and no
   card repeats; the stand-in cards are labelled the same way.
   */
  lemma LabelsFromPositions(v: Validation, allowReversed: bool, draws: seq<int>, flips: seq<bool>)
    requires v.Valid? && SpreadFor(v.spreadType).Ok?
    requires ValidDraws(draws, TarotPicker.DeckSize) && |flips| == TarotPicker.DeckSize
    ensures var config := SpreadFor(v.spreadType).value;
            var tool := TarotPicker.DrawCards(config.cardCount, allowReversed, draws, flips);
            var p := ProcessData(v, tool).value;
            && tool.Ok?
            && (forall i :: 0 <= i < |p.cards| ==> Label(p.config, i) == p.config.positions[i])
            && (forall i, j :: 0 <= i < j < |p.cards| ==> p.cards[i].id != p.cards[j].id)
    ensures var p := ProcessData(v, Err(ValueError)).value;
            forall i :: 0 <= i < |p.cards| ==> Label(p.config, i) == p.config.positions[i]
  {
    var config := SpreadFor(v.spreadType).value;
    assert 1 <= config.cardCount <= 10;
    TarotPicker.DrawnDistinct(config.cardCount, allowReversed, draws, flips);
  }
}

=== FILE: tarot_picker.dfy ===
/**
 The tarot picker tool: a 78-card deck (22 major arcana, then wands, cups,
 swords and pentacles with 14 cards each), drawn by shuffling the whole deck
 and taking the first cards, each reversed or upright by a coin flip.
 */
module TarotPicker {
  import opened Wrappers
  import opened Shuffle

  const DeckSize: int := 78
  const MajorCount: int := 22
  const SuitSize: int := 14

  datatype Suit = MajorArcana | Wands | Cups | Swords | Pentacles

  /** The card ids run 0..77 in deck order; the suit follows from the id. */
  function SuitOf(id: int): (s: Suit)
    requires 0 <= id < DeckSize
    ensures s == MajorArcana <==> id < MajorCount
  {
    if id < MajorCount then MajorArcana
    else [Wands, Cups, Swords, Pentacles][(id - MajorCount) / SuitSize]
  }

  /** The English names of the major arcana, by id. */
  const MajorNames: seq<string> := [
    "The Fool", "The Magician", "The High Priestess", "The Empress", "The Emperor",
    "The Hierophant", "The Lovers", "The Chariot", "Strength", "The Hermit",
    "Wheel of Fortune", "Justice", "The Hanged Man", "Death", "Temperance",
    "The Devil", "The Tower", "The Star", "The Moon", "The Sun", "Judgement", "The World"]

  /** How many of the ids below `n` belong to `suit`. */
  function CountSuit(n: nat, suit: Suit): (c: nat)
    requires n <= DeckSize
    ensures c <= n
  {
    if n == 0 then 0 else CountSuit(n - 1, suit) + (if SuitOf(n - 1) == suit then 1 else 0)
  }

  /** Where a suit starts in the deck. */
  function SuitStart(suit: Suit): int
  {
    match suit
    case MajorArcana => 0
    case Wands => 22 case Cups => 36 case Swords => 50 case Pentacles => 64
  }

  /** Where a suit ends in the deck. */
  function SuitEnd(suit: Suit): int
  {
    if suit == MajorArcana then MajorCount else SuitStart(suit) + SuitSize
  }

  /** Each suit is one block of consecutive ids. */
  lemma SuitBlocks(id: int, suit: Suit)
    requires 0 <= id < DeckSize
    ensures SuitOf(id) == suit <==> SuitStart(suit) <= id < SuitEnd(suit)
  {
    if id >= MajorCount {
      var q := (id - MajorCount) / SuitSize;
      assert 0 <= q < 4;
      assert MajorCount + SuitSize * q <= id < MajorCount + SuitSize * (q + 1);
    }
  }

  /** Counting a block: the ids of a suit below `n`. */
  lemma {:induction false} CountSuitBlock(n: nat, suit: Suit)
    requires n <= DeckSize
    ensures CountSuit(n, suit) == (if n <= SuitStart(suit) then 0
                                   else if n >= SuitEnd(suit) then SuitEnd(suit) - SuitStart(suit)
                                   else n - SuitStart(suit))
  {
    if n > 0 {
      CountSuitBlock(n - 1, suit);
      SuitBlocks(n - 1, suit);
    }
  }

  /** The `info` command's counts over the whole deck: 78 cards, 22 major arcana, 14 of each minor suit, 56 minor in all. */
  lemma DeckCounts(n: nat)
    requires n == DeckSize
    ensures CountSuit(n, MajorArcana) == 22
    ensures CountSuit(n, Wands) == 14 && CountSuit(n, Cups) == 14
    ensures CountSuit(n, Swords) == 14 && CountSuit(n, Pentacles) == 14
    ensures n - CountSuit(n, MajorArcana) == 56
  {
    SuitCount(n, MajorArcana);
    SuitCount(n, Wands);
    SuitCount(n, Cups);
    SuitCount(n, Swords);
    SuitCount(n, Pentacles);
  }

  /** A suit counted over the whole deck is its whole block. */
  lemma SuitCount(n: nat, suit: Suit)
    requires n == DeckSize
    ensures CountSuit(n, suit) == SuitEnd(suit) - SuitStart(suit)
  {
    CountSuitBlock(n, suit);
    assert SuitStart(suit) < SuitEnd(suit) <= n;
  }

  datatype Drawn = Drawn(id: int, reversed: bool)

  /**
   `draw_cards(count, allow_reversed)` with the shuffle's draws and the coin
   flips passed in: a count outside 1..78 is a ValueError; otherwise the first
   `count` cards of the shuffled deck, reversed only when reversal is allowed
   and the flip says so.
   */
  function DrawCards(count: int, allowReversed: bool, draws: seq<int>, flips: seq<bool>): (r: Result<seq<Drawn>>)
    requires ValidDraws(draws, DeckSize) && |flips| == DeckSize
    ensures r.Ok? <==> 1 <= count <= DeckSize
    ensures r.Err? ==> r.error == ValueError
    ensures r.Ok? ==> |r.value| == count
    ensures r.Ok? ==> forall k :: 0 <= k < |r.value| ==>
              && r.value[k].id == FisherYates(Range(DeckSize), draws)[k]
              && r.value[k].reversed == (allowReversed && flips[k])
  {
    if count < 1 || count > DeckSize then Err(ValueError)
    else
      var deck := FisherYates(Range(DeckSize), draws);
      Ok(seq(count, k requires 0 <= k < count => Drawn(deck[k], allowReversed && flips[k])))
  }

  /** The drawn cards are distinct cards of the deck, and none is reversed when reversal is off. */
  lemma DrawnDistinct(count: int, allowReversed: bool, draws: seq<int>, flips: seq<bool>)
    requires ValidDraws(draws, DeckSize) && |flips| == DeckSize
    requires DrawCards(count, allowReversed, draws, flips).Ok?
    ensures var cards := DrawCards(count, allowReversed, draws, flips).value;
            && (forall i, j :: 0 <= i < j < |cards| ==> cards[i].id != cards[j].id)
            && (forall k :: 0 <= k < |cards| ==> 0 <= cards[k].id < DeckSize)
            && (!allowReversed ==> forall k :: 0 <= k < |cards| ==> !cards[k].reversed)
  {
    var deck := FisherYates(Range(DeckSize), draws);
    ShuffledRange(DeckSize, draws);
    var cards := DrawCards(count, allowReversed, draws, flips).value;
    forall k | 0 <= k < |cards| ensures 0 <= cards[k].id < DeckSize {
      assert cards[k].id == deck[k] && deck[k] in deck;
    }
  }

  /** The ids of drawn cards, in order. */
  function Ids(cards: seq<Drawn>): (r: seq<int>)
    ensures |r| == |cards| && forall k :: 0 <= k < |cards| ==> r[k] == cards[k].id
  {
    seq(|cards|, k requires 0 <= k < |cards| => cards[k].id)
  }

  /** Drawing all 78 cards gives every card exactly once. */
  lemma FullDraw(allowReversed: bool, draws: seq<int>, flips: seq<bool>)
    requires ValidDraws(draws, DeckSize) && |flips| == DeckSize
    ensures forall id :: id in Ids(DrawCards(DeckSize, allowReversed, draws, flips).value) <==> 0 <= id < DeckSize
  {
    var deck := FisherYates(Range(DeckSize), draws);
    ShuffledRange(DeckSize, draws);
    assert Ids(DrawCards(DeckSize, allowReversed, draws, flips).value) == deck;
  }
}

=== FILE: tarot_plugin.dfy ===
/**
 The tarot fortune system of the classic entry point: input validation, the
 four spreads and their positions, drawing distinct cards one random choice
 at a time, the reading with a random orientation per card, and the
 sectioning of the model's reply.
 */
module TarotPlugin {
  import opened Wrappers
  import opened Values
  import opened Seqs
  import opened Shuffle
  import Text
  import Sections

  datatype Spread = Single | ThreeCard | CelticCross | Relationship

  /** The key of a spread in `self.spreads`. */
  function SpreadKey(sp: Spread): string
  {
    match sp
    case Single => "single" case ThreeCard => "three_card"
    case CelticCross => "celtic_cross" case Relationship => "relationship"
  }

  /** Looking a key up in `self.spreads`. */
  function SpreadOf(key: string): (r: Option<Spread>)
    ensures r.Some? ==> SpreadKey(r.value) == key
  {
    if key == "single" then Some(Single)
    else if key == "three_card" then Some(ThreeCard)
    else if key == "celtic_cross" then Some(CelticCross)
    else if key == "relationship" then Some(Relationship)
    else None
  }

  /** Every spread is found under its own key, so the four keys are distinct. */
  lemma SpreadKeysRoundTrip(sp: Spread)
    ensures SpreadOf(SpreadKey(sp)) == Some(sp)
  {
  }

  /** The positions of each spread: one, three, ten and six cards. */
  function Positions(sp: Spread): (ps: seq<string>)
    ensures |ps| == match sp case Single => 1 case ThreeCard => 3 case CelticCross => 10 case Relationship => 6
  {
    match sp
    case Single => ["当前状况"]
    case ThreeCard => ["过去", "现在", "未来"]
    case CelticCross => ["当前状况", "挑战", "过去", "未来", "意识目标", "潜意识影响", "自我认知", "外部影响", "希望与恐惧", "最终结果"]
    case Relationship => ["你自己", "对方", "关系基础", "过去影响", "当前状态", "未来发展"]
  }

  /** Love, career, health, wealth, spirituality, general. */
  const FocusAreas: seq<string> := ["爱情", "事业", "健康", "财富", "灵性", "一般"]
  const DefaultFocus: string := "一般"

  datatype Validated = Validated(question: string, spread: Spread, focus: string, name: Option<string>)

  /** A list or dict cannot be hashed, so looking it up among the spread keys is a TypeError. */
  predicate Unhashable(v: Value)
  {
    v.List? || v.Dict?
  }

  /**
   `validate_input(user_input)`: the stripped question must be non-empty; the
   spread must be one of the four keys; the focus area defaults to general
   and must be one of the six; a truthy name is stripped. Only text has
   `strip`, so a question or name of another type is an AttributeError.
   */
  function ValidateInput(u: Payload): (r: Result<Validated>)
    ensures "question" !in u ==> r == Err(ValueError)
    ensures "question" in u && !u["question"].Str? ==> r == Err(AttributeError)
    ensures r.Ok? ==> && u["question"].Str? && r.value.question == Text.Strip(u["question"].s) && r.value.question != ""
                      && "spread" in u && u["spread"] == Str(SpreadKey(r.value.spread))
                      && r.value.focus in FocusAreas
                      && (r.value.focus == DefaultFocus <==> "focus_area" !in u || u["focus_area"] == Str(DefaultFocus))
                      && (r.value.name.Some? <==> "name" in u && Truthy(u["name"]))
                      && (r.value.name.Some? ==> u["name"].Str? && r.value.name.value == Text.Strip(u["name"].s))
    ensures "question" in u && u["question"].Str? && Text.Strip(u["question"].s) != "" && "spread" in u ==>
              (Unhashable(u["spread"]) ==> r == Err(TypeError))
              && (u["spread"].Str? && SpreadOf(u["spread"].s).None? ==> r == Err(ValueError))
    ensures r.Ok? && "focus_area" in u ==> u["focus_area"] == Str(r.value.focus)
    ensures r.Err? ==> r.error in {ValueError, TypeError, AttributeError}
  {
    if "question" !in u then Err(ValueError)
    else if !u["question"].Str? then Err(AttributeError)
    else if Text.Strip(u["question"].s) == "" then Err(ValueError)
    else if "spread" !in u then Err(ValueError)
    else if Unhashable(u["spread"]) then Err(TypeError)
    else if !u["spread"].Str? || SpreadOf(u["spread"].s).None? then Err(ValueError)
    else
      var focus := if "focus_area" !in u then Ok(DefaultFocus)
                   else if u["focus_area"].Str? && u["focus_area"].s in FocusAreas then Ok(u["focus_area"].s)
                   else Err(ValueError);
      match focus
      case Err(e) => Err(e)
      case Ok(f) =>
        if "name" in u && Truthy(u["name"]) then
          if u["name"].Str? then Ok(Validated(Text.Strip(u["question"].s), SpreadOf(u["spread"].s).value, f, Some(Text.Strip(u["name"].s))))
          else Err(AttributeError)
        else Ok(Validated(Text.Strip(u["question"].s), SpreadOf(u["spread"].s).value, f, None))
  }

  /** Every spread key with a real question is accepted; a focus area outside the six is refused. */
  lemma SpreadsAccepted(u: Payload, sp: Spread)
    requires "question" in u && u["question"] == Str("Will it work?") && "spread" in u && u["spread"] == Str(SpreadKey(sp))
    requires "focus_area" !in u && "name" !in u
    ensures ValidateInput(u) == Ok(Validated("Will it work?", sp, DefaultFocus, None))
    ensures ValidateInput(u["focus_area" := Str("运气")]) == Err(ValueError)
  {
    assert !Text.IsSpace('W') && !Text.IsSpace('?');
    assert Text.TrimLeft("Will it work?") == "Will it work?";
    assert Text.TrimRight("Will it work?") == "Will it work?";
    assert "运气" !in FocusAreas;
  }

  /** A card of the deck: the plugin's default deck is the 22 major arcana. */
  datatype Card = Card(id: int, name: string)

  const MajorNames: seq<string> := [
    "愚者", "魔术师", "女祭司", "皇后", "皇帝", "教皇", "恋人", "战车", "力量", "隐者", "命运之轮",
    "正义", "悬吊者", "死神", "节制", "恶魔", "塔", "星星", "月亮", "太阳", "审判", "世界"]

  /** `_get_default_cards()`: ids 0..21 in order. */
  function DefaultCards(): (d: seq<Card>)
    ensures |d| == 22 && forall i :: 0 <= i < 22 ==> d[i].id == i
  {
    seq(22, i requires 0 <= i < 22 => Card(i, MajorNames[i]))
  }

  lemma DefaultCardsDistinct()
    ensures Distinct(DefaultCards())
  {
  }

  /** The `random.choice` picks of a draw: the `k`-th picks a position among the cards still available. */
  predicate ValidChoices(picks: seq<int>, available: int)
  {
    |picks| <= available && forall k :: 0 <= k < |picks| ==> 0 <= picks[k] < available - k
  }

  /** How many cards `_draw_cards(count)` draws from `available` cards. */
  function DrawCount(count: int, available: int): (n: int)
    requires available >= 0
    ensures n <= count && n <= available && (n == count || n == available)
  {
    if count < available then count else available
  }

  /**
   The loop of `_draw_cards`: take the chosen card, then `remove` it (its
   first occurrence) from the cards still available.
   */
  function DrawFrom<T(==)>(available: seq<T>, picks: seq<int>): (r: seq<T>)
    requires ValidChoices(picks, |available|)
    ensures |r| == |picks|
    ensures multiset(r) <= multiset(available)
    ensures |picks| > 0 ==> r[0] == available[picks[0]]
    decreases |picks|
  {
    if |picks| == 0 then []
    else
      var card := available[picks[0]];
      var rest := RemoveFirst(available, card);
      assert ValidChoices(picks[1..], |rest|);
      [card] + DrawFrom(rest, picks[1..])
  }

  /** Drawn cards come from the deck; from a deck without repeats, no card is drawn twice. */
  lemma DrawnDistinct<T>(available: seq<T>, picks: seq<int>)
    requires ValidChoices(picks, |available|) && Distinct(available)
    ensures Distinct(DrawFrom(available, picks))
    ensures forall x :: x in DrawFrom(available, picks) ==> x in available
  {
    var r := DrawFrom(available, picks);
    SubMultisetDistinct(r, available);
    forall x | x in r ensures x in available {
      assert x in multiset(r);
    }
  }

  /** Drawing the whole deck rearranges it: every card is drawn exactly once. */
  lemma FullDrawPermutes<T>(available: seq<T>, picks: seq<int>)
    requires ValidChoices(picks, |available|) && |picks| == |available|
    ensures multiset(DrawFrom(available, picks)) == multiset(available)
  {
    var r := DrawFrom(available, picks);
    assert |multiset(r)| == |multiset(available)|;
    SubMultisetEqual(multiset(r), multiset(available));
  }

  /** A sub-multiset of the same size is the whole multiset. */
  lemma SubMultisetEqual<T>(a: multiset<T>, b: multiset<T>)
    requires a <= b && |a| == |b|
    ensures a == b
  {
    var d := b - a;
    assert b == a + d;
    assert |d| == 0;
  }

  /** One entry of the reading: the position, the card, and whether it is upright. */
  datatype Entry = Entry(position: string, card: Card, upright: bool)

  /**
   `process_data(validated)` with the deck, the card choices and the
   `random.random()` values passed in: a card per position, upright when
   the value is above 0.33. A deck smaller than the spread leaves positions
   without a card, which is an IndexError.
   */
  function ProcessData(v: Validated, cards: seq<Card>, picks: seq<int>, xs: seq<real>): (r: Result<seq<Entry>>)
    requires ValidChoices(picks, |cards|) && |picks| == DrawCount(|Positions(v.spread)|, |cards|)
    requires |xs| == |Positions(v.spread)|
    ensures r.Ok? <==> |cards| >= |Positions(v.spread)|
    ensures r.Err? ==> r.error == IndexError
    ensures r.Ok? ==> |r.value| == |Positions(v.spread)|
    ensures r.Ok? ==> forall i :: 0 <= i < |r.value| ==>
              && r.value[i].position == Positions(v.spread)[i]
              && r.value[i].card == DrawFrom(cards, picks)[i]
              && (r.value[i].upright <==> xs[i] > 0.33)
  {
    var ps := Positions(v.spread);
    var drawn := DrawFrom(cards, picks);
    if |drawn| < |ps| then Err(IndexError)
    else Ok(Entries(ps, drawn, xs))
  }

  /** Positions, cards and orientations side by side. */
  function Entries(ps: seq<string>, drawn: seq<Card>, xs: seq<real>): (r: seq<Entry>)
    requires |drawn| >= |ps| && |xs| == |ps|
    ensures |r| == |ps|
    ensures forall i :: 0 <= i < |ps| ==> r[i] == Entry(ps[i], drawn[i], xs[i] > 0.33)
  {
    seq(|ps|, i requires 0 <= i < |ps| => Entry(ps[i], drawn[i], xs[i] > 0.33))
  }

  /** With the default deck every spread fits, and no card appears twice in a reading. */
  lemma DefaultDeckReading(v: Validated, picks: seq<int>, xs: seq<real>)
    requires ValidChoices(picks, 22) && |picks| == |Positions(v.spread)| && |xs| == |Positions(v.spread)|
    ensures ProcessData(v, DefaultCards(), picks, xs).Ok?
    ensures var r := ProcessData(v, DefaultCards(), picks, xs).value;
            forall i, j :: 0 <= i < j < |r| ==> r[i].card != r[j].card
  {
    DefaultCardsDistinct();
    DrawnDistinct(DefaultCards(), picks);
  }

  /** The default section title, 整体解读. */
  const DefaultSection: string := "整体解读"

  /** `format_result(reply)`: lines starting with "#" (the "##" test is a special case) open sections. */
  function FormatResult(reply: string): (r: Sections.Formatted)
    ensures r.fullText == reply
    ensures |r.sections| == 1 <==> r.sections == map[DefaultSection := Text.Strip(reply)]
  {
    Sections.Format(reply, DefaultSection, "#")
  }
}

=== FILE: tarot_server.dfy ===
/**
 The tarot card-drawing server: card indices from a deck shuffled three
 times, the 67/33 orientation draw, the entropy pool refreshed when more than
 five minutes old, and the bounded quality history.
 */
module TarotServer {
  import opened Wrappers
  import opened Seqs
  import opened Shuffle

  /** Seconds after which the entropy pool is replaced. */
  const RefreshInterval: real := 300.0
  /** The history is cut back to its newest `HistoryKeep` entries once it holds more than `HistoryLimit`. */
  const HistoryLimit: int := 1000
  const HistoryKeep: int := 500

  /** The server's state: when the pool was last refreshed, how many pools it has had, the quality-check times. */
  datatype Server = Server(lastRefresh: real, pools: nat, history: seq<real>)

  function NewServer(now: real): (s: Server)
    ensures s.history == [] && s.lastRefresh == now
  {
    Server(now, 1, [])
  }

  /** `_refresh_entropy_if_needed()`: a new pool when the last one is more than 300 seconds old. */
  function RefreshIfNeeded(s: Server, now: real): (r: Server)
    ensures now - s.lastRefresh > RefreshInterval ==> r == s.(lastRefresh := now, pools := s.pools + 1)
    ensures now - s.lastRefresh <= RefreshInterval ==> r == s
  {
    if now - s.lastRefresh > RefreshInterval then s.(lastRefresh := now, pools := s.pools + 1) else s
  }

  /** After a refresh, calls within the next five minutes keep the pool. */
  lemma RefreshSpacing(s: Server, now: real, later: real)
    requires now - s.lastRefresh > RefreshInterval && now <= later <= now + RefreshInterval
    ensures RefreshIfNeeded(RefreshIfNeeded(s, now), later) == RefreshIfNeeded(s, now)
  {
  }

  /** The three shuffles' draws, one set per pass. */
  datatype Passes = Passes(first: seq<int>, second: seq<int>, third: seq<int>)

  predicate ValidPasses(p: Passes, n: int)
  {
    ValidDraws(p.first, n) && ValidDraws(p.second, n) && ValidDraws(p.third, n)
  }

  /** `list(range(total))` after the three in-place shuffles. */
  function ShuffledDeck(total: int, p: Passes): (d: seq<int>)
    requires ValidPasses(p, |Range(total)|)
    ensures multiset(d) == multiset(Range(total))
  {
    var once := FisherYates(Range(total), p.first);
    ShufflePermutes(Range(total), p.first);
    var twice := FisherYates(once, p.second);
    ShufflePermutes(once, p.second);
    ShufflePermutes(twice, p.third);
    FisherYates(twice, p.third)
  }

  /** The `randrange(total)` draws of a non-unique request: one per card, each below `total`. */
  predicate ValidPicks(picks: seq<int>, drawCount: int, total: int)
  {
    && |picks| == (if drawCount > 0 then drawCount else 0)
    && (total > 0 ==> forall k :: 0 <= k < |picks| ==> 0 <= picks[k] < total)
  }

  /**
   `draw_random_cards(total_cards, draw_count, spread_type, ensure_unique)`:
   with `ensure_unique` the first `draw_count` of the shuffled deck (a Python
   slice, so a negative count drops cards from the end); without it one
   independent `randrange` per card, a ValueError when the range is empty.
   */
  function DrawRandomCards(s: Server, now: real, total: int, drawCount: int, unique: bool,
                           p: Passes, picks: seq<int>): (r: (Server, Result<seq<int>>))
    requires ValidPasses(p, |Range(total)|) && ValidPicks(picks, drawCount, total)
    ensures r.0 == RefreshIfNeeded(s, now)
    ensures unique ==> r.1 == Ok(SliceTo(ShuffledDeck(total, p), drawCount))
    ensures !unique ==> (r.1.Err? <==> drawCount > 0 && total <= 0)
    ensures !unique && r.1.Ok? ==> r.1.value == picks
    ensures r.1.Err? ==> r.1.error == ValueError
  {
    var s' := RefreshIfNeeded(s, now);
    var deck := ShuffledDeck(total, p);
    if unique then (s', Ok(SliceTo(deck, drawCount)))
    else if drawCount > 0 && total <= 0 then (s', Err(ValueError))
    else (s', Ok(picks))
  }

  /**
   A unique draw holds distinct indices below `total`, as many as asked for
   while the deck lasts.
   */
  lemma UniqueDrawDistinct(s: Server, now: real, total: int, drawCount: int, p: Passes, picks: seq<int>)
    requires ValidPasses(p, |Range(total)|) && ValidPicks(picks, drawCount, total)
    ensures var cards := DrawRandomCards(s, now, total, drawCount, true, p, picks).1.value;
            && Distinct(cards)
            && (forall k :: 0 <= k < |cards| ==> 0 <= cards[k] < total)
            && (0 <= drawCount <= total ==> |cards| == drawCount)
  {
    var deck := ShuffledDeck(total, p);
    RangePermutation(total, deck);
    var cards := SliceTo(deck, drawCount);
    DistinctPrefix(deck, |cards|);
    forall k | 0 <= k < |cards| ensures 0 <= cards[k] < total {
      assert cards[k] == deck[k] && deck[k] in deck;
    }
  }

  /** A non-unique draw stays below `total` but may repeat an index. */
  lemma RepeatsAllowed(s: Server, now: real)
    ensures var picks := [3, 3];
            ValidPicks(picks, 2, 78)
            && forall p: Passes :: ValidPasses(p, |Range(78)|) ==> DrawRandomCards(s, now, 78, 2, false, p, picks).1 == Ok([3, 3])
  {
  }

  datatype Orientation = Upright | Reversed

  /** `get_orientation()` with the pool's `random()` passed in: upright above 0.33, reversed otherwise. */
  function GetOrientation(s: Server, now: real, x: real): (r: (Server, Orientation))
    ensures r.0 == RefreshIfNeeded(s, now)
    ensures r.1 == Upright <==> x > 0.33
  {
    (RefreshIfNeeded(s, now), if x > 0.33 then Upright else Reversed)
  }

  /** `get_entropy_quality()`: record the time; past 1000 entries keep the newest 500. Returns the seconds since the last refresh. */
  function GetEntropyQuality(s: Server, now: real): (r: (real, Server))
    ensures r.0 == now - s.lastRefresh
    ensures r.1.lastRefresh == s.lastRefresh && r.1.pools == s.pools
    ensures |s.history| + 1 <= HistoryLimit ==> r.1.history == s.history + [now]
    ensures |s.history| + 1 > HistoryLimit ==> r.1.history == LastN(s.history + [now], HistoryKeep as nat)
  {
    var h := s.history + [now];
    (now - s.lastRefresh, s.(history := if |h| > HistoryLimit then LastN(h, HistoryKeep as nat) else h))
  }

  /**
   The history never holds more than 1000 entries, always ends with the
   newest check, and is a run of the newest checks.
   */
  lemma HistoryBounded(s: Server, now: real)
    requires |s.history| <= HistoryLimit
    ensures var h := GetEntropyQuality(s, now).1.history;
            && 1 <= |h| <= HistoryLimit
            && h[|h| - 1] == now
            && h == (s.history + [now])[|s.history| + 1 - |h|..]
            && (|s.history| == HistoryLimit ==> |h| == HistoryKeep)
            && (|s.history| < HistoryLimit ==> |h| == |s.history| + 1)
  {
  }

  /** Repeated quality checks from an empty history. */
  function Checks(s: Server, times: seq<real>): (r: Server)
    decreases |times|
  {
    if |times| == 0 then s else Checks(GetEntropyQuality(s, times[0]).1, times[1..])
  }

  /** However many checks run, the history stays within 1000 entries. */
  lemma {:induction false} ChecksBounded(s: Server, times: seq<real>)
    requires |s.history| <= HistoryLimit
    ensures |Checks(s, times).history| <= HistoryLimit
    decreases |times|
  {
    if |times| > 0 {
      HistoryBounded(s, times[0]);
      ChecksBounded(GetEntropyQuality(s, times[0]).1, times[1..]);
    }
  }
}

=== FILE: text.dfy ===
/**
 String helpers with the meaning of the Python built-ins the source uses:
 `str.split`, `str.strip`, `str.lower`, `str.startswith`, `in` on strings,
 `str.replace`, `int(str)` and the `{x:0Nd}` format specifier.
 */
module Text {
  import opened Wrappers

  predicate IsDigit(c: char) { '0' <= c <= '9' }

  predicate AllDigits(s: string)
  {
    forall i :: 0 <= i < |s| ==> IsDigit(s[i])
  }

  function DigitVal(c: char): (d: nat)
    requires IsDigit(c)
    ensures d < 10
  {
    (c as int) - ('0' as int)
  }

  function DigitChar(d: nat): (c: char)
    requires d < 10
    ensures IsDigit(c) && DigitVal(c) == d
  {
    (('0' as int) + d) as char
  }

  /** The value of a non-empty run of decimal digits, most significant first. */
  function DigitsValue(s: string): nat
    requires AllDigits(s)
  {
    if |s| == 0 then 0 else DigitsValue(s[..|s| - 1]) * 10 + DigitVal(s[|s| - 1])
  }

  /** Decimal rendering of a natural number without leading zeros. */
  function NatToDigits(n: nat): (r: string)
    ensures |r| >= 1 && AllDigits(r)
    ensures n < 10 <==> |r| == 1
  {
    if n < 10 then [DigitChar(n)] else NatToDigits(n / 10) + [DigitChar(n % 10)]
  }

  lemma {:induction false} NatToDigitsRoundTrip(n: nat)
    ensures DigitsValue(NatToDigits(n)) == n
  {
    if n >= 10 {
      NatToDigitsRoundTrip(n / 10);
      var r := NatToDigits(n);
      assert r[..|r| - 1] == NatToDigits(n / 10);
    }
  }

  lemma TwoDigitsValue(s: string)
    requires |s| == 2 && AllDigits(s)
    ensures DigitsValue(s) == 10 * DigitVal(s[0]) + DigitVal(s[1])
  {
    var p := s[..1];
    assert p[..0] == [] && p[0] == s[0];
    assert DigitsValue(p) == DigitVal(s[0]);
    assert s[..|s| - 1] == p;
  }

  function Repeat(c: char, k: nat): (r: string)
    ensures |r| == k
    ensures forall i :: 0 <= i < k ==> r[i] == c
  {
    if k == 0 then [] else [c] + Repeat(c, k - 1)
  }

  lemma {:induction false} LeadingZerosValue(k: nat, s: string)
    requires AllDigits(s)
    ensures AllDigits(Repeat('0', k) + s)
    ensures DigitsValue(Repeat('0', k) + s) == DigitsValue(s)
    decreases |s|
  {
    var z := Repeat('0', k);
    if |s| == 0 {
      assert z + s == z;
      ZerosValue(k);
    } else {
      LeadingZerosValue(k, s[..|s| - 1]);
      assert (z + s)[..|z + s| - 1] == z + s[..|s| - 1];
    }
  }

  lemma {:induction false} ZerosValue(k: nat)
    ensures AllDigits(Repeat('0', k)) && DigitsValue(Repeat('0', k)) == 0
  {
    if k > 0 {
      ZerosValue(k - 1);
      var z := Repeat('0', k);
      assert z[..k - 1] == Repeat('0', k - 1);
    }
  }

  /** Python's `f"{x:0{width}d}"`: sign first, zeros up to the full width. */
  function FormatInt(x: int, width: nat): (r: string)
    ensures x >= 0 ==> AllDigits(r) && |r| >= width
    ensures x < 0 ==> |r| >= 1 && r[0] == '-'
  {
    if x >= 0 then ZeroPad(NatToDigits(x), width)
    else "-" + ZeroPad(NatToDigits(-x), if width >= 1 then width - 1 else 0)
  }

  function ZeroPad(s: string, width: nat): (r: string)
    requires AllDigits(s)
    ensures AllDigits(r)
    ensures |r| == if |s| >= width then |s| else width
  {
    if |s| >= width then s else Repeat('0', width - |s|) + s
  }

  /** Leading zeros do not change the value of a digit string. */
  lemma ZeroPadValue(s: string, width: nat)
    requires AllDigits(s)
    ensures DigitsValue(ZeroPad(s, width)) == DigitsValue(s)
  {
    if |s| < width {
      LeadingZerosValue(width - |s|, s);
    }
  }

  /** Zero-padded rendering of a non-negative number reads back as that number. */
  lemma FormatIntRoundTrip(x: nat, width: nat)
    ensures AllDigits(FormatInt(x, width))
    ensures DigitsValue(FormatInt(x, width)) == x
  {
    NatToDigitsRoundTrip(x);
    ZeroPadValue(NatToDigits(x), width);
  }

  lemma {:induction false} NatToDigitsShort(n: nat, w: nat)
    requires n < Pow10(w)
    requires w >= 1
    ensures |NatToDigits(n)| <= w
  {
    if w > 1 && n >= 10 {
      NatToDigitsShort(n / 10, w - 1);
    }
  }

  function Pow10(k: nat): (p: nat)
    ensures p >= 1
  {
    if k == 0 then 1 else 10 * Pow10(k - 1)
  }

  /** A number below 10^width is rendered in exactly `width` characters. */
  lemma FormatIntWidth(x: nat, width: nat)
    requires width >= 1 && x < Pow10(width)
    ensures |FormatInt(x, width)| == width
  {
    NatToDigitsShort(x, width);
  }

  // ---------------------------------------------------------------- split

  /** Python `s.split(sep)` for a one-character separator. */
  function Split(s: string, sep: char): (parts: seq<string>)
    ensures |parts| >= 1
    ensures forall i :: 0 <= i < |parts| ==> sep !in parts[i]
    ensures Join(parts, sep) == s
    ensures sep !in s ==> parts == [s]
  {
    if |s| == 0 then [""]
    else
      var rest := Split(s[1..], sep);
      if s[0] == sep then
        assert s == [sep] + s[1..];
        [""] + rest
      else
        var r := [[s[0]] + rest[0]] + rest[1..];
        assert r[1..] == rest[1..];
        assert Join(r, sep) == s by {
          if |rest| == 1 {
            assert s == [s[0]] + s[1..];
          } else {
            assert s == [s[0]] + s[1..];
            assert Join(rest, sep) == rest[0] + [sep] + Join(rest[1..], sep);
          }
        }
        r
  }

  /** Python `sep.join(parts)`; the inverse of `Split`. */
  function Join(parts: seq<string>, sep: char): string
    requires |parts| >= 1
  {
    if |parts| == 1 then parts[0] else parts[0] + [sep] + Join(parts[1..], sep)
  }

  /** Joining parts whose first part is non-empty starts with that part's first character. */
  lemma JoinFirstChar(parts: seq<string>, sep: char)
    requires |parts| >= 1 && |parts[0]| > 0
    ensures Join(parts, sep) == [parts[0][0]] + Join([parts[0][1..]] + parts[1..], sep)
  {
    var p0 := parts[0];
    var parts' := [p0[1..]] + parts[1..];
    assert parts'[1..] == parts[1..];
    assert p0 == [p0[0]] + p0[1..];
  }

  /** Dropping the first character of the first part keeps every part separator-free. */
  lemma SepFreeAfterFirstChar(parts: seq<string>, sep: char)
    requires |parts| >= 1 && |parts[0]| > 0
    requires forall i :: 0 <= i < |parts| ==> sep !in parts[i]
    ensures forall i :: 0 <= i < |parts| ==> sep !in ([parts[0][1..]] + parts[1..])[i]
  {
    var p0 := parts[0];
    var parts' := [p0[1..]] + parts[1..];
    forall i | 0 <= i < |parts'| ensures sep !in parts'[i] {
      if i == 0 {
        assert forall k :: 0 <= k < |p0[1..]| ==> p0[1..][k] == p0[k + 1];
      } else {
        assert parts'[i] == parts[i];
      }
    }
  }

  /** Two separator-free fields joined by the separator split back into them. */
  lemma SplitTwo(a: string, b: string, sep: char)
    requires sep !in a && sep !in b
    ensures Split(a + [sep] + b, sep) == [a, b]
  {
    assert [a, b][1..] == [b];
    assert Join([a, b], sep) == a + [sep] + b;
    SplitJoin([a, b], sep);
  }

  /** Three separator-free fields joined by the separator split back into them. */
  lemma SplitThree(a: string, b: string, c: string, sep: char)
    requires sep !in a && sep !in b && sep !in c
    ensures Split(a + [sep] + b + [sep] + c, sep) == [a, b, c]
  {
    assert [b, c][1..] == [c];
    assert Join([b, c], sep) == b + [sep] + c;
    assert [a, b, c][1..] == [b, c];
    assert Join([a, b, c], sep) == a + [sep] + (b + [sep] + c);
    assert a + [sep] + b + [sep] + c == a + [sep] + (b + [sep] + c);
    SplitJoin([a, b, c], sep);
  }

  /** A leading separator closes an empty first part. */
  lemma SplitSepHead(s: string, sep: char)
    requires |s| > 0 && s[0] == sep
    ensures Split(s, sep) == [""] + Split(s[1..], sep)
  {
  }

  /** Any other leading character opens the first part. */
  lemma SplitCharHead(s: string, sep: char)
    requires |s| > 0 && s[0] != sep
    ensures Split(s, sep) == [[s[0]] + Split(s[1..], sep)[0]] + Split(s[1..], sep)[1..]
  {
  }

  /** Splitting a join of separator-free parts gives the parts back. */
  lemma {:induction false} SplitJoin(parts: seq<string>, sep: char)
    requires |parts| >= 1
    requires forall i :: 0 <= i < |parts| ==> sep !in parts[i]
    ensures Split(Join(parts, sep), sep) == parts
    decreases |parts|, |parts[0]|
  {
    var p0 := parts[0];
    var j := Join(parts, sep);
    if |p0| == 0 {
      if |parts| > 1 {
        SplitJoin(parts[1..], sep);
        assert j == [sep] + Join(parts[1..], sep);
        assert j[1..] == Join(parts[1..], sep);
        SplitSepHead(j, sep);
        assert parts == [""] + parts[1..];
      }
    } else {
      var parts' := [p0[1..]] + parts[1..];
      SepFreeAfterFirstChar(parts, sep);
      SplitJoin(parts', sep);
      JoinFirstChar(parts, sep);
      assert j[0] == p0[0] && j[0] != sep;
      assert j[1..] == Join(parts', sep);
      SplitCharHead(j, sep);
      assert parts == [[p0[0]] + parts'[0]] + parts'[1..] by {
        assert p0 == [p0[0]] + p0[1..];
      }
    }
  }

  // ---------------------------------------------------------------- strip

  /** The characters Python's `str.isspace` accepts (and `str.strip` removes). */
  predicate IsSpace(c: char)
  {
    || c == ' ' || ('\t' <= c <= '\r') || ('\U{1C}' <= c <= '\U{1F}') || c == '\U{85}'
    || c == '\U{A0}' || c == '\U{1680}' || ('\U{2000}' <= c <= '\U{200A}')
    || c == '\U{2028}' || c == '\U{2029}' || c == '\U{202F}' || c == '\U{205F}' || c == '\U{3000}'
  }

  predicate AllSpace(s: string)
  {
    forall i :: 0 <= i < |s| ==> IsSpace(s[i])
  }

  function TrimLeft(s: string): (r: string)
    ensures |r| <= |s| && r == s[|s| - |r|..]
    ensures AllSpace(s[..|s| - |r|])
    ensures |r| > 0 ==> !IsSpace(r[0])
  {
    if |s| > 0 && IsSpace(s[0]) then
      var r := TrimLeft(s[1..]);
      assert s[..|s| - |r|] == [s[0]] + s[1..][..|s[1..]| - |r|];
      r
    else s
  }

  function TrimRight(s: string): (r: string)
    ensures |r| <= |s| && r == s[..|r|]
    ensures AllSpace(s[|r|..])
    ensures |r| > 0 ==> !IsSpace(r[|r| - 1])
  {
    if |s| > 0 && IsSpace(s[|s| - 1]) then
      var r := TrimRight(s[..|s| - 1]);
      assert s[|r|..] == s[..|s| - 1][|r|..] + [s[|s| - 1]];
      r
    else s
  }

  /** Python `s.strip()`: `s` with its whitespace margins cut. */
  function Strip(s: string): (r: string)
    ensures |r| <= |s|
    ensures |r| > 0 ==> !IsSpace(r[0]) && !IsSpace(r[|r| - 1])
    ensures AllSpace(s) <==> r == ""
  {
    var r := TrimRight(TrimLeft(s));
    StripEmpty(s);
    r
  }

  lemma StripEmpty(s: string)
    ensures AllSpace(s) <==> TrimRight(TrimLeft(s)) == ""
  {
    var l := TrimLeft(s);
    var i := |s| - |l|;
    if TrimRight(l) == "" {
      assert l[0..] == l;
      assert |l| == 0;
      assert s[..i] == s;
    }
  }

  // ---------------------------------------------------------------- case and search

  function LowerChar(c: char): char
  {
    if 'A' <= c <= 'Z' then ((c as int) + 32) as char else c
  }

  /** Python `s.lower()` restricted to the ASCII letters. */
  function Lower(s: string): (r: string)
    ensures |r| == |s|
    ensures forall i :: 0 <= i < |s| ==> r[i] == LowerChar(s[i])
  {
    if |s| == 0 then "" else [LowerChar(s[0])] + Lower(s[1..])
  }

  predicate StartsWith(s: string, prefix: string)
  {
    |prefix| <= |s| && s[..|prefix|] == prefix
  }

  /** Python `sub in s` for strings. */
  predicate Contains(s: string, sub: string)
  {
    exists i :: 0 <= i <= |s| - |sub| && OccursAt(s, sub, i)
  }

  predicate OccursAt(s: string, sub: string, i: int)
  {
    0 <= i <= |s| - |sub| && s[i..i + |sub|] == sub
  }

  /** Python `s.replace(pat, rep)`: every non-overlapping occurrence, left to right. */
  function Replace(s: string, pat: string, rep: string): string
    requires |pat| > 0
    decreases |s|
  {
    if |s| == 0 then ""
    else if StartsWith(s, pat) then rep + Replace(s[|pat|..], pat, rep)
    else [s[0]] + Replace(s[1..], pat, rep)
  }

  /** Text that never starts an occurrence of `pat` passes through `Replace` unchanged. */
  lemma {:induction false} ReplaceSkipsPrefix(p: string, rest: string, pat: string, rep: string)
    requires |pat| > 0
    requires forall i :: 0 <= i < |p| ==> p[i] != pat[0]
    ensures Replace(p + rest, pat, rep) == p + Replace(rest, pat, rep)
    decreases |p|
  {
    if |p| > 0 {
      var s := p + rest;
      assert s[0] == p[0];
      assert Replace(s, pat, rep) == [s[0]] + Replace(s[1..], pat, rep);
      assert s[1..] == p[1..] + rest;
      ReplaceSkipsPrefix(p[1..], rest, pat, rep);
      assert p == [p[0]] + p[1..];
      calc {
        Replace(s, pat, rep);
        [s[0]] + Replace(s[1..], pat, rep);
        [p[0]] + Replace(p[1..] + rest, pat, rep);
        [p[0]] + (p[1..] + Replace(rest, pat, rep));
        ([p[0]] + p[1..]) + Replace(rest, pat, rep);
      }
    } else {
      assert p + rest == rest;
    }
  }

  /** Text that contains no occurrence of `pat` is left unchanged. */
  lemma {:induction false} ReplaceAbsent(s: string, pat: string, rep: string)
    requires |pat| > 0
    requires forall i :: 0 <= i < |s| ==> s[i] != pat[0]
    ensures Replace(s, pat, rep) == s
  {
    ReplaceSkipsPrefix(s, "", pat, rep);
    assert s + "" == s;
  }

  // ---------------------------------------------------------------- int()

  /**
   Python `int(s)` for base-10 text: surrounding whitespace, an optional
   sign, then digits where single underscores may separate digits.
   */
  function ParseInt(s: string): (r: Option<int>)
    ensures AllDigits(s) && |s| > 0 ==> r == Some(DigitsValue(s))
  {
    StripDigits(s);
    ParseSigned(Strip(s))
  }

  function ParseSigned(t: string): (r: Option<int>)
    ensures AllDigits(t) && |t| > 0 ==> r == Some(DigitsValue(t))
  {
    if |t| > 0 && (t[0] == '+' || t[0] == '-') then
      match ParseUnsigned(t[1..])
      case None => None
      case Some(n) =>
        var v: int := if t[0] == '-' then -(n as int) else n;
        Some(v)
    else
      ParseUnsigned(t)
  }

  /** Text that starts with a character that is neither whitespace, a sign nor a digit is not a number. */
  lemma ParseIntLetterStart(s: string)
    requires |s| > 0 && !IsSpace(s[0]) && !IsDigit(s[0]) && s[0] != '+' && s[0] != '-'
    ensures ParseInt(s) == None
  {
    var t := Strip(s);
    assert TrimLeft(s) == s;
    assert |t| > 0 ==> t[0] == s[0];
  }

  lemma StripDigits(s: string)
    ensures AllDigits(s) && |s| > 0 ==> Strip(s) == s
  {
    if AllDigits(s) && |s| > 0 {
      assert !IsSpace(s[0]) && !IsSpace(s[|s| - 1]);
    }
  }

  /** Digits with optional single underscores between them. */
  function ParseUnsigned(s: string): (r: Option<nat>)
    ensures AllDigits(s) && |s| > 0 ==> r == Some(DigitsValue(s))
  {
    if |s| == 0 || !IsDigit(s[0]) || !IsDigit(s[|s| - 1]) then None
    else if AllDigits(s) then Some(DigitsValue(s))
    else if UnderscoresSeparateDigits(s) then Some(DigitsValue(RemoveUnderscores(s)))
    else None
  }

  predicate UnderscoresSeparateDigits(s: string)
  {
    && (forall i :: 0 <= i < |s| ==> IsDigit(s[i]) || s[i] == '_')
    && (forall i :: 0 <= i < |s| && s[i] == '_' ==> 0 < i < |s| - 1 && IsDigit(s[i - 1]) && IsDigit(s[i + 1]))
  }

  function RemoveUnderscores(s: string): (r: string)
    requires forall i :: 0 <= i < |s| ==> IsDigit(s[i]) || s[i] == '_'
    ensures AllDigits(r)
  {
    if |s| == 0 then ""
    else if s[0] == '_' then RemoveUnderscores(s[1..])
    else [s[0]] + RemoveUnderscores(s[1..])
  }
}

=== FILE: tools.dfy ===
/**
 The tool base class (`initialize`/`shutdown`, `get_info`, `health_check`)
 and the date tool: its initialization guards, its stubs, and the
 hour-to-shichen table, which needs no initialization.
 */
module Tools {
  import opened Wrappers
  import opened Values

  datatype Tool = Tool(name: string, description: string, version: string, initialized: bool)

  /** `BaseTool.__init__`: version 1.0.0, empty description, not initialized. */
  function NewTool(name: string): (t: Tool)
    ensures t.name == name && t.description == "" && t.version == "1.0.0" && !t.initialized
  {
    Tool(name, "", "1.0.0", false)
  }

  /** Outcome of a lifecycle call: the tool afterwards and what it raised. */
  datatype ToolStep = ToolStep(tool: Tool, raised: Option<Exc>)

  /** `initialize`: the flag is set only after the tool's own setup returned. */
  function Initialize(t: Tool, setupFailure: Option<Exc>): (r: ToolStep)
    ensures r.raised == setupFailure
    ensures r.tool.initialized <==> setupFailure.None? || t.initialized
    ensures r.tool.name == t.name && r.tool.description == t.description && r.tool.version == t.version
  {
    if setupFailure.Some? then ToolStep(t, setupFailure) else ToolStep(t.(initialized := true), None)
  }

  /** `shutdown`: the flag is cleared only after the tool's own cleanup returned. */
  function Shutdown(t: Tool, cleanupFailure: Option<Exc>): (r: ToolStep)
    ensures r.raised == cleanupFailure
    ensures r.tool.initialized <==> cleanupFailure.Some? && t.initialized
    ensures r.tool.name == t.name && r.tool.description == t.description && r.tool.version == t.version
  {
    if cleanupFailure.Some? then ToolStep(t, cleanupFailure) else ToolStep(t.(initialized := false), None)
  }

  /** A successful setup followed by a successful cleanup restores the fresh flag. */
  lemma InitializeThenShutdown(t: Tool)
    ensures !Shutdown(Initialize(t, None).tool, None).tool.initialized
    ensures Shutdown(Initialize(t, None).tool, None).tool == t.(initialized := false)
  {
  }

  /** `get_info`. */
  function GetInfo(t: Tool): (p: Payload)
    ensures p.Keys == {"name", "description", "version", "initialized"}
    ensures p["name"] == Str(t.name) && p["description"] == Str(t.description)
    ensures p["version"] == Str(t.version) && p["initialized"] == Bool(t.initialized)
  {
    map["name" := Str(t.name), "description" := Str(t.description),
        "version" := Str(t.version), "initialized" := Bool(t.initialized)]
  }

  /** `health_check`. */
  function HealthCheck(t: Tool): (p: Payload)
    ensures "status" in p && "initialized" in p && "tool_name" in p
    ensures p["status"] == Str("healthy") <==> t.initialized
    ensures !t.initialized ==> p["status"] == Str("not_initialized")
    ensures p["initialized"] == Bool(t.initialized)
  {
    map["tool_name" := Str(t.name),
        "status" := Str(if t.initialized then "healthy" else "not_initialized"),
        "initialized" := Bool(t.initialized)]
  }

  // ---------------------------------------------------------------- date tool

  /** `DateTool()`: a tool named date_tool with its description. */
  function NewDateTool(): (t: Tool)
    ensures t.name == "date_tool" && !t.initialized
  {
    NewTool("date_tool").(description := "日期转换和计算工具")
  }

  datatype LunarStub = LunarStub(year: int, month: int, day: int, isLeapMonth: bool)

  /** `gregorian_to_lunar`: a RuntimeError before initialization; afterwards the stub echoes the date. */
  function GregorianToLunar(t: Tool, year: int, month: int, day: int): (r: Result<LunarStub>)
    ensures !t.initialized <==> r == Err(RuntimeError)
    ensures r.Ok? ==> r.value == LunarStub(year, month, day, false)
  {
    if !t.initialized then Err(RuntimeError) else Ok(LunarStub(year, month, day, false))
  }

  /**
   The four pillars (stem then branch), the element counts and the day
   master the `calculate_bazi` stub always reports.
   */
  datatype BaziStub = BaziStub(pillars: seq<string>, elements: map<string, int>, dayMaster: string)

  const BaziStubValue: BaziStub :=
    BaziStub(["甲子", "乙丑", "丙寅", "丁卯"],
             map["wood" := 2, "fire" := 1, "earth" := 1, "metal" := 0, "water" := 1], "丙火")

  /** `calculate_bazi`: a RuntimeError before initialization; afterwards the fixed stub, whatever the date. */
  function CalculateBazi(t: Tool, year: int, month: int, day: int, hour: int): (r: Result<BaziStub>)
    ensures !t.initialized <==> r == Err(RuntimeError)
    ensures r.Ok? ==> r.value == BaziStubValue
  {
    if !t.initialized then Err(RuntimeError) else Ok(BaziStubValue)
  }

  /** `get_solar_term`: a RuntimeError before initialization; afterwards never a solar term. */
  function GetSolarTerm(t: Tool, year: int, month: int, day: int): (r: Result<Option<string>>)
    ensures !t.initialized <==> r == Err(RuntimeError)
    ensures r.Ok? ==> r.value.None?
  {
    if !t.initialized then Err(RuntimeError) else Ok(None)
  }

  /** The twelve earthly branches in order, 子 first. */
  const Branches: seq<string> := ["子", "丑", "寅", "卯", "辰", "巳", "午", "未", "申", "酉", "戌", "亥"]

  /** The `(start, end)` keys of `shichen_map`, in insertion order; entry k belongs to branch k. */
  const ShichenRanges: seq<(int, int)> :=
    [(23, 1), (1, 3), (3, 5), (5, 7), (7, 9), (9, 11), (11, 13), (13, 15), (15, 17), (17, 19), (19, 21), (21, 23)]

  /** The loop over `shichen_map` from entry `k` on: the first entry whose range holds `hour`. */
  function ScanShichen(hour: int, k: nat): (i: nat)
    requires k <= |ShichenRanges|
    ensures i < |ShichenRanges|
    decreases |ShichenRanges| - k
  {
    if k == |ShichenRanges| then 0
    else
      var (start, end) := ShichenRanges[k];
      if start <= hour < end || (start == 23 && hour >= 23) then k else ScanShichen(hour, k + 1)
  }

  /** Reference binning: branch k covers the hours `[2k-1, 2k+1)`; hour 23 and every hour outside 1..22 belong to 子. */
  function ShichenOf(hour: int): (i: nat)
    ensures i < 12
  {
    if 1 <= hour <= 22 then (hour + 1) / 2 else 0
  }

  /** Entries before `k` have not matched: the scan from `k` agrees with the binning. */
  lemma {:induction false} ScanAgrees(hour: int, k: nat)
    requires 1 <= k <= |ShichenRanges|
    requires !(hour >= 23) && (1 <= hour <= 22 ==> (hour + 1) / 2 >= k)
    ensures ScanShichen(hour, k) == ShichenOf(hour)
    decreases |ShichenRanges| - k
  {
    if k < |ShichenRanges| {
      var (start, end) := ShichenRanges[k];
      assert start == 2 * k - 1 && end == 2 * k + 1;
      if !(start <= hour < end) {
        ScanAgrees(hour, k + 1);
      }
    }
  }

  /**
   `hour_to_shichen`: the index of the branch the loop over the table settles
   on, which is the closed-form bin of the hour (子 by default).
   */
  function HourToShichen(hour: int): (i: nat)
    ensures i < 12
    ensures i == ShichenOf(hour)
  {
    if hour < 23 then ScanAgrees(hour, 1); ScanShichen(hour, 0)
    else ScanShichen(hour, 0)
  }

  /** The branch character of `hour_to_shichen(hour)["earthly"]`. */
  function ShichenBranch(hour: int): (b: string)
    ensures b == Branches[ShichenOf(hour)]
  {
    Branches[HourToShichen(hour)]
  }
}

=== FILE: values.dfy ===
/**
 Dynamic values as the source passes them around in dicts (message payloads,
 configuration trees, validated inputs), with Python's truthiness and
 `dict.get`.
 */
module Values {
  import opened Wrappers

  datatype Value =
    | Null
    | Bool(b: bool)
    | Int(i: int)
    | Real(r: real)
    | Str(s: string)
    | List(items: seq<Value>)
    | Dict(fields: map<string, Value>)

  type Payload = map<string, Value>

  /** Python `bool(v)`. */
  predicate Truthy(v: Value)
  {
    match v
    case Null => false
    case Bool(b) => b
    case Int(i) => i != 0
    case Real(r) => r != 0.0
    case Str(s) => |s| > 0
    case List(items) => |items| > 0
    case Dict(fields) => |fields| > 0
  }

  /** Python `d.get(k)`: a missing key reads as None. */
  function GetOrNull(d: Payload, k: string): (v: Value)
    ensures k !in d ==> v == Null
    ensures k in d ==> v == d[k]
  {
    if k in d then d[k] else Null
  }

  /** Python `d.get(k, default)`. */
  function GetOr(d: Payload, k: string, default: Value): (v: Value)
    ensures k !in d ==> v == default
    ensures k in d ==> v == d[k]
  {
    if k in d then d[k] else default
  }

  /**
   Following a key path down nested dicts: the value at the end, or None when
   a key is missing or a step is not a dict.
   */
  function Walk(v: Value, parts: seq<string>): (r: Option<Value>)
    ensures |parts| == 0 ==> r == Some(v)
    ensures |parts| > 0 && !(v.Dict? && parts[0] in v.fields) ==> r.None?
    decreases |parts|
  {
    if |parts| == 0 then Some(v)
    else if v.Dict? && parts[0] in v.fields then Walk(v.fields[parts[0]], parts[1..])
    else None
  }

}

=== FILE: wrappers.dfy ===
/**
 Option and Result types shared by every module, plus the Python exception
 kinds the modelled code raises or catches.
 */
module Wrappers {

  datatype Option<T> = None | Some(value: T)
  {
    predicate IsSome() { Some? }

    function GetOr(default: T): T
    {
      match this
      case None => default
      case Some(v) => v
    }
  }

  /**
   The exception classes the source raises or distinguishes. `Derived` is a
   user or library subclass of `base` (for example ConnectionRefusedError of
   ConnectionError), so that exact-type lookups and `isinstance` differ.
   */
  datatype Exc =
    | ValueError
    | TypeError
    | KeyError
    | IndexError
    | TimeoutError
    | ConnectionError
    | RuntimeError
    | OverflowError
    | AttributeError
    | Other(name: string)
    | Derived(name: string, base: Exc)

  /** Python `isinstance(e, c)` for a built-in class `c`. */
  predicate IsInstance(e: Exc, c: Exc)
  {
    e == c || (e.Derived? && IsInstance(e.base, c))
  }

  /** Python `type(e).__name__`. */
  function TypeName(e: Exc): string
  {
    match e
    case ValueError => "ValueError"
    case TypeError => "TypeError"
    case KeyError => "KeyError"
    case IndexError => "IndexError"
    case TimeoutError => "TimeoutError"
    case ConnectionError => "ConnectionError"
    case RuntimeError => "RuntimeError"
    case OverflowError => "OverflowError"
    case AttributeError => "AttributeError"
    case Other(n) => n
    case Derived(n, _) => n
  }

  datatype Result<T> = Ok(value: T) | Err(error: Exc)
  {
    predicate IsOk() { Ok? }
  }
}

=== FILE: zodiac_agent.dfy ===
/**
 The zodiac agent: the payload check that asks for a missing birth date, the
 sign lookup it falls back on, and the data it hands to the reading when the
 converter tool succeeds or fails.
 */
module ZodiacAgent {
  import opened Wrappers
  import opened Calendar
  import opened Values
  import opened ZodiacSigns
  import ZodiacConverter

  /** The birth date as validation leaves it: parsed from text, or any other truthy value kept as it came. */
  datatype Birth = Parsed(date: Date) | PassedThrough(v: Value)

  datatype Validation =
    | NeedInput(name: Value)
    | BadDate
    | Valid(birth: Birth, name: Value, question: Value)

  /** The question used when the payload has none. */
  const DefaultQuestion: string := "请为我分析星座运势"

  /**
   `validate_input(message)`: a missing or falsy birth date asks for input;
   text must parse as YYYY-MM-DD; the name defaults to "" and the question to
   the default question.
   */
  function ValidateInput(payload: Payload): (r: Validation)
    ensures r.NeedInput? <==> !Truthy(GetOrNull(payload, "birth_date"))
    ensures r.BadDate? <==> Truthy(GetOrNull(payload, "birth_date")) && payload["birth_date"].Str?
                            && ParseDate(payload["birth_date"].s).Err?
    ensures r.Valid? && payload["birth_date"].Str? ==> r.birth == Parsed(ParseDate(payload["birth_date"].s).value)
    ensures r.Valid? && !payload["birth_date"].Str? ==> r.birth == PassedThrough(payload["birth_date"])
    ensures r.Valid? || r.NeedInput? ==> r.name == GetOr(payload, "name", Str(""))
    ensures r.Valid? ==> r.question == GetOr(payload, "question", Str(DefaultQuestion))
    ensures r.Valid? && r.birth.Parsed? ==> ValidDate(r.birth.date)
  {
    var b := GetOrNull(payload, "birth_date");
    var name := GetOr(payload, "name", Str(""));
    if !Truthy(b) then NeedInput(name)
    else if b.Str? then
      match ParseDate(b.s)
      case Err(_) => BadDate
      case Ok(d) => Valid(Parsed(d), name, GetOr(payload, "question", Str(DefaultQuestion)))
    else Valid(PassedThrough(b), name, GetOr(payload, "question", Str(DefaultQuestion)))
  }

  /** A well-formed date string is accepted and read back as the same date. */
  lemma ValidDateAccepted(payload: Payload, d: Date)
    requires ValidDate(d) && "birth_date" in payload && payload["birth_date"] == Str(IsoFormat(d))
    ensures ValidateInput(payload).Valid? && ValidateInput(payload).birth == Parsed(d)
  {
    ParseDateRoundTrip(d);
  }

  /** `_calculate_zodiac_sign(birth_date)`: the Aries-first scan with Aries as its fallback. */
  function CalculateSign(d: Date): (s: Sign)
    requires ValidDate(d)
    ensures s == SignOf(d.month, d.day)
  {
    ScansAgree(d.month, d.day);
    match FirstMatch(AriesFirst, false, d.month, d.day)
    case Some(s) => s
    case None => Aries
  }

  /** Every real date matches one entry and no other, so the Aries fallback is never used. */
  lemma ExactlyOneSign(d: Date)
    requires ValidDate(d)
    ensures exists i :: 0 <= i < 12 && Matches(AriesFirst[i], d.month, d.day)
    ensures forall i, j :: 0 <= i < j < 12 ==> !(Matches(AriesFirst[i], d.month, d.day) && Matches(AriesFirst[j], d.month, d.day))
  {
    TablesListEachSignOnce();
    AriesFirstPartitions(d.month, d.day);
    ScanFindsSign(AriesFirst, false, d.month, d.day);
    var s := SignOf(d.month, d.day);
    var i :| 0 <= i < 12 && AriesFirst[i].sign == s;
    assert Test(AriesFirst[i], false, d.month, d.day);
    assert Matches(AriesFirst[i], d.month, d.day);
    forall i, j | 0 <= i < j < 12
      ensures !(Matches(AriesFirst[i], d.month, d.day) && Matches(AriesFirst[j], d.month, d.day))
    {
      assert !(Test(AriesFirst[i], false, d.month, d.day) && Test(AriesFirst[j], false, d.month, d.day));
    }
  }

  /** What `process_data` hands on. */
  datatype Processed = Processed(sign: Sign, age: int, daysToBirthday: int, compatible: seq<Element>, fromTool: bool)

  /**
   `process_data(validated)` for a parsed date, with today and the converter
   tool's answer as parameters: the tool's sign and age when it succeeds,
   otherwise the agent's own lookup, the same age formula, zero days and no
   compatible elements.
   */
  function ProcessData(d: Date, today: Date, tool: Result<ZodiacConverter.Info>): (r: Processed)
    requires ValidDate(d)
    ensures r.fromTool <==> tool.Ok?
    ensures tool.Ok? ==> r.sign == tool.value.sign && r.age == tool.value.age && r.compatible == tool.value.compatible
    ensures tool.Err? ==> && r.sign == SignOf(d.month, d.day)
                          && r.age == ZodiacConverter.Age(today, d.year, d.month, d.day)
                          && r.daysToBirthday == 0 && r.compatible == []
  {
    match tool
    case Ok(info) => Processed(info.sign, info.age, info.daysToBirthday, info.compatible, true)
    case Err(_) => Processed(CalculateSign(d), ZodiacConverter.Age(today, d.year, d.month, d.day), 0, [], false)
  }

  /** The fallback gives the same sign and age as the tool would on the same date and day. */
  lemma FallbackAgrees(d: Date, today: Date)
    requires ValidDate(d) && ValidDate(today)
    ensures var viaTool := ProcessData(d, today, ZodiacConverter.CalculateZodiacInfo(d.year, d.month, d.day, today));
            var fallback := ProcessData(d, today, Err(ValueError));
            viaTool.sign == fallback.sign && viaTool.age == fallback.age
  {
  }
}

=== FILE: zodiac_converter.dfy ===
/**
 The zodiac converter tool: the sign of a (month, day) checked against the
 leap year 2000, the age and the days to the next birthday relative to a
 given today, and the compatible elements of the sign.
 */
module ZodiacConverter {
  import opened Wrappers
  import opened Calendar
  import opened ZodiacSigns

  /** `get_zodiac_sign(month, day)`: range checks, a calendar check in 2000, then the Aquarius-first scan. */
  function GetSign(month: int, day: int): (r: Result<Sign>)
    ensures r.Ok? <==> 1 <= month <= 12 && 1 <= day <= 31 && ValidDate(Date(2000, month, day))
    ensures r.Ok? ==> r.value == SignOf(month, day)
    ensures r.Err? ==> r.error == ValueError
  {
    if !(1 <= month <= 12) || !(1 <= day <= 31) || !ValidDate(Date(2000, month, day)) then Err(ValueError)
    else
      ScansAgree(month, day);
      match FirstMatch(AquariusFirst, false, month, day)
      case Some(s) => Ok(s)
      case None => Err(ValueError)
  }

  /** 2000 is a leap year, so every month and day of a real date passes the check, 29 February included. */
  lemma LeapYearCheck(year: int, month: int, day: int)
    requires ValidDate(Date(year, month, day))
    ensures GetSign(month, day) == Ok(SignOf(month, day))
  {
  }

  /** The tool accepts 29 February and rejects 30 February, 31 April and day 32. */
  lemma CalendarCheckExamples()
    ensures GetSign(2, 29) == Ok(Pisces)
    ensures GetSign(2, 30).Err? && GetSign(4, 31).Err? && GetSign(1, 32).Err? && GetSign(13, 1).Err?
  {
  }

  /** `today.year - year - ((today.month, today.day) < (month, day))`. */
  function Age(today: Date, year: int, month: int, day: int): (a: int)
    ensures a == today.year - year || a == today.year - year - 1
  {
    today.year - year - (if today.month < month || (today.month == month && today.day < day) then 1 else 0)
  }

  /**
   The age counts the anniversaries that have arrived: the `n`-th anniversary
   of the birthday is on or before today exactly when `n` is at most the age.
   */
  lemma AgeCountsAnniversaries(today: Date, year: int, month: int, day: int, n: int)
    ensures !Before(today, Date(year + n, month, day)) <==> n <= Age(today, year, month, day)
  {
  }

  /** `days_to_birthday`: a ValueError when the birthday does not exist in the year of the next occurrence. */
  function DaysToBirthday(today: Date, month: int, day: int): (r: Result<int>)
    requires ValidDate(today)
    ensures r.Err? <==> !ValidDate(Date(today.year, month, day))
                        || (Before(Date(today.year, month, day), today) && !ValidDate(Date(today.year + 1, month, day)))
    ensures r.Err? ==> r.error == ValueError
    ensures r.Ok? ==> r.value >= 0
    ensures r.Ok? ==> (r.value == 0 <==> month == today.month && day == today.day)
    ensures r.Ok? ==> var next := if Before(Date(today.year, month, day), today) then Date(today.year + 1, month, day) else Date(today.year, month, day);
                      ValidDate(next) && r.value == DaysBetween(next, today) && !Before(next, today)
  {
    if !ValidDate(Date(today.year, month, day)) then Err(ValueError)
    else
      var thisYear := Date(today.year, month, day);
      if Before(thisYear, today) then
        if !ValidDate(Date(today.year + 1, month, day)) then Err(ValueError)
        else
          var next := Date(today.year + 1, month, day);
          OrdinalMonotone(today, next);
          Ok(DaysBetween(next, today))
      else
        OrdinalMonotone(today, thisYear);
        Ok(DaysBetween(thisYear, today))
  }

  /** A 29 February birthday fails outside leap years, and also in a leap year once the day has passed. */
  lemma LeapDayBirthday(today: Date)
    requires ValidDate(today)
    ensures !IsLeap(today.year) ==> DaysToBirthday(today, 2, 29).Err?
    ensures IsLeap(today.year) && today.year < MaxYear && Before(Date(today.year, 2, 29), today) ==> DaysToBirthday(today, 2, 29).Err?
    ensures IsLeap(today.year) && !Before(Date(today.year, 2, 29), today) ==> DaysToBirthday(today, 2, 29).Ok?
  {
    if IsLeap(today.year) && today.year < MaxYear {
      assert !IsLeap(today.year + 1);
    }
  }

  /** `element_compatibility`: the sign's own element first, then its compatible one. */
  function CompatibleElements(e: Element): (r: seq<Element>)
    ensures |r| == 2 && r[0] == e && r[1] != e
    ensures r[1] == Fire <==> e == Air
    ensures r[1] == Earth <==> e == Water
  {
    match e
    case Fire => [Fire, Air]
    case Earth => [Earth, Water]
    case Air => [Air, Fire]
    case Water => [Water, Earth]
  }

  /** The list is symmetric: each element's partner lists it back. */
  lemma CompatiblePairs(e: Element)
    ensures CompatibleElements(CompatibleElements(e)[1])[1] == e
  {
  }

  datatype Info = Info(sign: Sign, age: int, daysToBirthday: int, compatible: seq<Element>)

  /** `calculate_zodiac_info(year, month, day)` with today as a parameter: any ValueError becomes `success: false`. */
  function CalculateZodiacInfo(year: int, month: int, day: int, today: Date): (r: Result<Info>)
    requires ValidDate(today)
    ensures r.Ok? <==> ValidDate(Date(year, month, day)) && DaysToBirthday(today, month, day).Ok?
    ensures r.Ok? ==> && r.value.sign == SignOf(month, day)
                      && r.value.age == Age(today, year, month, day)
                      && r.value.daysToBirthday == DaysToBirthday(today, month, day).value
                      && r.value.compatible == CompatibleElements(ElementOf(r.value.sign))
    ensures r.Err? ==> r.error == ValueError
  {
    if !ValidDate(Date(year, month, day)) then Err(ValueError)
    else
      LeapYearCheck(year, month, day);
      var sign := GetSign(month, day).value;
      match DaysToBirthday(today, month, day)
      case Err(e) => Err(e)
      case Ok(days) => Ok(Info(sign, Age(today, year, month, day), days, CompatibleElements(ElementOf(sign))))
  }
}

=== FILE: zodiac_plugin.dfy ===
/**
 The zodiac fortune system of the classic entry point: input validation, the
 sun sign from the Aries-first table, the simplified moon and rising signs,
 the compatibility table built from the element relations, the simplified
 transits that do not depend on Python's `hash`, and the sectioning of the
 model's reply.
 */
module ZodiacPlugin {
  import opened Wrappers
  import opened Calendar
  import opened ZodiacSigns
  import opened FormInput
  import Text
  import Sections

  /**
   The six entries of `valid_areas` as the source spells them. The source
   text is mis-encoded: each entry is the UTF-8 encoding of a Chinese focus
   area (love, career, health, wealth, relationships, overall) read back as
   Windows-1252 text, with the bytes that code page leaves undefined dropped.
   The Chinese words themselves are therefore not valid areas.
   */
  const Areas: seq<string> := [
    "\U{e7}\U{2c6}\U{b1}\U{e6}\U{192}\U{2026}",
    "\U{e4}\U{ba}\U{2039}\U{e4}\U{b8}\U{161}",
    "\U{e5}\U{a5}\U{e5}\U{ba}\U{b7}",
    "\U{e8}\U{b4}\U{a2}\U{e5}\U{af}\U{152}",
    "\U{e4}\U{ba}\U{ba}\U{e9}\U{2122}\U{2026}\U{e5}\U{2026}\U{b3}\U{e7}\U{b3}\U{bb}",
    DefaultArea]

  /** The focus used when none is given: the mis-encoded spelling of 整体运势 (overall). */
  const DefaultArea: string := "\U{e6}\U{2022}\U{b4}\U{e4}\U{bd}\U{201c}\U{e8}\U{bf}\U{e5}\U{160}\U{bf}"

  /** `validate_input`'s result. */
  datatype Validated = Validated(birthDate: Date, birthTime: Option<Time>, birthPlace: Option<string>, area: string)

  /**
   `validate_input(user_input)`: the birth date and time follow the shared
   rules; a truthy birth place is stripped (only text has `strip`, anything
   else is an AttributeError); a truthy focus area must be one of the six,
   and a missing or empty one becomes the overall area.
   */
  function ValidateInput(u: Form): (r: Result<Validated>)
    requires WellTyped(u)
    ensures BirthDate(u).Err? ==> r == Err(ValueError)
    ensures r.Ok? ==> && BirthDate(u) == Ok(r.value.birthDate) && ValidDate(r.value.birthDate)
                      && BirthTime(u) == Ok(r.value.birthTime)
                      && r.value.area in Areas
    ensures r.Ok? <==> BirthDate(u).Ok? && BirthTime(u).Ok? && Place(u).Ok? && Area(u).Ok?
    ensures r.Ok? ==> Place(u) == Ok(r.value.birthPlace) && Area(u) == Ok(r.value.area)
    ensures r.Err? ==> r.error == ValueError || r.error == AttributeError
  {
    match BirthDate(u)
    case Err(e) => Err(e)
    case Ok(d) =>
      match BirthTime(u)
      case Err(e) => Err(e)
      case Ok(t) =>
        match Place(u)
        case Err(e) => Err(e)
        case Ok(place) =>
          match Area(u)
          case Err(e) => Err(e)
          case Ok(area) => Ok(Validated(d, t, place, area))
  }

  /** The birth-place step: text is stripped, any other truthy value has no `strip`. */
  function Place(u: Form): (r: Result<Option<string>>)
    ensures !("birth_place" in u && Truthy(u["birth_place"])) ==> r == Ok(None)
    ensures "birth_place" in u && Truthy(u["birth_place"]) && u["birth_place"].Text? ==> r == Ok(Some(Text.Strip(u["birth_place"].s)))
    ensures "birth_place" in u && Truthy(u["birth_place"]) && !u["birth_place"].Text? ==> r == Err(AttributeError)
  {
    if !("birth_place" in u && Truthy(u["birth_place"])) then Ok(None)
    else match u["birth_place"]
      case Text(s) => Ok(Some(Text.Strip(s)))
      case _ => Err(AttributeError)
  }

  /** The focus-area step. */
  function Area(u: Form): (r: Result<string>)
    ensures r.Ok? ==> r.value in Areas
    ensures !("question_area" in u && Truthy(u["question_area"])) ==> r == Ok(DefaultArea)
    ensures "question_area" in u && Truthy(u["question_area"]) ==>
              (r.Ok? <==> u["question_area"].Text? && u["question_area"].s in Areas)
              && (r.Ok? ==> u["question_area"] == Text(r.value))
    ensures r.Err? ==> r.error == ValueError
  {
    if !("question_area" in u && Truthy(u["question_area"])) then Ok(DefaultArea)
    else match u["question_area"]
      case Text(s) => if s in Areas then Ok(s) else Err(ValueError)
      case _ => Err(ValueError)
  }

  /** A focus area written in Chinese, such as 爱情 (love), is refused with ValueError. */
  lemma ChineseAreaRefused(u: Form)
    requires "question_area" in u && u["question_area"] == Text("爱情")
    ensures Area(u) == Err(ValueError)
  {
    assert "爱情" !in Areas by {
      forall i | 0 <= i < |Areas|
        ensures Areas[i] != "爱情"
      {
        assert Areas[i][0] != '爱';
      }
    }
  }

  /** `_get_zodiac_sign(month, day)`: the scan of the Aries-first table, falling back to its first entry. */
  function SunSign(month: int, day: int): (s: Sign)
    ensures 1 <= month <= 12 ==> s == SignOf(month, day)
    ensures !(1 <= month <= 12) ==> s == Aries
  {
    ScansAgree(month, day);
    match FirstMatch(AriesFirst, false, month, day)
    case Some(s) => s
    case None => AriesFirst[0].sign
  }

  /** The fallback is never taken for a month 1..12: exactly one entry matches, whatever the day number. */
  lemma FallbackUnreachable(month: int, day: int)
    requires 1 <= month <= 12
    ensures FirstMatch(AriesFirst, false, month, day).Some?
    ensures forall i, j :: 0 <= i < j < 12 ==> !(Matches(AriesFirst[i], month, day) && Matches(AriesFirst[j], month, day))
  {
    TablesListEachSignOnce();
    AriesFirstPartitions(month, day);
    ScanFindsSign(AriesFirst, false, month, day);
  }

  /** `_get_simplified_moon_sign(birth_date)`: entry `(day_of_year // 30) % 12` of the table. */
  function MoonSign(d: Date): (s: Sign)
    requires ValidDate(d)
    ensures s == AriesFirst[(DayOfYear(d) / 30) % 12].sign
  {
    AriesFirst[(DayOfYear(d) / 30) % 12].sign
  }

  /** Each thirty-day block of the year has one moon sign; the last days of the year wrap back to Aries. */
  lemma MoonSignBlocks(d: Date)
    requires ValidDate(d)
    ensures DayOfYear(d) < 30 ==> MoonSign(d) == Aries
    ensures DayOfYear(d) >= 360 ==> MoonSign(d) == Aries
    ensures 30 <= DayOfYear(d) < 60 ==> MoonSign(d) == Taurus
  {
    var q := DayOfYear(d) / 30;
    assert 0 <= q <= 12;
    if q == 12 { assert q % 12 == 0; } else { assert q % 12 == q; }
  }

  /** `_get_simplified_rising_sign(birth_date, birth_time)`: entry `(hour // 2) % 12`. */
  function RisingSign(t: Time): (s: Sign)
    requires ValidTime(t)
    ensures s == AriesFirst[t.hour / 2].sign
  {
    AriesFirst[(t.hour / 2) % 12].sign
  }

  /** Every two-hour block of the day rises in a different sign, Aries at midnight. */
  lemma RisingSignsDistinct(a: Time, b: Time)
    requires ValidTime(a) && ValidTime(b)
    ensures RisingSign(a) == RisingSign(b) <==> a.hour / 2 == b.hour / 2
  {
    TablesListEachSignOnce();
  }

  /** The compatible element of `ELEMENTS`: fire with air, earth with water. */
  function CompatibleWith(e: Element): Element
  {
    match e
    case Fire => Air case Earth => Water case Air => Fire case Water => Earth
  }

  /** The incompatible element of `ELEMENTS`: fire against water, earth against air. */
  function IncompatibleWith(e: Element): Element
  {
    match e
    case Fire => Water case Earth => Air case Air => Earth case Water => Fire
  }

  /** Both relations are symmetric, and every element has a third, neutral one besides itself. */
  lemma ElementRelationsSymmetric(a: Element, b: Element)
    ensures CompatibleWith(a) == b <==> CompatibleWith(b) == a
    ensures IncompatibleWith(a) == b <==> IncompatibleWith(b) == a
    ensures a != CompatibleWith(a) && a != IncompatibleWith(a) && CompatibleWith(a) != IncompatibleWith(a)
  {
  }

  /** 自己, 非常好, 好, 需要努力, 一般. */
  datatype Compatibility = Self | VeryGood | Good | NeedsEffort | Neutral

  /** One entry of `_get_sign_compatibility`: the sign itself, the same element, the compatible one, the incompatible one, any other. */
  function Rate(sign: Sign, other: Sign): (c: Compatibility)
    ensures c == Self <==> other == sign
    ensures c == VeryGood <==> other != sign && ElementOf(other) == ElementOf(sign)
    ensures c == Good <==> ElementOf(other) == CompatibleWith(ElementOf(sign))
    ensures c == NeedsEffort <==> ElementOf(other) == IncompatibleWith(ElementOf(sign))
  {
    if other == sign then Self
    else if ElementOf(other) == ElementOf(sign) then VeryGood
    else if ElementOf(other) == CompatibleWith(ElementOf(sign)) then Good
    else if ElementOf(other) == IncompatibleWith(ElementOf(sign)) then NeedsEffort
    else Neutral
  }

  /** `_get_sign_compatibility(sign)`: one rating per entry of the table, in table order. */
  function CompatibilityOf(sign: Sign): (r: seq<(Sign, Compatibility)>)
    ensures |r| == 12
    ensures forall i :: 0 <= i < 12 ==> r[i] == (AriesFirst[i].sign, Rate(sign, AriesFirst[i].sign))
  {
    seq(12, k requires 0 <= k < 12 => (AriesFirst[k].sign, Rate(sign, AriesFirst[k].sign)))
  }

  /** The element neither equal, compatible nor incompatible: fire and earth, air and water. */
  function NeutralWith(e: Element): (n: Element)
    ensures n != e && n != CompatibleWith(e) && n != IncompatibleWith(e)
  {
    match e
    case Fire => Earth case Earth => Fire case Air => Water case Water => Air
  }

  /** How many of twelve flags are set. */
  function Count12(b: seq<bool>): nat
    requires |b| == 12
  {
    (if b[0] then 1 else 0) + (if b[1] then 1 else 0) + (if b[2] then 1 else 0) + (if b[3] then 1 else 0)
    + (if b[4] then 1 else 0) + (if b[5] then 1 else 0) + (if b[6] then 1 else 0) + (if b[7] then 1 else 0)
    + (if b[8] then 1 else 0) + (if b[9] then 1 else 0) + (if b[10] then 1 else 0) + (if b[11] then 1 else 0)
  }

  /** How many entries of `_get_sign_compatibility(sign)` carry the rating `c`. */
  function Rated(sign: Sign, c: Compatibility): nat
  {
    Count12(seq(12, k requires 0 <= k < 12 => Rate(sign, AriesFirst[k].sign) == c))
  }

  /** How many signs of the table have element `e`. */
  function OfElement(e: Element): nat
  {
    Count12(seq(12, k requires 0 <= k < 12 => ElementOf(AriesFirst[k].sign) == e))
  }

  /** Each element rules three signs. */
  lemma ThreePerElement(e: Element)
    ensures OfElement(e) == 3
  {
  }

  /** Flags that agree everywhere count the same. */
  lemma CountSame(a: seq<bool>, b: seq<bool>)
    requires |a| == 12 && |b| == 12
    requires forall k :: 0 <= k < 12 ==> (a[k] <==> b[k])
    ensures Count12(a) == Count12(b)
  {
    assert a == b;
  }

  /** Twelve flags of which only the `j`-th is set count one. */
  lemma CountOne(b: seq<bool>, j: int)
    requires |b| == 12 && 0 <= j < 12 && b[j]
    requires forall k :: 0 <= k < 12 && k != j ==> !b[k]
    ensures Count12(b) == 1
  {
    if j < 6 {
      assert j == 0 || j == 1 || j == 2 || j == 3 || j == 4 || j == 5;
    } else {
      assert j == 6 || j == 7 || j == 8 || j == 9 || j == 10 || j == 11;
    }
  }

  /** The entries rated `c`, for one of the three ratings that depend only on the element, are the signs of one element. */
  lemma RatedAsElement(sign: Sign, c: Compatibility, e: Element)
    requires c in {Good, NeedsEffort, Neutral}
    requires c == Good ==> e == CompatibleWith(ElementOf(sign))
    requires c == NeedsEffort ==> e == IncompatibleWith(ElementOf(sign))
    requires c == Neutral ==> e == NeutralWith(ElementOf(sign))
    ensures Rated(sign, c) == OfElement(e)
  {
    var a := seq(12, k requires 0 <= k < 12 => Rate(sign, AriesFirst[k].sign) == c);
    var b := seq(12, k requires 0 <= k < 12 => ElementOf(AriesFirst[k].sign) == e);
    forall k | 0 <= k < 12
      ensures a[k] <==> b[k]
    {
      var o := AriesFirst[k].sign;
      assert a[k] == (Rate(sign, o) == c) && b[k] == (ElementOf(o) == e);
    }
    CountSame(a, b);
  }

  /** The entries rated `c` are exactly the signs of one element, for the three ratings that depend only on the element. */
  lemma RatedByElement(sign: Sign)
    ensures Rated(sign, Good) == OfElement(CompatibleWith(ElementOf(sign)))
    ensures Rated(sign, NeedsEffort) == OfElement(IncompatibleWith(ElementOf(sign)))
    ensures Rated(sign, Neutral) == OfElement(NeutralWith(ElementOf(sign)))
  {
    RatedAsElement(sign, Good, CompatibleWith(ElementOf(sign)));
    RatedAsElement(sign, NeedsEffort, IncompatibleWith(ElementOf(sign)));
    RatedAsElement(sign, Neutral, NeutralWith(ElementOf(sign)));
  }

  /** The sign occurs once in the table. */
  lemma SelfOnce(sign: Sign)
    ensures Rated(sign, Self) == 1
  {
    TablesListEachSignOnce();
    assert Listed(AriesFirst, sign);
    var j :| 0 <= j < 12 && AriesFirst[j].sign == sign;
    var a := seq(12, k requires 0 <= k < 12 => Rate(sign, AriesFirst[k].sign) == Self);
    forall k | 0 <= k < 12 && k != j
      ensures !a[k]
    {
      assert AriesFirst[k].sign != AriesFirst[j].sign;
    }
    CountOne(a, j);
  }

  /** Counting flags that never overlap adds up. */
  lemma CountDisjoint(a: seq<bool>, b: seq<bool>, u: seq<bool>)
    requires |a| == 12 && |b| == 12 && |u| == 12
    requires forall k :: 0 <= k < 12 ==> (u[k] <==> a[k] || b[k]) && !(a[k] && b[k])
    ensures Count12(u) == Count12(a) + Count12(b)
  {
    assert (if u[0] then 1 else 0) == (if a[0] then 1 else 0) + (if b[0] then 1 else 0);
    assert (if u[1] then 1 else 0) == (if a[1] then 1 else 0) + (if b[1] then 1 else 0);
    assert (if u[2] then 1 else 0) == (if a[2] then 1 else 0) + (if b[2] then 1 else 0);
    assert (if u[3] then 1 else 0) == (if a[3] then 1 else 0) + (if b[3] then 1 else 0);
    assert (if u[4] then 1 else 0) == (if a[4] then 1 else 0) + (if b[4] then 1 else 0);
    assert (if u[5] then 1 else 0) == (if a[5] then 1 else 0) + (if b[5] then 1 else 0);
    assert (if u[6] then 1 else 0) == (if a[6] then 1 else 0) + (if b[6] then 1 else 0);
    assert (if u[7] then 1 else 0) == (if a[7] then 1 else 0) + (if b[7] then 1 else 0);
    assert (if u[8] then 1 else 0) == (if a[8] then 1 else 0) + (if b[8] then 1 else 0);
    assert (if u[9] then 1 else 0) == (if a[9] then 1 else 0) + (if b[9] then 1 else 0);
    assert (if u[10] then 1 else 0) == (if a[10] then 1 else 0) + (if b[10] then 1 else 0);
    assert (if u[11] then 1 else 0) == (if a[11] then 1 else 0) + (if b[11] then 1 else 0);
  }

  /** The sign and the two other signs of its element are its element group. */
  lemma VeryGoodTwice(sign: Sign)
    ensures Rated(sign, VeryGood) == 2
  {
    var a := seq(12, k requires 0 <= k < 12 => Rate(sign, AriesFirst[k].sign) == VeryGood);
    var b := seq(12, k requires 0 <= k < 12 => Rate(sign, AriesFirst[k].sign) == Self);
    var u := seq(12, k requires 0 <= k < 12 => ElementOf(AriesFirst[k].sign) == ElementOf(sign));
    forall k | 0 <= k < 12
      ensures (u[k] <==> a[k] || b[k]) && !(a[k] && b[k])
    {
      var o := AriesFirst[k].sign;
      assert a[k] == (Rate(sign, o) == VeryGood) && b[k] == (Rate(sign, o) == Self) && u[k] == (ElementOf(o) == ElementOf(sign));
    }
    CountDisjoint(a, b, u);
    SelfOnce(sign);
    ThreePerElement(ElementOf(sign));
  }

  /**
   Every sign has the same profile: itself once, the two other signs of its
   element very good, and three signs each good, needing effort, and neutral.
   */
  lemma CompatibilityProfile(sign: Sign)
    ensures Rated(sign, Self) == 1 && Rated(sign, VeryGood) == 2
    ensures Rated(sign, Good) == 3 && Rated(sign, NeedsEffort) == 3 && Rated(sign, Neutral) == 3
  {
    SelfOnce(sign);
    VeryGoodTwice(sign);
    RatedByElement(sign);
    ThreePerElement(CompatibleWith(ElementOf(sign)));
    ThreePerElement(IncompatibleWith(ElementOf(sign)));
    ThreePerElement(NeutralWith(ElementOf(sign)));
  }

  /** Two signs rate each other alike: the ratings are symmetric. */
  lemma RatingSymmetric(a: Sign, b: Sign)
    ensures Rate(a, b) == Rate(b, a)
  {
  }

  /** The scan `_get_current_transits` uses for the sun's sign: the non-wrapping test on every entry. */
  function TransitScan(table: seq<Range>, month: int, day: int): (r: Option<Sign>)
    decreases |table|
  {
    if |table| == 0 then None
    else if MatchesWith(table[0], false, month, day) then Some(table[0].sign)
    else TransitScan(table[1..], month, day)
  }

  /** Leaving out the wrap test changes nothing: the months strictly between a wrapping entry's ends are none. */
  lemma {:induction false} TransitScanAgrees(table: seq<Range>, month: int, day: int)
    ensures TransitScan(table, month, day) == FirstMatch(table, false, month, day)
    decreases |table|
  {
    if |table| > 0 {
      assert MatchesWith(table[0], false, month, day) == Matches(table[0], month, day);
      TransitScanAgrees(table[1..], month, day);
    }
  }

  /** The sun's transit entry: the sign of `today`, and whether it shares the reader's element (增强) or not (挑战). */
  function SunTransit(sign: Sign, today: Date): (r: (Sign, bool))
    requires ValidDate(today)
    ensures r.0 == SignOf(today.month, today.day)
    ensures r.1 <==> ElementOf(r.0) == ElementOf(sign)
  {
    TransitScanAgrees(AriesFirst, today.month, today.day);
    ScansAgree(today.month, today.day);
    var current := match TransitScan(AriesFirst, today.month, today.day)
      case Some(s) => s
      case None => Aries;
    (current, ElementOf(current) == ElementOf(sign))
  }

  /**
   `_get_transit_position` for the planets whose position does not use `hash`:
   the table entry `day_of_year // 60 + 3` for Mars, `// 365 + 7` for Jupiter
   and `// 730 + 10` for Saturn. Within one year the day of the year stays
   below 730, so Mars walks from Cancer to Capricorn in sixty-day blocks,
   Jupiter is in Scorpio except on days 365 and 366, and Saturn never leaves
   Aquarius.
   */
  function MarsPosition(d: Date): (s: Sign)
    requires ValidDate(d)
    ensures s == [Cancer, Leo, Virgo, Libra, Scorpio, Sagittarius, Capricorn][DayOfYear(d) / 60]
  {
    var q := DayOfYear(d) / 60;
    assert 0 <= q <= 6;
    assert (q + 3) % 12 == q + 3;
    AriesFirst[(DayOfYear(d) / 60 + 3) % 12].sign
  }

  function JupiterPosition(d: Date): (s: Sign)
    requires ValidDate(d)
    ensures s == (if DayOfYear(d) >= 365 then Sagittarius else Scorpio)
  {
    var q := DayOfYear(d) / 365;
    assert q == (if DayOfYear(d) >= 365 then 1 else 0);
    assert (q + 7) % 12 == q + 7;
    AriesFirst[(DayOfYear(d) / 365 + 7) % 12].sign
  }

  function SaturnPosition(d: Date): (s: Sign)
    requires ValidDate(d)
    ensures s == Aquarius
  {
    assert DayOfYear(d) / 730 == 0;
    AriesFirst[(DayOfYear(d) / 730 + 10) % 12].sign
  }

  /** What `process_data` computes, apart from the display strings and the `hash`-based transits. */
  datatype Reading = Reading(sun: Sign, element: Element, moon: Sign, rising: Option<Sign>,
                             compatibility: seq<(Sign, Compatibility)>, sunTransit: (Sign, bool), area: string)

  /** `process_data(validated)` with today's date as a parameter: a rising sign only with a birth time. */
  function ProcessData(v: Validated, today: Date): (r: Reading)
    requires ValidDate(v.birthDate) && ValidDate(today)
    requires v.birthTime.Some? ==> ValidTime(v.birthTime.value)
    ensures r.sun == SignOf(v.birthDate.month, v.birthDate.day) && r.element == ElementOf(r.sun)
    ensures r.moon == MoonSign(v.birthDate)
    ensures r.rising.Some? <==> v.birthTime.Some?
    ensures r.rising.Some? ==> r.rising.value == RisingSign(v.birthTime.value)
    ensures r.compatibility == CompatibilityOf(r.sun)
    ensures r.sunTransit.0 == SignOf(today.month, today.day)
    ensures r.area == v.area
  {
    var sun := SunSign(v.birthDate.month, v.birthDate.day);
    var rising := if v.birthTime.Some? then Some(RisingSign(v.birthTime.value)) else None;
    Reading(sun, ElementOf(sun), MoonSign(v.birthDate), rising, CompatibilityOf(sun), SunTransit(sun, today), v.area)
  }

  /** The default section title, 总体解读. */
  const DefaultSection: string := "总体解读"

  /** The source tests for "##" and then for "#"; both branches do the same, so the test is a single "#". */
  lemma HeaderTests(line: string)
    ensures (Text.StartsWith(Text.Strip(line), "##") || Text.StartsWith(Text.Strip(line), "#")) <==> Sections.IsHeader(line, "#")
  {
  }

  /** `format_result(reply)`. */
  function FormatResult(reply: string): (r: Sections.Formatted)
    ensures r.fullText == reply
    ensures |r.sections| == 1 <==> r.sections == map[DefaultSection := Text.Strip(reply)]
  {
    Sections.Format(reply, DefaultSection, "#")
  }
}

=== FILE: zodiac_signs.dfy ===
/**
 The western-zodiac date ranges, which four places in the source look up by
 scanning a table of (start month, start day, end month, end day) entries
 and returning the first entry that matches. Signs are keyed by their
 English names; the tables differ only in order and in how the
 December-January entry is recognised.
 */
module ZodiacSigns {
  import opened Wrappers

  datatype Sign = Aries | Taurus | Gemini | Cancer | Leo | Virgo
                | Libra | Scorpio | Sagittarius | Capricorn | Aquarius | Pisces

  datatype Element = Fire | Earth | Air | Water

  datatype Range = Range(sign: Sign, startMonth: int, startDay: int, endMonth: int, endDay: int)

  /** The order of the agent's and the zodiac plugin's tables, Aries first. */
  const AriesFirst: seq<Range> := [
    Range(Aries, 3, 21, 4, 19), Range(Taurus, 4, 20, 5, 20), Range(Gemini, 5, 21, 6, 20),
    Range(Cancer, 6, 21, 7, 22), Range(Leo, 7, 23, 8, 22), Range(Virgo, 8, 23, 9, 22),
    Range(Libra, 9, 23, 10, 22), Range(Scorpio, 10, 23, 11, 21), Range(Sagittarius, 11, 22, 12, 21),
    Range(Capricorn, 12, 22, 1, 19), Range(Aquarius, 1, 20, 2, 18), Range(Pisces, 2, 19, 3, 20)]

  /** The order of the date utilities' and the converter tool's tables, Aquarius first. */
  const AquariusFirst: seq<Range> := [
    Range(Aquarius, 1, 20, 2, 18), Range(Pisces, 2, 19, 3, 20), Range(Aries, 3, 21, 4, 19),
    Range(Taurus, 4, 20, 5, 20), Range(Gemini, 5, 21, 6, 20), Range(Cancer, 6, 21, 7, 22),
    Range(Leo, 7, 23, 8, 22), Range(Virgo, 8, 23, 9, 22), Range(Libra, 9, 23, 10, 22),
    Range(Scorpio, 10, 23, 11, 21), Range(Sagittarius, 11, 22, 12, 21), Range(Capricorn, 12, 22, 1, 19)]

  /**
   The test of one entry. An entry that wraps the year matches its start month
   from the start day on and its end month up to the end day; any other entry
   also matches the months strictly between. `wraps` is how the caller
   recognises the wrapping entry.
   */
  predicate MatchesWith(r: Range, wraps: bool, month: int, day: int)
  {
    if wraps then (month == r.startMonth && day >= r.startDay) || (month == r.endMonth && day <= r.endDay)
    else (month == r.startMonth && day >= r.startDay) || (month == r.endMonth && day <= r.endDay)
         || (r.startMonth < month < r.endMonth)
  }

  /** The agents', the plugin's and the converter's test: the entry wraps when its start month is after its end month. */
  predicate Matches(r: Range, month: int, day: int)
  {
    MatchesWith(r, r.startMonth > r.endMonth, month, day)
  }

  /** The date utilities' test: only a December-to-January entry wraps. */
  predicate MatchesDecJan(r: Range, month: int, day: int)
  {
    MatchesWith(r, r.startMonth == 12 && r.endMonth == 1, month, day)
  }

  /** The scan: the first entry that matches, None when none does. */
  function FirstMatch(table: seq<Range>, decJan: bool, month: int, day: int): (r: Option<Sign>)
    ensures r.Some? ==> exists i :: 0 <= i < |table| && table[i].sign == r.value
    ensures r.None? <==> forall i :: 0 <= i < |table| ==> !Test(table[i], decJan, month, day)
    decreases |table|
  {
    if |table| == 0 then None
    else if Test(table[0], decJan, month, day) then Some(table[0].sign)
    else
      var rest := FirstMatch(table[1..], decJan, month, day);
      assert forall i :: 1 <= i < |table| ==> table[i] == table[1..][i - 1];
      rest
  }

  predicate Test(r: Range, decJan: bool, month: int, day: int)
  {
    if decJan then MatchesDecJan(r, month, day) else Matches(r, month, day)
  }

  /** The day of each month, January first, from which the later sign applies. */
  const Cusps: seq<int> := [20, 19, 21, 20, 21, 21, 23, 23, 23, 23, 22, 22]

  /** The sign whose range starts in each month, January first. */
  const Starting: seq<Sign> := [Aquarius, Pisces, Aries, Taurus, Gemini, Cancer,
                                Leo, Virgo, Libra, Scorpio, Sagittarius, Capricorn]

  /**
   The sign of a month and day, stated directly: from the month's cusp day on
   it is the sign starting that month, before it the one starting the month
   before. Any day number is accepted, as the source's comparisons do.
   */
  function SignOf(month: int, day: int): (s: Sign)
    requires 1 <= month <= 12
  {
    if day >= Cusps[month - 1] then Starting[month - 1] else Starting[if month == 1 then 11 else month - 2]
  }

  /** The month index after `k`, wrapping from December (11) to January (0). */
  function Follow(k: int): int
  {
    if k == 11 then 0 else k + 1
  }

  /** At one date: entry `i` matches iff it is the date's sign; outside months 1..12 no entry matches. */
  ghost predicate PartitionsAt(table: seq<Range>, decJan: bool, month: int, day: int)
  {
    forall i :: 0 <= i < |table| ==>
      (Test(table[i], decJan, month, day) <==> 1 <= month <= 12 && table[i].sign == SignOf(month, day))
  }

  /** The position of each sign in `Starting`. */
  function StartIndex(s: Sign): (k: int)
    ensures 0 <= k < 12 && Starting[k] == s
  {
    match s
    case Aquarius => 0 case Pisces => 1 case Aries => 2 case Taurus => 3
    case Gemini => 4 case Cancer => 5 case Leo => 6 case Virgo => 7
    case Libra => 8 case Scorpio => 9 case Sagittarius => 10 case Capricorn => 11
  }

  lemma StartIndexOf(i: int)
    requires 0 <= i < 12
    ensures StartIndex(Starting[i]) == i
  {
    if i < 6 {
      if i < 3 { assert i == 0 || i == 1 || i == 2; } else { assert i == 3 || i == 4 || i == 5; }
    } else {
      if i < 9 { assert i == 6 || i == 7 || i == 8; } else { assert i == 9 || i == 10 || i == 11; }
    }
  }

  /** `Starting` lists each sign once. */
  lemma StartingDistinct(i: int, j: int)
    requires 0 <= i < 12 && 0 <= j < 12
    ensures Starting[i] == Starting[j] <==> i == j
  {
    StartIndexOf(i);
    StartIndexOf(j);
  }

  /** Entry `k` of the Aquarius-first table runs from month `k + 1` on its cusp to the day before the next month's cusp. */
  lemma AquariusFirstEntry(k: int)
    requires 0 <= k < 12
    ensures AquariusFirst[k] == Range(Starting[k], k + 1, Cusps[k], Follow(k) + 1, Cusps[Follow(k)] - 1)
  {
  }

  /** The Aries-first table is the Aquarius-first one rotated by two. */
  lemma AriesFirstRotated(i: int)
    requires 0 <= i < 12
    ensures AriesFirst[i] == AquariusFirst[if i < 10 then i + 2 else i - 10]
  {
  }

  /** Entry `k` matches exactly from its cusp in its own month to the day before the next month's cusp, whichever wrap test is used. */
  lemma EntryTest(k: int, decJan: bool, month: int, day: int)
    requires 0 <= k < 12
    ensures Test(AquariusFirst[k], decJan, month, day) <==>
              (month == k + 1 && day >= Cusps[k]) || (month == Follow(k) + 1 && day < Cusps[Follow(k)])
  {
    AquariusFirstEntry(k);
  }

  /** The date's sign is the sign starting in month `k + 1` exactly on the same days. */
  lemma SignIs(k: int, month: int, day: int)
    requires 0 <= k < 12 && 1 <= month <= 12
    ensures SignOf(month, day) == Starting[k] <==>
              (month == k + 1 && day >= Cusps[k]) || (month == Follow(k) + 1 && day < Cusps[Follow(k)])
  {
    if day >= Cusps[month - 1] {
      StartingDistinct(month - 1, k);
    } else {
      StartingDistinct(if month == 1 then 11 else month - 2, k);
    }
  }

  lemma AquariusFirstPartitionsWith(decJan: bool, month: int, day: int)
    ensures PartitionsAt(AquariusFirst, decJan, month, day)
  {
    forall i | 0 <= i < |AquariusFirst|
      ensures Test(AquariusFirst[i], decJan, month, day) <==> 1 <= month <= 12 && AquariusFirst[i].sign == SignOf(month, day)
    {
      EntryTest(i, decJan, month, day);
      AquariusFirstEntry(i);
      if 1 <= month <= 12 {
        SignIs(i, month, day);
      }
    }
  }

  lemma AriesFirstPartitions(month: int, day: int)
    ensures PartitionsAt(AriesFirst, false, month, day)
  {
    AquariusFirstPartitionsWith(false, month, day);
    forall i | 0 <= i < |AriesFirst|
      ensures Test(AriesFirst[i], false, month, day) <==> 1 <= month <= 12 && AriesFirst[i].sign == SignOf(month, day)
    {
      AriesFirstRotated(i);
    }
  }

  lemma AquariusFirstPartitions(month: int, day: int)
    ensures PartitionsAt(AquariusFirst, true, month, day) && PartitionsAt(AquariusFirst, false, month, day)
  {
    AquariusFirstPartitionsWith(true, month, day);
    AquariusFirstPartitionsWith(false, month, day);
  }

  ghost predicate Listed(table: seq<Range>, s: Sign)
  {
    exists i :: 0 <= i < |table| && table[i].sign == s
  }

  /** A table of twelve entries that lists each sign exactly once. */
  ghost predicate EachSignOnce(table: seq<Range>)
  {
    && |table| == 12
    && (forall i, j :: 0 <= i < j < 12 ==> table[i].sign != table[j].sign)
    && (forall s: Sign :: Listed(table, s))
  }

  lemma TablesListEachSignOnce()
    ensures EachSignOnce(AriesFirst) && EachSignOnce(AquariusFirst)
  {
    forall i, j | 0 <= i < j < 12
      ensures AquariusFirst[i].sign != AquariusFirst[j].sign && AriesFirst[i].sign != AriesFirst[j].sign
    {
      var i', j' := if i < 10 then i + 2 else i - 10, if j < 10 then j + 2 else j - 10;
      AquariusFirstEntry(i); AquariusFirstEntry(j); AquariusFirstEntry(i'); AquariusFirstEntry(j');
      AriesFirstRotated(i); AriesFirstRotated(j);
      StartingDistinct(i, j);
      StartingDistinct(i', j');
    }
    forall s: Sign ensures Listed(AquariusFirst, s) && Listed(AriesFirst, s) {
      var k := StartIndex(s);
      AquariusFirstEntry(k);
      var k' := if k >= 2 then k - 2 else k + 10;
      AriesFirstRotated(k');
      assert AriesFirst[k'].sign == s;
    }
  }

  /**
   For a table that partitions the date and lists each sign once, exactly one
   entry matches a date in months 1..12 (whatever the day), the scan returns
   the date's sign, and it finds nothing in any other month.
   */
  lemma ScanFindsSign(table: seq<Range>, decJan: bool, month: int, day: int)
    requires PartitionsAt(table, decJan, month, day) && EachSignOnce(table)
    ensures 1 <= month <= 12 ==> FirstMatch(table, decJan, month, day) == Some(SignOf(month, day))
    ensures 1 <= month <= 12 ==> forall i, j :: 0 <= i < j < 12 ==>
              !(Test(table[i], decJan, month, day) && Test(table[j], decJan, month, day))
    ensures !(1 <= month <= 12) <==> FirstMatch(table, decJan, month, day).None?
  {
    if 1 <= month <= 12 {
      var s := SignOf(month, day);
      assert Listed(table, s);
      var k :| 0 <= k < 12 && table[k].sign == s;
      ScanFirst(table, decJan, month, day, k);
    }
  }

  /** The four lookups' tables and tests all find the same sign, the sign of the date. */
  lemma ScansAgree(month: int, day: int)
    ensures FirstMatch(AriesFirst, false, month, day) == FirstMatch(AquariusFirst, true, month, day)
    ensures FirstMatch(AquariusFirst, false, month, day) == FirstMatch(AquariusFirst, true, month, day)
    ensures 1 <= month <= 12 ==> FirstMatch(AriesFirst, false, month, day) == Some(SignOf(month, day))
    ensures !(1 <= month <= 12) ==> FirstMatch(AriesFirst, false, month, day).None?
  {
    TablesListEachSignOnce();
    AriesFirstPartitions(month, day);
    AquariusFirstPartitions(month, day);
    ScanFindsSign(AriesFirst, false, month, day);
    ScanFindsSign(AquariusFirst, true, month, day);
    ScanFindsSign(AquariusFirst, false, month, day);
  }

  /** When entry `k` is the only one that can match, the scan returns its sign. */
  lemma {:induction false} ScanFirst(table: seq<Range>, decJan: bool, month: int, day: int, k: nat)
    requires k < |table| && Test(table[k], decJan, month, day)
    requires forall i :: 0 <= i < k ==> !Test(table[i], decJan, month, day)
    ensures FirstMatch(table, decJan, month, day) == Some(table[k].sign)
    decreases k
  {
    if k > 0 {
      var rest := table[1..];
      assert forall i :: 0 <= i < k - 1 ==> rest[i] == table[i + 1];
      ScanFirst(rest, decJan, month, day, k - 1);
    }
  }

  /** The element of each sign: fire, earth, air and water in turn from Aries. */
  function ElementOf(s: Sign): (e: Element)
  {
    match s
    case Aries => Fire case Leo => Fire case Sagittarius => Fire
    case Taurus => Earth case Virgo => Earth case Capricorn => Earth
    case Gemini => Air case Libra => Air case Aquarius => Air
    case Cancer => Water case Scorpio => Water case Pisces => Water
  }
}
